=== FILE: README.md ===
# A verified model of the factory library's core

The library builds test fixtures. A *factory* has three hooks:

- `Prepare` turns a seed and an optional override into properties.
- `Instantiate` turns properties into a value.
- `Retrieve` turns a value back into properties.

A *builder* draws fresh random seeds for a factory, and remembers the seeds it has issued in a hash set. An *override* is a map or struct literal. It edits the properties by field name through reflection.

Underneath sit four pieces:

- the hash set, a hash array mapped trie (HAMT) keyed by a 64-bit hash;
- the trie's 64-bit bitmap;
- a reflective FNV-1a hash of arbitrary values;
- a 32-bit scrambler that turns a seed into string characters.

This project restates all of these in Dafny and proves their properties.

Modelling conventions:

- Every Go panic is an `Outcome.Panic` carrying the message, never a precondition.
- Every Go integer width is explicit. `Int64` wraps modulo 2^64 (`GoInt.WrapInt64`). Go's truncating `%` is `GoInt.Rem`. `uint32` casts are `GoInt.Uint32Of`.
- Randomness is a finite sequence of draws. Reflection is a record of oracle functions.

Files, one module each:

| file | module | models |
|---|---|---|
| wrappers.dfy | Wrappers | `Option`, and `Outcome` (a value or a panic) |
| bits.dfy | Bits | 64-bit words as bounded naturals, with digit-wise `Or`, `And`, `AndNot`, `Shr` and population counts |
| bitmap.dfy | Bitmap | internal/hamt/bitmap.go |
| hamt.dfy | Hamt | the trie nodes and their `Get`, `Set`, `Remove` and `ToSlice`, from leaf_node.go, collision_node.go and bitmap_indexed_node.go |
| hamt_leaf.dfy | HamtLeaf | a leaf splitting into a branch |
| hamt_branch.dfy | HamtBranch | branch steps, well-formedness, and removal agreeing with lookup |
| hamt_routed.dfy | HamtRouted | the routing invariant (each entry sits in the slot its hash selects) and what `Set` and `Remove` do to the stored entries |
| hamt_corrected.dfy | HamtCorrected | the level discrepancy of the branch's `Set`, and the insert with the level corrected |
| hash.dfy | Hashing | internal/hamt/hash.go |
| scramble.dfy | Scramble | internal/math/math.go |
| go_int.dfy | GoInt | Go's `int64`, `uint32` and `%` |
| sets.dfy | Sets | internal/collections/set.go |
| factories.dfy | Factories | factory/factory.go and factory/builder_internal.go |
| string_factory.dfy | StringFactory | factory/string_factory.go |
| enum_factory.dfy | EnumFactory | factory/enum_factory.go |
| map_factory.dfy | MapFactory | factory/map_factory.go |
| override_names.dfy | OverrideNames | the name handling of factory/overrider.go |
| overrider.dfy | Overrider | the rest of factory/overrider.go |
| builder.dfy | Builder | factory/builder.go |
| seed_collision.dfy | SeedCollision | factory/builder.go, internal/hamt/hash.go |

The hash set is modelled as the source writes it: `Sets.Set` and `Sets.FromSlice` call the trie's `Set` as written. The corrected insert is kept next to it under its own names, `Sets.IntendedSet` and `Sets.IntendedFromSlice`. The two agree whenever items of different hashes fall in different level-0 slots (`Sets.DistinctSlots`). The set-level properties are proved under that hypothesis, and for the intended insert unconditionally. The enum factory and the builder use the set as written and inherit the same hypothesis. See "## Findings".

## Model

| member | source | states |
|---|---|---|
| Bitmap.BandMask | internal/hamt/bitmap.go:23-25 | the band mask is 63: exactly the six low digits are set |
| Bitmap.Band | internal/hamt/bitmap.go:34-37 | the slot at a level is below 64, and its digits are the six digits of the hash starting at six times the level |
| Bitmap.BandArithmetic | internal/hamt/bitmap.go:34-37 | the slot equals the hash divided by 2^(6 times level), modulo 64 |
| Bitmap.Position | internal/hamt/bitmap.go:27-40 | panics exactly when the level is outside 0..10; otherwise the position has the single digit of the hash's slot |
| Bitmap.SamePosition | internal/hamt/bitmap.go:27-40 | two hashes get the same position at a level exactly when their slots there are equal |
| Bitmap.BandsDetermineWord | internal/hamt/bitmap.go:9 | two hashes whose slots agree at all eleven levels are equal, so the maximum depth of 10 separates any two distinct hashes |
| Bitmap.Next | internal/hamt/bitmap.go:42-44 | digit j of the result is set exactly when it is set in the bitmap or in the position |
| Bitmap.Without | internal/hamt/bitmap.go:46-48 | digit j of the result is set exactly when it is set in the bitmap and not in the position |
| Bitmap.HasShared | internal/hamt/bitmap.go:50-52 | `Has` holds exactly when the bitmap and the position share a set digit |
| Bitmap.HasSlot | internal/hamt/bitmap.go:50-52 | the bitmap has the position of slot k exactly when its digit k is set |
| Bitmap.HasNextWithout | internal/hamt/bitmap.go:42-52 | after `Next` the bitmap has the position; after `Without` it does not |
| Bitmap.HasOtherSlot | internal/hamt/bitmap.go:42-52 | adding or removing slot k leaves every other slot's membership unchanged |
| Bitmap.NextOfFreeSlot | internal/hamt/bitmap.go:42-44 | adding a free slot adds its power of two |
| Bitmap.WithoutOfOccupiedSlot | internal/hamt/bitmap.go:46-48 | removing an occupied slot subtracts its power of two |
| Bitmap.OneSlot | internal/hamt/bitmap.go:15-17 | the empty bitmap plus one position has one slot, held at index 0 |
| Bitmap.TwoSlots | internal/hamt/bitmap.go:54-64 | a two-slot bitmap holds both slots, at indices 0 and 1 in ascending slot order |
| Bitmap.MsbMask | internal/hamt/bitmap.go:66-80 | the mask of 0 is all ones; otherwise it is the digits strictly below the highest set digit |
| Bitmap.SmearBits | internal/hamt/bitmap.go:71-77 | one shift-or step sets digit j exactly when digit j or digit j+s was set |
| Bitmap.SmearStep | internal/hamt/bitmap.go:71-77 | each shift-or step doubles the run of ones below the highest digit, so six steps fill it |
| Bitmap.SmearedMask | internal/hamt/bitmap.go:79 | shifting the filled run right by one leaves exactly the digits below the highest |
| Bitmap.MsbMaskOfNonZero | internal/hamt/bitmap.go:57-59 | the mask is all ones exactly for the zero position, so `Index` reports not-ok only for 0 |
| Bitmap.Index | internal/hamt/bitmap.go:54-64 | ok exactly for a non-zero position; the count is the number of set bitmap digits below the position's highest digit |
| Bitmap.CountBelowMask | internal/hamt/bitmap.go:61-63 | counting the ones of the bitmap masked below m gives the number of set digits below m |
| Bitmap.IndexOfSlot | internal/hamt/bitmap.go:54-64 | the index of slot k is the number of occupied slots below k |
| Bitmap.IndexInRange | internal/hamt/bitmap.go:54-64 | the index of an occupied slot is below the number of occupied slots, so it is a valid child index |
| Bitmap.PopcountBelowNext | internal/hamt/bitmap.go:42-44 | adding free slot k raises the count below n by one exactly when k is below n |
| Bitmap.PopcountBelowWithout | internal/hamt/bitmap.go:46-48 | removing occupied slot k lowers the count below n by one exactly when k is below n |
| Bitmap.MsbMaskExamples | internal/hamt/bitmap.go:66-80 | the masks of 0, 8 and 10 are all ones, 7 and 7 |
| Bitmap.NextExample | internal/hamt/bitmap.go:42-44 | adding positions 4, 32 and 1024 to the empty bitmap gives 1060 |
| Bitmap.IndexExamples | internal/hamt/bitmap.go:54-64 | in bitmap 1060 the positions 4, 32 and 1024 have indices 0, 1 and 2, and position 0 is not ok |
| Bitmap.SplitMix64 | internal/hamt/bitmap.go:82-96 | the mixer has an explicit inverse: unmixing its result gives the input back |
| Bitmap.SplitMix64Injective | internal/hamt/bitmap.go:82-96 | distinct inputs give distinct outputs |
| Bitmap.UnXorShift30Inverts | internal/hamt/bitmap.go:84 | the xor-shift by 30 is undone by xoring the shifts by 30 and 60 |
| Bitmap.UnXorShift27Inverts | internal/hamt/bitmap.go:88 | the xor-shift by 27 is undone by xoring the shifts by 27 and 54 |
| Bitmap.UnXorShift31Inverts | internal/hamt/bitmap.go:92 | the xor-shift by 31 is undone by xoring the shifts by 31 and 62 |
| Bitmap.UnMulMix1Inverts | internal/hamt/bitmap.go:85 | multiplying by the first odd constant is undone by its inverse modulo 2^64 |
| Bitmap.UnMulMix2Inverts | internal/hamt/bitmap.go:89 | multiplying by the second odd constant is undone by its inverse modulo 2^64 |
| Bits.OrBits | internal/hamt/bitmap.go:43 | a digit of the bitwise or is set exactly when it is set in either operand |
| Bits.AndNotBits | internal/hamt/bitmap.go:47 | a digit of and-not is set exactly when it is set in the first operand and clear in the second |
| Bits.AndBits | internal/hamt/bitmap.go:51 | a digit of the bitwise and is set exactly when it is set in both operands |
| Bits.ShrBits | internal/hamt/bitmap.go:36 | digit j of a right shift by s is digit j+s of the operand |
| Bits.ShrIsDiv | internal/hamt/bitmap.go:36 | a right shift by s is division by 2^s |
| Bits.AndLowIsMod | internal/hamt/bitmap.go:37 | masking with 2^k-1 is the remainder modulo 2^k |
| Bits.Msb | internal/hamt/bitmap.go:66-80 | the highest digit of a non-zero word is set, and no higher digit is |
| Bits.Pow2Of64 | internal/hamt/bitmap.go:5 | 2^64 is the bound of the 64-bit words the bitmap and hashes live in |
| GoInt.Rem | factory/enum_factory.go:44 | Go's remainder is congruent to the dividend, and takes the dividend's sign with magnitude below the divisor's |
| GoInt.WrapInt64 | factory/builder.go:97 | an int64 sum wraps modulo 2^64 and is unchanged when it fits |
| GoInt.Uint32Of | factory/string_factory.go:106 | converting to uint32 keeps the value modulo 2^32 and is the identity in range |
| GoInt.Uint32OfWrap | factory/string_factory.go:106 | wrapping to int64 first does not change the uint32 conversion |
| Hamt.Key | internal/hamt/collision_node.go:16-21 | a key exists exactly for a leaf or a non-empty collision, and it is the first entry's key |
| Hamt.Value | internal/hamt/collision_node.go:23-28 | a value exists exactly for a leaf or a non-empty collision, and it is the first entry's value |
| Hamt.Get | internal/hamt/bitmap_indexed_node.go:24-34 | a leaf or collision answers by hash equality alone, with the first entry's value; a found value is the value of some entry the node lists |
| Hamt.EntriesOfChild | internal/hamt/bitmap_indexed_node.go:99-107 | every entry of a child is among the branch's listed entries |
| Hamt.InsertNode | internal/hamt/bitmap_indexed_node.go:118-126 | inserting at an index up to the length shifts the tail right by one and puts the node at the index; past the length it panics |
| Hamt.RemoveNode | internal/hamt/bitmap_indexed_node.go:128-135 | removing an index shifts the tail left by one and keeps the prefix |
| Hamt.ReplaceNode | internal/hamt/bitmap_indexed_node.go:109-116 | replacing keeps the length, puts the node at the index and leaves every other child |
| Hamt.AddLeaf | internal/hamt/bitmap_indexed_node.go:55-60 | a new leaf goes in at the index of its position and the position joins the bitmap; it panics when the index is past the children |
| Hamt.Set | internal/hamt/bitmap_indexed_node.go:36-61 | an equal-hash leaf is replaced; a collision of the hash gets the entry appended, and of another hash becomes a leaf; a branch stays a branch |
| Hamt.SetLeaf | internal/hamt/leaf_node.go:36-63 | an equal hash replaces the leaf; a different hash makes a branch |
| Hamt.Remove | internal/hamt/bitmap_indexed_node.go:63-97 | not found leaves the node; a removal changes it; a collision of the hash drops its first entry, and an empty one panics |
| HamtBranch.BranchGet | internal/hamt/bitmap_indexed_node.go:24-34 | a free slot answers not found; an occupied slot asks its child one level down |
| HamtBranch.BranchSetFree | internal/hamt/bitmap_indexed_node.go:55-60 | setting into a free slot inserts a leaf at the slot's index and adds the position to the bitmap |
| HamtBranch.BranchSetOccupied | internal/hamt/bitmap_indexed_node.go:41-52 | setting into an occupied slot replaces that child with the child's own `Set` at the same level, as written |
| HamtBranch.SetFreeThenGet | internal/hamt/bitmap_indexed_node.go:55-60 | after setting into a free slot, a hash selecting that slot finds the value exactly when it is the new hash, and otherwise finds nothing |
| HamtBranch.SetFreeKeepsOthers | internal/hamt/bitmap_indexed_node.go:55-60 | after setting into a free slot, every hash selecting another slot gets the same answer as before |
| HamtBranch.SetFreeEntries | internal/hamt/bitmap_indexed_node.go:55-60 | setting into a free slot adds exactly the new entry to the listed entries |
| HamtBranch.ToSliceAllAppend | internal/hamt/bitmap_indexed_node.go:99-107 | listing the entries of concatenated children concatenates their lists |
| HamtBranch.InsertEntries | internal/hamt/bitmap_indexed_node.go:118-126 | inserting a child adds exactly that child's entries |
| HamtBranch.SetLeafWellFormed | internal/hamt/leaf_node.go:36-63 | a leaf's `Set` builds a well-formed node: each branch has as many children as occupied slots, and is non-empty |
| HamtBranch.SplitWellFormed | internal/hamt/leaf_node.go:56-62 | two leaves in different slots make a well-formed two-child branch |
| HamtBranch.SetPreservesWellFormed | internal/hamt/bitmap_indexed_node.go:36-61 | the written `Set` on a well-formed node that succeeds gives a well-formed node |
| HamtBranch.SetFromRootOk | internal/hamt/bitmap_indexed_node.go:36-61 | setting from level 0 into a well-formed node never panics |
| HamtBranch.SetChildWellFormed | internal/hamt/bitmap_indexed_node.go:49-52 | replacing an occupied slot's child by its `Set` keeps the branch well formed |
| HamtBranch.SetFreeWellFormed | internal/hamt/bitmap_indexed_node.go:55-60 | setting into a free slot succeeds and keeps the branch well formed |
| HamtBranch.BranchRemove | internal/hamt/bitmap_indexed_node.go:63-97 | a free slot is not found; otherwise the child's result decides: not found, the emptied slot dropped (and an emptied branch gone), or the child replaced |
| HamtBranch.DropSlotWellFormed | internal/hamt/bitmap_indexed_node.go:82-93 | dropping an occupied slot with its child keeps the branch well formed |
| HamtBranch.ReplaceSlotWellFormed | internal/hamt/bitmap_indexed_node.go:96 | replacing a child by a well-formed node keeps the branch well formed |
| HamtBranch.RemovePreservesWellFormed | internal/hamt/bitmap_indexed_node.go:63-97 | removing from a well-formed node leaves a well-formed node, or none |
| HamtBranch.RemoveChildWellFormed | internal/hamt/bitmap_indexed_node.go:96 | replacing a child by what its removal leaves keeps the branch well formed |
| HamtBranch.GetAfterDrop | internal/hamt/bitmap_indexed_node.go:82-93 | after a slot is dropped, its hash is not found |
| HamtBranch.GetAfterReplace | internal/hamt/bitmap_indexed_node.go:96 | after a child is replaced, its hash is answered by the new child |
| HamtBranch.RemoveMatchesGet | internal/hamt/bitmap_indexed_node.go:63-97 | `Remove` panics exactly when `Get` does; it removes exactly when `Get` finds; afterwards `Get` finds nothing for the hash |
| HamtLeaf.DistinctHashesSeparate | internal/hamt/leaf_node.go:47-53 | two distinct hashes part at some level from 0 to 10 |
| HamtLeaf.LeafSplit | internal/hamt/leaf_node.go:56-62 | when the slots differ, the result is a branch of the two leaves in ascending slot order |
| HamtLeaf.AddToOneSlot | internal/hamt/leaf_node.go:56-62 | adding a leaf to a one-leaf branch orders the two leaves by slot |
| HamtLeaf.LeafNest | internal/hamt/leaf_node.go:47-53 | when the slots agree, the result is a one-child branch around the split one level down |
| HamtLeaf.LeafSetOk | internal/hamt/leaf_node.go:36-63 | for distinct hashes the split succeeds exactly when the level is non-negative and the hashes part by level 10 |
| HamtLeaf.SplitOk | internal/hamt/leaf_node.go:56-62 | different slots at a valid level always split without panic |
| HamtLeaf.OutOfRangePanics | internal/hamt/leaf_node.go:44-45 | splitting distinct hashes at a level outside 0..10 panics |
| HamtLeaf.NestOk | internal/hamt/leaf_node.go:47-53 | nesting succeeds exactly when the split one level down does |
| HamtLeaf.LeafSetFromRoot | internal/hamt/leaf_node.go:36-63 | a leaf's `Set` from level 0 never panics |
| HamtLeaf.LeafSetThenGet | internal/hamt/leaf_node.go:36-63 | after a split, both the old and the new hash find their values |
| HamtCorrected.ExampleLeafSet | internal/hamt/leaf_node.go:47-53 | leaf hash 1 plus hash 129 at level 0 nests one branch, then splits into slots 0 and 2 |
| HamtCorrected.ExampleSet | internal/hamt/bitmap_indexed_node.go:41-47 | the written `Set` of hash 129 into a branch holding leaf 1 in slot 1 nests the split one level too deep |
| HamtCorrected.OneSlotSet | internal/hamt/bitmap_indexed_node.go:41-52 | in a one-slot branch, `Set` into that slot runs the child's `Set` at the same level |
| HamtCorrected.OffsetDiscrepancy | internal/hamt/bitmap_indexed_node.go:43 | a concrete branch where hash 1 is found before, and after setting hash 129 neither 1 nor 129 is found |
| HamtCorrected.CorrectedSet | internal/hamt/bitmap_indexed_node.go:36-61 | the insert with the child called one level down: it agrees with `Set` on leaves and collisions and keeps a branch a branch |
| HamtCorrected.CorrectedBranchFree | internal/hamt/bitmap_indexed_node.go:55-60 | on a free slot the corrected insert is the written one |
| HamtCorrected.CorrectedBranchOccupied | internal/hamt/bitmap_indexed_node.go:41-52 | on an occupied slot the corrected insert replaces the child by its insert one level down |
| HamtCorrected.DistinctSlots | internal/hamt/bitmap.go:54-64 | distinct occupied slots have distinct child indices |
| HamtCorrected.CorrectedSetThenGet | internal/hamt/bitmap_indexed_node.go:36-61 | after the corrected insert, `Get` of the hash returns the value |
| HamtCorrected.CorrectedSetKeepsOthers | internal/hamt/bitmap_indexed_node.go:36-61 | after the corrected insert, every other hash gets the same answer as before |
| HamtCorrected.CorrectedSetWellFormed | internal/hamt/bitmap_indexed_node.go:36-61 | the corrected insert keeps a node well formed |
| HamtCorrected.GetOtherAfterReplace | internal/hamt/bitmap_indexed_node.go:24-34 | replacing one slot's child does not change lookups that select another slot |
| HamtCorrected.OneSlotGet | internal/hamt/bitmap_indexed_node.go:24-34 | a one-slot branch answers its slot through the child one level down, and every other slot with not found |
| HamtCorrected.LeafSetGetOther | internal/hamt/leaf_node.go:36-63 | the split of two leaves finds no third hash |
| HamtCorrected.SplitGetOther | internal/hamt/leaf_node.go:56-62 | a split of two leaves in different slots succeeds and finds no third hash |
| HamtCorrected.TwoLeavesGetOther | internal/hamt/bitmap_indexed_node.go:24-34 | a two-slot branch of leaves finds no hash but theirs |
| HamtRouted.HoldsIffStores | internal/hamt/bitmap_indexed_node.go:24-34 | a node holds a hash exactly when it stores some entry under it |
| HamtRouted.GetRouted | internal/hamt/bitmap_indexed_node.go:24-34 | in a routed node, `Get` never panics, finds exactly the hashes held, and returns the stored entry's value |
| HamtRouted.StoresUnique | internal/hamt/bitmap_indexed_node.go:24-34 | a routed node stores at most one entry per hash |
| HamtRouted.RoutedNoCollision | internal/hamt/collision_node.go:42-52 | a routed node has no collision nodes |
| HamtRouted.SlotIndexInjective | internal/hamt/bitmap.go:54-64 | distinct slots have distinct indices |
| HamtRouted.NewSlot | internal/hamt/bitmap.go:42-64 | adding a free slot makes it occupied, with its index the count of occupied slots below it |
| HamtRouted.SlotAfterNext | internal/hamt/bitmap.go:42-64 | adding a free slot keeps every occupied slot, shifting its index up by one exactly when the new slot is below it |
| HamtRouted.SlotAfterWithout | internal/hamt/bitmap.go:46-64 | removing an occupied slot keeps every other one, shifting its index down by one exactly when the removed slot is below it |
| HamtRouted.OnlyOwnSlot | internal/hamt/bitmap_indexed_node.go:24-34 | in a routed branch only the child of a hash's own slot holds that hash |
| HamtRouted.TwoLeavesRouted | internal/hamt/leaf_node.go:56-62 | two leaves in different slots make a routed branch storing exactly those two entries |
| HamtRouted.SetLeafRouted | internal/hamt/leaf_node.go:36-63 | a leaf split is routed and stores exactly the old and the new entry |
| HamtRouted.FreeSlotRouted | internal/hamt/bitmap_indexed_node.go:55-60 | inserting a leaf into a free slot keeps the branch routed |
| HamtRouted.FreeSlotStores | internal/hamt/bitmap_indexed_node.go:55-60 | inserting a leaf into a free slot stores the new entry and keeps every other hash's entry |
| HamtRouted.ReplaceSlotRouted | internal/hamt/bitmap_indexed_node.go:49-52 | replacing a slot's child by a routed node holding only that child's hashes and the edited hash keeps the branch routed |
| HamtRouted.ReplaceSlotStores | internal/hamt/bitmap_indexed_node.go:49-52 | replacing a slot's child changes only the entry of the hash that child was edited for |
| HamtRouted.SetRouted | internal/hamt/bitmap_indexed_node.go:36-61 | when every held hash shares the new hash's slots above the level, the corrected insert into a routed node succeeds, stays routed and stores the new entry in place of any entry of its hash, all else unchanged |
| HamtRouted.RemoveRouted | internal/hamt/bitmap_indexed_node.go:63-97 | removing from a routed node removes exactly when the hash is held, leaves nothing only when that was its only hash, and otherwise stays routed with just that hash's entry gone |
| HamtRouted.RemoveBranchRouted | internal/hamt/bitmap_indexed_node.go:63-97 | removing from a routed branch never panics, removes exactly when the hash is held, and keeps the branch routed with only that hash's entries gone |
| HamtRouted.DropSlotRouted | internal/hamt/bitmap_indexed_node.go:82-93 | dropping an emptied slot keeps the branch routed |
| HamtRouted.DropSlotStores | internal/hamt/bitmap_indexed_node.go:82-93 | dropping an emptied slot removes exactly the entries of its hash |
| HamtRouted.EntriesStored | internal/hamt/bitmap_indexed_node.go:99-107 | the listed entries are exactly the stored ones |
| HamtRouted.RoutedHolds | internal/hamt/bitmap_indexed_node.go:86-88 | a routed node holds some hash, because an emptied branch is removed |
| HamtRouted.OnlyChild | internal/hamt/bitmap_indexed_node.go:86-88 | a branch with one child holding only one hash holds only that hash |
| Hashing.FnvFromAppend | internal/hamt/hash.go:20 | hashing two byte runs in sequence is hashing their concatenation |
| Hashing.FnvExample | internal/hamt/hash.go:20 | the FNV-1a digest of the byte 'a' is 0xaf63dc4c8601ec8c |
| Hashing.LittleEndian | internal/hamt/hash.go:75 | the encoding of a word in n bytes has n bytes |
| Hashing.LittleEndianDecodes | internal/hamt/hash.go:75 | decoding the n-byte little-endian encoding gives the word's n low bytes |
| Hashing.LittleEndianInjective | internal/hamt/hash.go:75 | distinct words have distinct 8-byte encodings |
| Hashing.Combine | internal/hamt/hash.go:171-176 | combining two digests is FNV-1a over their two 8-byte little-endian encodings |
| Hashing.RefTransparent | internal/hamt/hash.go:29-41 | pointers and interfaces around a value do not change its digest |
| Hashing.NilAndUnsupported | internal/hamt/hash.go:44-47 | nil, a nil reached through a pointer, the empty string and every unsupported kind all hash to the offset basis |
| Hashing.CustomVerbatim | internal/hamt/hash.go:50-54 | a `Hashable` value's own digest is used as is, even with an error, which `Hash` discards |
| Hashing.Widening | internal/hamt/hash.go:57-68 | int and uint hash as 8-byte integers, and bool as a 1-byte 0 or 1 |
| Hashing.ListFold | internal/hamt/hash.go:97-107 | an empty list hashes to 0, and each element combines the running digest with the element's digest |
| Hashing.ElementsMapped | internal/hamt/hash.go:97-107 | a list's digest is the ordered fold of its elements' digests |
| Hashing.FoldOrdered | internal/hamt/hash.go:97-107 | the ordered fold succeeds exactly when every element digest does, and a failure gives 0 |
| Hashing.XorAll | internal/hamt/hash.go:109-126 | the XOR fold succeeds exactly when every digest does, and a failure gives 0 |
| Hashing.FailureIsZero | internal/hamt/hash.go:101-104 | a failing element, entry or field makes a list, map or struct hash to 0 |
| Hashing.XorAllPermutation | internal/hamt/hash.go:122-124 | the XOR of digests does not depend on the order they are visited in |
| Hashing.MapDigests | internal/hamt/hash.go:109-126 | a map's digest is the XOR, from 0, of the combined key and value digests |
| Hashing.MapOrderFree | internal/hamt/hash.go:109-126 | a map's digest does not depend on its iteration order |
| Hashing.Exported | internal/hamt/hash.go:137-140 | every kept field is an exported field of the input |
| Hashing.ExportedCount | internal/hamt/hash.go:137-140 | each exported field is kept as often as it occurs, and each unexported one never |
| Hashing.ExportedIdempotent | internal/hamt/hash.go:137-140 | keeping exported fields twice is keeping them once |
| Hashing.StructDigests | internal/hamt/hash.go:128-161 | a struct's digest is the XOR, from its type name's digest, of its exported fields' combined name and value digests |
| Hashing.StructIgnoresUnexported | internal/hamt/hash.go:137-140 | unexported fields do not change a struct's digest |
| Hashing.StructFieldOrderFree | internal/hamt/hash.go:128-161 | a struct's digest does not depend on the order of its fields |
| Scramble.AsUint32 | internal/math/math.go:5-10 | the truncation keeps the low 32 bits, and with the high half it rebuilds the input |
| Scramble.AsUint32Examples | internal/math/math.go:5-10 | 0, 1, 2^32-1, 2^32, 2^32+1 and 0x123456789ABCDEF0 truncate to 0, 1, 2^32-1, 0, 1 and 0x9ABCDEF0 |
| Scramble.LowProduct | internal/math/math.go:61 | the low half of a 64-bit product of two 32-bit words is their product modulo 2^32 |
| Scramble.Invert | internal/math/math.go:12-24 | bit i of the result is bit 31-i of the input |
| Scramble.InvertInvolution | internal/math/math.go:12-24 | reversing twice gives the input back |
| Scramble.InvertExamples | internal/math/math.go:12-24 | 0, all ones, 0x12345678, 1 and 2^31 reverse to 0, all ones, 0x1E6A2C48, 2^31 and 1 |
| Scramble.ExtendedGcd | internal/math/math.go:26-34 | the result satisfies Bezout's identity and divides both inputs; the coefficients stay within the inputs' magnitudes, so the int64 arithmetic never wraps |
| Scramble.GcdIsGreatest | internal/math/math.go:26-34 | every common divisor divides the computed gcd |
| Scramble.GcdSymmetric | internal/math/math.go:26-34 | the gcd does not depend on the argument order |
| Scramble.GcdExamples | internal/math/math.go:26-34 | gcd(0,5)=5, gcd(10,15)=5, gcd(17,13)=1, gcd(252,105)=21 |
| Scramble.CoprimeIffGcdOne | internal/math/math.go:39 | the gcd is 1 exactly when the inputs share no divisor above 1 |
| Scramble.ModularInverse | internal/math/math.go:36-52 | succeeds exactly when the inputs are coprime and the modulus is positive; the result is below the modulus and is an inverse modulo it |
| Scramble.NormalizedRem | internal/math/math.go:43-46 | adding the modulus to a negative Go remainder gives the Euclidean remainder |
| Scramble.ModularInverseExamples | internal/math/math.go:36-52 | the inverses of 3 mod 11, 7 mod 26 and 17 mod 43 are 4, 15 and 38, and 4 mod 8 panics |
| Scramble.SaltInverse | internal/math/math.go:54-57 | the inverted salt is the salt's inverse modulo 2^32, and the only one |
| Scramble.UnmixMix | internal/math/math.go:61-64 | multiplying by the salt and then by the inverted salt is the identity modulo 2^32 |
| Scramble.MixUnmix | internal/math/math.go:61-64 | multiplying by the inverted salt and then by the salt is the identity modulo 2^32 |
| Scramble.Mul32 | internal/math/math.go:61 | the truncated 64-bit product is the 32-bit product |
| Scramble.Scramble | internal/math/math.go:59-65 | scrambling is multiplication by the salt, bit reversal, then multiplication by the inverted salt, all modulo 2^32 |
| Scramble.ScrambleInvolution | internal/math/math.go:59-65 | scrambling twice gives the input back |
| Scramble.ScrambleInjective | internal/math/math.go:59-65 | distinct inputs scramble to distinct outputs |
| Scramble.ScrambleSurjective | internal/math/math.go:59-65 | every 32-bit word is the scramble of some word |
| Scramble.ScrambleExamples | internal/math/math.go:59-65 | 0, 1 and 2 scramble to 0, 0x2F14B1E8 and 0x178A58F4 |
| Scramble.MoreScrambleExamples | internal/math/math.go:59-65 | 100 and 1000 scramble to 0x1FFFFD44 and 0xEFFFFF06, and 12345 is not a fixed point |
| Sets.Set | internal/collections/set.go:30-37 | a successful adding as written leaves a non-empty root |
| Sets.IntendedSet | internal/collections/set.go:30-37 | a successful adding with the corrected insert leaves a non-empty root |
| Sets.Remove | internal/collections/set.go:39-46 | removing from an empty set changes nothing |
| Sets.Has | internal/collections/set.go:48-55 | an empty set has nothing |
| Sets.ToSlice | internal/collections/set.go:68-78 | the slice has `Size` items |
| Sets.EmptyValid | internal/collections/set.go:11-13 | the set with no root is valid and contains nothing |
| Sets.LeafValid | internal/collections/set.go:32-33 | a set whose root is one leaf contains exactly that item |
| Sets.SetOnEmpty | internal/collections/set.go:32-33 | adding to an empty set gives a valid set of size 1 containing exactly the item |
| Sets.SetOk | internal/collections/set.go:30-37 | adding as written never panics and keeps the root well formed |
| Sets.SetAgrees | internal/collections/set.go:34-35 | when the root is not a branch, or the item's level-0 slot is free or holds a leaf of its hash, the written adding equals the corrected one |
| Sets.SetContains | internal/collections/set.go:30-37 | in those cases the written adding keeps the set valid and contains the item plus the old items of other hashes |
| Sets.HasAfterSet | internal/collections/set.go:30-37 | in those cases `Has` of the added item is true afterwards |
| Sets.SetOverwrites | internal/collections/set.go:35 | re-adding an item whose hash has a leaf at the root or directly under it keeps the size |
| Sets.IntendedSetContains | internal/collections/set.go:30-37 | the corrected adding keeps a valid set valid and contains the item plus the old items of other hashes |
| Sets.HasAfterIntendedSet | internal/collections/set.go:30-37 | after the corrected adding, `Has` of the item is true |
| Sets.RemoveContains | internal/collections/set.go:39-46 | removing keeps a valid set valid and drops exactly the items of the item's hash |
| Sets.HasAfterRemove | internal/collections/set.go:39-46 | after removing, `Has` of the item is false |
| Sets.RemoveLast | internal/collections/set.go:39-46 | removing the only hash in the set leaves it empty |
| Sets.HasContains | internal/collections/set.go:48-55 | `Has` tells whether the valid set contains some item of the same hash |
| Sets.HasSameHash | internal/collections/set.go:48-55 | two items of one hash get the same `Has` answer, since only hashes are compared |
| Sets.ToSliceContains | internal/collections/set.go:68-78 | the slice lists exactly the items the valid set contains |
| Sets.EmptyIffNoItems | internal/collections/set.go:57-66 | a valid set is empty exactly when its size is 0, and exactly when it contains nothing |
| Sets.FromSliceSnoc | internal/collections/set.go:18-24 | building from items plus one more adds that item, as written, to the set of the items |
| Sets.FromSliceOk | internal/collections/set.go:15-28 | building from a slice never panics and gives a well-formed root |
| Sets.FromSliceAgrees | internal/collections/set.go:15-28 | when items of different hashes have different level-0 slots, building as written equals building with the corrected insert, and the root is a leaf or a branch of leaves |
| Sets.FromSliceContains | internal/collections/set.go:15-28 | under the same condition the built set is valid and contains exactly the last item of each hash |
| Sets.IntendedFromSliceContains | internal/collections/set.go:15-28 | building with the corrected insert gives a valid set containing exactly the last item of each hash |
| Sets.NewFromSlice | internal/collections/set.go:15-28 | the loop computes the fold of the written adding; under distinct level-0 slots it contains exactly the last item of each hash |
| Sets.LosingExample | internal/collections/set.go:23 | 1, 2 and 129 have the losing shape: 1 and 129 share level-0 slot 1 and part at level 1 into slots other than 1, and 2 has a later level-0 slot |
| Sets.WrittenLosesItems | internal/collections/set.go:23 | for any three items with hashes of that shape, the written set built from them has only the second |
| Sets.WrittenBuilt | internal/collections/set.go:18-24 | for hashes of that shape the written set is a two-slot branch, with the first and third items split one level too deep |
| Sets.SetLosesItems | internal/collections/set.go:15-28 | items hashed 1, 2 and 129: the written set answers `Has` false for the first and third, the corrected set true for all three |
| Sets.IntendedKeepsItems | internal/collections/set.go:15-28 | the corrected set of items hashed 1, 2 and 129 has all three |
| Sets.FlatSet | internal/collections/set.go:35 | adding to a set of leaves an item apart from the others keeps it a set of leaves, and equals the corrected adding |
| Factories.Apply | factory/builder_internal.go:10-12 | with no override the properties are unchanged |
| Factories.HooksUsed | factory/factory.go:7-11 | creating uses only `prepare` and `instantiate`, duplicating only `retrieve` and `instantiate` |
| Factories.CreateThenDuplicate | factory/builder_internal.go:3-14 | when instantiate undoes retrieve, duplicating without an override gives the instance, also for a created one |
| Factories.DuplicateEdits | factory/builder_internal.go:8-14 | duplicating with an edit succeeds exactly when the edit of the retrieved properties does, and instantiates the edited properties |
| StringFactory.Defaults | factory/string_factory.go:62-84 | before the override the value is empty, the minimum is at least 1, the maximum at least the minimum and the pool non-empty |
| StringFactory.Normalize | factory/string_factory.go:90-98 | after the override the bounds and pool are valid again, keeping the value and whatever was already valid |
| StringFactory.Prepare | factory/string_factory.go:61-115 | prepared properties have minimum at least 1, maximum at least the minimum and a non-empty pool |
| StringFactory.PrepareNormalizes | factory/string_factory.go:86-98 | a panicking override makes `Prepare` panic; otherwise the override's valid bounds and pool survive and invalid ones are repaired |
| StringFactory.PrepareDefaults | factory/string_factory.go:62-78 | without an override a non-positive minimum becomes 1, a non-positive maximum 255 and at least the minimum, and an empty pool the alphanumerics |
| StringFactory.PrepareKeepsValue | factory/string_factory.go:100 | a non-empty value from the override is kept as is |
| StringFactory.PrepareGenerates | factory/string_factory.go:100-112 | for a non-negative seed an empty value is generated with length minimum plus seed modulo the span, between the bounds, from the pool |
| StringFactory.FixedLength | factory/string_factory.go:101-102 | equal bounds give exactly that length |
| StringFactory.NegativeSeeds | factory/string_factory.go:101-104 | a negative seed can shorten the string below the minimum (seed -3 with bounds 5 and 10 gives length 2), or make its length negative and panic (seed -5 with bounds 1 and 3) |
| StringFactory.CharacterSets | factory/string_factory.go:11-38 | the pools have 62, 52, 10 and 32 characters, and the alphanumerics are the letters then the digits |
| StringFactory.CreateInBounds | factory/string_factory.go:61-115 | creating with a non-negative seed and no override succeeds with a length between the bounds and characters from the pool |
| StringFactory.RetrieveRoundTrip | factory/string_factory.go:118-122 | instantiating the retrieved properties gives the string back |
| StringFactory.DuplicateEdits | factory/string_factory.go:118-122 | duplicating with an edit instantiates the edit of the bare value, or panics with it |
| StringFactory.DuplicateDoesNotGenerate | factory/string_factory.go:118-122 | an edit that clears the value duplicates to the empty string, while creating with it generates a new one |
| StringFactory.DuplicateRoundTrip | factory/string_factory.go:56-58 | duplicating without an override gives the string back, also for a created one |
| EnumFactory.NewEnumOk | factory/enum_factory.go:17-21 | the candidates are the written set built from the slice |
| EnumFactory.NewEnumValid | factory/enum_factory.go:17-21 | under distinct level-0 slots the candidate set contains exactly the last candidate of each hash |
| EnumFactory.Kept | factory/enum_factory.go:62-74 | the reference filter keeps exactly the items no exclusion shares a hash with |
| EnumFactory.HasExcluded | factory/enum_factory.go:68 | asking a set that contains the last exclusion of each hash tells whether some exclusion shares the item's hash |
| EnumFactory.KeepSpec | factory/enum_factory.go:67-71 | the filter loop over such a set keeps exactly the reference filter's items, in order |
| EnumFactory.FilterExclusionsSpec | factory/enum_factory.go:62-74 | under distinct level-0 slots of the exclusions the filter is the reference filter of the candidates |
| EnumFactory.ExclusionSlipsThrough | factory/enum_factory.go:63 | excluding [a, b, c] hashed 1, 2 and 129 leaves candidate a, though a is excluded |
| EnumFactory.LosingExclusions | factory/enum_factory.go:63 | the same for any exclusions of that hash shape |
| EnumFactory.KeepMissed | factory/enum_factory.go:68 | an item the set misses is kept |
| EnumFactory.PrepareNoCandidates | factory/enum_factory.go:40-42 | when the exclusions have distinct level-0 slots and the filter leaves no candidate, `Prepare` panics |
| EnumFactory.PrepareChooses | factory/enum_factory.go:44-49 | when the exclusions have distinct level-0 slots, a zero value and a non-negative seed make the value the filtered candidate at the seed modulo their count, a candidate not excluded |
| EnumFactory.PrepareKeepsValue | factory/enum_factory.go:46-49 | when the exclusions have distinct level-0 slots and some candidate survives, a non-zero value from the override is kept with the overridden properties |
| EnumFactory.PrepareWithoutOverride | factory/enum_factory.go:29-52 | without an override the value is the candidate at the seed modulo the number of candidates |
| EnumFactory.PrepareOverridePanics | factory/enum_factory.go:34-36 | a panicking override makes `Prepare` panic with its message |
| EnumFactory.RetrieveRoundTrip | factory/enum_factory.go:55-60 | retrieving gives no exclusions, and instantiating gives the instance back |
| EnumFactory.DuplicateEdits | factory/enum_factory.go:55-60 | duplicating with an edit instantiates the edit of the bare value, or panics with it |
| EnumFactory.DuplicateIgnoresExclusions | factory/enum_factory.go:55-60 | an edit that only sets exclusions duplicates to the instance unchanged |
| EnumFactory.DuplicateRoundTrip | factory/enum_factory.go:24-26 | duplicating without an override gives the instance back |
| MapFactory.InstantiateHasKeys | factory/map_factory.go:32-40 | every entry's key is in the map |
| MapFactory.InstantiateOnlyKeys | factory/map_factory.go:32-40 | every key of the map is some entry's key |
| MapFactory.InstantiateLastWins | factory/map_factory.go:35-37 | a key maps to the value of its last entry |
| MapFactory.InstantiateSize | factory/map_factory.go:33-37 | the map has at most as many keys as there are entries |
| MapFactory.InstantiateSnoc | factory/map_factory.go:36 | appending an entry stores its value under its key |
| MapFactory.InstantiateAgrees | factory/map_factory.go:32-40 | entries that agree with a map instantiate to part of that map |
| MapFactory.Retrieve | factory/map_factory.go:69-81 | one entry per visited key, in the visiting order, with the map's value |
| MapFactory.Only | factory/map_factory.go:71 | the visited keys are cut to keys of the map, and all of those are kept |
| MapFactory.RetrieveRoundTrip | factory/map_factory.go:69-81 | instantiating the entries of a visit covering the map gives the map back |
| MapFactory.Count | factory/map_factory.go:44 | a non-negative seed gives seed modulo 10 plus 1 entries, between 1 and 10; a negative one between -8 and 1 |
| MapFactory.EntriesSpec | factory/map_factory.go:47-55 | with key and value factories that never panic, generation succeeds and entry i holds the key and value created at seed plus i |
| MapFactory.PrepareGenerates | factory/map_factory.go:43-66 | with key and value factories that never panic and a non-negative seed, `Prepare` gives seed modulo 10 plus 1 entries, entry i created at seed plus i |
| MapFactory.PrepareOverridesLast | factory/map_factory.go:61-63 | the override edits the generated properties, after generation |
| MapFactory.KeyPanicPropagates | factory/map_factory.go:48 | a key factory that panics makes `Prepare` panic |
| MapFactory.NegativeSeeds | factory/map_factory.go:44-45 | seed -1 gives no entries, and seed -2 a negative count that panics |
| MapFactory.CreatedMapSize | factory/map_factory.go:44 | with key and value factories that never panic and a non-negative seed, the created map has between 1 and 10 keys |
| MapFactory.DuplicateRoundTrip | factory/map_factory.go:69-81 | duplicating without an override gives the map back |
| MapFactory.DuplicateAppend | factory/map_factory.go:69-81 | an edit appending an entry duplicates to the map with that key stored |
| OverrideNames.Lower | factory/overrider.go:140 | lower-casing maps capitals to small letters and leaves other characters |
| OverrideNames.Upper | factory/overrider.go:307 | upper-casing maps small letters to capitals and leaves other characters |
| OverrideNames.ToLower | factory/overrider.go:140 | lower-casing a string lowers each character in place |
| OverrideNames.CanonicalName | factory/overrider.go:136-141 | case-sensitive names are unchanged; case-insensitive ones keep their length and have no capitals |
| OverrideNames.CanonicalIdempotent | factory/overrider.go:136-141 | canonicalising twice is canonicalising once |
| OverrideNames.CanonicalMatch | factory/overrider.go:136-141 | two names match case-insensitively exactly when they agree character by character up to case |
| OverrideNames.TrimLeft | factory/overrider.go:291 | the trimmed string is a suffix, everything dropped is white space, and it starts with no white space |
| OverrideNames.TrimRight | factory/overrider.go:291 | the trimmed string is a prefix, everything dropped is white space, and it ends with no white space |
| OverrideNames.TrimSpace | factory/overrider.go:291 | the result has no white space at either end, and is empty exactly when the input is all white space |
| OverrideNames.TrimSpaceSlice | factory/overrider.go:291 | the result is a slice of the input with only white space around it |
| OverrideNames.TrimBlank | factory/overrider.go:291-294 | trimming both ends gives the empty string exactly when the input is all white space |
| OverrideNames.TrimKeeps | factory/overrider.go:291-294 | a string with a non-space character trims to a non-empty string |
| OverrideNames.ExportFrom | factory/overrider.go:301-312 | the result is no longer than the input and has no separators |
| OverrideNames.ExportFromSplit | factory/overrider.go:302-305 | a separator drops out and capitalises what follows it |
| OverrideNames.ExportFromPlain | factory/overrider.go:306-311 | a run without separators is copied, with its first character upper-cased when pending |
| OverrideNames.ExportFromCapitalises | factory/overrider.go:306-308 | when the first character is pending capitalisation, the result does not start with a small letter |
| OverrideNames.ExportFromRenders | factory/overrider.go:298-314 | from position i on, the conversion keeps each non-separator and upper-cases it exactly when it starts the name or follows a separator |
| OverrideNames.Exportable | factory/overrider.go:298-314 | the result has no separators, and its first character is not a small letter |
| OverrideNames.ExportableRenders | factory/overrider.go:298-314 | each kept character is upper-cased exactly when it starts the name or follows a separator |
| OverrideNames.ExportableIdempotent | factory/overrider.go:298-314 | making a name exportable twice is doing it once |
| OverrideNames.BuildSetterName | factory/overrider.go:290-296 | the setter name is empty exactly for a blank name; otherwise it is "Set" and the exportable trimmed name |
| OverrideNames.SnakeCaseSetter | factory/overrider.go:290-296 | the setter of "id_of" is "SetIdOf" |
| OverrideNames.DegenerateSetters | factory/overrider.go:290-296 | the setter of "_" is "Set", and of blank " \t" is empty |
| OverrideNames.ExportableExported | factory/overrider.go:320-326 | the exportable form of a name is an exported identifier exactly when the name has a character that is not a separator and the first such character is an ASCII letter |
| Overrider.Apply | factory/overrider.go:19-23 | an overrider without a function leaves the properties unchanged |
| Overrider.Configure | factory/overrider.go:53-57 | case-insensitive matching is always on; unexported fields are allowed exactly when `DisallowUnexported` is not among the options |
| Overrider.Unwrap | factory/overrider.go:250-258 | unwrapping interfaces ends at nil or at a plain value |
| Overrider.PrepareUnwraps | factory/overrider.go:242-269 | nil at any interface depth becomes the zero value exactly for nil-able types; a plain value is kept if assignable, converted if convertible, else refused |
| Overrider.FirstMatchFinds | factory/overrider.go:215-240 | the first match is a candidate with the name, and there is none exactly when no candidate has it |
| Overrider.FirstMatchAppend | factory/overrider.go:215-240 | the first match in two runs is the first run's match if any, else the second's |
| Overrider.FirstMatchUnder | factory/overrider.go:233-235 | a match inside embedded field i is the inner match with i put in front of its path |
| Overrider.LookupFirstMatch | factory/overrider.go:215-240 | the recursive lookup returns the first field with the name in declaration order, each embedded struct searched right after its own field and nil embedded pointers skipped |
| Overrider.InsideFirstMatch | factory/overrider.go:224-237 | searching inside an embedded field finds its first matching inner field |
| Overrider.CandidatePaths | factory/overrider.go:215-240 | every visited field is found again by following its path |
| Overrider.SetAt | factory/overrider.go:190 | writing a field keeps the number of fields and every other top-level field |
| Overrider.SetAtWrites | factory/overrider.go:189-203 | writing through a path stores the value in the field at that path |
| Overrider.SetAtFrame | factory/overrider.go:189-203 | writing through a path leaves the field at any path that neither leads through it nor lies beneath it as it was |
| Overrider.FindMethod | factory/overrider.go:166 | a found method has the name and is one of the type's; none is found only when no method has it |
| Overrider.Message | factory/overrider.go:146 | every error message starts with "override: " |
| Overrider.SetterFor | factory/overrider.go:164-167 | a setter is used exactly when the original name is not blank and the first method named "Set" plus its exportable form takes one parameter; that method is the one used |
| Overrider.SetterFirst | factory/overrider.go:164-176 | with a setter the fields are not searched; it fails only when the argument is refused, and otherwise applies the setter and notes the original name |
| Overrider.UnknownFieldIff | factory/overrider.go:178-181 | the unknown-field error occurs exactly when there is no setter and no visited field has the canonical name |
| Overrider.UnknownFieldCase | factory/overrider.go:178-181 | the unknown-field error occurs exactly when there is no setter and the lookup finds nothing |
| Overrider.FieldWritten | factory/overrider.go:183-207 | with no setter, a found field and an accepted value: an unexported field under `DisallowUnexported` is refused; the write succeeds exactly for a settable exported field or an addressable allowed unexported one; on success that field takes the value, every other top-level field and every field at a path that neither leads through nor lies beneath it is unchanged, the type, methods and tracker are kept, and a tracker notes its name |
| Overrider.ApplyEntries | factory/overrider.go:143-161 | a nil target and a target that is not a struct are refused before any entry |
| Overrider.ApplyAllSnoc | factory/overrider.go:154-158 | entries apply in order, each to the result of the previous ones |
| Overrider.ApplyAllAborts | factory/overrider.go:154-158 | the first failure is the result, whatever entries follow it |
| Overrider.PairEntries | factory/overrider.go:99-107 | one entry per map pair, in iteration order |
| Overrider.FieldEntries | factory/overrider.go:118-129 | one entry per struct field, in declaration order |
| Overrider.Deref | factory/overrider.go:85-90 | following pointers ends at a non-pointer literal or at nil |
| Overrider.ParseSpec | factory/overrider.go:79-134 | parsing fails on nil pointers, non-string map keys and other kinds, and succeeds exactly for string-keyed maps and structs, with each entry's original name, value and canonical key |
| Overrider.KeysCanonical | factory/overrider.go:136-141 | canonical keys are their own canonical names |
| Overrider.OverrideSpec | factory/overrider.go:53-71 | a bad literal panics when the override is made; a good one edits a struct exactly as its entries apply in turn, and panics on a non-struct target |
| Builder.Loop | factory/builder.go:36-42 | the drawn seeds extend those already drawn and reach the requested count, each new one lies in [0, 2^53-1), and no more draws remain than were given |
| Builder.NextSeeds | factory/builder.go:33-45 | a negative size panics; otherwise exactly size seeds in [0, 2^53-1) |
| Builder.NextSeed | factory/builder.go:47-49 | one seed in [0, 2^53-1) |
| Builder.HasIssued | factory/builder.go:38 | asking the issued set about a seed tells whether a seed of its hash was issued: always with the corrected set, and under distinct level-0 slots with the written one |
| Builder.IssuedSnoc | factory/builder.go:40 | recording one more seed adds it to the issued set |
| Builder.LoopFresh | factory/builder.go:36-42 | with the corrected set, or the written one under distinct level-0 slots, each seed drawn is new to the history and to the seeds drawn before it, and the set records them after the history |
| Builder.NextSeedsFresh | factory/builder.go:33-45 | panics exactly for a negative size; with the corrected set, or the written one under distinct level-0 slots, the seeds drawn are pairwise distinct, never issued before, and the issued set records them |
| Builder.WrittenReissues | factory/builder.go:38-40 | with the written set, after issuing three seeds of the losing hash shape (like 1, 2 and 129), drawing the first again issues it a second time; the corrected set refuses it and runs out of draws |
| SeedCollision.SeedHashesLosing | internal/hamt/hash.go:72-76 | the int64 seeds 0, 1 and 64, hashed as FNV-1a of their eight little-endian bytes, share level-0 slot 5 for the first and third, with the second in the later slot 36, and part at level 1 into slots 39 and 8 |
| SeedCollision.SeedZeroReissued | factory/builder.go:31-45 | with the builder's own hash of int64 seeds, after the seeds 0, 1 and 64 are issued a draw of 0 is issued a second time by the written set and refused by the corrected one |
| Builder.NewBuilder | factory/builder.go:31 | a new builder has issued no seeds |
| Builder.CreateAll | factory/builder.go:81-83 | creating at a list of seeds succeeds exactly when each creation does, and gives the values in order |
| Builder.BuildWith | factory/builder.go:88-90 | a non-overrider argument panics |
| Builder.BuildListWith | factory/builder.go:92-101 | a success has a non-negative size, that many values, and value i is the creation at seed plus i wrapped to int64 |
| Builder.BuildListWithSpec | factory/builder.go:92-101 | a negative size panics, a bad override panics, and otherwise it succeeds exactly when each `BuildWith` of seed plus i does |
| Builder.BuildWithIsListOfOne | factory/builder.go:88-101 | a list of one built at a seed is the single value built at that seed |
| Builder.BuildIsListOfOne | factory/builder.go:71-86 | `Build` is `BuildList` of one |
| Builder.BuildListFresh | factory/builder.go:76-86 | under distinct level-0 slots the values are creations at fresh, distinct seeds in [0, 2^53-1), and the set records them |
| Builder.Duplicate | factory/builder.go:103-105 | a non-overrider argument panics |
| Builder.DuplicateSpec | factory/builder.go:103-105 | with no override it is instantiate of retrieve; with an overrider it succeeds exactly when the edit does, instantiating the edited properties |

## Left out

- 64-bit words are bounded naturals (`Bits.Word`) with recursive digit functions, not `bv64`. The bitmap proofs were unstable over bit-vectors. SplitMix64, FNV-1a and the scrambler stay on bit-vectors.
- `collections.Set` is a class with a mutable root in the source. Here it is the immutable datatype `Sets.HashSet`, and each mutation returns the new set.
- The hash sees a Go value as the datatype `Hashing.Value`. Floating-point numbers, complex numbers and `time.Time` have no case, so the numeric hash of hash.go:73-77 covers only integers, and the time branch at hash.go:80-88 is not modelled.
- The reflective hash is not computed on the set's items. `Sets` and `EnumFactory` take the hasher as a parameter `hashOf`. `Sets.HashOf` and `Builder.SeedHash` show how hash.go's hash instantiates it.
- MapFactory.Retrieve takes the map's iteration order as a parameter (`visit`), since Go's order is unspecified. The override literal's map pairs come in a given order for the same reason.
- MapFactory.Retrieve: the visiting order `visit` is constrained only to cover the map's keys (`MapFactory.Covers`). It may visit a key twice or visit keys outside the map, which Go's iteration never does. The round trip holds for every such order.
- Overrider.SetAt: the target of an embedded pointer (`Overrider.Embedded.PointerTo`) is held by value. A write through it builds a new value, so other holders of the same pointer do not see it. In Go the write lands in the shared struct. The visible case is `Builder.Duplicate`: overriding a promoted field of an embedded `*T` in a duplicate also changes the original instance, and any shared default the pointer came from. The model leaves the original untouched.
- Overrider.ApplyAll: when a later entry fails, Go has already written the earlier entries into the struct in place before the override panics. The model returns the failure and discards those writes, so a recovered panic's half-edited struct is not modelled.
- Strings are sequences of Dafny `char`, standing in for Go runes. Invalid UTF-8 and invalid runes cannot be represented.
- OverrideNames.Lower and OverrideNames.Upper map ASCII letters only. Go's `strings.ToLower` and `unicode.ToUpper` also map non-ASCII letters, and `unicode.IsUpper` accepts non-ASCII capitals.
- Overrider.Message renders `%q` by adding quotes without escaping.
- Go reflection is the record `Overrider.Reflect`. Its fields `assignable`, `convertible`, `convert` and `call` are oracle functions standing in for `AssignableTo`, `ConvertibleTo`, `Convert` and a setter call. A struct is a list of field descriptors carrying `CanSet`/`CanAddr`. The `unsafe` write of an unexported field is an ordinary write.
- The override is applied to the properties value itself. A Go `Partial` receives a pointer, which may be nil (`Overrider.Target` keeps that case for `applyOverrideEntries`).
- `rand.Int63n` is a finite sequence of draws. When the draws run out before enough new seeds are found, `Builder.Loop` returns `Starved` and `Build` returns `OutOfDraws`, where Go would keep drawing.
- Builder.Loop does not state that the draws left are a suffix of the draws given, only that there are no more of them.
- A panic carries no builder state. Seeds issued before a recovered panic are not kept by the model.
- Concurrency, I/O and printing are left out. So are the command-line and example programs.
- `Factories.Create` and `Factories.Duplicate` carry no contract of their own. Their properties are the lemmas `Factories.CreateThenDuplicate`, `Factories.DuplicateEdits` and `Factories.HooksUsed`, and each factory's `DuplicateRoundTrip`.

## Findings

| source | as written | input that shows it | evidently intended | confidence | as-written member | corrected member |
|---|---|---|---|---|---|---|
| internal/hamt/bitmap_indexed_node.go:43 | a branch passes `offset`, not `offset+1`, to the child of an occupied slot, while `Get` (line 33) and `Remove` (line 72) look one level down | the branch holding leaf hash 1 in slot 1 at level 0, then `Set` of hash 129: the leaf splits at level 0 again and nests one level too deep, so neither 1 nor 129 is found afterwards | the child is set at `offset+1`, so that a set hash is found and other hashes keep their answers | not executed | HamtCorrected.OffsetDiscrepancy | HamtCorrected.CorrectedSetThenGet |
| internal/collections/set.go:23 | `NewFromSlice` and `Set` (line 35) insert with the trie's `Set` above | `NewFromSlice` of items hashed 1, 2 and 129: `Has` is false for the first and the third | every item added is contained | not executed | Sets.SetLosesItems | Sets.IntendedFromSliceContains |
| factory/enum_factory.go:63 | the exclusions go into the set above | excluding items hashed 1, 2 and 129 from candidates [the item hashed 1] leaves that item | every excluded candidate is filtered out | not executed | EnumFactory.ExclusionSlipsThrough | EnumFactory.KeepSpec |
| factory/builder.go:38 | issued seeds are recorded in the set above | the seeds 0, 1 and 64 hash (FNV-1a of their eight little-endian bytes) to level-0 slots 5, 36 and 5 and level-1 slots 39 and 8 for the first and third; after they are issued, a draw of 0 is issued a second time | a seed is never issued twice | not executed | SeedCollision.SeedZeroReissued | Builder.NextSeedsFresh |

All four rows come from the same line, bitmap_indexed_node.go:43. The corrected trie insert is `HamtCorrected.CorrectedSet`. The set built on it is `Sets.IntendedSet` and `Sets.IntendedFromSlice`. With it:

- the enum filter is exact (`EnumFactory.KeepSpec`, given a set that contains the exclusions);
- the builder never re-issues a seed (`Builder.NextSeedsFresh` with `corrected` set).

=== FILE: bitmap.dfy ===
/** The 64-slot presence vector of one trie level (internal/hamt/bitmap.go).

    A hash is consumed six bits at a time: level `offset` reads digits
    `6*offset .. 6*offset+5`, the "band" of that level, and the band selects
    one of 64 slots.  A branch records its occupied slots as the one digits
    of a 64-bit word and keeps its children compacted, so the child of slot
    `k` sits at the number of occupied slots below `k` (the popcount trick).
    Words are naturals below 2^64 with Go's operators from `Bits`. */
module Bitmap {
  import opened Wrappers
  import opened Bits

  /** Width of a band in hash digits. */
  const ShiftWidth: nat := 6
  /** The deepest valid level: levels 0..10 cover all 64 hash digits. */
  const MaxOffset: int := 10
  /** Go's `^uint64(0)`. */
  const AllOnes: Word := WordLimit - 1

  /** The mask of one band, `(1 << 6) - 1`: exactly the six low digits. */
  function BandMask(): (r: Word)
    ensures forall j: nat :: Bit(r, j) <==> j < ShiftWidth
    ensures r == 63
  {
    var r := Pow2(ShiftWidth) - 1;
    forall j: nat
      ensures Bit(r, j) <==> j < ShiftWidth
    {
      BitOfLowOnes(ShiftWidth, j);
    }
    r
  }

  /** The band of `hash` at level `offset`: `(hash >> (6*offset)) & 63`.
      Its digits are the six hash digits starting at `6*offset`. */
  function Band(hash: Word, offset: nat): (k: nat)
    ensures k < 64
    ensures forall j: nat :: Bit(k, j) <==> j < ShiftWidth && Bit(hash, offset * ShiftWidth + j)
  {
    var k := And(Shr(hash, offset * ShiftWidth), BandMask());
    ShrBits(hash, offset * ShiftWidth);
    AndBits(Shr(hash, offset * ShiftWidth), BandMask());
    BelowPow2(k, ShiftWidth);
    k
  }

  /** The one-hot mask of the slot `hash` selects at level `offset`,
      `1 << band`; the source panics outside the levels 0..10. */
  function Position(hash: Word, offset: int): (r: Outcome<Word>)
    ensures r.Ok? <==> 0 <= offset <= MaxOffset
    ensures r.Ok? ==> r.value == Pow2(Band(hash, offset))
    ensures r.Ok? ==> forall j: nat :: Bit(r.value, j) <==> j == Band(hash, offset)
  {
    if offset < 0 || offset > MaxOffset then Panic("bitmap: offset out of valid HAMT range")
    else
      var k := Band(hash, offset);
      SlotIsWord(k);
      forall j: nat
        ensures Bit(Pow2(k), j) <==> j == k
      {
        BitOfPow2(k, j);
      }
      Ok(Pow2(k))
  }

  /** Go's `bitmap | position`: the bits of `position` are added and every
      other bit is unchanged. */
  function Next(bitmap: Word, position: Word): (r: Word)
    ensures forall j: nat {:trigger Bit(r, j)} :: Bit(r, j) <==> Bit(bitmap, j) || Bit(position, j)
  {
    var r := Or(bitmap, position);
    OrBits(bitmap, position);
    WordDigits(bitmap);
    WordDigits(position);
    WordDigits(r);
    r
  }

  /** Go's `bitmap &^ position`: the bits of `position` are cleared and
      every other bit is unchanged. */
  function Without(bitmap: Word, position: Word): (r: Word)
    ensures forall j: nat {:trigger Bit(r, j)} :: Bit(r, j) <==> Bit(bitmap, j) && !Bit(position, j)
  {
    var r := AndNot(bitmap, position);
    AndNotBits(bitmap, position);
    WordDigits(bitmap);
    WordDigits(r);
    r
  }

  /** Go's `bitmap & position != 0`: some bit of `position` is occupied. */
  predicate Has(bitmap: Word, position: Word)
  {
    And(bitmap, position) != 0
  }

  /** The two naturals share a one digit. */
  ghost predicate Shared(a: nat, b: nat) {
    exists j: nat :: Bit(a, j) && Bit(b, j)
  }

  /** `Has` holds exactly when the two words share a one digit. */
  lemma HasShared(bitmap: Word, position: Word)
    ensures Has(bitmap, position) <==> Shared(bitmap, position)
  {
    var both := And(bitmap, position);
    AndBits(bitmap, position);
    NonZeroDigit(both);
    if Has(bitmap, position) {
      var j: nat :| Bit(both, j);
      assert Bit(bitmap, j) && Bit(position, j);
    }
    if Shared(bitmap, position) {
      var j: nat :| Bit(bitmap, j) && Bit(position, j);
      assert Bit(both, j);
    }
  }

  /** For a one-hot slot mask, `Has` is the slot's digit. */
  lemma HasSlot(bitmap: Word, k: nat)
    requires k < 64
    ensures Pow2(k) < WordLimit
    ensures Has(bitmap, Pow2(k)) <==> Bit(bitmap, k)
  {
    SlotIsWord(k);
    HasShared(bitmap, Pow2(k));
    BitOfPow2(k, k);
    if Has(bitmap, Pow2(k)) {
      var j: nat :| Bit(bitmap, j) && Bit(Pow2(k), j);
      BitOfPow2(k, j);
    }
  }

  /** A non-zero position is present after `Next` and absent after
      `Without`, whatever the bitmap held. */
  lemma HasNextWithout(bitmap: Word, position: Word)
    requires position != 0
    ensures Has(Next(bitmap, position), position)
    ensures !Has(Without(bitmap, position), position)
  {
    NonZeroDigit(position);
    var j: nat :| Bit(position, j);
    HasShared(Next(bitmap, position), position);
    HasShared(Without(bitmap, position), position);
  }

  /** Occupying slot `k` changes only slot `k`'s presence, and so does
      clearing it. */
  lemma HasOtherSlot(bitmap: Word, k: nat, j: nat)
    requires k < 64 && j < 64
    ensures Pow2(k) < WordLimit && Pow2(j) < WordLimit
    ensures Has(Next(bitmap, Pow2(k)), Pow2(j)) <==> Bit(bitmap, j) || j == k
    ensures Has(Without(bitmap, Pow2(k)), Pow2(j)) <==> Bit(bitmap, j) && j != k
  {
    SlotIsWord(k);
    SlotIsWord(j);
    HasSlot(Next(bitmap, Pow2(k)), j);
    HasSlot(Without(bitmap, Pow2(k)), j);
    BitOfPow2(k, j);
  }

  /** Occupying a free slot adds its mask to the bitmap. */
  lemma NextOfFreeSlot(bitmap: Word, k: nat)
    requires k < 64 && !Bit(bitmap, k)
    ensures Pow2(k) < WordLimit
    ensures Next(bitmap, Pow2(k)) == bitmap + Pow2(k)
  {
    SlotIsWord(k);
    forall j: nat
      ensures !(Bit(bitmap, j) && Bit(Pow2(k), j))
    {
      BitOfPow2(k, j);
    }
    OrDisjoint(bitmap, Pow2(k));
  }

  /** Clearing an occupied slot subtracts its mask from the bitmap. */
  lemma WithoutOfOccupiedSlot(bitmap: Word, k: nat)
    requires k < 64 && Bit(bitmap, k)
    ensures Pow2(k) < WordLimit
    ensures Without(bitmap, Pow2(k)) == bitmap - Pow2(k)
  {
    SlotIsWord(k);
    var w := Without(bitmap, Pow2(k));
    OrBits(w, Pow2(k));
    forall j: nat
      ensures !(Bit(w, j) && Bit(Pow2(k), j))
      ensures Bit(Or(w, Pow2(k)), j) == Bit(bitmap, j)
    {
      BitOfPow2(k, j);
    }
    OrDisjoint(w, Pow2(k));
    Extensionality(Or(w, Pow2(k)), bitmap);
  }

  /** The branch of one occupied slot `k`: its bitmap is 2^k, built from
      the empty bitmap, and the slot is its only child. */
  lemma OneSlot(k: nat)
    requires k < 64
    ensures Pow2(k) < WordLimit
    ensures Next(0, Pow2(k)) == Pow2(k)
    ensures Popcount(Pow2(k)) == 1
    ensures Has(Pow2(k), Pow2(k)) && Index(Pow2(k), Pow2(k)) == (0, true)
  {
    ZeroBit(k);
    NextOfFreeSlot(0, k);
    PopcountBelowNext(0, k, 64);
    PopcountBelowNext(0, k, k);
    PopcountBelowZero(64);
    PopcountBelowZero(k);
    BitOfPow2(k, k);
    HasSlot(Pow2(k), k);
    IndexOfSlot(Pow2(k), k);
  }

  /** The branch of two occupied slots `k1 != k2`: the lower slot has
      index 0 and the higher one index 1. */
  lemma TwoSlots(k1: nat, k2: nat)
    requires k1 < 64 && k2 < 64 && k1 != k2
    ensures Pow2(k1) < WordLimit && Pow2(k2) < WordLimit
    ensures Popcount(Next(Pow2(k1), Pow2(k2))) == 2
    ensures Has(Next(Pow2(k1), Pow2(k2)), Pow2(k1)) && Has(Next(Pow2(k1), Pow2(k2)), Pow2(k2))
    ensures Index(Next(Pow2(k1), Pow2(k2)), Pow2(k1)) == (if k1 < k2 then 0 else 1, true)
    ensures Index(Next(Pow2(k1), Pow2(k2)), Pow2(k2)) == (if k2 < k1 then 0 else 1, true)
    ensures Index(Pow2(k1), Pow2(k2)) == (if k1 < k2 then 1 else 0, true)
  {
    SlotIsWord(k1);
    SlotIsWord(k2);
    var b := Next(Pow2(k1), Pow2(k2));
    TwoSlotCount(k1, k2, 64);
    TwoSlotCount(k1, k2, k1);
    TwoSlotCount(k1, k2, k2);
    HasOtherSlot(Pow2(k1), k2, k1);
    HasOtherSlot(Pow2(k1), k2, k2);
    BitOfPow2(k1, k1);
    IndexOfSlot(b, k1);
    IndexOfSlot(b, k2);
    IndexOfSlot(Pow2(k1), k2);
    OneSlotCount(k1, k2);
  }

  /** Counting the digits of `2^k1 | 2^k2` below `n`. */
  lemma TwoSlotCount(k1: nat, k2: nat, n: nat)
    requires k1 < 64 && k2 < 64 && k1 != k2
    ensures Pow2(k1) < WordLimit && Pow2(k2) < WordLimit
    ensures PopcountBelow(Next(Pow2(k1), Pow2(k2)), n) == (if k1 < n then 1 else 0) + (if k2 < n then 1 else 0)
  {
    SlotIsWord(k1);
    BitOfPow2(k1, k2);
    PopcountBelowNext(Pow2(k1), k2, n);
    OneSlotCount(k1, n);
  }

  /** Counting the digits of 2^k below `n`. */
  lemma OneSlotCount(k: nat, n: nat)
    ensures PopcountBelow(Pow2(k), n) == if k < n then 1 else 0
  {
    ZeroBit(k);
    forall j: nat
      ensures (Bit(Pow2(k), j) <==> j == k) && !Bit(0, j)
    {
      BitOfPow2(k, j);
      ZeroBit(j);
    }
    PopcountBelowAdd(0, Pow2(k), k, n);
    PopcountBelowZero(n);
  }

  /** The band is the arithmetic `(hash / 2^(6*offset)) % 64`. */
  lemma BandArithmetic(hash: Word, offset: nat)
    ensures Band(hash, offset) == hash / Pow2(offset * ShiftWidth) % 64
  {
    ShrIsDiv(hash, offset * ShiftWidth);
    AndLowIsMod(Shr(hash, offset * ShiftWidth), ShiftWidth);
    assert Pow2(ShiftWidth) == 64;
  }

  /** Levels 0..10 read every digit of a word, so two words whose bands
      agree at every valid level are equal. */
  lemma BandsDetermineWord(h1: Word, h2: Word)
    requires forall o: nat | o <= MaxOffset :: Band(h1, o) == Band(h2, o)
    ensures h1 == h2
  {
    WordDigits(h1);
    WordDigits(h2);
    forall j: nat
      ensures Bit(h1, j) == Bit(h2, j)
    {
      if j < 64 {
        var o, i := j / ShiftWidth, j % ShiftWidth;
        assert o * ShiftWidth + i == j;
        assert Bit(Band(h1, o), i) == Bit(Band(h2, o), i);
      }
    }
    Extensionality(h1, h2);
  }

  /** Two hashes select the same slot at a valid level exactly when their
      bands there agree. */
  lemma SamePosition(h1: Word, h2: Word, offset: int)
    requires 0 <= offset <= MaxOffset
    ensures Position(h1, offset) == Position(h2, offset) <==> Band(h1, offset) == Band(h2, offset)
  {
    var k1, k2 := Band(h1, offset), Band(h2, offset);
    BitOfPow2(k1, k1);
    BitOfPow2(k2, k1);
  }

  /** All bits below the most significant set bit of `value`, and all
      ones for 0, computed as in the source by smearing the top bit
      downwards and shifting once: for `value > 0` it is
      2^floor(log2 value) - 1. */
  function MsbMask(value: Word): (r: Word)
    ensures value == 0 ==> r == AllOnes
    ensures value != 0 ==> r == Pow2(Msb(value)) - 1
  {
    if value == 0 then AllOnes
    else
      var m := Msb(value);
      WordDigits(value);
      SmearStart(value, m);
      var x1 := Smear(value, 1);
      SmearStep(value, m, 1, 1);
      var x2 := Smear(x1, 2);
      SmearStep(x1, m, 2, 2);
      var x3 := Smear(x2, 4);
      SmearStep(x2, m, 4, 4);
      var x4 := Smear(x3, 8);
      SmearStep(x3, m, 8, 8);
      var x5 := Smear(x4, 16);
      SmearStep(x4, m, 16, 16);
      var x6 := Smear(x5, 32);
      SmearStep(x5, m, 32, 32);
      SmearedMask(x6, m);
      SlotIsWord(m);
      Shr(x6, 1)
  }

  /** `x` has its top digit at `m` and every digit from `m - w + 1` up to
      `m` set. */
  ghost predicate Smeared(x: nat, m: nat, w: nat) {
    (forall j: nat :: Bit(x, j) ==> j <= m) &&
    (forall j: nat :: j <= m < j + w ==> Bit(x, j))
  }

  /** Once the run of ones reaches digit 0, dropping the lowest digit
      leaves exactly the digits below `m`. */
  lemma SmearedMask(x: nat, m: nat)
    requires m < 64 && Smeared(x, m, 64)
    ensures Shr(x, 1) == Pow2(m) - 1
  {
    var r := Shr(x, 1);
    ShrBits(x, 1);
    forall j: nat
      ensures Bit(r, j) == Bit(Pow2(m) - 1, j)
    {
      BitOfLowOnes(m, j);
    }
    Extensionality(r, Pow2(m) - 1);
  }

  /** One smearing step of the source, `x |= x >> s`. */
  function Smear(x: nat, s: nat): nat {
    Or(x, Shr(x, s))
  }

  /** Digit `j` of the smeared word is digit `j` or digit `j + s` of `x`. */
  lemma SmearBits(x: nat, s: nat)
    ensures forall j: nat :: Bit(Smear(x, s), j) == (Bit(x, j) || Bit(x, j + s))
  {
    OrBits(x, Shr(x, s));
    ShrBits(x, s);
    forall j: nat
      ensures Bit(Smear(x, s), j) == (Bit(x, j) || Bit(x, j + s))
    {
      assert Bit(Shr(x, s), j) == Bit(x, j + s);
    }
  }

  /** A non-zero natural is smeared by width one at its top digit. */
  lemma SmearStart(x: nat, m: nat)
    requires x != 0 && m == Msb(x)
    ensures Smeared(x, m, 1)
  {
  }

  /** One smearing step `x | (x >> s)` widens the run of ones below the top
      digit by `s`. */
  lemma SmearStep(x: nat, m: nat, w: nat, s: nat)
    requires Smeared(x, m, w)
    requires 0 < s <= w
    ensures Smeared(Smear(x, s), m, w + s)
  {
    var y := Smear(x, s);
    SmearBits(x, s);
    forall j: nat | Bit(y, j)
      ensures j <= m
    {
      if !Bit(x, j) {
        assert Bit(x, j + s);
      }
    }
    forall j: nat | j <= m < j + w + s
      ensures Bit(y, j)
    {
      if j + w <= m {
        assert Bit(x, j + s);
      } else {
        assert Bit(x, j);
      }
    }
  }

  /** The compacted child index of `position`: the number of occupied slots
      below its highest set bit, and `false` for the degenerate zero mask. */
  function Index(bitmap: Word, position: Word): (r: (nat, bool))
    ensures r.1 <==> position != 0
    ensures position == 0 ==> r.0 == 0
    ensures position != 0 ==> r.0 == PopcountBelow(bitmap, Msb(position))
  {
    var mask := MsbMask(position);
    MsbMaskOfNonZero(position);
    if mask == AllOnes then (0, false)
    else
      WordDigits(position);
      CountBelowMask(bitmap, Msb(position));
      (Popcount(And(bitmap, mask)), true)
  }

  /** Masking with 2^m - 1 keeps the count below digit `m`. */
  lemma CountBelowMask(bitmap: Word, m: nat)
    requires m < 64
    ensures And(bitmap, Pow2(m) - 1) < WordLimit
    ensures Popcount(And(bitmap, Pow2(m) - 1)) == PopcountBelow(bitmap, m)
  {
    var masked := And(bitmap, Pow2(m) - 1);
    AndBits(bitmap, Pow2(m) - 1);
    forall j: nat
      ensures Bit(masked, j) == (Bit(bitmap, j) && j < m)
    {
      BitOfLowOnes(m, j);
    }
    WordDigits(bitmap);
    WordDigits(masked);
    PopcountBelowCut(bitmap, masked, m, 64);
  }

  /** Only the zero mask is sent to all ones. */
  lemma MsbMaskOfNonZero(value: Word)
    ensures MsbMask(value) == AllOnes <==> value == 0
  {
    if value != 0 {
      WordDigits(value);
      SlotIsWord(Msb(value));
    }
  }

  /** For the mask of slot `k`, `Index` is the number of occupied slots
      below `k`. */
  lemma IndexOfSlot(bitmap: Word, k: nat)
    requires k < 64
    ensures Pow2(k) < WordLimit
    ensures Index(bitmap, Pow2(k)) == (PopcountBelow(bitmap, k), true)
  {
    SlotIsWord(k);
    MsbOfSlot(k);
  }

  /** The highest digit of 2^k is `k`. */
  lemma MsbOfSlot(k: nat)
    ensures Msb(Pow2(k)) == k
  {
    BitOfPow2(k, k);
    BitOfPow2(k, Msb(Pow2(k)));
  }

  /** An occupied slot's index lies inside the compacted children. */
  lemma IndexInRange(bitmap: Word, k: nat)
    requires k < 64 && Bit(bitmap, k)
    ensures PopcountBelow(bitmap, k) < Popcount(bitmap)
  {
    PopcountBelowMonotone(bitmap, k + 1, 64);
  }

  /** `msbMask` on zero, on a power of two and on a number that is not one. */
  lemma MsbMaskExamples()
    ensures MsbMask(0) == AllOnes
    ensures MsbMask(8) == 7
    ensures MsbMask(10) == 7
  {
    assert Msb(8) == 3;
    assert Msb(10) == 3;
  }

  /** Occupying slots 2, 5 and 10 in turn gives the bitmap 1060. */
  lemma NextExample()
    ensures Next(Next(Next(0, 4), 32), 1024) == 1060
  {
    assert Pow2(2) == 4 && Pow2(5) == 32 && Pow2(10) == 1024;
    ZeroBit(2);
    NextOfFreeSlot(0, 2);
    assert !Bit(4, 5);
    NextOfFreeSlot(4, 5);
    assert !Bit(36, 10);
    NextOfFreeSlot(36, 10);
  }

  /** In the bitmap of slots 2, 5 and 10 those slots have indexes 0, 1
      and 2, and the zero position has no index. */
  lemma IndexExamples()
    ensures Index(1060, 4) == (0, true)
    ensures Index(1060, 32) == (1, true)
    ensures Index(1060, 1024) == (2, true)
    ensures Index(1060, 0) == (0, false)
  {
    assert Pow2(2) == 4 && Pow2(5) == 32 && Pow2(10) == 1024;
    IndexOfSlot(1060, 2);
    IndexOfSlot(1060, 5);
    IndexOfSlot(1060, 10);
    CountsOf1060();
  }

  /** The occupied slots of 1060 = 2^2 + 2^5 + 2^10. */
  lemma CountsOf1060()
    ensures PopcountBelow(1060, 2) == 0
    ensures PopcountBelow(1060, 5) == 1
    ensures PopcountBelow(1060, 10) == 2
  {
    assert !Bit(1060, 0) && !Bit(1060, 1) && Bit(1060, 2) && !Bit(1060, 3) && !Bit(1060, 4);
    assert Bit(1060, 5) && !Bit(1060, 6) && !Bit(1060, 7) && !Bit(1060, 8) && !Bit(1060, 9);
  }

  /** Occupying a free slot `k` adds one to every count that covers `k`. */
  lemma PopcountBelowNext(bitmap: Word, k: nat, n: nat)
    requires k < 64 && !Bit(bitmap, k)
    ensures Pow2(k) < WordLimit
    ensures PopcountBelow(Next(bitmap, Pow2(k)), n) == PopcountBelow(bitmap, n) + (if k < n then 1 else 0)
  {
    SlotIsWord(k);
    var y := Next(bitmap, Pow2(k));
    forall j: nat
      ensures Bit(y, j) <==> Bit(bitmap, j) || j == k
    {
      BitOfPow2(k, j);
    }
    PopcountBelowAdd(bitmap, y, k, n);
  }

  /** Clearing an occupied slot `k` removes one from every count that
      covers `k`. */
  lemma PopcountBelowWithout(bitmap: Word, k: nat, n: nat)
    requires k < 64 && Bit(bitmap, k)
    ensures Pow2(k) < WordLimit
    ensures PopcountBelow(Without(bitmap, Pow2(k)), n) + (if k < n then 1 else 0) == PopcountBelow(bitmap, n)
  {
    SlotIsWord(k);
    var y := Without(bitmap, Pow2(k));
    forall j: nat
      ensures Bit(y, j) <==> Bit(bitmap, j) && j != k
    {
      BitOfPow2(k, j);
    }
    PopcountBelowAdd(y, bitmap, k, n);
  }

  /** The mixing function of SplitMix64: an xor-shift by 30, a multiply by
      0xBF58476D1CE4E589, an xor-shift by 27, a multiply by
      0x94D049BB133111EB and an xor-shift by 31, all modulo 2^64 (the
      source's `& mask64` steps are identities on 64-bit words). */
  function SplitMix64(x: bv64): (y: bv64)
    ensures UnmixSplitMix64(y) == x
  {
    var y := XorShift31(MulMix2(XorShift27(MulMix1(XorShift30(x)))));
    UnXorShift31Inverts(MulMix2(XorShift27(MulMix1(XorShift30(x)))));
    UnMulMix2Inverts(XorShift27(MulMix1(XorShift30(x))));
    UnXorShift27Inverts(MulMix1(XorShift30(x)));
    UnMulMix1Inverts(XorShift30(x));
    UnXorShift30Inverts(x);
    y
  }

  /** The inverse of `SplitMix64`: the inverse steps in reverse order. */
  function UnmixSplitMix64(y: bv64): bv64 {
    UnXorShift30(UnMulMix1(UnXorShift27(UnMulMix2(UnXorShift31(y)))))
  }

  /** Distinct inputs give distinct outputs: SplitMix64 permutes the 64-bit
      words. */
  lemma SplitMix64Injective(x: bv64, y: bv64)
    requires SplitMix64(x) == SplitMix64(y)
    ensures x == y
  {
  }

  function XorShift30(x: bv64): bv64 { x ^ (x >> 30) }
  function XorShift27(x: bv64): bv64 { x ^ (x >> 27) }
  function XorShift31(x: bv64): bv64 { x ^ (x >> 31) }
  function MulMix1(x: bv64): bv64 { x * 0xBF58_476D_1CE4_E589 }
  function MulMix2(x: bv64): bv64 { x * 0x94D0_49BB_1331_11EB }

  function UnXorShift30(y: bv64): bv64 { y ^ (y >> 30) ^ (y >> 60) }
  function UnXorShift27(y: bv64): bv64 { y ^ (y >> 27) ^ (y >> 54) }
  function UnXorShift31(y: bv64): bv64 { y ^ (y >> 31) ^ (y >> 62) }
  /** Multiplication by the inverses of the two odd multipliers mod 2^64. */
  function UnMulMix1(y: bv64): bv64 { y * 0x52A0_046C_7E7D_20B9 }
  function UnMulMix2(y: bv64): bv64 { y * 0x3196_42B2_D24D_8EC3 }

  lemma UnXorShift30Explicit(x: bv64) ensures UnXorShift30(x ^ (x >> 30)) == x {}
  lemma UnXorShift27Explicit(x: bv64) ensures UnXorShift27(x ^ (x >> 27)) == x {}
  lemma UnXorShift31Explicit(x: bv64) ensures UnXorShift31(x ^ (x >> 31)) == x {}
  lemma UnMulMix1Explicit(x: bv64) ensures UnMulMix1(x * 0xBF58_476D_1CE4_E589) == x {}
  lemma UnMulMix2Explicit(x: bv64) ensures UnMulMix2(x * 0x94D0_49BB_1331_11EB) == x {}

  lemma UnXorShift30Inverts(x: bv64) ensures UnXorShift30(XorShift30(x)) == x { UnXorShift30Explicit(x); }
  lemma UnXorShift27Inverts(x: bv64) ensures UnXorShift27(XorShift27(x)) == x { UnXorShift27Explicit(x); }
  lemma UnXorShift31Inverts(x: bv64) ensures UnXorShift31(XorShift31(x)) == x { UnXorShift31Explicit(x); }
  lemma UnMulMix1Inverts(x: bv64) ensures UnMulMix1(MulMix1(x)) == x { UnMulMix1Explicit(x); }
  lemma UnMulMix2Inverts(x: bv64) ensures UnMulMix2(MulMix2(x)) == x { UnMulMix2Explicit(x); }
}

=== FILE: bits.dfy ===
/** Unsigned 64-bit words as the naturals below 2^64, with Go's bitwise
    operators defined digit by digit.  A word is read through `Bit`, its
    binary digits; every operator is characterised by what it does to each
    digit, and two words with the same digits are equal (`Extensionality`). */
module Bits {

  /** 2^n. */
  function Pow2(n: nat): (r: nat)
    ensures r >= 1
  {
    if n == 0 then 1 else 2 * Pow2(n - 1)
  }

  /** 2^64, one more than the largest unsigned 64-bit word. */
  const WordLimit: nat := 0x1_0000_0000_0000_0000

  /** Go's `uint64`. */
  type Word = x: nat | x < WordLimit

  /** Binary digit `j` of `x`. */
  predicate Bit(x: nat, j: nat)
    decreases j
  {
    if j == 0 then x % 2 == 1 else Bit(x / 2, j - 1)
  }

  /** Go's `a | b`. */
  function Or(a: nat, b: nat): nat
    decreases a + b
  {
    if a == 0 && b == 0 then 0
    else 2 * Or(a / 2, b / 2) + (if a % 2 == 1 || b % 2 == 1 then 1 else 0)
  }

  /** Go's `a & b`. */
  function And(a: nat, b: nat): nat
    decreases a + b
  {
    if a == 0 || b == 0 then 0
    else 2 * And(a / 2, b / 2) + (if a % 2 == 1 && b % 2 == 1 then 1 else 0)
  }

  /** Go's `a &^ b`: the digits of `a` that `b` does not have. */
  function AndNot(a: nat, b: nat): nat
    decreases a
  {
    if a == 0 then 0
    else 2 * AndNot(a / 2, b / 2) + (if a % 2 == 1 && b % 2 == 0 then 1 else 0)
  }

  /** Go's `x >> s` on unsigned words: `s` halvings. */
  function Shr(x: nat, s: nat): nat
    decreases s
  {
    if s == 0 then x else Shr(x / 2, s - 1)
  }

  /** Digit `j` of `a | b` is set when it is set in either operand. */
  lemma {:induction false} OrBits(a: nat, b: nat)
    ensures forall j: nat :: Bit(Or(a, b), j) == (Bit(a, j) || Bit(b, j))
    decreases a + b
  {
    if a == 0 && b == 0 {
      NoBitOfZero();
    } else {
      OrBits(a / 2, b / 2);
      BitsOfDouble(Or(a, b), Or(a / 2, b / 2));
      BitsOfDouble(a, a / 2);
      BitsOfDouble(b, b / 2);
    }
  }

  /** Digit `j` of `a & b` is set when it is set in both operands. */
  lemma {:induction false} AndBits(a: nat, b: nat)
    ensures forall j: nat :: Bit(And(a, b), j) == (Bit(a, j) && Bit(b, j))
    decreases a + b
  {
    if a == 0 || b == 0 {
      NoBitOfZero();
    } else {
      AndBits(a / 2, b / 2);
      BitsOfDouble(And(a, b), And(a / 2, b / 2));
      BitsOfDouble(a, a / 2);
      BitsOfDouble(b, b / 2);
    }
  }

  /** Digit `j` of `a &^ b` is set when `a` has it and `b` does not. */
  lemma {:induction false} AndNotBits(a: nat, b: nat)
    ensures forall j: nat :: Bit(AndNot(a, b), j) == (Bit(a, j) && !Bit(b, j))
    decreases a
  {
    if a == 0 {
      NoBitOfZero();
    } else {
      AndNotBits(a / 2, b / 2);
      BitsOfDouble(AndNot(a, b), AndNot(a / 2, b / 2));
      BitsOfDouble(a, a / 2);
      BitsOfDouble(b, b / 2);
    }
  }

  /** Digit `j` of `x >> s` is digit `j + s` of `x`. */
  lemma {:induction false} ShrBits(x: nat, s: nat)
    ensures forall j: nat :: Bit(Shr(x, s), j) == Bit(x, j + s)
    decreases s
  {
    if s > 0 {
      ShrBits(x / 2, s - 1);
      BitsOfDouble(x, x / 2);
    }
  }

  /** Zero has no digits. */
  lemma NoBitOfZero()
    ensures forall j: nat :: !Bit(0, j)
  {
    forall j: nat
      ensures !Bit(0, j)
    {
      ZeroBit(j);
    }
  }

  lemma {:induction false} ZeroBit(j: nat)
    ensures !Bit(0, j)
  {
    if j > 0 {
      ZeroBit(j - 1);
    }
  }

  /** The digits of `2 * h + c` are `c` followed by the digits of `h`. */
  lemma BitsOfDouble(r: nat, h: nat)
    requires r / 2 == h
    ensures forall j: nat | j > 0 :: Bit(r, j) == Bit(h, j - 1)
  {
  }

  /** The only digit of 2^k is digit `k`. */
  lemma {:induction false} BitOfPow2(k: nat, j: nat)
    ensures Bit(Pow2(k), j) <==> j == k
    decreases j
  {
    if j == 0 {
    } else if k == 0 {
      ZeroBit(j - 1);
    } else {
      BitOfPow2(k - 1, j - 1);
    }
  }

  /** The digits of 2^k - 1 are exactly those below `k`. */
  lemma {:induction false} BitOfLowOnes(k: nat, j: nat)
    ensures Bit(Pow2(k) - 1, j) <==> j < k
    decreases j
  {
    if k == 0 {
      ZeroBit(j);
    } else if j > 0 {
      assert (Pow2(k) - 1) / 2 == Pow2(k - 1) - 1;
      BitOfLowOnes(k - 1, j - 1);
    }
  }

  /** Two naturals with the same digits are equal. */
  lemma {:induction false} Extensionality(x: nat, y: nat)
    requires forall j: nat :: Bit(x, j) == Bit(y, j)
    ensures x == y
    decreases x + y
  {
    assert Bit(x, 0) == Bit(y, 0);
    if x != 0 || y != 0 {
      forall j: nat
        ensures Bit(x / 2, j) == Bit(y / 2, j)
      {
        assert Bit(x, j + 1) == Bit(y, j + 1);
      }
      Extensionality(x / 2, y / 2);
    }
  }

  /** `x` has no digit at `n` or above. */
  ghost predicate DigitsBelow(x: nat, n: nat) {
    forall j: nat :: Bit(x, j) ==> j < n
  }

  /** `x` is below 2^n exactly when it has no digit at `n` or above. */
  lemma {:induction false} BelowPow2(x: nat, n: nat)
    ensures x < Pow2(n) <==> DigitsBelow(x, n)
    decreases n
  {
    if n == 0 {
      if x != 0 {
        assert Bit(x, Msb(x));
      } else {
        NoBitOfZero();
      }
    } else {
      BelowPow2(x / 2, n - 1);
      BitsOfDouble(x, x / 2);
      if x < Pow2(n) {
        forall j: nat | Bit(x, j)
          ensures j < n
        {
          if j > 0 {
            assert Bit(x / 2, j - 1);
          }
        }
      } else {
        var i: nat :| Bit(x / 2, i) && i >= n - 1;
        assert Bit(x, i + 1);
      }
    }
  }

  /** The most significant one digit of a non-zero natural, i.e. the floor of its base-2 logarithm. */
  function Msb(x: nat): (m: nat)
    requires x != 0
    ensures Bit(x, m)
    ensures forall j: nat :: Bit(x, j) ==> j <= m
    decreases x
  {
    if x == 1 then
      assert forall j: nat | j > 0 :: Bit(x, j) == Bit(0, j - 1);
      NoBitOfZero();
      0
    else
      var m := 1 + Msb(x / 2);
      BitsOfDouble(x, x / 2);
      m
  }

  /** The number of one digits of `x` among digits `0 .. n-1`. */
  function PopcountBelow(x: nat, n: nat): nat
    decreases n
  {
    if n == 0 then 0 else PopcountBelow(x, n - 1) + (if Bit(x, n - 1) then 1 else 0)
  }

  /** Go's `bits.OnesCount64`. */
  function Popcount(x: Word): nat {
    PopcountBelow(x, 64)
  }

  lemma {:induction false} Pow2Add(a: nat, b: nat)
    ensures Pow2(a + b) == Pow2(a) * Pow2(b)
    decreases a
  {
    if a > 0 {
      Pow2Add(a - 1, b);
    }
  }

  lemma Pow2Of64()
    ensures Pow2(64) == WordLimit
  {
    assert Pow2(8) == 0x100;
    Pow2Add(8, 8);
    assert Pow2(16) == 0x1_0000;
    Pow2Add(16, 16);
    assert Pow2(32) == 0x1_0000_0000;
    Pow2Add(32, 32);
  }

  /** A natural is a word exactly when it has no digit at 64 or above. */
  lemma WordDigits(x: nat)
    ensures x < WordLimit <==> DigitsBelow(x, 64)
  {
    Pow2Of64();
    BelowPow2(x, 64);
  }

  /** `x` has a one digit. */
  ghost predicate SomeDigit(x: nat) {
    exists j: nat :: Bit(x, j)
  }

  /** The non-zero naturals are those with a one digit. */
  lemma NonZeroDigit(x: nat)
    ensures x != 0 <==> SomeDigit(x)
  {
    if x != 0 {
      assert Bit(x, Msb(x));
    } else {
      NoBitOfZero();
    }
  }

  /** The single-digit words are the masks 2^k for k below 64. */
  lemma SlotIsWord(k: nat)
    requires k < 64
    ensures Pow2(k) < WordLimit
  {
    forall j: nat | Bit(Pow2(k), j)
      ensures j < 64
    {
      BitOfPow2(k, j);
    }
    WordDigits(Pow2(k));
  }

  /** Zero has no one digits to count. */
  lemma {:induction false} PopcountBelowZero(n: nat)
    ensures PopcountBelow(0, n) == 0
  {
    if n > 0 {
      ZeroBit(n - 1);
      PopcountBelowZero(n - 1);
    }
  }

  /** Adding one digit `k` to `x` adds one to every count that covers `k`. */
  lemma {:induction false} PopcountBelowAdd(x: nat, y: nat, k: nat, n: nat)
    requires !Bit(x, k) && Bit(y, k)
    requires forall j: nat | j != k :: Bit(y, j) == Bit(x, j)
    ensures PopcountBelow(y, n) == PopcountBelow(x, n) + (if k < n then 1 else 0)
    decreases n
  {
    if n > 0 {
      PopcountBelowAdd(x, y, k, n - 1);
    }
  }

  /** Keeping only the digits of `x` below `k` keeps the count below `k`. */
  lemma {:induction false} PopcountBelowCut(x: nat, y: nat, k: nat, n: nat)
    requires forall j: nat :: Bit(y, j) == (Bit(x, j) && j < k)
    ensures PopcountBelow(y, n) == PopcountBelow(x, if n < k then n else k)
    decreases n
  {
    if n > 0 {
      PopcountBelowCut(x, y, k, n - 1);
    }
  }

  /** Counting past a one digit counts more. */
  lemma PopcountBelowStrict(x: nat, m: nat, n: nat)
    requires m < n && Bit(x, m)
    ensures PopcountBelow(x, m) < PopcountBelow(x, n)
  {
    PopcountBelowMonotone(x, m + 1, n);
  }

  /** Counting over more digits never counts fewer. */
  lemma {:induction false} PopcountBelowMonotone(x: nat, m: nat, n: nat)
    requires m <= n
    ensures PopcountBelow(x, m) <= PopcountBelow(x, n)
    decreases n
  {
    if m < n {
      PopcountBelowMonotone(x, m, n - 1);
    }
  }

  /** Division with remainder determines the quotient. */
  lemma {:induction false} DivUnique(x: nat, d: nat, q: nat, r: nat)
    requires 0 <= r < d && x == q * d + r
    ensures x / d == q && x % d == r
  {
    var q', r' := x / d, x % d;
    assert x == q' * d + r';
    if q > q' {
      MulStep(q' + 1, q, d);
    } else if q < q' {
      MulStep(q + 1, q', d);
    }
  }

  /** Multiplication by a natural is monotone. */
  lemma {:induction false} MulStep(a: nat, b: nat, d: nat)
    requires a <= b
    ensures a * d <= b * d
  {
    assert b * d == a * d + (b - a) * d;
  }

  /** Dividing by `2 * p` is halving and then dividing by `p`. */
  lemma {:induction false} HalveThenDivide(x: nat, p: nat)
    requires p > 0
    ensures x / (2 * p) == (x / 2) / p
    ensures x % (2 * p) == 2 * ((x / 2) % p) + x % 2
  {
    var q := (x / 2) / p;
    var r := (x / 2) % p;
    assert x / 2 == q * p + r;
    assert x == 2 * (x / 2) + x % 2;
    assert q * (2 * p) == 2 * (q * p);
    DivUnique(x, 2 * p, q, 2 * r + x % 2);
  }

  /** Go's `x >> s` is division by 2^s. */
  lemma {:induction false} ShrIsDiv(x: nat, s: nat)
    ensures Shr(x, s) == x / Pow2(s)
    decreases s
  {
    if s > 0 {
      ShrIsDiv(x / 2, s - 1);
      HalveThenDivide(x, Pow2(s - 1));
    }
  }

  /** Go's `x & (2^k - 1)` is the remainder modulo 2^k. */
  lemma {:induction false} AndLowIsMod(x: nat, k: nat)
    ensures And(x, Pow2(k) - 1) == x % Pow2(k)
    decreases k
  {
    if k == 0 {
      assert Pow2(k) == 1;
    } else if x == 0 {
      ZeroMod(Pow2(k));
    } else {
      AndLowIsMod(x / 2, k - 1);
      AndLowStep(x, k);
    }
  }

  /** The induction step of `AndLowIsMod`. */
  lemma AndLowStep(x: nat, k: nat)
    requires k > 0 && x != 0
    requires And(x / 2, Pow2(k - 1) - 1) == (x / 2) % Pow2(k - 1)
    ensures And(x, Pow2(k) - 1) == x % Pow2(k)
  {
    var p := Pow2(k - 1);
    assert Pow2(k) == 2 * p;
    AndOfOdd(x, p);
    HalveThenDivide(x, p);
  }

  /** Zero leaves no remainder. */
  lemma ZeroMod(d: nat)
    requires d > 0
    ensures 0 % d == 0
  {
    DivUnique(0, d, 0, 0);
  }

  /** One step of `x & (2p - 1)`: the low digit of `x` and the rest masked
      by `p - 1`. */
  lemma AndOfOdd(x: nat, p: nat)
    requires x != 0 && p > 0
    ensures And(x, 2 * p - 1) == 2 * And(x / 2, p - 1) + x % 2
  {
    DivUnique(2 * p - 1, 2, p - 1, 1);
  }

  /** `a | b` is `a + b` when the two share no digit. */
  lemma {:induction false} OrDisjoint(a: nat, b: nat)
    requires forall j: nat :: !(Bit(a, j) && Bit(b, j))
    ensures Or(a, b) == a + b
    decreases a + b
  {
    if a != 0 || b != 0 {
      assert !(Bit(a, 0) && Bit(b, 0));
      forall j: nat
        ensures !(Bit(a / 2, j) && Bit(b / 2, j))
      {
        assert Bit(a, j + 1) == Bit(a / 2, j);
        assert Bit(b, j + 1) == Bit(b / 2, j);
      }
      OrDisjoint(a / 2, b / 2);
    }
  }
}

=== FILE: builder.dfy ===
/** The builder of factory/builder.go: a factory together with the set of
    seeds it has issued.  Random seeds are drawn below 2^53 - 1 until
    enough of them are new to the set; each new one is recorded.  The
    random draws are a parameter, consumed in order; when they run out
    before enough new seeds are found the result is `Starved`, where the
    source would go on drawing.

    The set is the source's, whose adding can lose items
    (`Sets.SetLosesItems`), so a seed may be issued twice
    (`WrittenReissues`); `corrected` switches to the intended adding,
    under which every seed issued is new (`NextSeedsFresh`). */
module Builder {
  import opened Wrappers
  import opened GoInt
  import opened Bits
  import Hashing
  import Sets
  import Factories
  import Overrider

  /** `maxSafeInteger`: 2^53 - 1. */
  const MaxSafeInteger: int := 0x1F_FFFF_FFFF_FFFF

  /** What `rand.Int63n(maxSafeInteger)` yields: `[0, 2^53 - 1)`. */
  type Draw = x: Int64 | 0 <= x < MaxSafeInteger

  /** The text of Go's panic for `make` with a negative capacity. */
  const MakeSlicePanic := "runtime error: makeslice: cap out of range"

  /** The text `convertOverride` panics with. */
  const OverridePanic := "builder: overrides must be generated via Override()"

  /** The hash the seed set routes a seed by: an `int64`, hashed as its
      eight little-endian two's-complement bytes. */
  function SeedHash(seed: Int64): Word {
    var bits := (if seed < 0 then seed + 0x1_0000_0000_0000_0000 else seed) as bv64;
    Sets.HashOf(Hashing.Sized(8, bits))
  }

  // ---------------------------------------------------------------------
  // Drawing seeds

  /** The seeds drawn, the set of issued seeds after recording them and
      the draws left; or `Starved` when the draws ran out first. */
  datatype Drawn = Drawn(seeds: seq<Int64>, issued: Sets.HashSet<Int64>, rest: seq<Draw>) | Starved

  /** Recording a seed: the source's adding, or the intended one. */
  function Add(issued: Sets.HashSet<Int64>, seed: Int64, hashOf: Int64 -> Word, corrected: bool): Outcome<Sets.HashSet<Int64>> {
    if corrected then Sets.IntendedSet(issued, seed, hashOf) else Sets.Set(issued, seed, hashOf)
  }

  /** The set that records `history` in order. */
  function Issued(history: seq<Int64>, hashOf: Int64 -> Word, corrected: bool): Outcome<Sets.HashSet<Int64>> {
    if corrected then Sets.IntendedFromSlice(history, hashOf) else Sets.FromSlice(history, hashOf)
  }

  /** The loop of `nextSeeds`: while fewer than `size` seeds are drawn,
      take the next draw, skip it if the set has it, else append and
      record it. */
  function Loop(issued: Sets.HashSet<Int64>, hashOf: Int64 -> Word, corrected: bool, size: nat, next: seq<Int64>, draws: seq<Draw>): (r: Outcome<Drawn>)
    ensures r.Ok? && r.value.Drawn? ==>
      next <= r.value.seeds && (|next| <= size ==> |r.value.seeds| == size) &&
      (forall k | |next| <= k < |r.value.seeds| :: 0 <= r.value.seeds[k] < MaxSafeInteger) &&
      |r.value.rest| <= |draws|
    decreases |draws|
  {
    if |next| >= size then Ok(Drawn(next, issued, draws))
    else if |draws| == 0 then Ok(Starved)
    else
      var seed: Int64 := draws[0];
      var seen :- Sets.Has(issued, seed, hashOf);
      if seen then Loop(issued, hashOf, corrected, size, next, draws[1..])
      else
        var added :- Add(issued, seed, hashOf, corrected);
        Loop(added, hashOf, corrected, size, next + [seed], draws[1..])
  }

  /** `nextSeeds`: a negative size panics in `make`. */
  function NextSeeds(issued: Sets.HashSet<Int64>, size: int, draws: seq<Draw>, corrected: bool): (r: Outcome<Drawn>)
    ensures size < 0 ==> r == Panic(MakeSlicePanic)
    ensures r.Ok? && r.value.Drawn? ==>
      |r.value.seeds| == size && forall k | 0 <= k < size :: 0 <= r.value.seeds[k] < MaxSafeInteger
  {
    if size < 0 then Panic(MakeSlicePanic) else Loop(issued, SeedHash, corrected, size, [], draws)
  }

  /** `nextSeed`: the only seed of `nextSeeds(1)`. */
  function NextSeed(issued: Sets.HashSet<Int64>, draws: seq<Draw>, corrected: bool): (r: Outcome<Drawn>)
    ensures r.Ok? && r.value.Drawn? ==> |r.value.seeds| == 1 && 0 <= r.value.seeds[0] < MaxSafeInteger
  {
    NextSeeds(issued, 1, draws, corrected)
  }

  /** Some item of `items` has `x`'s hash. */
  ghost predicate Seen(x: Int64, items: seq<Int64>, hashOf: Int64 -> Word) {
    exists y | y in items :: hashOf(y) == hashOf(x)
  }

  /** Asking the set recording `history` about `x` tells whether some
      item of the history has `x`'s hash: always for the intended adding,
      and for the source's when the history's items of different hashes
      sit in different slots. */
  lemma HasIssued(history: seq<Int64>, x: Int64, hashOf: Int64 -> Word, corrected: bool)
    requires !corrected ==> Sets.DistinctSlots(history, hashOf)
    ensures Issued(history, hashOf, corrected).Ok?
    ensures Sets.Has(Issued(history, hashOf, corrected).value, x, hashOf) == Ok(Seen(x, history, hashOf))
  {
    if corrected {
      Sets.IntendedFromSliceContains(history, hashOf);
    } else {
      Sets.FromSliceContains(history, hashOf);
    }
    var s := Issued(history, hashOf, corrected).value;
    Sets.HasContains(s, x, hashOf);
    if exists y :: Sets.Contains(s, y, hashOf) && hashOf(y) == hashOf(x) {
      var y :| Sets.Contains(s, y, hashOf) && hashOf(y) == hashOf(x);
      Sets.LastOfHashIn(history, y, hashOf);
    }
    if Seen(x, history, hashOf) {
      var z :| z in history && hashOf(z) == hashOf(x);
      Sets.LastOfHashCovers(history, z, hashOf);
      var y :| Sets.LastOfHash(history, y, hashOf) && hashOf(y) == hashOf(z);
      assert Sets.Contains(s, y, hashOf);
    }
  }

  /** Recording one more seed is recording the longer history. */
  lemma IssuedSnoc(history: seq<Int64>, x: Int64, hashOf: Int64 -> Word, corrected: bool)
    requires Issued(history, hashOf, corrected).Ok?
    ensures Issued(history + [x], hashOf, corrected) == Add(Issued(history, hashOf, corrected).value, x, hashOf, corrected)
  {
    assert (history + [x])[..|history|] == history;
  }

  /** Fewer items keep their slots apart. */
  lemma DistinctSlotsWithin(items: seq<Int64>, fewer: seq<Int64>, hashOf: Int64 -> Word)
    requires Sets.DistinctSlots(items, hashOf)
    requires forall x | x in fewer :: x in items
    ensures Sets.DistinctSlots(fewer, hashOf)
  {
  }

  /** Each seed of `novel` is new: no item before it, in the history or
      among the seeds before it, has its hash. */
  ghost predicate FreshOver(history: seq<Int64>, novel: seq<Int64>, hashOf: Int64 -> Word) {
    forall k | 0 <= k < |novel| :: !Seen(novel[k], history + novel[..k], hashOf)
  }

  /** The seeds drawn after `next` are new, and the set records them
      after the history. */
  ghost predicate Accounted(history: seq<Int64>, next: seq<Int64>, r: Drawn, hashOf: Int64 -> Word, corrected: bool) {
    r.Drawn? && |next| <= |r.seeds| ==>
      var novel := r.seeds[|next|..];
      Issued(history + novel, hashOf, corrected) == Ok(r.issued) && FreshOver(history, novel, hashOf)
  }

  /** Each seed the loop appends is new: no item recorded before it, in
      the history or among the seeds drawn earlier, has its hash; and the
      set afterwards records the history followed by the new seeds. */
  lemma {:induction false} LoopFresh(history: seq<Int64>, issued: Sets.HashSet<Int64>, hashOf: Int64 -> Word, corrected: bool, size: nat, next: seq<Int64>, draws: seq<Draw>)
    requires Issued(history, hashOf, corrected) == Ok(issued)
    requires !corrected ==> Sets.DistinctSlots(history + draws, hashOf)
    ensures Loop(issued, hashOf, corrected, size, next, draws).Ok?
    ensures Accounted(history, next, Loop(issued, hashOf, corrected, size, next, draws).value, hashOf, corrected)
    decreases |draws|
  {
    if |next| >= size {
      assert history + next[|next|..] == history;
    } else if |draws| > 0 {
      var seed: Int64 := draws[0];
      var rest := draws[1..];
      LoopStep(history, issued, hashOf, corrected, draws);
      if Seen(seed, history, hashOf) {
        LoopUnfold(issued, hashOf, corrected, size, next, draws, true);
        LoopFresh(history, issued, hashOf, corrected, size, next, rest);
      } else {
        LoopUnfold(issued, hashOf, corrected, size, next, draws, false);
        var added := Add(issued, seed, hashOf, corrected).value;
        LoopFresh(history + [seed], added, hashOf, corrected, size, next + [seed], rest);
        FreshStep(history, seed, hashOf, corrected, Loop(added, hashOf, corrected, size, next + [seed], rest).value, next);
      }
    }
  }

  /** What `LoopFresh` needs to know about one draw. */
  lemma LoopStep(history: seq<Int64>, issued: Sets.HashSet<Int64>, hashOf: Int64 -> Word, corrected: bool, draws: seq<Draw>)
    requires |draws| > 0
    requires Issued(history, hashOf, corrected) == Ok(issued)
    requires !corrected ==> Sets.DistinctSlots(history + draws, hashOf)
    ensures Sets.Has(issued, draws[0], hashOf) == Ok(Seen(draws[0], history, hashOf))
    ensures !corrected ==>
      Sets.DistinctSlots(history + draws[1..], hashOf) && Sets.DistinctSlots(history + [draws[0]] + draws[1..], hashOf)
    ensures !Seen(draws[0], history, hashOf) ==>
      Add(issued, draws[0], hashOf, corrected).Ok? &&
      Issued(history + [draws[0]], hashOf, corrected) == Add(issued, draws[0], hashOf, corrected)
  {
    var seed: Int64 := draws[0];
    var grown := history + [seed];
    if !corrected {
      DistinctSlotsWithin(history + draws, history, hashOf);
      DistinctSlotsWithin(history + draws, grown + draws[1..], hashOf);
      DistinctSlotsWithin(history + draws, history + draws[1..], hashOf);
      DistinctSlotsWithin(history + draws, grown, hashOf);
      Sets.FromSliceOk(grown, hashOf);
    } else {
      Sets.IntendedFromSliceContains(grown, hashOf);
    }
    HasIssued(history, seed, hashOf, corrected);
    IssuedSnoc(history, seed, hashOf, corrected);
  }

  /** One turn of the loop, once the set has answered. */
  lemma LoopUnfold(issued: Sets.HashSet<Int64>, hashOf: Int64 -> Word, corrected: bool, size: nat, next: seq<Int64>, draws: seq<Draw>, seen: bool)
    requires |next| < size && |draws| > 0
    requires Sets.Has(issued, draws[0], hashOf) == Ok(seen)
    requires !seen ==> Add(issued, draws[0], hashOf, corrected).Ok?
    ensures Loop(issued, hashOf, corrected, size, next, draws) ==
      if seen then Loop(issued, hashOf, corrected, size, next, draws[1..])
      else Loop(Add(issued, draws[0], hashOf, corrected).value, hashOf, corrected, size, next + [draws[0]], draws[1..])
  {
  }

  /** The step of `LoopFresh` that appends a seed. */
  lemma FreshStep(history: seq<Int64>, seed: Int64, hashOf: Int64 -> Word, corrected: bool, after: Drawn, next: seq<Int64>)
    requires !Seen(seed, history, hashOf)
    requires after.Drawn? ==> next + [seed] <= after.seeds
    requires Accounted(history + [seed], next + [seed], after, hashOf, corrected)
    ensures Accounted(history, next, after, hashOf, corrected)
  {
    if after.Drawn? {
      var all := after.seeds;
      var novel := all[|next|..];
      var later := all[|next| + 1..];
      assert novel == [seed] + later;
      assert history + [seed] + later == history + novel;
      FreshCons(history, seed, later, hashOf);
    }
  }

  /** A new seed followed by seeds new after it. */
  lemma FreshCons(history: seq<Int64>, seed: Int64, later: seq<Int64>, hashOf: Int64 -> Word)
    requires !Seen(seed, history, hashOf)
    requires FreshOver(history + [seed], later, hashOf)
    ensures FreshOver(history, [seed] + later, hashOf)
  {
    var novel := [seed] + later;
    forall k | 0 <= k < |novel|
      ensures !Seen(novel[k], history + novel[..k], hashOf)
    {
      if k > 0 {
        assert novel[k] == later[k - 1];
        assert history + novel[..k] == history + [seed] + later[..k - 1];
      } else {
        assert history + novel[..0] == history;
      }
    }
  }

  /** Seeds each new with respect to the history and the ones before are
      pairwise different, and different from every seed of the history;
      their hashes are too. */
  lemma FreshDistinct(history: seq<Int64>, novel: seq<Int64>, hashOf: Int64 -> Word)
    requires FreshOver(history, novel, hashOf)
    ensures forall k, y | 0 <= k < |novel| && y in history :: hashOf(y) != hashOf(novel[k])
    ensures forall i, j | 0 <= i < j < |novel| :: hashOf(novel[i]) != hashOf(novel[j])
  {
    forall k, y | 0 <= k < |novel| && y in history
      ensures hashOf(y) != hashOf(novel[k])
    {
      assert y in history + novel[..k];
    }
    forall i, j | 0 <= i < j < |novel|
      ensures hashOf(novel[i]) != hashOf(novel[j])
    {
      assert novel[i] in history + novel[..j];
    }
  }

  /** `nextSeeds` never panics for a size of zero or more, and the seeds it
      draws are new: different from each other and from every seed issued
      before, by hash and so by value; the set afterwards records them
      too.  This holds for the intended adding always, and for the
      source's when the history and the draws keep their slots apart. */
  lemma NextSeedsFresh(history: seq<Int64>, issued: Sets.HashSet<Int64>, size: int, draws: seq<Draw>, corrected: bool)
    requires Issued(history, SeedHash, corrected) == Ok(issued)
    requires !corrected ==> Sets.DistinctSlots(history + draws, SeedHash)
    ensures NextSeeds(issued, size, draws, corrected).Panic? <==> size < 0
    ensures
      var r := NextSeeds(issued, size, draws, corrected);
      r.Ok? && r.value.Drawn? ==>
        Issued(history + r.value.seeds, SeedHash, corrected) == Ok(r.value.issued) &&
        (forall k | 0 <= k < |r.value.seeds| :: r.value.seeds[k] !in history) &&
        (forall i, j | 0 <= i < j < |r.value.seeds| :: r.value.seeds[i] != r.value.seeds[j])
  {
    if size >= 0 {
      LoopFresh(history, issued, SeedHash, corrected, size, [], draws);
      var r := NextSeeds(issued, size, draws, corrected);
      if r.Ok? && r.value.Drawn? {
        var seeds := r.value.seeds;
        assert seeds[0..] == seeds;
        FreshDistinct(history, seeds, SeedHash);
      }
    }
  }

  /** Three seeds whose hashes the source's adding mishandles, issued in
      order, and then a draw of the first one: the set no longer finds it,
      so the source issues it a second time, while the intended adding
      refuses it. */
  lemma WrittenReissues(x: Draw, y: Draw, z: Draw, hashOf: Int64 -> Word)
    requires Sets.Losing(hashOf(x), hashOf(y), hashOf(z))
    ensures Issued([x, y, z], hashOf, false).Ok? && Issued([x, y, z], hashOf, true).Ok?
    ensures
      var written := Loop(Issued([x, y, z], hashOf, false).value, hashOf, false, 1, [], [x]);
      written.Ok? && written.value.Drawn? && written.value.seeds == [x]
    ensures Loop(Issued([x, y, z], hashOf, true).value, hashOf, true, 1, [], [x]) == Ok(Starved)
  {
    Sets.WrittenLosesItems<Int64>(x, y, z, hashOf);
    Sets.FromSliceOk<Int64>([x, y, z], hashOf);
    var s := Issued([x, y, z], hashOf, false).value;
    Sets.SetOk(s, x, hashOf);
    HasIssued([x, y, z], x, hashOf, true);
    assert x in [x, y, z];
  }

  // ---------------------------------------------------------------------
  // Overrides

  /** What `overrides any` holds: nil, an `Overrider[P]`, or anything
      else. */
  datatype OverrideArg<!P> = NilArg | OverriderArg(o: Overrider.Overrider<P>) | OtherArg

  /** `convertOverride`. */
  function ConvertOverride<P>(arg: OverrideArg<P>): (r: Outcome<Factories.Partial<P>>)
    ensures arg.NilArg? ==> r == Ok(None)
    ensures arg.OverriderArg? ==> r == Ok(arg.o.fn)
    ensures arg.OtherArg? ==> r == Panic(OverridePanic)
  {
    match arg
    case NilArg => Ok(None)
    case OverriderArg(o) => Ok(Overrider.Func(o))
    case OtherArg => Panic(OverridePanic)
  }

  // ---------------------------------------------------------------------
  // Building

  /** A builder: the factory and the seeds issued so far. */
  datatype Handle<!T, !P> = Handle(factory: Factories.Factory<T, P>, issued: Sets.HashSet<Int64>)

  /** What a build returns with the seeds it drew, the builder's set
      afterwards and the draws left; or `OutOfDraws` when the draws ran out. */
  datatype Step<X> = Step(result: X, seeds: seq<Int64>, issued: Sets.HashSet<Int64>, rest: seq<Draw>) | OutOfDraws

  /** `Builder`: no seed issued yet. */
  function NewBuilder<T, P>(factory: Factories.Factory<T, P>): (h: Handle<T, P>)
    ensures Issued([], SeedHash, false) == Ok(h.issued) && Issued([], SeedHash, true) == Ok(h.issued)
  {
    Handle(factory, Sets.Empty())
  }

  /** `create` at each seed in turn, the first panic ending it. */
  function CreateAll<T, P>(factory: Factories.Factory<T, P>, overrides: Factories.Partial<P>, seeds: seq<Int64>): (r: Outcome<seq<T>>)
    ensures r.Ok? <==> forall i | 0 <= i < |seeds| :: Factories.Create(factory, overrides, seeds[i]).Ok?
    ensures r.Ok? ==> (|r.value| == |seeds| &&
      forall i | 0 <= i < |seeds| :: r.value[i] == Factories.Create(factory, overrides, seeds[i]).value)
    decreases |seeds|
  {
    if |seeds| == 0 then Ok([])
    else
      var first :- Factories.Create(factory, overrides, seeds[0]);
      var others :- CreateAll(factory, overrides, seeds[1..]);
      Ok([first] + others)
  }

  /** `Build`: a new seed first, then the override, then `create`. */
  function Build<T, P>(h: Handle<T, P>, arg: OverrideArg<P>, draws: seq<Draw>): Outcome<Step<T>> {
    var drawn :- NextSeed(h.issued, draws, false);
    if drawn.Starved? then Ok(OutOfDraws)
    else
      var overrides :- ConvertOverride(arg);
      var t :- Factories.Create(h.factory, overrides, drawn.seeds[0]);
      Ok(Step(t, drawn.seeds, drawn.issued, drawn.rest))
  }

  /** `BuildList`: `size` new seeds, then the override, then `create` at
      each seed in order. */
  function BuildList<T, P>(h: Handle<T, P>, size: int, arg: OverrideArg<P>, draws: seq<Draw>): Outcome<Step<seq<T>>> {
    var drawn :- NextSeeds(h.issued, size, draws, false);
    if drawn.Starved? then Ok(OutOfDraws)
    else
      var overrides :- ConvertOverride(arg);
      var ts :- CreateAll(h.factory, overrides, drawn.seeds);
      Ok(Step(ts, drawn.seeds, drawn.issued, drawn.rest))
  }

  /** `BuildWith`: `create` at the given seed; no seed is drawn or
      recorded. */
  function BuildWith<T, P>(h: Handle<T, P>, seed: Int64, arg: OverrideArg<P>): (r: Outcome<T>)
    ensures arg.OtherArg? ==> r == Panic(OverridePanic)
  {
    var overrides :- ConvertOverride(arg);
    Factories.Create(h.factory, overrides, seed)
  }

  /** The seeds `seed + int64(i)` for `i` below `n`, with `int64`
      wrap-around. */
  function SeedRun(seed: Int64, n: nat): (r: seq<Int64>)
    ensures |r| == n && forall i | 0 <= i < n :: r[i] == WrapInt64(seed + i)
  {
    seq<Int64>(n, (i: int) requires 0 <= i < n => WrapInt64(seed + i))
  }

  /** `BuildListWith`: a negative size panics in `make` before the
      override is looked at; element `i` is `create` at `seed + i`. */
  function BuildListWith<T, P>(h: Handle<T, P>, size: int, seed: Int64, arg: OverrideArg<P>): (r: Outcome<seq<T>>)
    ensures r.Ok? ==> (size >= 0 && ConvertOverride(arg).Ok? && |r.value| == size &&
      forall i | 0 <= i < size :: Factories.Create(h.factory, ConvertOverride(arg).value, WrapInt64(seed + i)) == Ok(r.value[i]))
  {
    if size < 0 then Panic(MakeSlicePanic)
    else
      var overrides :- ConvertOverride(arg);
      CreateAll(h.factory, overrides, SeedRun(seed, size))
  }

  /** `Duplicate`: the override converted, then `duplicate`. */
  function Duplicate<T, P>(h: Handle<T, P>, instance: T, arg: OverrideArg<P>): (r: Outcome<T>)
    ensures arg.OtherArg? ==> r == Panic(OverridePanic)
  {
    var overrides :- ConvertOverride(arg);
    Factories.Duplicate(h.factory, instance, overrides)
  }

  /** `BuildListWith` makes, for a size of zero or more and an accepted
      override, the instances `create` makes at `seed`, `seed + 1`, ...,
      wrapping around in `int64`; it succeeds exactly when each of them
      does. */
  lemma BuildListWithSpec<T, P>(h: Handle<T, P>, size: int, seed: Int64, arg: OverrideArg<P>)
    ensures size < 0 ==> BuildListWith(h, size, seed, arg) == Panic(MakeSlicePanic)
    ensures size >= 0 && arg.OtherArg? ==> BuildListWith(h, size, seed, arg) == Panic(OverridePanic)
    ensures size >= 0 && !arg.OtherArg? ==>
      (BuildListWith(h, size, seed, arg).Ok? <==> forall i | 0 <= i < size :: BuildWith(h, SeedRun(seed, size)[i], arg).Ok?)
  {
    if size >= 0 && !arg.OtherArg? {
      var overrides := ConvertOverride(arg).value;
      var run := SeedRun(seed, size);
      assert BuildListWith(h, size, seed, arg) == CreateAll(h.factory, overrides, run);
      assert forall i | 0 <= i < size :: BuildWith(h, run[i], arg) == Factories.Create(h.factory, overrides, run[i]);
      assert (forall i | 0 <= i < size :: BuildWith(h, run[i], arg).Ok?) <==>
        (forall i | 0 <= i < |run| :: Factories.Create(h.factory, overrides, run[i]).Ok?);
    }
  }

  /** `BuildWith` is `BuildListWith` of one. */
  lemma BuildWithIsListOfOne<T, P>(h: Handle<T, P>, seed: Int64, arg: OverrideArg<P>)
    ensures BuildListWith(h, 1, seed, arg) ==
      match BuildWith(h, seed, arg)
      case Ok(t) => Ok([t])
      case Panic(reason) => Panic(reason)
  {
    assert SeedRun(seed, 1) == [seed];
    if !arg.OtherArg? {
      CreateAllOne(h.factory, ConvertOverride(arg).value, seed);
    }
  }

  /** `create` at one seed, as a list. */
  lemma CreateAllOne<T, P>(factory: Factories.Factory<T, P>, overrides: Factories.Partial<P>, seed: Int64)
    ensures CreateAll(factory, overrides, [seed]) ==
      match Factories.Create(factory, overrides, seed)
      case Ok(t) => Ok([t])
      case Panic(reason) => Panic(reason)
  {
    assert [seed][1..] == [];
    assert CreateAll(factory, overrides, []) == Ok([]);
    match Factories.Create(factory, overrides, seed)
    case Ok(t) => assert [t] + [] == [t];
    case Panic(_) =>
  }

  /** `Build` is `BuildList` of one. */
  lemma BuildIsListOfOne<T, P>(h: Handle<T, P>, arg: OverrideArg<P>, draws: seq<Draw>)
    ensures BuildList(h, 1, arg, draws) ==
      match Build(h, arg, draws)
      case Ok(Step(t, seeds, issued, rest)) => Ok(Step([t], seeds, issued, rest))
      case Ok(OutOfDraws) => Ok(OutOfDraws)
      case Panic(reason) => Panic(reason)
  {
    var drawn := NextSeeds(h.issued, 1, draws, false);
    if drawn.Ok? && drawn.value.Drawn? && !arg.OtherArg? {
      var seeds := drawn.value.seeds;
      assert seeds == [seeds[0]];
      CreateAllOne(h.factory, ConvertOverride(arg).value, seeds[0]);
    }
  }

  /** The instances `BuildList` makes are those `create` makes at its
      seeds, and its seeds are new, different from each other and from
      every seed the builder issued before, and recorded afterwards —
      provided the seeds' slots in the source's set stay apart. */
  lemma BuildListFresh<T, P>(h: Handle<T, P>, history: seq<Int64>, size: int, arg: OverrideArg<P>, draws: seq<Draw>)
    requires Sets.FromSlice(history, SeedHash) == Ok(h.issued)
    requires Sets.DistinctSlots(history + draws, SeedHash)
    ensures size < 0 ==> BuildList(h, size, arg, draws) == Panic(MakeSlicePanic)
    ensures
      var r := BuildList(h, size, arg, draws);
      r.Ok? && r.value.Step? ==>
        size >= 0 && |r.value.result| == |r.value.seeds| == size &&
        (forall i | 0 <= i < size :: r.value.result[i] == Factories.Create(h.factory, ConvertOverride(arg).value, r.value.seeds[i]).value) &&
        (forall i | 0 <= i < size :: 0 <= r.value.seeds[i] < MaxSafeInteger && r.value.seeds[i] !in history) &&
        (forall i, j | 0 <= i < j < size :: r.value.seeds[i] != r.value.seeds[j]) &&
        Sets.FromSlice(history + r.value.seeds, SeedHash) == Ok(r.value.issued)
  {
    NextSeedsFresh(history, h.issued, size, draws, false);
  }

  /** `Duplicate` is the factory's `duplicate` under the converted
      override: with no override it gives back what the factory's
      properties rebuild, and an override that is not an `Overrider`
      panics. */
  lemma DuplicateSpec<T, P>(h: Handle<T, P>, instance: T, arg: OverrideArg<P>)
    ensures arg.NilArg? ==> Duplicate(h, instance, arg) == Ok(h.factory.instantiate(h.factory.retrieve(instance)))
    ensures arg.OverriderArg? && arg.o.fn.Some? ==>
      var edited := arg.o.fn.value(h.factory.retrieve(instance));
      (Duplicate(h, instance, arg).Ok? <==> edited.Ok?) &&
      (edited.Ok? ==> Duplicate(h, instance, arg) == Ok(h.factory.instantiate(edited.value)))
  {
    if arg.OverriderArg? && arg.o.fn.Some? {
      Factories.DuplicateEdits(h.factory, instance, arg.o.fn.value);
    }
  }
}

=== FILE: enum_factory.dfy ===
/** The enum factory of factory/enum_factory.go: a set of candidates, from
    which `Prepare` removes the exclusions the override names and picks the
    one at the seed's position, unless the override chose a value. */
module EnumFactory {
  import opened Wrappers
  import opened Bits
  import opened GoInt
  import Sets
  import Factories

  /** `EnumFactory[T]`: the candidate set, built by `NewFromSlice`.  `zero`
      is Go's zero value of `T` and `hashOf` the hash the sets route by. */
  datatype Enum<!T> = Enum(candidates: Sets.HashSet<T>, zero: T, hashOf: T -> Word)

  /** `EnumProperties[T]`. */
  datatype Properties<T> = Properties(value: T, exclusions: seq<T>)

  /** The candidate set is one the set operations built. */
  ghost predicate Valid<T(!new)>(f: Enum<T>) {
    Sets.Valid(f.candidates, f.hashOf)
  }

  /** `NewEnumFactory`. */
  function NewEnum<T(==)>(candidates: seq<T>, zero: T, hashOf: T -> Word): Outcome<Enum<T>> {
    var candidateSet :- Sets.FromSlice(candidates, hashOf);
    Ok(Enum(candidateSet, zero, hashOf))
  }

  /** Building a factory never panics. */
  lemma NewEnumOk<T(!new)>(candidates: seq<T>, zero: T, hashOf: T -> Word)
    ensures NewEnum(candidates, zero, hashOf).Ok?
    ensures NewEnum(candidates, zero, hashOf).value.candidates == Sets.FromSlice(candidates, hashOf).value
  {
    Sets.FromSliceOk(candidates, hashOf);
  }

  /** When candidates of different hashes sit in different level-0 slots,
      a new factory is valid, and keeps of each hash the last candidate of
      that hash. */
  lemma NewEnumValid<T(!new)>(candidates: seq<T>, zero: T, hashOf: T -> Word)
    requires Sets.DistinctSlots(candidates, hashOf)
    ensures NewEnum(candidates, zero, hashOf).Ok? && Valid(NewEnum(candidates, zero, hashOf).value)
    ensures forall y :: Sets.Contains(NewEnum(candidates, zero, hashOf).value.candidates, y, hashOf) <==>
      Sets.LastOfHash(candidates, y, hashOf)
  {
    Sets.FromSliceContains(candidates, hashOf);
  }

  /** The loop of `filterExclusions`: the items, in order, that the set
      of exclusions does not have. */
  function Keep<T(==)>(items: seq<T>, exclusionSet: Sets.HashSet<T>, hashOf: T -> Word): Outcome<seq<T>> {
    if |items| == 0 then Ok([])
    else
      var excluded :- Sets.Has(exclusionSet, items[0], hashOf);
      var rest :- Keep(items[1..], exclusionSet, hashOf);
      Ok(if excluded then rest else [items[0]] + rest)
  }

  /** `filterExclusions`. */
  function FilterExclusions<T(==)>(f: Enum<T>, exclusions: seq<T>): Outcome<seq<T>> {
    var exclusionSet :- Sets.FromSlice(exclusions, f.hashOf);
    Keep(Sets.ToSlice(f.candidates), exclusionSet, f.hashOf)
  }

  /** `x` is ruled out: some exclusion has its hash (the sets compare
      hashes only). */
  ghost predicate Excluded<T>(exclusions: seq<T>, x: T, hashOf: T -> Word) {
    exists e | e in exclusions :: hashOf(e) == hashOf(x)
  }

  /** The items that are not ruled out, in their order. */
  ghost function Kept<T(!new)>(items: seq<T>, exclusions: seq<T>, hashOf: T -> Word): (r: seq<T>)
    ensures forall x :: x in r <==> x in items && !Excluded(exclusions, x, hashOf)
  {
    if |items| == 0 then []
    else (if Excluded(exclusions, items[0], hashOf) then [] else [items[0]]) + Kept(items[1..], exclusions, hashOf)
  }

  /** Nothing is ruled out by no exclusions. */
  lemma {:induction false} KeptAll<T(!new)>(items: seq<T>, hashOf: T -> Word)
    ensures Kept(items, [], hashOf) == items
  {
    if |items| > 0 {
      KeptAll(items[1..], hashOf);
    }
  }

  /** The set built from the exclusions has an item exactly when it is
      ruled out. */
  lemma HasExcluded<T(!new)>(exclusionSet: Sets.HashSet<T>, exclusions: seq<T>, x: T, hashOf: T -> Word)
    requires Sets.Valid(exclusionSet, hashOf)
    requires forall y :: Sets.Contains(exclusionSet, y, hashOf) <==> Sets.LastOfHash(exclusions, y, hashOf)
    ensures Sets.Has(exclusionSet, x, hashOf) == Ok(Excluded(exclusions, x, hashOf))
  {
    Sets.HasContains(exclusionSet, x, hashOf);
    if exists y :: Sets.Contains(exclusionSet, y, hashOf) && hashOf(y) == hashOf(x) {
      var y :| Sets.Contains(exclusionSet, y, hashOf) && hashOf(y) == hashOf(x);
      Sets.LastOfHashIn(exclusions, y, hashOf);
    }
    if Excluded(exclusions, x, hashOf) {
      var e :| e in exclusions && hashOf(e) == hashOf(x);
      Sets.LastOfHashCovers(exclusions, e, hashOf);
      var y :| Sets.LastOfHash(exclusions, y, hashOf) && hashOf(y) == hashOf(e);
      assert Sets.Contains(exclusionSet, y, hashOf);
    }
  }

  /** With the set built from `exclusions`, the loop keeps exactly the
      items not ruled out, in order, and never panics. */
  lemma {:induction false} KeepSpec<T(!new)>(items: seq<T>, exclusionSet: Sets.HashSet<T>, exclusions: seq<T>, hashOf: T -> Word)
    requires Sets.Valid(exclusionSet, hashOf)
    requires forall y :: Sets.Contains(exclusionSet, y, hashOf) <==> Sets.LastOfHash(exclusions, y, hashOf)
    ensures Keep(items, exclusionSet, hashOf) == Ok(Kept(items, exclusions, hashOf))
  {
    if |items| > 0 {
      HasExcluded(exclusionSet, exclusions, items[0], hashOf);
      KeepSpec(items[1..], exclusionSet, exclusions, hashOf);
      var rest := Kept(items[1..], exclusions, hashOf);
      if Excluded(exclusions, items[0], hashOf) {
        assert Kept(items, exclusions, hashOf) == [] + rest;
        assert [] + rest == rest;
      } else {
        assert Kept(items, exclusions, hashOf) == [items[0]] + rest;
      }
    }
  }

  /** When exclusions of different hashes sit in different level-0 slots,
      `filterExclusions` of a valid factory never panics and returns the
      candidates in the set's order, minus those ruled out. */
  lemma FilterExclusionsSpec<T(!new)>(f: Enum<T>, exclusions: seq<T>)
    requires Valid(f) && Sets.DistinctSlots(exclusions, f.hashOf)
    ensures FilterExclusions(f, exclusions) == Ok(Kept(Sets.ToSlice(f.candidates), exclusions, f.hashOf))
  {
    Sets.FromSliceContains(exclusions, f.hashOf);
    KeepSpec(Sets.ToSlice(f.candidates), Sets.FromSlice(exclusions, f.hashOf).value, exclusions, f.hashOf);
  }

  /** The properties before the override: the zero value, no exclusions. */
  function Initial<T>(f: Enum<T>): Properties<T> {
    Properties(f.zero, [])
  }

  /** `Prepare`: run the override, filter, fail on an empty result, then
      pick by Go's remainder of the seed unless a value was chosen. */
  function Prepare<T(==)>(f: Enum<T>, overrides: Factories.Partial<Properties<T>>, seed: Int64): Outcome<Properties<T>> {
    var p :- Factories.Apply(overrides, Initial(f));
    var actuals :- FilterExclusions(f, p.exclusions);
    if |actuals| == 0 then Panic("no candidates available after exclusions")
    else
      var index := Rem(seed, |actuals|);
      if p.value != f.zero then Ok(p)
      else if index < 0 then Panic("index out of range")
      else Ok(p.(value := actuals[index]))
  }

  /** `Instantiate`. */
  function Instantiate<T>(p: Properties<T>): T {
    p.value
  }

  /** `Retrieve`. */
  function Retrieve<T>(instance: T): Properties<T> {
    Properties(instance, [])
  }

  /** When the exclusions rule out every candidate, `Prepare` panics, even
      if the override chose a value. */
  lemma PrepareNoCandidates<T(!new)>(f: Enum<T>, overrides: Factories.Partial<Properties<T>>, seed: Int64)
    requires Factories.Apply(overrides, Initial(f)).Ok?
    requires Valid(f) && Sets.DistinctSlots(Factories.Apply(overrides, Initial(f)).value.exclusions, f.hashOf)
    requires Kept(Sets.ToSlice(f.candidates), Factories.Apply(overrides, Initial(f)).value.exclusions, f.hashOf) == []
    ensures Prepare(f, overrides, seed).Panic?
  {
    FilterExclusionsSpec(f, Factories.Apply(overrides, Initial(f)).value.exclusions);
  }

  /** With some candidate left, no value chosen and a non-negative seed,
      the value is the remaining candidate at `seed mod count`: a member of
      the candidate set that the exclusions do not rule out. */
  lemma PrepareChooses<T(!new)>(f: Enum<T>, overrides: Factories.Partial<Properties<T>>, seed: Int64)
    requires Factories.Apply(overrides, Initial(f)).Ok?
    requires Valid(f) && seed >= 0
    requires Sets.DistinctSlots(Factories.Apply(overrides, Initial(f)).value.exclusions, f.hashOf)
    requires
      var p := Factories.Apply(overrides, Initial(f)).value;
      p.value == f.zero && Kept(Sets.ToSlice(f.candidates), p.exclusions, f.hashOf) != []
    ensures
      var p := Factories.Apply(overrides, Initial(f)).value;
      var actuals := Kept(Sets.ToSlice(f.candidates), p.exclusions, f.hashOf);
      var r := Prepare(f, overrides, seed);
      r.Ok? && r.value == p.(value := actuals[seed % |actuals|]) &&
      Sets.Contains(f.candidates, r.value.value, f.hashOf) && !Excluded(p.exclusions, r.value.value, f.hashOf)
  {
    var p := Factories.Apply(overrides, Initial(f)).value;
    var actuals := Kept(Sets.ToSlice(f.candidates), p.exclusions, f.hashOf);
    FilterExclusionsSpec(f, p.exclusions);
    Sets.ToSliceContains(f.candidates, f.hashOf);
    assert Rem(seed, |actuals|) == seed % |actuals|;
    assert actuals[seed % |actuals|] in actuals;
  }

  /** A value chosen by the override is kept, as long as some candidate
      is left. */
  lemma PrepareKeepsValue<T(!new)>(f: Enum<T>, overrides: Factories.Partial<Properties<T>>, seed: Int64)
    requires Factories.Apply(overrides, Initial(f)).Ok?
    requires Valid(f) && Sets.DistinctSlots(Factories.Apply(overrides, Initial(f)).value.exclusions, f.hashOf)
    requires
      var p := Factories.Apply(overrides, Initial(f)).value;
      p.value != f.zero && Kept(Sets.ToSlice(f.candidates), p.exclusions, f.hashOf) != []
    ensures Prepare(f, overrides, seed) == Factories.Apply(overrides, Initial(f))
  {
    FilterExclusionsSpec(f, Factories.Apply(overrides, Initial(f)).value.exclusions);
  }

  /** The exclusions of hashes 1, 2 and 129, in this order, make a set
      that no longer finds the first of them (see `Sets.SetLosesItems`), so
      a candidate ruled out by the first exclusion is still offered. */
  lemma ExclusionSlipsThrough<T(!new)>(f: Enum<T>, a: T, b: T, c: T)
    requires Sets.ToSlice(f.candidates) == [a]
    requires f.hashOf(a) == 1 && f.hashOf(b) == 2 && f.hashOf(c) == 129
    ensures FilterExclusions(f, [a, b, c]) == Ok([a])
    ensures Excluded([a, b, c], a, f.hashOf) && Kept([a], [a, b, c], f.hashOf) == []
  {
    Sets.LosingExample();
    LosingExclusions(f, a, b, c);
  }

  /** The same for any hashes the source's adding mishandles. */
  lemma LosingExclusions<T(!new)>(f: Enum<T>, a: T, b: T, c: T)
    requires Sets.ToSlice(f.candidates) == [a]
    requires Sets.Losing(f.hashOf(a), f.hashOf(b), f.hashOf(c))
    ensures FilterExclusions(f, [a, b, c]) == Ok([a])
    ensures Excluded([a, b, c], a, f.hashOf) && Kept([a], [a, b, c], f.hashOf) == []
  {
    Sets.WrittenLosesItems(a, b, c, f.hashOf);
    KeepMissed(a, Sets.FromSlice([a, b, c], f.hashOf).value, f.hashOf);
    KeptNone(a, [a, b, c], f.hashOf);
  }

  /** An item the set does not find is kept. */
  lemma KeepMissed<T>(a: T, exclusionSet: Sets.HashSet<T>, hashOf: T -> Word)
    requires Sets.Has(exclusionSet, a, hashOf) == Ok(false)
    ensures Keep([a], exclusionSet, hashOf) == Ok([a])
  {
    assert [a][1..] == [];
    assert Keep([], exclusionSet, hashOf) == Ok([]);
    assert [a] + [] == [a];
  }

  /** An excluded item is not kept. */
  lemma KeptNone<T(!new)>(a: T, exclusions: seq<T>, hashOf: T -> Word)
    requires a in exclusions
    ensures Excluded(exclusions, a, hashOf) && Kept([a], exclusions, hashOf) == []
  {
    assert [a][1..] == [];
  }

  /** Without an override, a non-negative seed picks the candidate at
      `seed mod size` of the set's slice. */
  lemma PrepareWithoutOverride<T(!new)>(f: Enum<T>, seed: Int64)
    requires Valid(f) && seed >= 0 && Sets.ToSlice(f.candidates) != []
    ensures
      var all := Sets.ToSlice(f.candidates);
      Prepare(f, None, seed) == Ok(Properties(all[seed % |all|], []))
  {
    KeptAll(Sets.ToSlice(f.candidates), f.hashOf);
    FilterExclusionsSpec(f, []);
    assert Rem(seed, |Sets.ToSlice(f.candidates)|) == seed % |Sets.ToSlice(f.candidates)|;
  }

  /** `Instantiate` undoes `Retrieve`, which starts with no exclusions. */
  lemma RetrieveRoundTrip<T>(x: T)
    ensures Instantiate(Retrieve(x)) == x && Retrieve(x).exclusions == []
  {
  }

  /** The factory as its three hooks. */
  function AsFactory<T(==)>(f: Enum<T>): Factories.Factory<T, Properties<T>> {
    Factories.Factory(Instantiate, (o: Factories.Partial<Properties<T>>, s: Int64) => Prepare(f, o, s), Retrieve)
  }

  /** A panic of the override is a panic of `Prepare`. */
  lemma PrepareOverridePanics<T>(f: Enum<T>, overrides: Factories.Partial<Properties<T>>, seed: Int64)
    requires Factories.Apply(overrides, Initial(f)).Panic?
    ensures Prepare(f, overrides, seed) == Panic(Factories.Apply(overrides, Initial(f)).reason)
  {
  }

  /** `Duplicate` through the enum factory hands the override the
      instance with no exclusions, and never consults the candidates: the
      result is the edited value, whatever the exclusions say. */
  lemma DuplicateEdits<T>(f: Enum<T>, x: T, edit: Properties<T> -> Outcome<Properties<T>>)
    ensures edit(Properties(x, [])).Panic? ==> Factories.Duplicate(AsFactory(f), x, Some(edit)).Panic?
    ensures edit(Properties(x, [])).Ok? ==>
      Factories.Duplicate(AsFactory(f), x, Some(edit)) == Ok(edit(Properties(x, [])).value.value)
  {
  }

  /** An override that excludes the instance itself still yields it. */
  lemma DuplicateIgnoresExclusions<T>(f: Enum<T>, x: T)
    ensures Factories.Duplicate(AsFactory(f), x, Some((p: Properties<T>) => Ok(p.(exclusions := [p.value])))) == Ok(x)
  {
  }

  /** Without an override `Duplicate` gives back every value. */
  lemma DuplicateRoundTrip<T>(f: Enum<T>, x: T)
    ensures Factories.Duplicate(AsFactory(f), x, None) == Ok(x)
  {
  }
}

=== FILE: factories.dfy ===
/** The factory contract of factory/factory.go and the two helpers of
    factory/builder_internal.go that every builder operation goes through.

    A Go `Partial[P]` edits a properties value in place and may panic, as
    the overrides built by `Override` do when a field cannot be set; here
    it is a function from the properties before to the properties after,
    or a panic, and a nil `Partial` is `None`. */
module Factories {
  import opened Wrappers
  import opened GoInt

  /** `Partial[P]`: an optional edit of the properties. */
  type Partial<!P> = Option<P -> Outcome<P>>

  /** Runs an override on `properties`; a nil override changes nothing. */
  function Apply<P>(overrides: Partial<P>, properties: P): (r: Outcome<P>)
    ensures overrides.None? ==> r == Ok(properties)
  {
    match overrides
    case None => Ok(properties)
    case Some(edit) => edit(properties)
  }

  /** `Factory[T, P]`: the three hooks of a factory.  `prepare` may panic,
      as the enum factory does when every candidate is excluded. */
  datatype Factory<!T, !P> = Factory(
    instantiate: P -> T,
    prepare: (Partial<P>, Int64) -> Outcome<P>,
    retrieve: T -> P)

  /** `create`: prepare the properties for `seed`, then instantiate. */
  function Create<T, P>(factory: Factory<T, P>, overrides: Partial<P>, seed: Int64): Outcome<T> {
    var properties :- factory.prepare(overrides, seed);
    Ok(factory.instantiate(properties))
  }

  /** `duplicate`: retrieve the instance's properties, run the override if
      there is one, and instantiate; no seed and no `prepare`. */
  function Duplicate<T, P>(factory: Factory<T, P>, instance: T, overrides: Partial<P>): Outcome<T> {
    var properties :- Apply(overrides, factory.retrieve(instance));
    Ok(factory.instantiate(properties))
  }

  /** `create` never consults `retrieve`, and `duplicate` never consults
      `prepare`: factories that agree on the hooks an operation uses agree
      on the operation. */
  lemma HooksUsed<T, P>(f: Factory<T, P>, g: Factory<T, P>, instance: T, overrides: Partial<P>, seed: Int64)
    requires f.instantiate == g.instantiate
    ensures f.prepare == g.prepare ==> Create(f, overrides, seed) == Create(g, overrides, seed)
    ensures f.retrieve == g.retrieve ==> Duplicate(f, instance, overrides) == Duplicate(g, instance, overrides)
  {
  }

  /** For a factory whose `instantiate` undoes `retrieve`, `duplicate`
      with no override gives back every instance, and in particular
      whatever `create` built. */
  lemma CreateThenDuplicate<T, P>(factory: Factory<T, P>, instance: T, overrides: Partial<P>, seed: Int64)
    requires forall x :: factory.instantiate(factory.retrieve(x)) == x
    ensures Duplicate(factory, instance, None) == Ok(instance)
    ensures Create(factory, overrides, seed).Ok? ==>
      Duplicate(factory, Create(factory, overrides, seed).value, None) == Create(factory, overrides, seed)
  {
  }

  /** An override that panics makes `duplicate` panic; otherwise the
      result is what `instantiate` makes of the edited properties. */
  lemma DuplicateEdits<T, P>(factory: Factory<T, P>, instance: T, edit: P -> Outcome<P>)
    ensures Duplicate(factory, instance, Some(edit)).Ok? <==> edit(factory.retrieve(instance)).Ok?
    ensures Duplicate(factory, instance, Some(edit)).Ok? ==>
      Duplicate(factory, instance, Some(edit)).value == factory.instantiate(edit(factory.retrieve(instance)).value)
  {
  }
}

=== FILE: go_int.dfy ===
/** Go's fixed-width integers and its integer operators where they differ
    from Dafny's: `%` truncates toward zero, signed arithmetic wraps at 64
    bits, and a conversion to `uint32` keeps the low 32 bits. */
module GoInt {

  /** The values of Go's `int64` (and of `int` on a 64-bit target). */
  type Int64 = x: int | -0x8000_0000_0000_0000 <= x < 0x8000_0000_0000_0000

  /** The values of Go's `uint32`. */
  type Uint32 = x: int | 0 <= x < 0x1_0000_0000

  function Abs(x: int): nat {
    if x < 0 then -x else x
  }

  /** Go's remainder `x % m`: it takes the sign of the dividend. */
  function Rem(x: int, m: int): (r: int)
    requires m != 0
    ensures (x - r) % m == 0
    ensures x >= 0 ==> 0 <= r < Abs(m)
    ensures x < 0 ==> -(Abs(m) as int) < r <= 0
  {
    RemIsCongruent(x, m);
    if x >= 0 then x % Abs(m) else -((-x) % Abs(m))
  }

  lemma RemIsCongruent(x: int, m: int)
    requires m != 0
    ensures x >= 0 ==> (x - x % Abs(m)) % m == 0
    ensures x < 0 ==> (x + (-x) % Abs(m)) % m == 0
  {
    var n := Abs(m);
    if x >= 0 {
      var q := x / n;
      assert x - x % n == q * n;
      MultipleMod(q, m);
    } else {
      var q := (-x) / n;
      assert x + (-x) % n == (-q) * n;
      MultipleMod(-q, m);
    }
  }

  /** A multiple of `m`, or of `-m`, leaves no remainder. */
  lemma MultipleMod(k: int, m: int)
    requires m != 0
    ensures (k * m) % m == 0 && (k * Abs(m)) % m == 0
  {
    ModOfMultiple(k, m);
    if m < 0 {
      assert k * Abs(m) == (-k) * m;
      ModOfMultiple(-k, m);
    }
  }

  /** Euclidean division of `k * m` by `m` leaves remainder 0. */
  lemma ModOfMultiple(k: int, m: int)
    requires m != 0
    ensures (k * m) % m == 0
  {
    var q, r := (k * m) / m, (k * m) % m;
    assert k * m == m * q + r && 0 <= r < Abs(m);
    assert m * (k - q) == r;
    if k != q {
      MulAbsAtLeast(m, k - q);
    }
  }

  /** A non-zero multiple of `m` is at least `m` in absolute value. */
  lemma MulAbsAtLeast(m: int, t: int)
    requires t != 0
    ensures Abs(m * t) >= Abs(m)
  {
    var a, b := Abs(m), Abs(t);
    if m >= 0 && t < 0 {
      assert m * t == -((a * b) as int);
    } else if m < 0 && t >= 0 {
      assert m * t == -((a * b) as int);
    } else if m < 0 && t < 0 {
      assert m * t == a * b;
    }
    assert Abs(m * t) == a * b;
    AtLeastOnce(a, b);
  }

  lemma AtLeastOnce(a: nat, b: nat)
    requires b >= 1
    ensures a * b >= a
  {
    var c: nat := b - 1;
    assert a * b == a + a * c;
  }

  /** Two's-complement wrap-around of a mathematical sum into `int64`. */
  function WrapInt64(x: int): (r: Int64)
    ensures (x - r) % 0x1_0000_0000_0000_0000 == 0
    ensures -0x8000_0000_0000_0000 <= x < 0x8000_0000_0000_0000 ==> r == x
  {
    var m := x % 0x1_0000_0000_0000_0000;
    if m < 0x8000_0000_0000_0000 then m else m - 0x1_0000_0000_0000_0000
  }

  /** Go's conversion `uint32(x)` of any integer: the low 32 bits. */
  function Uint32Of(x: int): (r: Uint32)
    ensures (x - r) % 0x1_0000_0000 == 0
    ensures 0 <= x < 0x1_0000_0000 ==> r == x
  {
    x % 0x1_0000_0000
  }

  /** Wrapping to 64 bits first does not change the low 32 bits. */
  lemma Uint32OfWrap(x: int)
    ensures Uint32Of(WrapInt64(x)) == Uint32Of(x)
  {
    var q := (x - WrapInt64(x)) / 0x1_0000_0000_0000_0000;
    assert x == WrapInt64(x) + q * 0x1_0000_0000_0000_0000;
    assert x == WrapInt64(x) + (q * 0x1_0000_0000) * 0x1_0000_0000;
  }

  /** Euclidean division is determined by any quotient and remainder. */
  lemma ModUnique(x: int, d: int, q: int, r: int)
    requires d > 0 && 0 <= r < d && x == q * d + r
    ensures x % d == r
  {
    var q', r' := x / d, x % d;
    assert d * (q - q') == r' - r;
    if q != q' {
      MulAbsAtLeast(d, q - q');
    }
  }

  /** Adding a multiple of `d` does not change the remainder. */
  lemma ModAddMultiple(n: int, t: int, d: int)
    requires d > 0
    ensures (n + d * t) % d == n % d
  {
    ModUnique(n + d * t, d, n / d + t, n % d);
  }
}

=== FILE: hamt.dfy ===
/** The persistent hash-array-mapped trie (internal/hamt: common.go,
    leaf_node.go, collision_node.go, bitmap_indexed_node.go).

    A node is a leaf holding one entry, a collision node holding entries
    that share one hash, or a branch whose bitmap says which of the 64
    slots of its level are occupied and whose children are those slots'
    subtries, compacted in ascending slot order.  Every operation returns a
    new node; a Go panic is an explicit `Panic` outcome and Go's `nil` node
    is `None`.  Go compares nodes by pointer in two places; the model
    compares them by value, and the lemmas below show that neither check
    changes a result. */
module Hamt {
  import opened Wrappers
  import opened Bits
  import opened Bitmap

  datatype Entry<K, V> = Entry(key: K, value: V)

  datatype Node<K, V> =
    | Leaf(hash: Word, key: K, value: V)
    | Collision(hash: Word, entries: seq<Entry<K, V>>)
    | Branch(bitmap: Word, children: seq<Node<K, V>>)

  /** The invariant of the source's branches: one child per occupied slot,
      all the way down. */
  predicate WellFormed<K, V>(n: Node<K, V>)
    decreases n
  {
    match n
    case Branch(bitmap, children) =>
      |children| == Popcount(bitmap) && forall i | 0 <= i < |children| :: WellFormed(children[i])
    case _ => true
  }

  /** The subtrie is built from leaves and branches only, the shapes `Set`
      produces from leaves. */
  predicate NoCollision<K, V>(n: Node<K, V>)
    decreases n
  {
    match n
    case Leaf(_, _, _) => true
    case Collision(_, _) => false
    case Branch(_, children) => forall i | 0 <= i < |children| :: NoCollision(children[i])
  }

  /** The node's key; `None` stands for Go's zero value, which a branch and
      an empty collision node return. */
  function Key<K, V>(n: Node<K, V>): (r: Option<K>)
    ensures r.Some? <==> n.Leaf? || (n.Collision? && |n.entries| > 0)
    ensures r.Some? ==> Entry(r.value, ValueOf(n)) == ToSlice(n)[0]
  {
    match n
    case Leaf(_, k, _) => Some(k)
    case Collision(_, entries) => if |entries| > 0 then Some(entries[0].key) else None
    case Branch(_, _) => None
  }

  /** The node's value; `None` stands for Go's zero value. */
  function Value<K, V>(n: Node<K, V>): (r: Option<V>)
    ensures r.Some? <==> n.Leaf? || (n.Collision? && |n.entries| > 0)
    ensures r.Some? ==> r.value == ToSlice(n)[0].value
  {
    match n
    case Leaf(_, _, v) => Some(v)
    case Collision(_, entries) => if |entries| > 0 then Some(entries[0].value) else None
    case Branch(_, _) => None
  }

  /** The value of a leaf or of the first entry of a non-empty collision. */
  function ValueOf<K, V>(n: Node<K, V>): V
    requires n.Leaf? || (n.Collision? && |n.entries| > 0)
  {
    if n.Leaf? then n.value else n.entries[0].value
  }

  /** The entries of the subtrie, children in slot order. */
  function ToSlice<K, V>(n: Node<K, V>): seq<Entry<K, V>>
    decreases n, 1
  {
    match n
    case Leaf(_, k, v) => [Entry(k, v)]
    case Collision(_, entries) => entries
    case Branch(_, children) => ToSliceAll(children)
  }

  /** The concatenated entries of a run of children. */
  function ToSliceAll<K, V>(children: seq<Node<K, V>>): seq<Entry<K, V>>
    decreases children, 0
  {
    if |children| == 0 then [] else ToSlice(children[0]) + ToSliceAll(children[1..])
  }

  /** Looks `hash` up below level `offset`.  A leaf and a collision node
      compare only the hash (never the key, never the offset); a branch
      descends into the child of the hash's slot at level `offset + 1`. */
  function Get<K, V>(n: Node<K, V>, hash: Word, offset: int): (r: Outcome<Option<V>>)
    ensures !n.Branch? ==> r == Ok(if n.hash == hash then Value(n) else None)
    ensures r.Ok? && r.value.Some? ==> exists e <- ToSlice(n) :: e.value == r.value.value
    decreases n
  {
    match n
    case Leaf(h, _, v) => Ok(if h == hash then Some(v) else None)
    case Collision(h, entries) =>
      Ok(if h == hash && |entries| > 0 then Some(entries[0].value) else None)
    case Branch(bitmap, children) =>
      match Position(hash, offset)
      case Panic(reason) => Panic(reason)
      case Ok(position) =>
        if !Has(bitmap, position) then Ok(None)
        else
          var index := Index(bitmap, position).0;
          if index >= |children| then Panic("index out of range")
          else
            var r := Get(children[index], hash, offset + 1);
            EntriesOfChild(children, index);
            r
  }

  /** The entries of a child are entries of the run it belongs to. */
  lemma {:induction false} EntriesOfChild<K, V>(children: seq<Node<K, V>>, i: nat)
    requires i < |children|
    ensures forall e <- ToSlice(children[i]) :: e in ToSliceAll(children)
    decreases i
  {
    if i > 0 {
      EntriesOfChild(children[1..], i - 1);
      assert children[1..][i - 1] == children[i];
    }
  }

  /** Go's `insertNode`: `node` is placed at `index`, the others keep their
      order; copying `children[:index]` panics past the end. */
  function InsertNode<T>(children: seq<T>, index: nat, node: T): (r: Outcome<seq<T>>)
    ensures r.Ok? <==> index <= |children|
    ensures r.Ok? ==> |r.value| == |children| + 1 && r.value[index] == node
    ensures r.Ok? ==> r.value[..index] == children[..index] && r.value[index + 1..] == children[index..]
  {
    if index > |children| then Panic("slice bounds out of range")
    else Ok(children[..index] + [node] + children[index..])
  }

  /** Go's `removeNode`: the child at `index` is dropped, the others keep
      their order. */
  function RemoveNode<T>(children: seq<T>, index: nat): (r: seq<T>)
    requires index < |children|
    ensures |r| + 1 == |children|
    ensures r[..index] == children[..index] && r[index..] == children[index + 1..]
  {
    children[..index] + children[index + 1..]
  }

  /** Go's `replaceNode`: only the child at `index` changes. */
  function ReplaceNode<T>(children: seq<T>, index: nat, node: T): (r: seq<T>)
    requires index < |children|
    ensures |r| == |children| && r[index] == node
    ensures forall i | 0 <= i < |r| && i != index :: r[i] == children[i]
  {
    children[index := node]
  }

  /** The empty-slot path of a branch's `Set`: a new leaf goes into the
      slot's compacted index and the slot's bit is set. */
  function AddLeaf<K, V>(bitmap: Word, children: seq<Node<K, V>>, key: K, value: V, hash: Word, position: Word)
    : (r: Outcome<Node<K, V>>)
    ensures r.Ok? <==> Index(bitmap, position).0 <= |children|
    ensures r.Ok? ==> var i := Index(bitmap, position).0;
      r.value == Branch(Next(bitmap, position), children[..i] + [Leaf(hash, key, value)] + children[i..])
  {
    var index := Index(bitmap, position).0;
    var inserted := InsertNode(children, index, Leaf(hash, key, value));
    if inserted.Panic? then Panic(inserted.reason)
    else Ok(Branch(Next(bitmap, position), inserted.value))
  }

  /** Inserts `(key, value)` under `hash` below level `offset`.
      - a leaf: see `SetLeaf`;
      - a collision node with the same hash appends, with another hash it
        is replaced by a lone leaf;
      - a branch sets into an occupied slot's child at the SAME level
        `offset` (where `Get` descends to `offset + 1`) or adds a leaf in an
        empty slot. */
  function Set<K(==), V(==)>(n: Node<K, V>, key: K, value: V, hash: Word, offset: int): (r: Outcome<Node<K, V>>)
    ensures n.Leaf? && n.hash == hash ==> r == Ok(Leaf(hash, key, value))
    ensures n.Collision? ==> r.Ok? && ToSlice(r.value) == (if n.hash == hash then n.entries else []) + [Entry(key, value)]
    ensures n.Branch? && r.Ok? ==> r.value.Branch?
    decreases n
  {
    match n
    case Leaf(h, k, v) => SetLeaf(h, k, v, key, value, hash, offset)
    case Collision(h, entries) =>
      if h == hash then Ok(Collision(hash, entries + [Entry(key, value)]))
      else Ok(Leaf(hash, key, value))
    case Branch(bitmap, children) =>
      match Position(hash, offset)
      case Panic(reason) => Panic(reason)
      case Ok(position) =>
        var index := Index(bitmap, position).0;
        if Has(bitmap, position) then
          if index >= |children| then Panic("index out of range")
          else
            var target := children[index];
            match Set(target, key, value, hash, offset)
            case Panic(reason) => Panic(reason)
            case Ok(next) =>
              if next == target then Ok(n)
              else Ok(Branch(bitmap, ReplaceNode(children, index, next)))
        else
          AddLeaf(bitmap, children, key, value, hash, position)
  }

  /** `Set` on the leaf `(h1, k1, v1)`.  The same hash overwrites, whatever
      the key.  Another hash turns the leaf into a branch: when both hashes
      select the same slot, a one-slot branch around the same split one
      level deeper; otherwise the source builds the one-slot branch of the
      old leaf and sets the new entry into it at the same level, which
      always takes the empty-slot path. */
  function SetLeaf<K, V>(h1: Word, k1: K, v1: V, key: K, value: V, hash: Word, offset: int): (r: Outcome<Node<K, V>>)
    ensures h1 == hash ==> r == Ok(Leaf(hash, key, value))
    ensures r.Ok? && h1 != hash ==> r.value.Branch?
    decreases MaxOffset + 1 - offset
  {
    if h1 == hash then Ok(Leaf(hash, key, value))
    else
      match Position(h1, offset)
      case Panic(reason) => Panic(reason)
      case Ok(position1) =>
        var position2 := Position(hash, offset).value;
        if position1 == position2 then
          match SetLeaf(h1, k1, v1, key, value, hash, offset + 1)
          case Panic(reason) => Panic(reason)
          case Ok(next) => Ok(Branch(Next(0, position1), [next]))
        else
          AddLeaf(Next(0, position1), [Leaf(h1, k1, v1)], key, value, hash, position2)
  }

  /** Removes the entry of `hash` below level `offset`; the flag says
      whether something was removed, and `None` is the emptied node. */
  function Remove<K(==), V(==)>(n: Node<K, V>, hash: Word, offset: int): (r: Outcome<(Option<Node<K, V>>, bool)>)
    ensures r.Ok? && !r.value.1 ==> r.value.0 == Some(n)
    ensures r.Ok? && r.value.1 ==> r.value.0 != Some(n)
    ensures n.Collision? ==> (r.Ok? <==> n.hash != hash || |n.entries| > 0)
    ensures n.Collision? && n.hash == hash && r.Ok? ==>
      r.value.1 && ToSlice(r.value.0.GetOr(Collision(hash, []))) == n.entries[1..]
    decreases n
  {
    match n
    case Leaf(h, _, _) =>
      if h == hash then Ok((None, true)) else Ok((Some(n), false))
    case Collision(h, entries) =>
      if h != hash then Ok((Some(n), false))
      else if |entries| == 1 then Ok((None, true))
      else if |entries| == 2 then Ok((Some(Leaf(h, entries[1].key, entries[1].value)), true))
      else if |entries| == 0 then Panic("makeslice: len out of range")
      else Ok((Some(Collision(h, entries[1..])), true))
    case Branch(bitmap, children) =>
      match Position(hash, offset)
      case Panic(reason) => Panic(reason)
      case Ok(position) =>
        if !Has(bitmap, position) then Ok((Some(n), false))
        else
          var index := Index(bitmap, position).0;
          if index >= |children| then Panic("index out of range")
          else
            var target := children[index];
            match Remove(target, hash, offset + 1)
            case Panic(reason) => Panic(reason)
            case Ok((nextNode, exists_)) =>
              if !exists_ then Ok((Some(n), false))
              else if nextNode == Some(target) then Ok((Some(n), false))
              else if nextNode.None? then
                var nextChildren := RemoveNode(children, index);
                if |nextChildren| == 0 then Ok((None, true))
                else Ok((Some(Branch(Without(bitmap, position), nextChildren)), true))
              else Ok((Some(Branch(bitmap, ReplaceNode(children, index, nextNode.value))), true))
  }
}

=== FILE: hamt_branch.dfy ===
/** What `Get`, `Set` and `Remove` do at a branch
    (internal/hamt/bitmap_indexed_node.go), and the invariant they keep. */
module HamtBranch {
  import opened Wrappers
  import opened Bits
  import opened Bitmap
  import opened Hamt
  import opened HamtLeaf

  /** `s` with `x` inserted at `i`, read at `j`. */
  lemma InsertAt<T>(s: seq<T>, i: nat, x: T, j: nat)
    requires i <= |s| && j <= |s|
    ensures (s[..i] + [x] + s[i..])[j] == if j < i then s[j] else if j == i then x else s[j - 1]
  {
  }

  /** `s` with the element at `i` dropped, read at `j`. */
  lemma DropAt<T>(s: seq<T>, i: nat, j: nat)
    requires i < |s| && j + 1 < |s|
    ensures (s[..i] + s[i + 1..])[j] == if j < i then s[j] else s[j + 1]
  {
  }

  /** In a branch with one child per slot, `Get` reports not-found for a
      free slot and otherwise asks the slot's child one level deeper. */
  lemma BranchGet<K, V>(bitmap: Word, children: seq<Node<K, V>>, hash: Word, offset: int)
    requires 0 <= offset <= MaxOffset && |children| == Popcount(bitmap)
    ensures
      var k := Band(hash, offset);
      var i := PopcountBelow(bitmap, k);
      if Bit(bitmap, k) then
        i < |children| && Get(Branch(bitmap, children), hash, offset) == Get(children[i], hash, offset + 1)
      else
        Get(Branch(bitmap, children), hash, offset) == Ok(None)
  {
    var k := Band(hash, offset);
    HasSlot(bitmap, k);
    IndexOfSlot(bitmap, k);
    if Bit(bitmap, k) {
      IndexInRange(bitmap, k);
    }
  }

  /** Setting into a free slot adds the slot to the bitmap and a new leaf
      at the slot's index; the other children keep their order. */
  lemma BranchSetFree<K, V>(bitmap: Word, children: seq<Node<K, V>>, key: K, value: V, hash: Word, offset: int)
    requires 0 <= offset <= MaxOffset && |children| == Popcount(bitmap)
    requires !Bit(bitmap, Band(hash, offset))
    ensures Pow2(Band(hash, offset)) < WordLimit
    ensures
      var k := Band(hash, offset);
      var i := PopcountBelow(bitmap, k);
      i <= |children| &&
      Set(Branch(bitmap, children), key, value, hash, offset)
        == Ok(Branch(Next(bitmap, Pow2(k)), children[..i] + [Leaf(hash, key, value)] + children[i..]))
  {
    var k := Band(hash, offset);
    HasSlot(bitmap, k);
    IndexOfSlot(bitmap, k);
    PopcountBelowMonotone(bitmap, k, 64);
  }

  /** Setting into an occupied slot sets into the slot's child at the SAME
      level and replaces only that child; bitmap and child count stay.
      The source's identity check `next == target` does not change the
      result: replacing a child by an equal one gives an equal branch. */
  lemma BranchSetOccupied<K, V>(bitmap: Word, children: seq<Node<K, V>>, key: K, value: V, hash: Word, offset: int)
    requires 0 <= offset <= MaxOffset && |children| == Popcount(bitmap)
    requires Bit(bitmap, Band(hash, offset))
    ensures
      var i := PopcountBelow(bitmap, Band(hash, offset));
      i < |children| &&
      var inner := Set(children[i], key, value, hash, offset);
      Set(Branch(bitmap, children), key, value, hash, offset)
        == if inner.Ok? then Ok(Branch(bitmap, children[i := inner.value])) else inner
  {
    var k := Band(hash, offset);
    var i := PopcountBelow(bitmap, k);
    HasSlot(bitmap, k);
    IndexOfSlot(bitmap, k);
    IndexInRange(bitmap, k);
    assert children[i := children[i]] == children;
  }

  /** After setting into a free slot, `Get` at the same level finds the new
      value under the new hash, and nothing under the other hashes of the
      same slot. */
  lemma SetFreeThenGet<K, V>(bitmap: Word, children: seq<Node<K, V>>, key: K, value: V, hash: Word, offset: int, other: Word)
    requires 0 <= offset <= MaxOffset && |children| == Popcount(bitmap)
    requires !Bit(bitmap, Band(hash, offset)) && Band(other, offset) == Band(hash, offset)
    ensures
      var r := Set(Branch(bitmap, children), key, value, hash, offset);
      r.Ok? && Get(r.value, other, offset) == Ok(if other == hash then Some(value) else None)
  {
    var k := Band(hash, offset);
    var i := PopcountBelow(bitmap, k);
    BranchSetFree(bitmap, children, key, value, hash, offset);
    var b := Next(bitmap, Pow2(k));
    var grown := children[..i] + [Leaf(hash, key, value)] + children[i..];
    PopcountBelowNext(bitmap, k, 64);
    PopcountBelowNext(bitmap, k, k);
    BitOfPow2(k, k);
    BranchGet(b, grown, other, offset);
    InsertAt(children, i, Leaf(hash, key, value), i);
  }

  /** After a child is inserted for the free slot `k`, the child of every
      other occupied slot `ko` is still found at that slot's new index. */
  lemma SlotAfterInsert<T>(bitmap: Word, children: seq<T>, x: T, k: nat, ko: nat)
    requires k < 64 && ko < 64 && k != ko && |children| == Popcount(bitmap)
    requires !Bit(bitmap, k) && Bit(bitmap, ko)
    ensures Pow2(k) < WordLimit
    ensures
      var i := PopcountBelow(bitmap, k);
      var j := PopcountBelow(bitmap, ko);
      var j' := PopcountBelow(Next(bitmap, Pow2(k)), ko);
      i <= |children| && j < |children| && j' < |children| + 1 &&
      (children[..i] + [x] + children[i..])[j'] == children[j]
  {
    var i := PopcountBelow(bitmap, k);
    var j := PopcountBelow(bitmap, ko);
    PopcountBelowNext(bitmap, k, ko);
    if k < ko {
      PopcountBelowMonotone(bitmap, k, ko);
    } else {
      PopcountBelowStrict(bitmap, ko, k);
    }
    PopcountBelowMonotone(bitmap, k, 64);
    IndexInRange(bitmap, ko);
    InsertAt(children, i, x, if k < ko then j + 1 else j);
  }

  /** Setting into a free slot changes nothing for the hashes of the other
      slots. */
  lemma SetFreeKeepsOthers<K, V>(bitmap: Word, children: seq<Node<K, V>>, key: K, value: V, hash: Word, offset: int, other: Word)
    requires 0 <= offset <= MaxOffset && |children| == Popcount(bitmap)
    requires !Bit(bitmap, Band(hash, offset)) && Band(other, offset) != Band(hash, offset)
    ensures
      var r := Set(Branch(bitmap, children), key, value, hash, offset);
      r.Ok? && Get(r.value, other, offset) == Get(Branch(bitmap, children), other, offset)
  {
    var k := Band(hash, offset);
    var ko := Band(other, offset);
    var i := PopcountBelow(bitmap, k);
    BranchSetFree(bitmap, children, key, value, hash, offset);
    var b := Next(bitmap, Pow2(k));
    var grown := children[..i] + [Leaf(hash, key, value)] + children[i..];
    PopcountBelowNext(bitmap, k, 64);
    BitOfPow2(k, ko);
    BranchGet(b, grown, other, offset);
    BranchGet(bitmap, children, other, offset);
    if Bit(bitmap, ko) {
      SlotAfterInsert(bitmap, children, Leaf(hash, key, value), k, ko);
    }
  }

  /** The entries of a run of children split where the run splits. */
  lemma {:induction false} ToSliceAllAppend<K, V>(a: seq<Node<K, V>>, b: seq<Node<K, V>>)
    ensures ToSliceAll(a + b) == ToSliceAll(a) + ToSliceAll(b)
    decreases |a|
  {
    if |a| == 0 {
      assert a + b == b;
    } else {
      assert (a + b)[1..] == a[1..] + b;
      ToSliceAllAppend(a[1..], b);
    }
  }

  /** Inserting a child adds its entries to the run's. */
  lemma InsertEntries<K, V>(children: seq<Node<K, V>>, i: nat, c: Node<K, V>)
    requires i <= |children|
    ensures multiset(ToSliceAll(children[..i] + [c] + children[i..])) == multiset(ToSliceAll(children)) + multiset(ToSlice(c))
  {
    EntriesOfSplice(children[..i], c, children[i..]);
    EntriesOfSplit(children, i);
    MultisetOfThree(ToSliceAll(children[..i]), ToSlice(c), ToSliceAll(children[i..]));
  }

  /** The entries of a run with one child spliced in. */
  lemma EntriesOfSplice<K, V>(a: seq<Node<K, V>>, c: Node<K, V>, b: seq<Node<K, V>>)
    ensures ToSliceAll(a + [c] + b) == ToSliceAll(a) + ToSlice(c) + ToSliceAll(b)
  {
    ToSliceAllAppend(a + [c], b);
    ToSliceAllAppend(a, [c]);
    assert [c][1..] == [];
  }

  /** The entries of a run are those of its two halves. */
  lemma EntriesOfSplit<K, V>(children: seq<Node<K, V>>, i: nat)
    requires i <= |children|
    ensures ToSliceAll(children) == ToSliceAll(children[..i]) + ToSliceAll(children[i..])
  {
    ToSliceAllAppend(children[..i], children[i..]);
    assert children[..i] + children[i..] == children;
  }

  /** A splice adds the middle's elements to the multiset. */
  lemma MultisetOfThree<T>(a: seq<T>, c: seq<T>, b: seq<T>)
    ensures multiset(a + c + b) == multiset(a + b) + multiset(c)
  {
  }

  /** Setting into a free slot adds exactly the new entry to the entries of
      the branch. */
  lemma SetFreeEntries<K, V>(bitmap: Word, children: seq<Node<K, V>>, key: K, value: V, hash: Word, offset: int)
    requires 0 <= offset <= MaxOffset && |children| == Popcount(bitmap)
    requires !Bit(bitmap, Band(hash, offset))
    ensures
      var r := Set(Branch(bitmap, children), key, value, hash, offset);
      r.Ok? && multiset(ToSlice(r.value)) == multiset(ToSlice(Branch(bitmap, children))) + multiset{Entry(key, value)}
  {
    BranchSetFree(bitmap, children, key, value, hash, offset);
    InsertEntries(children, PopcountBelow(bitmap, Band(hash, offset)), Leaf(hash, key, value));
  }

  /** A leaf's `Set` builds a well-formed subtrie. */
  lemma {:induction false} SetLeafWellFormed<K, V>(h1: Word, k1: K, v1: V, key: K, value: V, hash: Word, offset: int)
    requires SetLeaf(h1, k1, v1, key, value, hash, offset).Ok?
    ensures WellFormed(SetLeaf(h1, k1, v1, key, value, hash, offset).value)
    decreases MaxOffset + 1 - offset
  {
    if h1 != hash {
      LeafSetOk(h1, k1, v1, key, value, hash, offset);
      var b1, b2 := Band(h1, offset), Band(hash, offset);
      if b1 == b2 {
        LeafNest(h1, k1, v1, key, value, hash, offset);
        SetLeafWellFormed(h1, k1, v1, key, value, hash, offset + 1);
        OneSlot(b1);
      } else {
        SplitWellFormed(h1, k1, v1, key, value, hash, offset);
      }
    }
  }

  /** The split step of `SetLeafWellFormed`. */
  lemma SplitWellFormed<K, V>(h1: Word, k1: K, v1: V, key: K, value: V, hash: Word, offset: int)
    requires 0 <= offset <= MaxOffset && Band(h1, offset) != Band(hash, offset)
    ensures SetLeaf(h1, k1, v1, key, value, hash, offset).Ok?
    ensures WellFormed(SetLeaf(h1, k1, v1, key, value, hash, offset).value)
  {
    var b1, b2 := Band(h1, offset), Band(hash, offset);
    LeafSplit(h1, k1, v1, key, value, hash, offset);
    TwoSlots(b1, b2);
    var old_, new_ := Leaf(h1, k1, v1), Leaf(hash, key, value);
    if b1 < b2 {
      TwoLeavesWellFormed(Next(Pow2(b1), Pow2(b2)), old_, new_);
    } else {
      TwoLeavesWellFormed(Next(Pow2(b1), Pow2(b2)), new_, old_);
    }
  }

  /** A two-slot branch of two leaves is well-formed. */
  lemma TwoLeavesWellFormed<K, V>(bitmap: Word, l1: Node<K, V>, l2: Node<K, V>)
    requires Popcount(bitmap) == 2 && l1.Leaf? && l2.Leaf?
    ensures WellFormed(Branch(bitmap, [l1, l2]))
  {
  }

  /** `Set` keeps every branch at one child per occupied slot. */
  lemma {:induction false} SetPreservesWellFormed<K, V>(n: Node<K, V>, key: K, value: V, hash: Word, offset: int)
    requires WellFormed(n)
    requires Set(n, key, value, hash, offset).Ok?
    ensures WellFormed(Set(n, key, value, hash, offset).value)
    decreases n, 1
  {
    match n
    case Leaf(h1, k1, v1) =>
      SetLeafWellFormed(h1, k1, v1, key, value, hash, offset);
    case Collision(_, _) =>
    case Branch(bitmap, children) =>
      assert 0 <= offset <= MaxOffset;
      var k := Band(hash, offset);
      if Bit(bitmap, k) {
        BranchSetOccupied(bitmap, children, key, value, hash, offset);
        SetChildWellFormed(bitmap, children, key, value, hash, offset);
      } else {
        SetFreeWellFormed(bitmap, children, key, value, hash, offset);
      }
  }

  /** The source's `Set` hands an occupied slot's child the branch's own
      level, so from the root it reaches the leaf below at level 0, where
      two distinct hashes always separate: from the root it never panics
      on a well-formed trie. */
  lemma {:induction false} SetFromRootOk<K, V>(n: Node<K, V>, key: K, value: V, hash: Word)
    requires WellFormed(n)
    ensures Set(n, key, value, hash, 0).Ok?
    decreases n
  {
    match n
    case Leaf(h1, k1, v1) =>
      LeafSetFromRoot(h1, k1, v1, key, value, hash);
    case Collision(_, _) =>
    case Branch(bitmap, children) =>
      var k := Band(hash, 0);
      if Bit(bitmap, k) {
        BranchSetOccupied(bitmap, children, key, value, hash, 0);
        SetFromRootOk(children[PopcountBelow(bitmap, k)], key, value, hash);
      } else {
        SetFreeWellFormed(bitmap, children, key, value, hash, 0);
      }
  }

  /** The occupied-slot step of `SetPreservesWellFormed`. */
  lemma {:induction false} SetChildWellFormed<K, V>(bitmap: Word, children: seq<Node<K, V>>, key: K, value: V, hash: Word, offset: int)
    requires 0 <= offset <= MaxOffset && WellFormed(Branch(bitmap, children))
    requires PopcountBelow(bitmap, Band(hash, offset)) < |children|
    requires Set(children[PopcountBelow(bitmap, Band(hash, offset))], key, value, hash, offset).Ok?
    ensures
      var i := PopcountBelow(bitmap, Band(hash, offset));
      WellFormed(Branch(bitmap, children[i := Set(children[i], key, value, hash, offset).value]))
    decreases Branch(bitmap, children), 0
  {
    var i := PopcountBelow(bitmap, Band(hash, offset));
    SetPreservesWellFormed(children[i], key, value, hash, offset);
    ReplaceSlotWellFormed(bitmap, children, i, Set(children[i], key, value, hash, offset).value);
  }

  /** Every child of the run stays well-formed when a leaf is inserted. */
  lemma InsertKeepsWellFormed<K, V>(children: seq<Node<K, V>>, i: nat, leaf: Node<K, V>)
    requires i <= |children| && leaf.Leaf?
    requires forall j | 0 <= j < |children| :: WellFormed(children[j])
    ensures forall j | 0 <= j < |children| + 1 :: WellFormed((children[..i] + [leaf] + children[i..])[j])
  {
    forall j | 0 <= j < |children| + 1
      ensures WellFormed((children[..i] + [leaf] + children[i..])[j])
    {
      InsertAt(children, i, leaf, j);
    }
  }

  /** The free-slot step of `SetPreservesWellFormed`. */
  lemma SetFreeWellFormed<K, V>(bitmap: Word, children: seq<Node<K, V>>, key: K, value: V, hash: Word, offset: int)
    requires 0 <= offset <= MaxOffset && WellFormed(Branch(bitmap, children))
    requires !Bit(bitmap, Band(hash, offset))
    ensures Set(Branch(bitmap, children), key, value, hash, offset).Ok?
    ensures WellFormed(Set(Branch(bitmap, children), key, value, hash, offset).value)
  {
    var k := Band(hash, offset);
    BranchSetFree(bitmap, children, key, value, hash, offset);
    PopcountBelowNext(bitmap, k, 64);
    InsertKeepsWellFormed(children, PopcountBelow(bitmap, k), Leaf(hash, key, value));
  }

  /** What `Remove` does at a branch with one child per slot: a free slot
      or a child that removed nothing leaves the branch as it was; a child
      that vanished takes its slot with it (the last one takes the whole
      branch); any other result replaces the child in place.  The source's
      identity check `nextNode == target` never fires, because a removal
      never returns the node it started from. */
  lemma BranchRemove<K, V>(bitmap: Word, children: seq<Node<K, V>>, hash: Word, offset: int)
    requires 0 <= offset <= MaxOffset && |children| == Popcount(bitmap)
    ensures Pow2(Band(hash, offset)) < WordLimit
    ensures
      var k := Band(hash, offset);
      var i := PopcountBelow(bitmap, k);
      var n := Branch(bitmap, children);
      if !Bit(bitmap, k) then
        Remove(n, hash, offset) == Ok((Some(n), false))
      else
        i < |children| &&
        var inner := Remove(children[i], hash, offset + 1);
        Remove(n, hash, offset) ==
          if inner.Panic? then inner
          else if !inner.value.1 then Ok((Some(n), false))
          else if inner.value.0.None? then
            if |children| == 1 then Ok((None, true))
            else Ok((Some(Branch(Without(bitmap, Pow2(k)), children[..i] + children[i + 1..])), true))
          else Ok((Some(Branch(bitmap, children[i := inner.value.0.value])), true))
  {
    var k := Band(hash, offset);
    HasSlot(bitmap, k);
    IndexOfSlot(bitmap, k);
    if Bit(bitmap, k) {
      IndexInRange(bitmap, k);
    }
  }

  /** Every child of the run stays well-formed when one is dropped. */
  lemma DropKeepsWellFormed<K, V>(children: seq<Node<K, V>>, i: nat)
    requires i < |children|
    requires forall j | 0 <= j < |children| :: WellFormed(children[j])
    ensures forall j | 0 <= j < |RemoveNode(children, i)| :: WellFormed(RemoveNode(children, i)[j])
  {
    forall j | 0 <= j < |RemoveNode(children, i)|
      ensures WellFormed(RemoveNode(children, i)[j])
    {
      DropAt(children, i, j);
    }
  }

  /** Dropping the child of an occupied slot together with its bit leaves
      one child per slot. */
  lemma DropSlotWellFormed<K, V>(bitmap: Word, children: seq<Node<K, V>>, k: nat)
    requires k < 64 && Bit(bitmap, k)
    requires WellFormed(Branch(bitmap, children))
    ensures Pow2(k) < WordLimit
    ensures PopcountBelow(bitmap, k) < |children|
    ensures
      var i := PopcountBelow(bitmap, k);
      WellFormed(Branch(Without(bitmap, Pow2(k)), children[..i] + children[i + 1..]))
  {
    var i := PopcountBelow(bitmap, k);
    IndexInRange(bitmap, k);
    PopcountBelowWithout(bitmap, k, 64);
    DropKeepsWellFormed(children, i);
  }

  /** Replacing one child by a well-formed node keeps one child per slot. */
  lemma ReplaceSlotWellFormed<K, V>(bitmap: Word, children: seq<Node<K, V>>, i: nat, c: Node<K, V>)
    requires i < |children| && WellFormed(Branch(bitmap, children)) && WellFormed(c)
    ensures WellFormed(Branch(bitmap, children[i := c]))
  {
  }

  /** `Remove` keeps every branch at one child per occupied slot. */
  lemma {:induction false} RemovePreservesWellFormed<K, V>(n: Node<K, V>, hash: Word, offset: int)
    requires WellFormed(n)
    requires Remove(n, hash, offset).Ok? && Remove(n, hash, offset).value.0.Some?
    ensures WellFormed(Remove(n, hash, offset).value.0.value)
    decreases n, 1
  {
    match n
    case Leaf(_, _, _) =>
    case Collision(_, _) =>
    case Branch(bitmap, children) =>
      assert 0 <= offset <= MaxOffset;
      var k := Band(hash, offset);
      var i := PopcountBelow(bitmap, k);
      var r := Remove(n, hash, offset);
      BranchRemove(bitmap, children, hash, offset);
      if Bit(bitmap, k) {
        var inner := Remove(children[i], hash, offset + 1);
        if !inner.value.1 {
          assert r.value.0.value == n;
        } else if inner.value.0.None? {
          assert r.value.0.value == Branch(Without(bitmap, Pow2(k)), children[..i] + children[i + 1..]);
          DropSlotWellFormed(bitmap, children, k);
        } else {
          assert r.value.0.value == Branch(bitmap, children[i := inner.value.0.value]);
          RemoveChildWellFormed(bitmap, children, hash, offset);
        }
      } else {
        assert r.value.0.value == n;
      }
  }

  /** Replacing the child of `hash`'s slot by what removal left of it
      keeps one child per slot. */
  lemma {:induction false} RemoveChildWellFormed<K, V>(bitmap: Word, children: seq<Node<K, V>>, hash: Word, offset: int)
    requires 0 <= offset <= MaxOffset && WellFormed(Branch(bitmap, children))
    requires PopcountBelow(bitmap, Band(hash, offset)) < |children|
    requires
      var inner := Remove(children[PopcountBelow(bitmap, Band(hash, offset))], hash, offset + 1);
      inner.Ok? && inner.value.0.Some?
    ensures
      var i := PopcountBelow(bitmap, Band(hash, offset));
      WellFormed(Branch(bitmap, children[i := Remove(children[i], hash, offset + 1).value.0.value]))
    decreases Branch(bitmap, children), 0
  {
    var i := PopcountBelow(bitmap, Band(hash, offset));
    RemovePreservesWellFormed(children[i], hash, offset + 1);
    ReplaceSlotWellFormed(bitmap, children, i, Remove(children[i], hash, offset + 1).value.0.value);
  }

  /** Once the slot of `hash` and its child are dropped, `Get` finds
      nothing. */
  lemma GetAfterDrop<K, V>(bitmap: Word, children: seq<Node<K, V>>, hash: Word, offset: int)
    requires 0 <= offset <= MaxOffset && |children| == Popcount(bitmap)
    requires Bit(bitmap, Band(hash, offset))
    ensures Pow2(Band(hash, offset)) < WordLimit
    ensures
      var k := Band(hash, offset);
      var i := PopcountBelow(bitmap, k);
      i < |children| &&
      Get(Branch(Without(bitmap, Pow2(k)), children[..i] + children[i + 1..]), hash, offset) == Ok(None)
  {
    var k := Band(hash, offset);
    var i := PopcountBelow(bitmap, k);
    IndexInRange(bitmap, k);
    PopcountBelowWithout(bitmap, k, 64);
    BitOfPow2(k, k);
    BranchGet(Without(bitmap, Pow2(k)), children[..i] + children[i + 1..], hash, offset);
  }

  /** Once the child of `hash`'s slot is replaced, `Get` asks the
      replacement. */
  lemma GetAfterReplace<K, V>(bitmap: Word, children: seq<Node<K, V>>, c: Node<K, V>, hash: Word, offset: int)
    requires 0 <= offset <= MaxOffset && |children| == Popcount(bitmap)
    requires Bit(bitmap, Band(hash, offset))
    ensures
      var i := PopcountBelow(bitmap, Band(hash, offset));
      i < |children| &&
      Get(Branch(bitmap, children[i := c]), hash, offset) == Get(c, hash, offset + 1)
  {
    IndexInRange(bitmap, Band(hash, offset));
    BranchGet(bitmap, children[PopcountBelow(bitmap, Band(hash, offset)) := c], hash, offset);
  }

  /** In a well-formed subtrie of leaves and branches, `Remove` panics
      exactly when `Get` does, removes exactly when `Get` finds a value,
      and afterwards `Get` finds nothing. */
  lemma {:induction false} RemoveMatchesGet<K, V>(n: Node<K, V>, hash: Word, offset: int)
    requires WellFormed(n) && NoCollision(n)
    ensures Remove(n, hash, offset).Ok? <==> Get(n, hash, offset).Ok?
    ensures Remove(n, hash, offset).Ok? ==> (Remove(n, hash, offset).value.1 <==> Get(n, hash, offset).value.Some?)
    ensures Remove(n, hash, offset).Ok? && Remove(n, hash, offset).value.0.Some? ==>
      Get(Remove(n, hash, offset).value.0.value, hash, offset) == Ok(None)
    decreases n
  {
    match n
    case Leaf(_, _, _) =>
    case Branch(bitmap, children) =>
      if 0 <= offset <= MaxOffset {
        var k := Band(hash, offset);
        var i := PopcountBelow(bitmap, k);
        BranchGet(bitmap, children, hash, offset);
        BranchRemove(bitmap, children, hash, offset);
        if Bit(bitmap, k) {
          RemoveMatchesGet(children[i], hash, offset + 1);
          var inner := Remove(children[i], hash, offset + 1);
          if inner.Ok? && inner.value.1 {
            if inner.value.0.None? {
              GetAfterDrop(bitmap, children, hash, offset);
            } else {
              GetAfterReplace(bitmap, children, inner.value.0.value, hash, offset);
            }
          }
        }
      } else {
        assert Position(hash, offset).Panic?;
      }
  }
}

=== FILE: hamt_corrected.dfy ===
/** The branch `Set` of internal/hamt/bitmap_indexed_node.go hands an
    occupied slot's child the branch's own level, while `Get` and `Remove`
    read that child one level deeper.  `OffsetDiscrepancy` exhibits an
    entry that `Get` no longer finds after the source's `Set`;
    `CorrectedSet` descends one level like `Get`, and the lemmas after it
    prove that `Get` then finds what was set and nothing else changes. */
module HamtCorrected {
  import opened Wrappers
  import opened Bits
  import opened Bitmap
  import opened Hamt
  import opened HamtLeaf
  import opened HamtBranch

  /** The slots of the hashes 1 and 129 at levels 0 and 1. */
  lemma ExampleBands()
    ensures Band(1, 0) == 1 && Band(129, 0) == 1 && Band(1, 1) == 0 && Band(129, 1) == 2
  {
    BandArithmetic(1, 0);
    BandArithmetic(129, 0);
    BandArithmetic(1, 1);
    BandArithmetic(129, 1);
    assert Pow2(6) == 64;
  }

  /** The leaf of hash 1 split by hash 129 from level 0: a one-slot
      branch around the level-1 split. */
  lemma ExampleLeafSet<K, V>(k1: K, v1: V, k2: K, v2: V)
    ensures Pow2(0) < WordLimit && Pow2(2) < WordLimit
    ensures
      var inner := Branch(Next(Pow2(0), Pow2(2)), [Leaf(1, k1, v1), Leaf(129, k2, v2)]);
      SetLeaf(1, k1, v1, k2, v2, 129, 0) == Ok(Branch(2, [inner]))
  {
    ExampleBands();
    assert Pow2(1) == 2;
    LeafSplit(1, k1, v1, k2, v2, 129, 1);
    LeafNest(1, k1, v1, k2, v2, 129, 0);
  }

  /** The source's `Set` of hash 129 into the branch holding the leaf of
      hash 1 in slot 1: the split of the two leaves at level 1 ends up two
      branches down. */
  lemma ExampleSet<K, V>(k1: K, v1: V, k2: K, v2: V)
    ensures Pow2(0) < WordLimit && Pow2(2) < WordLimit
    ensures
      var inner := Branch(Next(Pow2(0), Pow2(2)), [Leaf(1, k1, v1), Leaf(129, k2, v2)]);
      Set(Branch(2, [Leaf(1, k1, v1)]), k2, v2, 129, 0) == Ok(Branch(2, [Branch(2, [inner])]))
  {
    ExampleBands();
    assert Pow2(1) == 2;
    ExampleLeafSet(k1, v1, k2, v2);
    OneSlotSet(1, Leaf(1, k1, v1), k2, v2, 129, 0);
  }

  /** `Set` into a one-slot branch through its slot. */
  lemma OneSlotSet<K, V>(k: nat, child: Node<K, V>, key: K, value: V, hash: Word, offset: int)
    requires 0 <= offset <= MaxOffset && k == Band(hash, offset)
    ensures Pow2(k) < WordLimit
    ensures
      var inner := Set(child, key, value, hash, offset);
      Set(Branch(Pow2(k), [child]), key, value, hash, offset) == if inner.Ok? then Ok(Branch(Pow2(k), [inner.value])) else inner
  {
    OneSlot(k);
    OneSlotCount(k, k);
    BitOfPow2(k, k);
    BranchSetOccupied(Pow2(k), [child], key, value, hash, offset);
    var inner := Set(child, key, value, hash, offset);
    if inner.Ok? {
      assert [child][0 := inner.value] == [inner.value];
    }
  }

  /** Two leaves whose hashes 1 and 129 share slot 1 at level 0 (and differ
      at level 1).  The source's `Set` nests the split at level 0 under the
      level-0 branch, so `Get` finds neither entry afterwards, although the
      first one was found before. */
  lemma OffsetDiscrepancy<K, V>(k1: K, v1: V, k2: K, v2: V)
    ensures
      var n := Branch(2, [Leaf(1, k1, v1)]);
      var r := Set(n, k2, v2, 129, 0);
      Get(n, 1, 0) == Ok(Some(v1)) &&
      r.Ok? && Get(r.value, 1, 0) == Ok(None) && Get(r.value, 129, 0) == Ok(None)
  {
    ExampleBands();
    ExampleSet(k1, v1, k2, v2);
    OneSlot(1);
    assert Pow2(1) == 2;
    BitOfPow2(1, 1);
    BitOfPow2(1, 0);
    BitOfPow2(1, 2);
    var inner := Branch(Next(Pow2(0), Pow2(2)), [Leaf(1, k1, v1), Leaf(129, k2, v2)]);
    var mid := Branch(2, [inner]);
    BranchGet(2, [Leaf(1, k1, v1)], 1, 0);
    BranchGet(2, [mid], 1, 0);
    BranchGet(2, [mid], 129, 0);
    BranchGet(2, [inner], 1, 1);
    BranchGet(2, [inner], 129, 1);
  }

  /** `Set` as the branch evidently means it: an occupied slot's child is
      set at level `offset + 1`, the level `Get` reads it at.  Everything
      else is the source's `Set`. */
  function CorrectedSet<K(==), V(==)>(n: Node<K, V>, key: K, value: V, hash: Word, offset: int): (r: Outcome<Node<K, V>>)
    ensures !n.Branch? ==> r == Set(n, key, value, hash, offset)
    ensures n.Branch? && r.Ok? ==> r.value.Branch?
    decreases n
  {
    match n
    case Leaf(h, k, v) => SetLeaf(h, k, v, key, value, hash, offset)
    case Collision(h, entries) =>
      if h == hash then Ok(Collision(hash, entries + [Entry(key, value)]))
      else Ok(Leaf(hash, key, value))
    case Branch(bitmap, children) =>
      match Position(hash, offset)
      case Panic(reason) => Panic(reason)
      case Ok(position) =>
        var index := Index(bitmap, position).0;
        if Has(bitmap, position) then
          if index >= |children| then Panic("index out of range")
          else
            var target := children[index];
            match CorrectedSet(target, key, value, hash, offset + 1)
            case Panic(reason) => Panic(reason)
            case Ok(next) =>
              if next == target then Ok(n)
              else Ok(Branch(bitmap, ReplaceNode(children, index, next)))
        else
          AddLeaf(bitmap, children, key, value, hash, position)
  }

  /** Into a free slot the corrected `Set` adds a leaf just as the source's
      does. */
  lemma CorrectedBranchFree<K, V>(bitmap: Word, children: seq<Node<K, V>>, key: K, value: V, hash: Word, offset: int)
    requires 0 <= offset <= MaxOffset && |children| == Popcount(bitmap)
    requires !Bit(bitmap, Band(hash, offset))
    ensures CorrectedSet(Branch(bitmap, children), key, value, hash, offset) == Set(Branch(bitmap, children), key, value, hash, offset)
  {
    HasSlot(bitmap, Band(hash, offset));
  }

  /** Into an occupied slot the corrected `Set` sets the slot's child one
      level deeper and replaces only that child. */
  lemma CorrectedBranchOccupied<K, V>(bitmap: Word, children: seq<Node<K, V>>, key: K, value: V, hash: Word, offset: int)
    requires 0 <= offset <= MaxOffset && |children| == Popcount(bitmap)
    requires Bit(bitmap, Band(hash, offset))
    ensures
      var i := PopcountBelow(bitmap, Band(hash, offset));
      i < |children| &&
      var inner := CorrectedSet(children[i], key, value, hash, offset + 1);
      CorrectedSet(Branch(bitmap, children), key, value, hash, offset)
        == if inner.Ok? then Ok(Branch(bitmap, children[i := inner.value])) else inner
  {
    var k := Band(hash, offset);
    var i := PopcountBelow(bitmap, k);
    HasSlot(bitmap, k);
    IndexOfSlot(bitmap, k);
    IndexInRange(bitmap, k);
    assert children[i := children[i]] == children;
  }

  /** Distinct occupied slots have distinct compacted indices. */
  lemma DistinctSlots(bitmap: Word, k: nat, ko: nat)
    requires k < 64 && ko < 64 && k != ko && Bit(bitmap, k) && Bit(bitmap, ko)
    ensures PopcountBelow(bitmap, k) != PopcountBelow(bitmap, ko)
  {
    if k < ko {
      PopcountBelowStrict(bitmap, k, ko);
    } else {
      PopcountBelowStrict(bitmap, ko, k);
    }
  }

  /** Replacing the child of `hash`'s slot changes nothing for the hashes
      of the other slots. */
  lemma GetOtherAfterReplace<K, V>(bitmap: Word, children: seq<Node<K, V>>, c: Node<K, V>, hash: Word, offset: int, other: Word)
    requires 0 <= offset <= MaxOffset && |children| == Popcount(bitmap)
    requires Bit(bitmap, Band(hash, offset)) && Band(other, offset) != Band(hash, offset)
    ensures
      var i := PopcountBelow(bitmap, Band(hash, offset));
      i < |children| &&
      Get(Branch(bitmap, children[i := c]), other, offset) == Get(Branch(bitmap, children), other, offset)
  {
    var k, ko := Band(hash, offset), Band(other, offset);
    var i := PopcountBelow(bitmap, k);
    IndexInRange(bitmap, k);
    BranchGet(bitmap, children[i := c], other, offset);
    BranchGet(bitmap, children, other, offset);
    if Bit(bitmap, ko) {
      DistinctSlots(bitmap, k, ko);
    }
  }

  /** `Get` through a one-slot branch. */
  lemma OneSlotGet<K, V>(k: nat, child: Node<K, V>, h: Word, offset: int)
    requires 0 <= offset <= MaxOffset && k < 64
    ensures Pow2(k) < WordLimit
    ensures Get(Branch(Pow2(k), [child]), h, offset) == if Band(h, offset) == k then Get(child, h, offset + 1) else Ok(None)
  {
    OneSlot(k);
    OneSlotCount(k, k);
    BitOfPow2(k, Band(h, offset));
    BranchGet(Pow2(k), [child], h, offset);
  }

  /** In a two-slot branch of two leaves of other hashes, `Get` finds
      nothing. */
  lemma TwoLeavesGetOther<K, V>(bitmap: Word, l1: Node<K, V>, l2: Node<K, V>, offset: int, other: Word)
    requires 0 <= offset <= MaxOffset && Popcount(bitmap) == 2
    requires l1.Leaf? && l1.hash != other && l2.Leaf? && l2.hash != other
    ensures Get(Branch(bitmap, [l1, l2]), other, offset) == Ok(None)
  {
    BranchGet(bitmap, [l1, l2], other, offset);
  }

  /** After a leaf's `Set` with a new hash, every third hash finds
      nothing. */
  lemma {:induction false} LeafSetGetOther<K, V>(h1: Word, k1: K, v1: V, key: K, value: V, hash: Word, offset: int, other: Word)
    requires h1 != hash && other != h1 && other != hash
    requires SetLeaf(h1, k1, v1, key, value, hash, offset).Ok?
    ensures Get(SetLeaf(h1, k1, v1, key, value, hash, offset).value, other, offset) == Ok(None)
    decreases MaxOffset + 1 - offset
  {
    LeafSetOk(h1, k1, v1, key, value, hash, offset);
    var b1, b2 := Band(h1, offset), Band(hash, offset);
    if b1 == b2 {
      LeafNest(h1, k1, v1, key, value, hash, offset);
      LeafSetGetOther(h1, k1, v1, key, value, hash, offset + 1, other);
      OneSlotGet(b1, SetLeaf(h1, k1, v1, key, value, hash, offset + 1).value, other, offset);
    } else {
      SplitGetOther(h1, k1, v1, key, value, hash, offset, other);
    }
  }

  /** The split step of `LeafSetGetOther`. */
  lemma SplitGetOther<K, V>(h1: Word, k1: K, v1: V, key: K, value: V, hash: Word, offset: int, other: Word)
    requires 0 <= offset <= MaxOffset && Band(h1, offset) != Band(hash, offset)
    requires other != h1 && other != hash
    ensures SetLeaf(h1, k1, v1, key, value, hash, offset).Ok?
    ensures Get(SetLeaf(h1, k1, v1, key, value, hash, offset).value, other, offset) == Ok(None)
  {
    var b1, b2 := Band(h1, offset), Band(hash, offset);
    LeafSplit(h1, k1, v1, key, value, hash, offset);
    TwoSlots(b1, b2);
    var old_, new_ := Leaf(h1, k1, v1), Leaf(hash, key, value);
    if b1 < b2 {
      TwoLeavesGetOther(Next(Pow2(b1), Pow2(b2)), old_, new_, offset, other);
    } else {
      TwoLeavesGetOther(Next(Pow2(b1), Pow2(b2)), new_, old_, offset, other);
    }
  }

  /** In a well-formed subtrie of leaves and branches, `Get` finds what the
      corrected `Set` stored. */
  lemma {:induction false} CorrectedSetThenGet<K, V>(n: Node<K, V>, key: K, value: V, hash: Word, offset: int)
    requires WellFormed(n) && NoCollision(n)
    requires CorrectedSet(n, key, value, hash, offset).Ok?
    ensures Get(CorrectedSet(n, key, value, hash, offset).value, hash, offset) == Ok(Some(value))
    decreases n, 1
  {
    match n
    case Leaf(h1, k1, v1) =>
      if h1 != hash {
        LeafSetThenGet(h1, k1, v1, key, value, hash, offset);
      }
    case Branch(bitmap, children) =>
      assert 0 <= offset <= MaxOffset;
      var k := Band(hash, offset);
      if Bit(bitmap, k) {
        CorrectedBranchOccupied(bitmap, children, key, value, hash, offset);
        ChildThenGet(bitmap, children, key, value, hash, offset);
      } else {
        CorrectedBranchFree(bitmap, children, key, value, hash, offset);
        SetFreeThenGet(bitmap, children, key, value, hash, offset, hash);
      }
  }

  /** The occupied-slot step of `CorrectedSetThenGet`. */
  lemma {:induction false} ChildThenGet<K, V>(bitmap: Word, children: seq<Node<K, V>>, key: K, value: V, hash: Word, offset: int)
    requires 0 <= offset <= MaxOffset && WellFormed(Branch(bitmap, children)) && NoCollision(Branch(bitmap, children))
    requires PopcountBelow(bitmap, Band(hash, offset)) < |children| && Bit(bitmap, Band(hash, offset))
    requires CorrectedSet(children[PopcountBelow(bitmap, Band(hash, offset))], key, value, hash, offset + 1).Ok?
    ensures
      var i := PopcountBelow(bitmap, Band(hash, offset));
      var c := CorrectedSet(children[i], key, value, hash, offset + 1).value;
      Get(Branch(bitmap, children[i := c]), hash, offset) == Ok(Some(value))
    decreases Branch(bitmap, children), 0
  {
    var i := PopcountBelow(bitmap, Band(hash, offset));
    CorrectedSetThenGet(children[i], key, value, hash, offset + 1);
    GetAfterReplace(bitmap, children, CorrectedSet(children[i], key, value, hash, offset + 1).value, hash, offset);
  }

  /** In a well-formed subtrie of leaves and branches, the corrected `Set`
      changes what `Get` finds for no other hash. */
  lemma {:induction false} CorrectedSetKeepsOthers<K, V>(n: Node<K, V>, key: K, value: V, hash: Word, offset: int, other: Word)
    requires WellFormed(n) && NoCollision(n) && other != hash
    requires CorrectedSet(n, key, value, hash, offset).Ok?
    ensures Get(CorrectedSet(n, key, value, hash, offset).value, other, offset) == Get(n, other, offset)
    decreases n, 1
  {
    match n
    case Leaf(h1, k1, v1) =>
      if h1 != hash && other != h1 {
        LeafSetGetOther(h1, k1, v1, key, value, hash, offset, other);
      } else if h1 != hash {
        LeafSetThenGet(h1, k1, v1, key, value, hash, offset);
      }
    case Branch(bitmap, children) =>
      assert 0 <= offset <= MaxOffset;
      var k, ko := Band(hash, offset), Band(other, offset);
      var i := PopcountBelow(bitmap, k);
      if Bit(bitmap, k) {
        CorrectedBranchOccupied(bitmap, children, key, value, hash, offset);
        var c := CorrectedSet(children[i], key, value, hash, offset + 1).value;
        if ko == k {
          ChildKeepsOthers(bitmap, children, key, value, hash, offset, other);
        } else {
          GetOtherAfterReplace(bitmap, children, c, hash, offset, other);
        }
      } else {
        CorrectedBranchFree(bitmap, children, key, value, hash, offset);
        if ko == k {
          SetFreeThenGet(bitmap, children, key, value, hash, offset, other);
          BranchGet(bitmap, children, other, offset);
        } else {
          SetFreeKeepsOthers(bitmap, children, key, value, hash, offset, other);
        }
      }
  }

  /** The occupied-slot step of `CorrectedSetKeepsOthers` for a hash of
      the same slot. */
  lemma {:induction false} ChildKeepsOthers<K, V>(bitmap: Word, children: seq<Node<K, V>>, key: K, value: V, hash: Word, offset: int, other: Word)
    requires 0 <= offset <= MaxOffset && WellFormed(Branch(bitmap, children)) && NoCollision(Branch(bitmap, children))
    requires other != hash && Band(other, offset) == Band(hash, offset)
    requires PopcountBelow(bitmap, Band(hash, offset)) < |children| && Bit(bitmap, Band(hash, offset))
    requires CorrectedSet(children[PopcountBelow(bitmap, Band(hash, offset))], key, value, hash, offset + 1).Ok?
    ensures
      var i := PopcountBelow(bitmap, Band(hash, offset));
      var c := CorrectedSet(children[i], key, value, hash, offset + 1).value;
      Get(Branch(bitmap, children[i := c]), other, offset) == Get(Branch(bitmap, children), other, offset)
    decreases Branch(bitmap, children), 0
  {
    var i := PopcountBelow(bitmap, Band(hash, offset));
    var c := CorrectedSet(children[i], key, value, hash, offset + 1).value;
    CorrectedSetKeepsOthers(children[i], key, value, hash, offset + 1, other);
    GetAfterReplace(bitmap, children, c, other, offset);
    BranchGet(bitmap, children, other, offset);
  }

  /** The corrected `Set` keeps every branch at one child per occupied
      slot. */
  lemma {:induction false} CorrectedSetWellFormed<K, V>(n: Node<K, V>, key: K, value: V, hash: Word, offset: int)
    requires WellFormed(n)
    requires CorrectedSet(n, key, value, hash, offset).Ok?
    ensures WellFormed(CorrectedSet(n, key, value, hash, offset).value)
    decreases n, 1
  {
    match n
    case Leaf(h1, k1, v1) =>
      SetLeafWellFormed(h1, k1, v1, key, value, hash, offset);
    case Collision(_, _) =>
    case Branch(bitmap, children) =>
      assert 0 <= offset <= MaxOffset;
      var k := Band(hash, offset);
      if Bit(bitmap, k) {
        CorrectedBranchOccupied(bitmap, children, key, value, hash, offset);
        ChildWellFormed(bitmap, children, key, value, hash, offset);
      } else {
        CorrectedBranchFree(bitmap, children, key, value, hash, offset);
        SetPreservesWellFormed(n, key, value, hash, offset);
      }
  }

  /** The occupied-slot step of `CorrectedSetWellFormed`. */
  lemma {:induction false} ChildWellFormed<K, V>(bitmap: Word, children: seq<Node<K, V>>, key: K, value: V, hash: Word, offset: int)
    requires 0 <= offset <= MaxOffset && WellFormed(Branch(bitmap, children))
    requires PopcountBelow(bitmap, Band(hash, offset)) < |children|
    requires CorrectedSet(children[PopcountBelow(bitmap, Band(hash, offset))], key, value, hash, offset + 1).Ok?
    ensures
      var i := PopcountBelow(bitmap, Band(hash, offset));
      WellFormed(Branch(bitmap, children[i := CorrectedSet(children[i], key, value, hash, offset + 1).value]))
    decreases Branch(bitmap, children), 0
  {
    var i := PopcountBelow(bitmap, Band(hash, offset));
    CorrectedSetWellFormed(children[i], key, value, hash, offset + 1);
    ReplaceSlotWellFormed(bitmap, children, i, CorrectedSet(children[i], key, value, hash, offset + 1).value);
  }
}

=== FILE: hamt_leaf.dfy ===
/** What `Set` does to a leaf (internal/hamt/leaf_node.go): the shape of
    the branch it builds, when it panics, and that both entries can be
    found again afterwards. */
module HamtLeaf {
  import opened Wrappers
  import opened Bits
  import opened Bitmap
  import opened Hamt

  /** The two hashes select different slots at some level from `offset` up
      to the deepest one. */
  predicate Separated(h1: Word, h2: Word, offset: nat)
    decreases MaxOffset + 1 - offset
  {
    offset <= MaxOffset && (Band(h1, offset) != Band(h2, offset) || Separated(h1, h2, offset + 1))
  }

  /** Hashes that are not separated from `offset` on agree in every band
      from `offset` to the deepest level. */
  lemma {:induction false} AgreeFrom(h1: Word, h2: Word, offset: nat)
    requires !Separated(h1, h2, offset)
    ensures forall o: nat | offset <= o <= MaxOffset :: Band(h1, o) == Band(h2, o)
    decreases MaxOffset + 1 - offset
  {
    if offset <= MaxOffset {
      AgreeFrom(h1, h2, offset + 1);
    }
  }

  /** Distinct hashes always separate when splitting starts at level 0. */
  lemma DistinctHashesSeparate(h1: Word, h2: Word)
    ensures h1 == h2 || Separated(h1, h2, 0)
  {
    if !Separated(h1, h2, 0) {
      AgreeFrom(h1, h2, 0);
      BandsDetermineWord(h1, h2);
    }
  }

  /** Where the two hashes' bands differ, setting into a leaf builds the
      two-slot branch whose children are the two leaves in slot order. */
  lemma LeafSplit<K, V>(h1: Word, k1: K, v1: V, key: K, value: V, hash: Word, offset: int)
    requires 0 <= offset <= MaxOffset && Band(h1, offset) != Band(hash, offset)
    ensures Pow2(Band(h1, offset)) < WordLimit && Pow2(Band(hash, offset)) < WordLimit
    ensures
      var b1, b2 := Band(h1, offset), Band(hash, offset);
      var old_, new_ := Leaf(h1, k1, v1), Leaf(hash, key, value);
      SetLeaf(h1, k1, v1, key, value, hash, offset)
        == Ok(Branch(Next(Pow2(b1), Pow2(b2)), if b1 < b2 then [old_, new_] else [new_, old_]))
  {
    var b1, b2 := Band(h1, offset), Band(hash, offset);
    SamePosition(h1, hash, offset);
    AddToOneSlot(b1, b2, Leaf(h1, k1, v1), key, value, hash);
  }

  /** The empty-slot path of `Set` on the one-slot branch of slot `k1`,
      for slot `k2`. */
  lemma AddToOneSlot<K, V>(k1: nat, k2: nat, l: Node<K, V>, key: K, value: V, hash: Word)
    requires k1 < 64 && k2 < 64 && k1 != k2
    ensures Pow2(k1) < WordLimit && Pow2(k2) < WordLimit
    ensures
      var new_ := Leaf(hash, key, value);
      AddLeaf(Next(0, Pow2(k1)), [l], key, value, hash, Pow2(k2))
        == Ok(Branch(Next(Pow2(k1), Pow2(k2)), if k1 < k2 then [l, new_] else [new_, l]))
  {
    OneSlot(k1);
    TwoSlots(k1, k2);
    var i := if k1 < k2 then 1 else 0;
    InsertIntoOne(l, Leaf(hash, key, value), i);
  }

  /** Inserting `y` into the one-element run `[x]`. */
  lemma InsertIntoOne<T>(x: T, y: T, i: nat)
    requires i <= 1
    ensures [x][..i] + [y] + [x][i..] == if i == 1 then [x, y] else [y, x]
  {
    if i == 1 {
      assert [x][..1] == [x];
    }
  }

  /** Where the two hashes' bands agree, setting into a leaf wraps the
      result of the same `Set` one level deeper in a one-slot branch. */
  lemma LeafNest<K, V>(h1: Word, k1: K, v1: V, key: K, value: V, hash: Word, offset: int)
    requires 0 <= offset <= MaxOffset && h1 != hash && Band(h1, offset) == Band(hash, offset)
    ensures Pow2(Band(h1, offset)) < WordLimit
    ensures
      var inner := SetLeaf(h1, k1, v1, key, value, hash, offset + 1);
      SetLeaf(h1, k1, v1, key, value, hash, offset)
        == if inner.Ok? then Ok(Branch(Pow2(Band(h1, offset)), [inner.value])) else inner
  {
    OneSlot(Band(h1, offset));
  }

  /** Setting a new hash into a leaf succeeds exactly when the two hashes
      separate at some level from `offset` on; it panics at level 11
      otherwise.  From level 0 it always succeeds. */
  lemma {:induction false} LeafSetOk<K, V>(h1: Word, k1: K, v1: V, key: K, value: V, hash: Word, offset: int)
    requires h1 != hash
    ensures SetLeaf(h1, k1, v1, key, value, hash, offset).Ok? <==> offset >= 0 && Separated(h1, hash, offset)
    decreases MaxOffset + 1 - offset
  {
    if 0 <= offset <= MaxOffset {
      if Band(h1, offset) == Band(hash, offset) {
        LeafSetOk(h1, k1, v1, key, value, hash, offset + 1);
        NestOk(h1, k1, v1, key, value, hash, offset);
      } else {
        SplitOk(h1, k1, v1, key, value, hash, offset);
      }
    } else {
      OutOfRangePanics(h1, k1, v1, key, value, hash, offset);
    }
  }

  /** Where the bands differ, a leaf's `Set` succeeds and the hashes are
      separated. */
  lemma SplitOk<K, V>(h1: Word, k1: K, v1: V, key: K, value: V, hash: Word, offset: int)
    requires 0 <= offset <= MaxOffset && Band(h1, offset) != Band(hash, offset)
    ensures SetLeaf(h1, k1, v1, key, value, hash, offset).Ok?
    ensures Separated(h1, hash, offset)
  {
    LeafSplit(h1, k1, v1, key, value, hash, offset);
  }

  /** Past the deepest level a leaf's `Set` with a new hash panics. */
  lemma OutOfRangePanics<K, V>(h1: Word, k1: K, v1: V, key: K, value: V, hash: Word, offset: int)
    requires h1 != hash && !(0 <= offset <= MaxOffset)
    ensures SetLeaf(h1, k1, v1, key, value, hash, offset).Panic?
    ensures !(offset >= 0 && Separated(h1, hash, offset))
  {
    assert Position(h1, offset).Panic?;
  }

  /** Where the bands agree, success and separation both carry over from
      the next level. */
  lemma NestOk<K, V>(h1: Word, k1: K, v1: V, key: K, value: V, hash: Word, offset: int)
    requires 0 <= offset <= MaxOffset && h1 != hash && Band(h1, offset) == Band(hash, offset)
    ensures SetLeaf(h1, k1, v1, key, value, hash, offset).Ok? == SetLeaf(h1, k1, v1, key, value, hash, offset + 1).Ok?
    ensures Separated(h1, hash, offset) == Separated(h1, hash, offset + 1)
  {
    LeafNest(h1, k1, v1, key, value, hash, offset);
  }

  /** From the root level, setting into a leaf never panics. */
  lemma LeafSetFromRoot<K, V>(h1: Word, k1: K, v1: V, key: K, value: V, hash: Word)
    ensures SetLeaf(h1, k1, v1, key, value, hash, 0).Ok?
  {
    if h1 != hash {
      DistinctHashesSeparate(h1, hash);
      LeafSetOk(h1, k1, v1, key, value, hash, 0);
    }
  }

  /** After setting a new hash into a leaf, `Get` at the same level finds
      the old entry under the old hash and the new one under the new hash. */
  lemma {:induction false} LeafSetThenGet<K, V>(h1: Word, k1: K, v1: V, key: K, value: V, hash: Word, offset: int)
    requires h1 != hash
    requires SetLeaf(h1, k1, v1, key, value, hash, offset).Ok?
    ensures
      var r := SetLeaf(h1, k1, v1, key, value, hash, offset).value;
      Get(r, h1, offset) == Ok(Some(v1)) && Get(r, hash, offset) == Ok(Some(value))
    decreases MaxOffset + 1 - offset
  {
    LeafSetOk(h1, k1, v1, key, value, hash, offset);
    var b1, b2 := Band(h1, offset), Band(hash, offset);
    if b1 == b2 {
      LeafNest(h1, k1, v1, key, value, hash, offset);
      LeafSetThenGet(h1, k1, v1, key, value, hash, offset + 1);
      OneSlot(b1);
    } else {
      LeafSplit(h1, k1, v1, key, value, hash, offset);
      TwoSlots(b1, b2);
    }
  }
}

=== FILE: hamt_routed.dfy ===
/** The trie as a finite map from hashes to entries.

    `Stores(n, h, e)` says the subtrie `n` keeps entry `e` under hash `h`.
    In a routed trie every entry sits in the slot its hash selects at each
    level, so at most one entry is kept per hash, `Get` finds exactly the
    stored entries, the corrected `Set` overwrites or adds the entry of its
    hash, and `Remove` takes out the entry of its hash and nothing else.
    These are the facts the set of internal/collections/set.go relies on. */
module HamtRouted {
  import opened Wrappers
  import opened Bits
  import opened Bitmap
  import opened Hamt
  import opened HamtLeaf
  import opened HamtBranch
  import opened HamtCorrected

  /** The subtrie keeps entry `e` under hash `h`. */
  ghost predicate Stores<K, V>(n: Node<K, V>, h: Word, e: Entry<K, V>)
    decreases n
  {
    match n
    case Leaf(hash, key, value) => hash == h && e == Entry(key, value)
    case Collision(hash, entries) => hash == h && e in entries
    case Branch(_, children) => exists j | 0 <= j < |children| :: Stores(children[j], h, e)
  }

  /** Some child of the run keeps `e` under `h`. */
  ghost predicate InChildren<K, V>(children: seq<Node<K, V>>, h: Word, e: Entry<K, V>) {
    exists j | 0 <= j < |children| :: Stores(children[j], h, e)
  }

  /** Some child of the run other than the one at `i` keeps `e` under `h`. */
  ghost predicate InOthers<K, V>(children: seq<Node<K, V>>, i: nat, h: Word, e: Entry<K, V>) {
    exists j | 0 <= j < |children| && j != i :: Stores(children[j], h, e)
  }

  /** A branch keeps what its children keep. */
  lemma StoresBranch<K, V>(bitmap: Word, children: seq<Node<K, V>>, h: Word, e: Entry<K, V>)
    ensures Stores(Branch(bitmap, children), h, e) == InChildren(children, h, e)
  {
  }

  /** The subtrie keeps some entry under `h`. */
  ghost predicate Holds<K, V>(n: Node<K, V>, h: Word)
    decreases n
  {
    match n
    case Leaf(hash, _, _) => hash == h
    case Collision(hash, entries) => hash == h && |entries| > 0
    case Branch(_, children) => exists j | 0 <= j < |children| :: Holds(children[j], h)
  }

  /** What is stored under `h` is held under `h`, and what is held is
      stored. */
  lemma {:induction false} HoldsIffStores<K, V>(n: Node<K, V>, h: Word)
    ensures Holds(n, h) <==> exists e :: Stores(n, h, e)
    decreases n
  {
    if n.Leaf? {
      assert Stores(n, h, Entry(n.key, n.value)) <==> n.hash == h;
    } else if n.Collision? {
      if Holds(n, h) {
        assert Stores(n, h, n.entries[0]);
      }
    } else {
      var children := n.children;
      if Holds(n, h) {
        var j :| 0 <= j < |children| && Holds(children[j], h);
        HoldsIffStores(children[j], h);
        var e: Entry<K, V> :| Stores(children[j], h, e);
        assert Stores(n, h, e);
      }
      if exists e :: Stores(n, h, e) {
        var e: Entry<K, V> :| Stores(n, h, e);
        var j :| 0 <= j < |children| && Stores(children[j], h, e);
        assert exists e' :: Stores(children[j], h, e');
        HoldsIffStores(children[j], h);
        assert Holds(children[j], h);
        assert Holds(n, h);
      }
    }
  }

  /** Keeping an entry under `h` is holding `h`. */
  lemma StoresHolds<K, V>(n: Node<K, V>, h: Word, e: Entry<K, V>)
    requires Stores(n, h, e)
    ensures Holds(n, h)
  {
    assert exists e' :: Stores(n, h, e');
    HoldsIffStores(n, h);
  }

  /** `h` selects the occupied slot whose child has compacted index `i`. */
  predicate InSlot(bitmap: Word, i: nat, h: Word, offset: nat) {
    Bit(bitmap, Band(h, offset)) && PopcountBelow(bitmap, Band(h, offset)) == i
  }

  /** Every entry of a branch at level `offset` is kept by the child of the
      slot its hash selects there, all the way down; branches are valid
      levels and never empty, and there are no collision nodes. */
  ghost predicate Routed<K, V>(n: Node<K, V>, offset: int)
    decreases n
  {
    match n
    case Leaf(_, _, _) => true
    case Collision(_, _) => false
    case Branch(bitmap, children) =>
      0 <= offset <= MaxOffset && |children| > 0 &&
      forall j | 0 <= j < |children| ::
        Routed(children[j], offset + 1) && forall h | Holds(children[j], h) :: InSlot(bitmap, j, h, offset)
  }

  /** The hashes agree on every level above `offset`. */
  ghost predicate AgreeBelow(g: Word, h: Word, offset: nat) {
    forall o: nat | o < offset :: Band(g, o) == Band(h, o)
  }

  /** Distinct occupied slots have distinct compacted indices. */
  lemma SlotIndexInjective(bitmap: Word, k1: nat, k2: nat)
    requires Bit(bitmap, k1) && Bit(bitmap, k2)
    ensures k1 != k2 ==> PopcountBelow(bitmap, k1) != PopcountBelow(bitmap, k2)
  {
    if k1 < k2 {
      PopcountBelowStrict(bitmap, k1, k2);
    } else if k2 < k1 {
      PopcountBelowStrict(bitmap, k2, k1);
    }
  }

  /** A routed subtrie has no collision nodes. */
  lemma {:induction false} RoutedNoCollision<K, V>(n: Node<K, V>, offset: int)
    requires Routed(n, offset)
    ensures NoCollision(n)
    decreases n
  {
    if n.Branch? {
      forall j | 0 <= j < |n.children|
        ensures NoCollision(n.children[j])
      {
        RoutedNoCollision(n.children[j], offset + 1);
      }
    }
  }

  /** In a routed branch, only the child of `h`'s slot can keep entries
      under `h`. */
  lemma OnlyOwnSlot<K, V>(bitmap: Word, children: seq<Node<K, V>>, h: Word, offset: int)
    requires Routed(Branch(bitmap, children), offset)
    ensures
      var k := Band(h, offset);
      forall j | 0 <= j < |children| && Holds(children[j], h) :: Bit(bitmap, k) && j == PopcountBelow(bitmap, k)
  {
  }

  /** A routed trie keeps at most one entry per hash. */
  lemma {:induction false} StoresUnique<K, V>(n: Node<K, V>, h: Word, e1: Entry<K, V>, e2: Entry<K, V>, offset: int)
    requires Routed(n, offset) && Stores(n, h, e1) && Stores(n, h, e2)
    ensures e1 == e2
    decreases n
  {
    match n
    case Leaf(_, _, _) =>
    case Branch(bitmap, children) =>
      OnlyOwnSlot(bitmap, children, h, offset);
      var j1 :| 0 <= j1 < |children| && Stores(children[j1], h, e1);
      var j2 :| 0 <= j2 < |children| && Stores(children[j2], h, e2);
      StoresHolds(children[j1], h, e1);
      StoresHolds(children[j2], h, e2);
      StoresUnique(children[j1], h, e1, e2, offset + 1);
  }

  /** In a routed, well-formed trie `Get` never panics and finds exactly
      the value of the entry kept under the hash. */
  lemma {:induction false} GetRouted<K, V>(n: Node<K, V>, h: Word, offset: int)
    requires WellFormed(n) && Routed(n, offset)
    ensures Get(n, h, offset).Ok?
    ensures Get(n, h, offset).value.Some? <==> Holds(n, h)
    ensures forall e | Stores(n, h, e) :: Get(n, h, offset).value == Some(e.value)
    decreases n
  {
    match n
    case Leaf(_, _, _) =>
    case Branch(bitmap, children) =>
      var k := Band(h, offset);
      var i := PopcountBelow(bitmap, k);
      BranchGet(bitmap, children, h, offset);
      OnlyOwnSlot(bitmap, children, h, offset);
      forall j | 0 <= j < |children|
        ensures Holds(children[j], h) <==> exists e :: Stores(children[j], h, e)
      {
        HoldsIffStores(children[j], h);
      }
      if Bit(bitmap, k) {
        GetRouted(children[i], h, offset + 1);
      }
  }

  /** Two distinct hashes that agree above `offset` separate at some level
      from `offset` on. */
  lemma SeparatedBelow(h1: Word, h2: Word, offset: nat)
    requires h1 != h2 && AgreeBelow(h1, h2, offset)
    ensures Separated(h1, h2, offset)
  {
    DistinctHashesSeparate(h1, h2);
    SeparatedAbove(h1, h2, 0, offset);
  }

  lemma {:induction false} SeparatedAbove(h1: Word, h2: Word, o: nat, offset: nat)
    requires o <= offset && Separated(h1, h2, o)
    requires forall p: nat | o <= p < offset :: Band(h1, p) == Band(h2, p)
    ensures Separated(h1, h2, offset)
    decreases offset - o
  {
    if o < offset {
      SeparatedAbove(h1, h2, o + 1, offset);
    }
  }

  /** The entries of `a` are those of `b` except under `hash`, where `a`
      keeps `x` if there is one and nothing otherwise: then the hashes
      they hold differ in the same way. */
  lemma HoldsOfStores<K, V>(a: Node<K, V>, b: Node<K, V>, hash: Word, x: Option<Entry<K, V>>)
    requires forall h, e :: Stores(a, h, e) <==> (Stores(b, h, e) && h != hash) || (x.Some? && h == hash && e == x.value)
    ensures forall h :: Holds(a, h) <==> (Holds(b, h) && h != hash) || (x.Some? && h == hash)
  {
    forall h
      ensures Holds(a, h) <==> (Holds(b, h) && h != hash) || (x.Some? && h == hash)
    {
      if Holds(a, h) {
        HoldsIffStores(a, h);
        var e: Entry<K, V> :| Stores(a, h, e);
        if h != hash {
          StoresHolds(b, h, e);
        }
      }
      if Holds(b, h) && h != hash {
        HoldsIffStores(b, h);
        var e: Entry<K, V> :| Stores(b, h, e);
        StoresHolds(a, h, e);
      }
      if x.Some? && h == hash {
        assert Stores(a, h, x.value);
        StoresHolds(a, h, x.value);
      }
    }
  }

  /** The branch of the one slot `k` around `c`, all of whose hashes
      select `k`, is routed and keeps what `c` keeps. */
  lemma OneSlotRouted<K, V>(k: nat, c: Node<K, V>, offset: int)
    requires k < 64 && 0 <= offset <= MaxOffset && Routed(c, offset + 1)
    requires forall h | Holds(c, h) :: Band(h, offset) == k
    ensures Pow2(k) < WordLimit
    ensures Routed(Branch(Pow2(k), [c]), offset)
    ensures forall h, e :: Stores(Branch(Pow2(k), [c]), h, e) <==> Stores(c, h, e)
  {
    OneSlot(k);
    BitOfPow2(k, k);
    OneSlotCount(k, k);
    var m := Branch(Pow2(k), [c]);
    forall j, h | 0 <= j < 1 && Holds([c][j], h)
      ensures InSlot(Pow2(k), j, h, offset)
    {
      assert Band(h, offset) == k;
    }
    RoutedBranch(Pow2(k), [c], offset);
    forall h, e
      ensures Stores(m, h, e) <==> Stores(c, h, e)
    {
      assert [c][0] == c;
    }
  }

  /** The definition of `Routed` for a branch, as one step. */
  lemma RoutedBranch<K, V>(bitmap: Word, children: seq<Node<K, V>>, offset: int)
    requires 0 <= offset <= MaxOffset && |children| > 0
    requires forall j | 0 <= j < |children| :: Routed(children[j], offset + 1)
    requires forall j, h | 0 <= j < |children| && Holds(children[j], h) :: InSlot(bitmap, j, h, offset)
    ensures Routed(Branch(bitmap, children), offset)
  {
  }

  /** The two-slot branch of two leaves whose bands differ is routed and
      keeps the two entries. */
  lemma TwoLeavesRouted<K, V>(h1: Word, e1: Entry<K, V>, h2: Word, e2: Entry<K, V>, offset: int)
    requires 0 <= offset <= MaxOffset && Band(h1, offset) != Band(h2, offset)
    ensures Pow2(Band(h1, offset)) < WordLimit && Pow2(Band(h2, offset)) < WordLimit
    ensures
      var b1, b2 := Band(h1, offset), Band(h2, offset);
      var l1, l2 := Leaf(h1, e1.key, e1.value), Leaf(h2, e2.key, e2.value);
      var m := Branch(Next(Pow2(b1), Pow2(b2)), if b1 < b2 then [l1, l2] else [l2, l1]);
      Routed(m, offset) && forall h, e :: Stores(m, h, e) <==> (h == h1 && e == e1) || (h == h2 && e == e2)
  {
    var b1, b2 := Band(h1, offset), Band(h2, offset);
    TwoSlots(b1, b2);
    var bitmap := Next(Pow2(b1), Pow2(b2));
    var l1, l2 := Leaf(h1, e1.key, e1.value), Leaf(h2, e2.key, e2.value);
    if b1 < b2 {
      LeafInSlot(b1, b2, h1, offset);
      LeafInSlot(b1, b2, h2, offset);
      TwoLeaves(bitmap, l1, l2, offset);
    } else {
      LeafInSlot(b1, b2, h1, offset);
      LeafInSlot(b1, b2, h2, offset);
      TwoLeaves(bitmap, l2, l1, offset);
    }
  }

  /** In the two-slot bitmap of `k1` and `k2`, a hash that selects one of
      them sits at index 0 for the lower slot and 1 for the higher. */
  lemma LeafInSlot(k1: nat, k2: nat, h: Word, offset: nat)
    requires k1 < 64 && k2 < 64 && k1 != k2 && (Band(h, offset) == k1 || Band(h, offset) == k2)
    ensures Pow2(k1) < WordLimit && Pow2(k2) < WordLimit
    ensures
      var k := Band(h, offset);
      InSlot(Next(Pow2(k1), Pow2(k2)), if k == Min(k1, k2) then 0 else 1, h, offset)
  {
    SlotOfTwo(k1, k2, Band(h, offset));
  }

  /** Slot `k`, one of `k1` and `k2`, is occupied in their two-slot bitmap,
      at index 0 if it is the lower one and 1 otherwise. */
  lemma SlotOfTwo(k1: nat, k2: nat, k: nat)
    requires k1 < 64 && k2 < 64 && k1 != k2 && (k == k1 || k == k2)
    ensures Pow2(k1) < WordLimit && Pow2(k2) < WordLimit
    ensures Bit(Next(Pow2(k1), Pow2(k2)), k)
    ensures PopcountBelow(Next(Pow2(k1), Pow2(k2)), k) == if k == Min(k1, k2) then 0 else 1
  {
    SlotIsWord(k1);
    SlotIsWord(k2);
    BitOfPow2(k, k);
    TwoSlotCount(k1, k2, k);
  }

  function Min(a: nat, b: nat): (r: nat)
    ensures r <= a && r <= b && (r == a || r == b)
  {
    if a < b then a else b
  }

  /** A branch of two leaves, each in its own slot, is routed and keeps
      exactly the two leaves' entries. */
  lemma TwoLeaves<K, V>(bitmap: Word, l0: Node<K, V>, l1: Node<K, V>, offset: int)
    requires l0.Leaf? && l1.Leaf? && 0 <= offset <= MaxOffset
    requires InSlot(bitmap, 0, l0.hash, offset) && InSlot(bitmap, 1, l1.hash, offset)
    ensures Routed(Branch(bitmap, [l0, l1]), offset)
    ensures forall h, e :: Stores(Branch(bitmap, [l0, l1]), h, e) <==> Stores(l0, h, e) || Stores(l1, h, e)
  {
    var cs := [l0, l1];
    forall j, h | 0 <= j < 2 && Holds(cs[j], h)
      ensures InSlot(bitmap, j, h, offset)
    {
    }
    RoutedBranch(bitmap, cs, offset);
    forall h, e
      ensures Stores(Branch(bitmap, cs), h, e) <==> Stores(l0, h, e) || Stores(l1, h, e)
    {
      assert cs[0] == l0 && cs[1] == l1;
    }
  }

  /** Setting a new hash into a leaf whose hash it is separated from builds
      a routed subtrie that keeps both entries. */
  lemma {:induction false} SetLeafRouted<K, V>(h1: Word, k1: K, v1: V, key: K, value: V, hash: Word, offset: int)
    requires h1 != hash && 0 <= offset && Separated(h1, hash, offset)
    ensures SetLeaf(h1, k1, v1, key, value, hash, offset).Ok?
    ensures
      var m := SetLeaf(h1, k1, v1, key, value, hash, offset).value;
      Routed(m, offset) &&
      forall h, e :: Stores(m, h, e) <==> (h == h1 && e == Entry(k1, v1)) || (h == hash && e == Entry(key, value))
    decreases MaxOffset + 1 - offset
  {
    var b1, b2 := Band(h1, offset), Band(hash, offset);
    if b1 == b2 {
      LeafNest(h1, k1, v1, key, value, hash, offset);
      SetLeafRouted(h1, k1, v1, key, value, hash, offset + 1);
      var inner := SetLeaf(h1, k1, v1, key, value, hash, offset + 1).value;
      forall h | Holds(inner, h)
        ensures Band(h, offset) == b1
      {
        HoldsIffStores(inner, h);
      }
      OneSlotRouted(b1, inner, offset);
    } else {
      LeafSplit(h1, k1, v1, key, value, hash, offset);
      TwoLeavesRouted(h1, Entry(k1, v1), hash, Entry(key, value), offset);
    }
  }

  /** A new slot `k` of a bitmap takes the index of the children below it. */
  lemma NewSlot(bitmap: Word, k: nat)
    requires k < 64 && !Bit(bitmap, k)
    ensures Pow2(k) < WordLimit
    ensures Bit(Next(bitmap, Pow2(k)), k) && PopcountBelow(Next(bitmap, Pow2(k)), k) == PopcountBelow(bitmap, k)
  {
    SlotIsWord(k);
    BitOfPow2(k, k);
    PopcountBelowNext(bitmap, k, k);
  }

  /** After the new slot `k` is added, an occupied slot `ko` keeps its
      bit, and its index moves up by one exactly when it lies above `k`,
      which is when its old index is not below `k`'s. */
  lemma SlotAfterNext(bitmap: Word, k: nat, ko: nat)
    requires k < 64 && ko < 64 && !Bit(bitmap, k) && Bit(bitmap, ko)
    ensures Pow2(k) < WordLimit
    ensures Bit(Next(bitmap, Pow2(k)), ko)
    ensures PopcountBelow(Next(bitmap, Pow2(k)), ko) == PopcountBelow(bitmap, ko) + (if k < ko then 1 else 0)
    ensures k < ko <==> PopcountBelow(bitmap, k) <= PopcountBelow(bitmap, ko)
  {
    SlotIsWord(k);
    PopcountBelowNext(bitmap, k, ko);
    if k < ko {
      PopcountBelowMonotone(bitmap, k, ko);
    } else {
      PopcountBelowStrict(bitmap, ko, k);
    }
  }

  /** After the occupied slot `k` is cleared, every other occupied slot
      `ko` keeps its bit, and its index moves down by one exactly when it
      lies above `k`, which is when its old index is above `k`'s. */
  lemma SlotAfterWithout(bitmap: Word, k: nat, ko: nat)
    requires k < 64 && ko < 64 && k != ko && Bit(bitmap, k) && Bit(bitmap, ko)
    ensures Pow2(k) < WordLimit
    ensures Bit(Without(bitmap, Pow2(k)), ko)
    ensures PopcountBelow(Without(bitmap, Pow2(k)), ko) + (if k < ko then 1 else 0) == PopcountBelow(bitmap, ko)
    ensures k < ko <==> PopcountBelow(bitmap, k) < PopcountBelow(bitmap, ko)
  {
    SlotIsWord(k);
    BitOfPow2(k, ko);
    PopcountBelowWithout(bitmap, k, ko);
    if k < ko {
      PopcountBelowStrict(bitmap, k, ko);
    } else {
      PopcountBelowStrict(bitmap, ko, k);
    }
  }

  /** The entries of a run with `x` inserted are those of the run and
      those of `x`. */
  lemma InsertChildren<K, V>(s: seq<Node<K, V>>, i: nat, x: Node<K, V>)
    requires i <= |s|
    ensures forall h, e :: InChildren(s[..i] + [x] + s[i..], h, e) <==> InChildren(s, h, e) || Stores(x, h, e)
  {
    var grown := s[..i] + [x] + s[i..];
    forall h, e
      ensures InChildren(grown, h, e) <==> InChildren(s, h, e) || Stores(x, h, e)
    {
      if InChildren(grown, h, e) {
        var j :| 0 <= j < |grown| && Stores(grown[j], h, e);
        InsertAt(s, i, x, j);
        if j < i {
          assert Stores(s[j], h, e);
        } else if j > i {
          assert Stores(s[j - 1], h, e);
        }
      }
      if InChildren(s, h, e) {
        var j :| 0 <= j < |s| && Stores(s[j], h, e);
        var j' := if j < i then j else j + 1;
        InsertAt(s, i, x, j');
        assert Stores(grown[j'], h, e);
      }
      if Stores(x, h, e) {
        InsertAt(s, i, x, i);
        assert Stores(grown[i], h, e);
      }
    }
  }

  /** The entries of a run with the child at `i` dropped are those of the
      other children. */
  lemma DropChildren<K, V>(s: seq<Node<K, V>>, i: nat)
    requires i < |s|
    ensures forall h, e :: InChildren(s[..i] + s[i + 1..], h, e) <==> InOthers(s, i, h, e)
  {
    var shrunk := s[..i] + s[i + 1..];
    forall h, e
      ensures InChildren(shrunk, h, e) <==> InOthers(s, i, h, e)
    {
      if InChildren(shrunk, h, e) {
        var j' :| 0 <= j' < |shrunk| && Stores(shrunk[j'], h, e);
        DropAt(s, i, j');
        var j := if j' < i then j' else j' + 1;
        assert Stores(s[j], h, e);
      }
      if InOthers(s, i, h, e) {
        var j :| 0 <= j < |s| && j != i && Stores(s[j], h, e);
        var j' := if j < i then j else j - 1;
        DropAt(s, i, j');
        assert Stores(shrunk[j'], h, e);
      }
    }
  }

  /** In a routed branch, only the child at `hash`'s index can keep
      anything under `hash`. */
  lemma OthersLackHash<K, V>(bitmap: Word, children: seq<Node<K, V>>, i: nat, hash: Word, offset: int)
    requires Routed(Branch(bitmap, children), offset) && InSlot(bitmap, i, hash, offset)
    ensures forall j, e | 0 <= j < |children| && j != i :: !Stores(children[j], hash, e)
  {
    forall j, e | 0 <= j < |children| && j != i && Stores(children[j], hash, e)
      ensures false
    {
      StoresHolds(children[j], hash, e);
      OnlyOwnSlot(bitmap, children, hash, offset);
    }
  }

  /** Adding a leaf of `hash` in its free slot keeps the branch routed. */
  lemma FreeSlotRouted<K, V>(bitmap: Word, children: seq<Node<K, V>>, key: K, value: V, hash: Word, offset: int)
    requires Routed(Branch(bitmap, children), offset)
    requires !Bit(bitmap, Band(hash, offset)) && PopcountBelow(bitmap, Band(hash, offset)) <= |children|
    ensures Pow2(Band(hash, offset)) < WordLimit
    ensures
      var k := Band(hash, offset);
      var i := PopcountBelow(bitmap, k);
      Routed(Branch(Next(bitmap, Pow2(k)), children[..i] + [Leaf(hash, key, value)] + children[i..]), offset)
  {
    var k := Band(hash, offset);
    var i := PopcountBelow(bitmap, k);
    NewSlot(bitmap, k);
    var b := Next(bitmap, Pow2(k));
    var leaf := Leaf(hash, key, value);
    var grown := children[..i] + [leaf] + children[i..];
    forall j' | 0 <= j' < |grown|
      ensures Routed(grown[j'], offset + 1)
    {
      InsertAt(children, i, leaf, j');
    }
    forall j', h | 0 <= j' < |grown| && Holds(grown[j'], h)
      ensures InSlot(b, j', h, offset)
    {
      InsertAt(children, i, leaf, j');
      if j' != i {
        var j := if j' < i then j' else j' - 1;
        assert InSlot(bitmap, j, h, offset);
        SlotAfterNext(bitmap, k, Band(h, offset));
      }
    }
    RoutedBranch(b, grown, offset);
  }

  /** Adding a leaf of `hash` in its free slot adds its entry and keeps
      every other. */
  lemma FreeSlotStores<K, V>(bitmap: Word, children: seq<Node<K, V>>, key: K, value: V, hash: Word, offset: int)
    requires Routed(Branch(bitmap, children), offset)
    requires !Bit(bitmap, Band(hash, offset)) && PopcountBelow(bitmap, Band(hash, offset)) <= |children|
    ensures Pow2(Band(hash, offset)) < WordLimit
    ensures
      var k := Band(hash, offset);
      var i := PopcountBelow(bitmap, k);
      var m := Branch(Next(bitmap, Pow2(k)), children[..i] + [Leaf(hash, key, value)] + children[i..]);
      forall h, e :: Stores(m, h, e) <==> (Stores(Branch(bitmap, children), h, e) && h != hash) || (h == hash && e == Entry(key, value))
  {
    var k := Band(hash, offset);
    var i := PopcountBelow(bitmap, k);
    SlotIsWord(k);
    var leaf := Leaf(hash, key, value);
    var grown := children[..i] + [leaf] + children[i..];
    InsertChildren(children, i, leaf);
    OnlyOwnSlot(bitmap, children, hash, offset);
    forall j, e | 0 <= j < |children| && Stores(children[j], hash, e)
      ensures false
    {
      StoresHolds(children[j], hash, e);
    }
    forall h, e
      ensures Stores(Branch(Next(bitmap, Pow2(k)), grown), h, e) <==>
        (Stores(Branch(bitmap, children), h, e) && h != hash) || (h == hash && e == Entry(key, value))
    {
      StoresBranch(Next(bitmap, Pow2(k)), grown, h, e);
      StoresBranch(bitmap, children, h, e);
    }
  }

  /** Replacing the child of `hash`'s slot by a routed node holding only
      the child's hashes and `hash` keeps the branch routed. */
  lemma ReplaceSlotRouted<K, V>(bitmap: Word, children: seq<Node<K, V>>, i: nat, c: Node<K, V>, hash: Word, offset: int)
    requires Routed(Branch(bitmap, children), offset) && i < |children| && InSlot(bitmap, i, hash, offset)
    requires Routed(c, offset + 1)
    requires forall h | Holds(c, h) :: Holds(children[i], h) || h == hash
    ensures Routed(Branch(bitmap, children[i := c]), offset)
  {
    var s := children[i := c];
    forall j | 0 <= j < |s|
      ensures Routed(s[j], offset + 1)
    {
    }
    forall j, h | 0 <= j < |s| && Holds(s[j], h)
      ensures InSlot(bitmap, j, h, offset)
    {
    }
    RoutedBranch(bitmap, s, offset);
  }

  /** Replacing the child of `hash`'s slot by a node whose entries differ
      from the child's only under `hash` changes the branch's entries only
      under `hash`, in the same way. */
  lemma ReplaceSlotStores<K, V>(bitmap: Word, children: seq<Node<K, V>>, i: nat, c: Node<K, V>, hash: Word, x: Option<Entry<K, V>>, offset: int)
    requires Routed(Branch(bitmap, children), offset) && i < |children| && InSlot(bitmap, i, hash, offset)
    requires forall h, e :: Stores(c, h, e) <==> (Stores(children[i], h, e) && h != hash) || (x.Some? && h == hash && e == x.value)
    ensures forall h, e :: Stores(Branch(bitmap, children[i := c]), h, e) <==>
      (Stores(Branch(bitmap, children), h, e) && h != hash) || (x.Some? && h == hash && e == x.value)
  {
    var s := children[i := c];
    OthersLackHash(bitmap, children, i, hash, offset);
    forall h, e
      ensures Stores(Branch(bitmap, s), h, e) <==> (Stores(Branch(bitmap, children), h, e) && h != hash) || (x.Some? && h == hash && e == x.value)
    {
      StoresBranch(bitmap, s, h, e);
      StoresBranch(bitmap, children, h, e);
      if InChildren(s, h, e) {
        var j :| 0 <= j < |s| && Stores(s[j], h, e);
        if j != i {
          assert Stores(children[j], h, e);
        }
      }
      if InChildren(children, h, e) && h != hash {
        var j :| 0 <= j < |children| && Stores(children[j], h, e);
        assert Stores(s[j], h, e);
      }
      if x.Some? && h == hash && e == x.value {
        assert Stores(s[i], h, e);
      }
    }
  }

  /** The corrected `Set` of a routed, well-formed subtrie, whose hashes
      agree with `hash` on every level above `offset`, never panics, keeps
      the subtrie routed, and overwrites or adds the entry of `hash` while
      keeping every other entry. */
  lemma {:induction false} SetRouted<K, V>(n: Node<K, V>, key: K, value: V, hash: Word, offset: int)
    requires 0 <= offset && WellFormed(n) && Routed(n, offset)
    requires forall g | Holds(n, g) :: AgreeBelow(g, hash, offset)
    ensures CorrectedSet(n, key, value, hash, offset).Ok?
    ensures
      var r := CorrectedSet(n, key, value, hash, offset).value;
      Routed(r, offset) &&
      forall h, e :: Stores(r, h, e) <==> (Stores(n, h, e) && h != hash) || (h == hash && e == Entry(key, value))
    decreases n, 2
  {
    match n
    case Leaf(h1, k1, v1) =>
      if h1 != hash {
        assert Holds(n, h1);
        SeparatedBelow(h1, hash, offset);
        SetLeafRouted(h1, k1, v1, key, value, hash, offset);
      }
    case Branch(bitmap, children) =>
      SetBranchRouted(bitmap, children, key, value, hash, offset);
  }

  /** The branch step of `SetRouted`. */
  lemma {:induction false} SetBranchRouted<K, V>(bitmap: Word, children: seq<Node<K, V>>, key: K, value: V, hash: Word, offset: int)
    requires 0 <= offset && WellFormed(Branch(bitmap, children)) && Routed(Branch(bitmap, children), offset)
    requires forall g | Holds(Branch(bitmap, children), g) :: AgreeBelow(g, hash, offset)
    ensures CorrectedSet(Branch(bitmap, children), key, value, hash, offset).Ok?
    ensures
      var n := Branch(bitmap, children);
      var r := CorrectedSet(n, key, value, hash, offset).value;
      Routed(r, offset) &&
      forall h, e :: Stores(r, h, e) <==> (Stores(n, h, e) && h != hash) || (h == hash && e == Entry(key, value))
    decreases Branch(bitmap, children), 1
  {
    if Bit(bitmap, Band(hash, offset)) {
      SetOccupiedRouted(bitmap, children, key, value, hash, offset);
    } else {
      SetFreeRouted(bitmap, children, key, value, hash, offset);
    }
  }

  /** The occupied-slot case of `SetBranchRouted`. */
  lemma {:induction false} SetOccupiedRouted<K, V>(bitmap: Word, children: seq<Node<K, V>>, key: K, value: V, hash: Word, offset: int)
    requires 0 <= offset && WellFormed(Branch(bitmap, children)) && Routed(Branch(bitmap, children), offset)
    requires forall g | Holds(Branch(bitmap, children), g) :: AgreeBelow(g, hash, offset)
    requires Bit(bitmap, Band(hash, offset))
    ensures CorrectedSet(Branch(bitmap, children), key, value, hash, offset).Ok?
    ensures
      var n := Branch(bitmap, children);
      var r := CorrectedSet(n, key, value, hash, offset).value;
      Routed(r, offset) &&
      forall h, e :: Stores(r, h, e) <==> (Stores(n, h, e) && h != hash) || (h == hash && e == Entry(key, value))
    decreases Branch(bitmap, children), 0
  {
    ChildAgrees(bitmap, children, hash, offset);
    var i := PopcountBelow(bitmap, Band(hash, offset));
    SetRouted(children[i], key, value, hash, offset + 1);
    SetOccupiedStep(bitmap, children, key, value, hash, offset);
  }

  /** The occupied-slot case of `SetBranchRouted`, given what `SetRouted`
      states about the slot's child. */
  lemma SetOccupiedStep<K, V>(bitmap: Word, children: seq<Node<K, V>>, key: K, value: V, hash: Word, offset: int)
    requires 0 <= offset && WellFormed(Branch(bitmap, children)) && Routed(Branch(bitmap, children), offset)
    requires Bit(bitmap, Band(hash, offset)) && PopcountBelow(bitmap, Band(hash, offset)) < |children|
    requires
      var child := children[PopcountBelow(bitmap, Band(hash, offset))];
      var inner := CorrectedSet(child, key, value, hash, offset + 1);
      inner.Ok? && Routed(inner.value, offset + 1) &&
      forall h, e :: Stores(inner.value, h, e) <==> (Stores(child, h, e) && h != hash) || (h == hash && e == Entry(key, value))
    ensures CorrectedSet(Branch(bitmap, children), key, value, hash, offset).Ok?
    ensures
      var n := Branch(bitmap, children);
      var r := CorrectedSet(n, key, value, hash, offset).value;
      Routed(r, offset) &&
      forall h, e :: Stores(r, h, e) <==> (Stores(n, h, e) && h != hash) || (h == hash && e == Entry(key, value))
  {
    var i := PopcountBelow(bitmap, Band(hash, offset));
    CorrectedBranchOccupied(bitmap, children, key, value, hash, offset);
    var child := children[i];
    var c := CorrectedSet(child, key, value, hash, offset + 1).value;
    var x := Some(Entry(key, value));
    HoldsOfStores(c, child, hash, x);
    ReplaceSlotRouted(bitmap, children, i, c, hash, offset);
    ReplaceSlotStores(bitmap, children, i, c, hash, x, offset);
  }

  /** The hashes the child of `hash`'s slot holds agree with `hash` one
      level further down. */
  lemma ChildAgrees<K, V>(bitmap: Word, children: seq<Node<K, V>>, hash: Word, offset: int)
    requires WellFormed(Branch(bitmap, children)) && Routed(Branch(bitmap, children), offset)
    requires Bit(bitmap, Band(hash, offset))
    requires forall g | Holds(Branch(bitmap, children), g) :: AgreeBelow(g, hash, offset)
    ensures PopcountBelow(bitmap, Band(hash, offset)) < |children|
    ensures forall g | Holds(children[PopcountBelow(bitmap, Band(hash, offset))], g) :: AgreeBelow(g, hash, offset + 1)
  {
    var k := Band(hash, offset);
    var i := PopcountBelow(bitmap, k);
    IndexInRange(bitmap, k);
    forall g | Holds(children[i], g)
      ensures AgreeBelow(g, hash, offset + 1)
    {
      assert Holds(Branch(bitmap, children), g);
      SlotIndexInjective(bitmap, Band(g, offset), k);
    }
  }

  /** The free-slot case of `SetBranchRouted`. */
  lemma SetFreeRouted<K, V>(bitmap: Word, children: seq<Node<K, V>>, key: K, value: V, hash: Word, offset: int)
    requires 0 <= offset && WellFormed(Branch(bitmap, children)) && Routed(Branch(bitmap, children), offset)
    requires !Bit(bitmap, Band(hash, offset))
    ensures CorrectedSet(Branch(bitmap, children), key, value, hash, offset).Ok?
    ensures
      var n := Branch(bitmap, children);
      var r := CorrectedSet(n, key, value, hash, offset).value;
      Routed(r, offset) &&
      forall h, e :: Stores(r, h, e) <==> (Stores(n, h, e) && h != hash) || (h == hash && e == Entry(key, value))
  {
    CorrectedBranchFree(bitmap, children, key, value, hash, offset);
    BranchSetFree(bitmap, children, key, value, hash, offset);
    FreeSlotRouted(bitmap, children, key, value, hash, offset);
    FreeSlotStores(bitmap, children, key, value, hash, offset);
  }

  /** `Remove` on a routed, well-formed subtrie never panics; it reports a
      removal exactly when the subtrie holds `hash`; it empties the subtrie
      only when `hash` was all it held; otherwise the result is routed and
      keeps every entry except the one of `hash`. */
  lemma {:induction false} RemoveRouted<K, V>(n: Node<K, V>, hash: Word, offset: int)
    requires WellFormed(n) && Routed(n, offset)
    ensures Remove(n, hash, offset).Ok?
    ensures
      var m, removed := Remove(n, hash, offset).value.0, Remove(n, hash, offset).value.1;
      (removed <==> Holds(n, hash)) &&
      (m.None? ==> forall g | Holds(n, g) :: g == hash) &&
      (m.Some? ==> Routed(m.value, offset) && forall h, e :: Stores(m.value, h, e) <==> Stores(n, h, e) && h != hash)
    decreases n, 2
  {
    match n
    case Leaf(_, _, _) =>
    case Branch(bitmap, children) =>
      RemoveBranchRouted(bitmap, children, hash, offset);
  }

  /** The branch step of `RemoveRouted`. */
  lemma {:induction false} RemoveBranchRouted<K, V>(bitmap: Word, children: seq<Node<K, V>>, hash: Word, offset: int)
    requires WellFormed(Branch(bitmap, children)) && Routed(Branch(bitmap, children), offset)
    ensures Remove(Branch(bitmap, children), hash, offset).Ok?
    ensures
      var n := Branch(bitmap, children);
      var m, removed := Remove(n, hash, offset).value.0, Remove(n, hash, offset).value.1;
      (removed <==> Holds(n, hash)) &&
      (m.None? ==> forall g | Holds(n, g) :: g == hash) &&
      (m.Some? ==> Routed(m.value, offset) && forall h, e :: Stores(m.value, h, e) <==> Stores(n, h, e) && h != hash)
    decreases Branch(bitmap, children), 1
  {
    if Bit(bitmap, Band(hash, offset)) {
      RemoveOccupiedRouted(bitmap, children, hash, offset);
    } else {
      BranchRemove(bitmap, children, hash, offset);
      LacksHash(bitmap, children, hash, offset);
    }
  }

  /** A routed branch whose slot for `hash` is free, or whose child in that
      slot does not hold `hash`, does not hold `hash` either. */
  lemma LacksHash<K, V>(bitmap: Word, children: seq<Node<K, V>>, hash: Word, offset: int)
    requires Routed(Branch(bitmap, children), offset)
    requires
      var k := Band(hash, offset);
      !Bit(bitmap, k) || (PopcountBelow(bitmap, k) < |children| && !Holds(children[PopcountBelow(bitmap, k)], hash))
    ensures !Holds(Branch(bitmap, children), hash)
    ensures forall h, e :: Stores(Branch(bitmap, children), h, e) <==> Stores(Branch(bitmap, children), h, e) && h != hash
  {
    OnlyOwnSlot(bitmap, children, hash, offset);
    forall e | Stores(Branch(bitmap, children), hash, e)
      ensures false
    {
      StoresHolds(Branch(bitmap, children), hash, e);
    }
  }

  /** The occupied-slot case of `RemoveBranchRouted`. */
  lemma {:induction false} RemoveOccupiedRouted<K, V>(bitmap: Word, children: seq<Node<K, V>>, hash: Word, offset: int)
    requires WellFormed(Branch(bitmap, children)) && Routed(Branch(bitmap, children), offset)
    requires Bit(bitmap, Band(hash, offset))
    ensures Remove(Branch(bitmap, children), hash, offset).Ok?
    ensures
      var n := Branch(bitmap, children);
      var m, removed := Remove(n, hash, offset).value.0, Remove(n, hash, offset).value.1;
      (removed <==> Holds(n, hash)) &&
      (m.None? ==> forall g | Holds(n, g) :: g == hash) &&
      (m.Some? ==> Routed(m.value, offset) && forall h, e :: Stores(m.value, h, e) <==> Stores(n, h, e) && h != hash)
    decreases Branch(bitmap, children), 0
  {
    var k := Band(hash, offset);
    IndexInRange(bitmap, k);
    var i := PopcountBelow(bitmap, k);
    RemoveRouted(children[i], hash, offset + 1);
    RemoveOccupiedStep(bitmap, children, hash, offset);
  }

  /** The occupied-slot case of `RemoveBranchRouted`, given what
      `RemoveRouted` states about the slot's child. */
  lemma RemoveOccupiedStep<K, V>(bitmap: Word, children: seq<Node<K, V>>, hash: Word, offset: int)
    requires WellFormed(Branch(bitmap, children)) && Routed(Branch(bitmap, children), offset)
    requires Bit(bitmap, Band(hash, offset)) && PopcountBelow(bitmap, Band(hash, offset)) < |children|
    requires
      var child := children[PopcountBelow(bitmap, Band(hash, offset))];
      var inner := Remove(child, hash, offset + 1);
      inner.Ok? &&
      var m, removed := inner.value.0, inner.value.1;
      (removed <==> Holds(child, hash)) &&
      (m.None? ==> forall g | Holds(child, g) :: g == hash) &&
      (m.Some? ==> Routed(m.value, offset + 1) && forall h, e :: Stores(m.value, h, e) <==> Stores(child, h, e) && h != hash)
    ensures Remove(Branch(bitmap, children), hash, offset).Ok?
    ensures
      var n := Branch(bitmap, children);
      var m, removed := Remove(n, hash, offset).value.0, Remove(n, hash, offset).value.1;
      (removed <==> Holds(n, hash)) &&
      (m.None? ==> forall g | Holds(n, g) :: g == hash) &&
      (m.Some? ==> Routed(m.value, offset) && forall h, e :: Stores(m.value, h, e) <==> Stores(n, h, e) && h != hash)
  {
    var k := Band(hash, offset);
    var i := PopcountBelow(bitmap, k);
    var child := children[i];
    var inner := Remove(child, hash, offset + 1).value;
    BranchRemove(bitmap, children, hash, offset);
    if !inner.1 {
      LacksHash(bitmap, children, hash, offset);
    } else {
      assert Holds(Branch(bitmap, children), hash);
      if inner.0.None? {
        if |children| == 1 {
          OnlyChild(bitmap, children, hash);
        } else {
          DropSlotRouted(bitmap, children, hash, offset);
          DropSlotStores(bitmap, children, hash, offset);
        }
      } else {
        var c := inner.0.value;
        HoldsOfStores(c, child, hash, None);
        ReplaceSlotRouted(bitmap, children, i, c, hash, offset);
        ReplaceSlotStores(bitmap, children, i, c, hash, None, offset);
      }
    }
  }

  /** A branch with one child holds what that child holds. */
  lemma OnlyChild<K, V>(bitmap: Word, children: seq<Node<K, V>>, hash: Word)
    requires |children| == 1 && forall g | Holds(children[0], g) :: g == hash
    ensures forall g | Holds(Branch(bitmap, children), g) :: g == hash
  {
  }

  /** Dropping the child of `hash`'s slot, which holds nothing but `hash`,
      together with the slot's bit keeps the branch routed. */
  lemma DropSlotRouted<K, V>(bitmap: Word, children: seq<Node<K, V>>, hash: Word, offset: int)
    requires Routed(Branch(bitmap, children), offset) && |children| > 1
    requires Bit(bitmap, Band(hash, offset)) && PopcountBelow(bitmap, Band(hash, offset)) < |children|
    ensures Pow2(Band(hash, offset)) < WordLimit
    ensures
      var k := Band(hash, offset);
      var i := PopcountBelow(bitmap, k);
      Routed(Branch(Without(bitmap, Pow2(k)), children[..i] + children[i + 1..]), offset)
  {
    var k := Band(hash, offset);
    var i := PopcountBelow(bitmap, k);
    SlotIsWord(k);
    var b := Without(bitmap, Pow2(k));
    var shrunk := children[..i] + children[i + 1..];
    forall j' | 0 <= j' < |shrunk|
      ensures Routed(shrunk[j'], offset + 1)
    {
      DropAt(children, i, j');
    }
    forall j', h | 0 <= j' < |shrunk| && Holds(shrunk[j'], h)
      ensures InSlot(b, j', h, offset)
    {
      DropAt(children, i, j');
      var j := if j' < i then j' else j' + 1;
      assert InSlot(bitmap, j, h, offset);
      SlotAfterWithout(bitmap, k, Band(h, offset));
    }
    RoutedBranch(b, shrunk, offset);
  }

  /** Dropping the child of `hash`'s slot, which holds nothing but `hash`,
      takes out the entry of `hash` and keeps every other. */
  lemma DropSlotStores<K, V>(bitmap: Word, children: seq<Node<K, V>>, hash: Word, offset: int)
    requires Routed(Branch(bitmap, children), offset)
    requires Bit(bitmap, Band(hash, offset)) && PopcountBelow(bitmap, Band(hash, offset)) < |children|
    requires forall g | Holds(children[PopcountBelow(bitmap, Band(hash, offset))], g) :: g == hash
    ensures Pow2(Band(hash, offset)) < WordLimit
    ensures
      var k := Band(hash, offset);
      var i := PopcountBelow(bitmap, k);
      forall h, e :: Stores(Branch(Without(bitmap, Pow2(k)), children[..i] + children[i + 1..]), h, e) <==>
        Stores(Branch(bitmap, children), h, e) && h != hash
  {
    var k := Band(hash, offset);
    var i := PopcountBelow(bitmap, k);
    SlotIsWord(k);
    var b := Without(bitmap, Pow2(k));
    var shrunk := children[..i] + children[i + 1..];
    DropChildren(children, i);
    OthersLackHash(bitmap, children, i, hash, offset);
    forall h, e
      ensures Stores(Branch(b, shrunk), h, e) <==> Stores(Branch(bitmap, children), h, e) && h != hash
    {
      StoresBranch(b, shrunk, h, e);
      StoresBranch(bitmap, children, h, e);
      if InChildren(children, h, e) && h != hash {
        var j :| 0 <= j < |children| && Stores(children[j], h, e);
        if j == i {
          StoresHolds(children[i], h, e);
        }
        assert InOthers(children, i, h, e);
      }
    }
  }

  /** The entries `ToSlice` lists are exactly the entries the subtrie
      keeps, under some hash. */
  lemma {:induction false} EntriesStored<K, V>(n: Node<K, V>)
    requires NoCollision(n)
    ensures forall e :: e in ToSlice(n) <==> exists h :: Stores(n, h, e)
    decreases n, 1
  {
    match n
    case Leaf(hash, key, value) =>
      assert Stores(n, hash, Entry(key, value));
    case Branch(bitmap, children) =>
      EntriesStoredAll(children);
      forall e
        ensures e in ToSlice(n) <==> exists h :: Stores(n, h, e)
      {
        if exists h :: Stores(n, h, e) {
          var h :| Stores(n, h, e);
          assert InChildren(children, h, e);
        }
        if exists h :: InChildren(children, h, e) {
          var h :| InChildren(children, h, e);
          assert Stores(n, h, e);
        }
      }
      assert forall e :: e in ToSlice(n) <==> exists h :: Stores(n, h, e);
  }

  /** The entries `ToSliceAll` lists are exactly the entries some child of
      the run keeps. */
  lemma {:induction false} EntriesStoredAll<K, V>(children: seq<Node<K, V>>)
    requires forall j | 0 <= j < |children| :: NoCollision(children[j])
    ensures forall e :: e in ToSliceAll(children) <==> exists h :: InChildren(children, h, e)
    decreases children, 0
  {
    if |children| > 0 {
      var rest := children[1..];
      EntriesStored(children[0]);
      EntriesStoredAll(rest);
      forall e
        ensures e in ToSliceAll(children) <==> exists h :: InChildren(children, h, e)
      {
        if e in ToSlice(children[0]) {
          var h :| Stores(children[0], h, e);
          assert InChildren(children, h, e);
        } else if e in ToSliceAll(rest) {
          var h :| InChildren(rest, h, e);
          var j :| 0 <= j < |rest| && Stores(rest[j], h, e);
          assert Stores(children[j + 1], h, e);
          assert InChildren(children, h, e);
        }
        if exists h :: InChildren(children, h, e) {
          var h :| InChildren(children, h, e);
          var j :| 0 <= j < |children| && Stores(children[j], h, e);
          if j == 0 {
            assert Stores(children[0], h, e);
          } else {
            assert Stores(rest[j - 1], h, e);
            assert InChildren(rest, h, e);
          }
        }
      }
    }
  }

  /** A routed subtrie holds some hash: routed branches are never empty. */
  lemma {:induction false} RoutedHolds<K, V>(n: Node<K, V>, offset: int)
    requires Routed(n, offset)
    ensures exists h :: Holds(n, h)
    decreases n
  {
    match n
    case Leaf(hash, _, _) =>
      assert Holds(n, hash);
    case Branch(_, children) =>
      RoutedHolds(children[0], offset + 1);
      var h :| Holds(children[0], h);
      assert Holds(n, h);
  }
}

=== FILE: hash.dfy ===
/** The reflective hash of internal/hamt/hash.go: FNV-1a (64-bit) over
    little-endian encodings, folded through arrays and slices in order and
    XOR-combined, order-free, through maps and struct fields. */
module Hashing {

  /** FNV-1a's 64-bit offset basis: the digest of no bytes. */
  const OffsetBasis: bv64 := 0xcbf2_9ce4_8422_2325

  /** FNV-1a's 64-bit prime. */
  const Prime: bv64 := 0x0000_0100_0000_01b3

  /** A digest and whether every `Hashable` met on the way succeeded. */
  datatype Digest = Digest(sum: bv64, ok: bool)

  /** A Go value as the hash sees it after reflection. */
  datatype Value =
    | Nil                                        // an invalid reflect.Value: nil pointer or interface
    | Ref(target: Value)                         // a non-nil pointer or interface around `target`
    | Custom(digest: bv64, failed: bool)         // implements Hashable; `failed` is a non-nil error
    | GoInt(int64: bv64)                         // `int`, widened to int64 (two's complement)
    | GoUint(uint64: bv64)                       // `uint`, widened to uint64
    | Bool(b: bool)                              // hashed as an int8 of 0 or 1
    | Sized(width: Width, bits: bv64)            // int8..int64 and uint8..uint64: the low `width` bytes
    | Str(bytes: seq<bv8>)                       // a string's raw bytes
    | List(elements: seq<Value>)                 // an array or a slice
    | Map(entries: seq<Pair>)                    // a map, entries in iteration order
    | Struct(typeName: seq<bv8>, fields: seq<Field>)
    | Unsupported                                // func, chan and every other kind without a case

  /** The byte widths of Go's fixed-size integers. */
  type Width = w: nat | w in {1, 2, 4, 8} witness 1

  datatype Pair = Pair(key: Value, value: Value)

  /** A struct field; `exported` is an empty `PkgPath`. */
  datatype Field = Field(name: seq<bv8>, exported: bool, value: Value)

  /** FNV-1a over `bytes`, continuing from digest `h`. */
  function FnvFrom(h: bv64, bytes: seq<bv8>): bv64
    decreases |bytes|
  {
    if |bytes| == 0 then h
    else FnvFrom(FnvStep(h, bytes[0]), bytes[1..])
  }

  /** One byte of FNV-1a: XOR the byte in, then multiply by the prime
      modulo 2^64. */
  function FnvStep(h: bv64, b: bv8): bv64 {
    (h ^ (b as bv64)) * Prime
  }

  /** A fresh hasher fed `bytes`. */
  function Fnv(bytes: seq<bv8>): bv64 {
    FnvFrom(OffsetBasis, bytes)
  }

  /** Feeding a hasher two byte strings in turn is feeding it their
      concatenation. */
  lemma {:induction false} FnvFromAppend(h: bv64, a: seq<bv8>, b: seq<bv8>)
    ensures FnvFrom(h, a + b) == FnvFrom(FnvFrom(h, a), b)
    decreases |a|
  {
    if |a| == 0 {
      assert a + b == b;
    } else {
      assert (a + b)[0] == a[0] && (a + b)[1..] == a[1..] + b;
      FnvFromAppend(FnvStep(h, a[0]), a[1..], b);
    }
  }

  /** The `n` low-order bytes of `x`, least significant first, as
      `binary.Write` with `binary.LittleEndian` emits them. */
  function LittleEndian(x: bv64, n: nat): (r: seq<bv8>)
    requires n <= 8
    ensures |r| == n
  {
    if n == 0 then [] else [LowByte(x)] + LittleEndian(Shr8(x), n - 1)
  }

  /** Reading the `n` bytes back gives the `n` low-order bytes of `x`. */
  lemma {:induction false} LittleEndianDecodes(x: bv64, n: nat)
    requires n <= 8
    ensures FromLittleEndian(LittleEndian(x, n)) == x & LowBytes(n)
  {
    if n > 0 {
      LittleEndianDecodes(Shr8(x), n - 1);
      DecodeCons(x, n);
    }
  }

  /** One byte more: the induction step of `LittleEndianDecodes`. */
  lemma DecodeCons(x: bv64, n: nat)
    requires 0 < n <= 8
    requires FromLittleEndian(LittleEndian(Shr8(x), n - 1)) == Shr8(x) & LowBytes(n - 1)
    ensures FromLittleEndian(LittleEndian(x, n)) == x & LowBytes(n)
  {
    var rest, m := LittleEndian(Shr8(x), n - 1), LowBytes(n - 1);
    FromLittleEndianCons(LowByte(x), rest);
    LowBytesStep(x, m);
  }

  function Shr8(x: bv64): bv64 {
    x >> 8
  }

  /** The least significant byte. */
  function LowByte(x: bv64): bv8 {
    (x & 0xFF) as bv8
  }

  lemma FromLittleEndianCons(b: bv8, rest: seq<bv8>)
    ensures FromLittleEndian([b] + rest) == (b as bv64) | (FromLittleEndian(rest) << 8)
  {
    assert ([b] + rest)[1..] == rest;
  }

  /** Reads a little-endian byte string back into a word. */
  function FromLittleEndian(bytes: seq<bv8>): bv64 {
    if |bytes| == 0 then 0 else (bytes[0] as bv64) | (FromLittleEndian(bytes[1..]) << 8)
  }

  /** A mask of the `n` low-order bytes. */
  function LowBytes(n: nat): bv64 {
    if n == 0 then 0 else (LowBytes(n - 1) << 8) | 0xFF
  }

  lemma LowBytesStep(x: bv64, m: bv64)
    ensures (LowByte(x) as bv64) | ((Shr8(x) & m) << 8) == x & ((m << 8) | 0xFF)
  {}

  /** Eight little-endian bytes determine the word. */
  lemma LittleEndianInjective(x: bv64, y: bv64)
    requires LittleEndian(x, 8) == LittleEndian(y, 8)
    ensures x == y
  {
    LittleEndianDecodes(x, 8);
    LittleEndianDecodes(y, 8);
    assert LowBytes(8) == 0xFFFF_FFFF_FFFF_FFFF;
  }

  /** `hashUpdateOrdered`: a fresh hasher fed the eight little-endian
      bytes of `a` and then those of `b`. */
  function Combine(a: bv64, b: bv64): (r: bv64)
    ensures r == Fnv(LittleEndian(a, 8) + LittleEndian(b, 8))
  {
    FnvFromAppend(OffsetBasis, LittleEndian(a, 8), LittleEndian(b, 8));
    FnvFrom(FnvFrom(OffsetBasis, LittleEndian(a, 8)), LittleEndian(b, 8))
  }

  /** `hashValue`: the digest and whether no `Hashable` reported an error.
      A failure anywhere inside an array, slice, map or exported field
      makes the whole digest 0. */
  function HashValue(v: Value): Digest
    decreases v
  {
    match v
    case Nil => Digest(Fnv([]), true)
    case Ref(target) => HashValue(target)
    case Custom(digest, failed) => Digest(digest, !failed)
    case GoInt(x) => Digest(Fnv(LittleEndian(x, 8)), true)
    case GoUint(x) => Digest(Fnv(LittleEndian(x, 8)), true)
    case Bool(b) => Digest(Fnv(LittleEndian(if b then 1 else 0, 1)), true)
    case Sized(w, x) => Digest(Fnv(LittleEndian(x, w)), true)
    case Str(bytes) => Digest(Fnv(bytes), true)
    case List(es) => FoldOrdered(ElementDigests(es))
    case Map(ps) => XorAll(0, PairDigests(ps))
    case Struct(name, fs) => XorAll(Fnv(name), ExportedDigests(fs))
    case Unsupported => Digest(Fnv([]), true)
  }

  /** The digests of an array's or slice's elements, in order. */
  function ElementDigests(es: seq<Value>): seq<Digest>
    decreases es
  {
    if |es| == 0 then [] else [HashValue(es[0])] + ElementDigests(es[1..])
  }

  /** The digests of a map's entries, in iteration order. */
  function PairDigests(ps: seq<Pair>): seq<Digest>
    decreases ps
  {
    if |ps| == 0 then [] else [PairDigest(ps[0])] + PairDigests(ps[1..])
  }

  /** The digests of a struct's exported fields; the others are skipped. */
  function ExportedDigests(fs: seq<Field>): seq<Digest>
    decreases fs
  {
    if |fs| == 0 then []
    else (if fs[0].exported then [FieldDigest(fs[0])] else []) + ExportedDigests(fs[1..])
  }

  function PairDigest(p: Pair): Digest
    decreases p
  {
    var k, v := HashValue(p.key), HashValue(p.value);
    Digest(Combine(k.sum, v.sum), k.ok && v.ok)
  }

  function FieldDigest(f: Field): Digest
    decreases f
  {
    var v := HashValue(f.value);
    Digest(Combine(Fnv(f.name), v.sum), v.ok)
  }

  /** The exported fields, in declaration order. */
  function Exported(fs: seq<Field>): (r: seq<Field>)
    ensures forall i | 0 <= i < |r| :: r[i] in fs && r[i].exported
  {
    if |fs| == 0 then []
    else if fs[0].exported then [fs[0]] + Exported(fs[1..])
    else Exported(fs[1..])
  }

  /** The loop over an array or slice: `result = combine(result, h_i)`
      from 0; the first failure returns 0. */
  function FoldOrdered(ds: seq<Digest>): (r: Digest)
    ensures r.ok <==> forall i | 0 <= i < |ds| :: ds[i].ok
    ensures !r.ok ==> r.sum == 0
  {
    if |ds| == 0 then Digest(0, true)
    else
      var init := ds[..|ds| - 1];
      assert forall i | 0 <= i < |init| :: init[i] == ds[i];
      FoldStep(FoldOrdered(init), ds[|ds| - 1])
  }

  /** One turn of the array loop. */
  function FoldStep(acc: Digest, d: Digest): (r: Digest)
    ensures r.ok == (acc.ok && d.ok)
    ensures !r.ok ==> r.sum == 0
  {
    if !acc.ok || !d.ok then Digest(0, false) else Digest(Combine(acc.sum, d.sum), true)
  }

  /** The loop over map entries or exported fields: XOR from `start`; the
      first failure returns 0. */
  function XorAll(start: bv64, ds: seq<Digest>): (r: Digest)
    ensures r.ok <==> forall i | 0 <= i < |ds| :: ds[i].ok
    ensures !r.ok ==> r.sum == 0
  {
    if |ds| == 0 then Digest(start, true)
    else XorStep(ds[0], XorAll(start, ds[1..]))
  }

  /** XOR-ing one more digest in; a failure on either side is final. */
  function XorStep(d: Digest, acc: Digest): (r: Digest)
    ensures r.ok == (d.ok && acc.ok)
    ensures !r.ok ==> r.sum == 0
  {
    if !d.ok || !acc.ok then Digest(0, false) else Digest(Xor(d.sum, acc.sum), true)
  }

  /** `Hash`: the digest, whatever error occurred. */
  function Hash(v: Value): bv64 {
    HashValue(v).sum
  }

  /** Pointer and interface layers are looked through. */
  lemma RefTransparent(v: Value)
    ensures HashValue(Ref(v)) == HashValue(v)
    ensures Hash(Ref(Ref(v))) == Hash(v)
  {}

  /** Nil, whether reached through a pointer or an interface, and every
      unsupported kind hash to the digest of no bytes: the offset basis. */
  lemma NilAndUnsupported()
    ensures Fnv([]) == OffsetBasis
    ensures Hash(Nil) == OffsetBasis && Hash(Ref(Nil)) == OffsetBasis
    ensures Hash(Unsupported) == OffsetBasis && Hash(Str([])) == OffsetBasis
  {}

  /** A `Hashable` value's digest is used verbatim, even 0, and even
      alongside an error, which `Hash` discards. */
  lemma CustomVerbatim(digest: bv64, failed: bool)
    ensures Hash(Custom(digest, failed)) == digest
    ensures Hash(Ref(Custom(digest, failed))) == digest
    ensures HashValue(Custom(digest, failed)).ok == !failed
  {}

  /** `int`, `uint` and `bool` are hashed as `int64`, `uint64` and an
      `int8` of 0 or 1. */
  lemma Widening(x: bv64, b: bool)
    ensures Hash(GoInt(x)) == Hash(Sized(8, x))
    ensures Hash(GoUint(x)) == Hash(Sized(8, x))
    ensures Hash(Bool(b)) == Hash(Sized(1, if b then 1 else 0))
  {}

  /** The empty array or slice hashes to 0, and each further element
      combines the running digest with the element's. */
  lemma {:induction false} ListFold(es: seq<Value>, e: Value)
    ensures HashValue(List([])) == Digest(0, true)
    ensures HashValue(List(es + [e])) == FoldStep(HashValue(List(es)), HashValue(e))
  {
    ElementsMapped([]);
    ElementsMapped(es);
    ElementsMapped(es + [e]);
    MappedSnoc(HashValue, es, e);
    FoldOrderedSnoc(Mapped(HashValue, es), HashValue(e));
  }

  lemma MappedSnoc<A, B>(f: A -> B, xs: seq<A>, x: A)
    ensures Mapped(f, xs + [x]) == Mapped(f, xs) + [f(x)]
  {}

  lemma FoldOrderedSnoc(ds: seq<Digest>, d: Digest)
    ensures FoldOrdered(ds + [d]) == FoldStep(FoldOrdered(ds), d)
  {
    assert (ds + [d])[..|ds|] == ds;
  }

  lemma ElementsMapped(es: seq<Value>)
    ensures HashValue(List(es)) == FoldOrdered(Mapped(HashValue, es))
  {
    ListUnfold(es);
    ElementDigestsMapped(es);
  }

  lemma ListUnfold(es: seq<Value>)
    ensures HashValue(List(es)) == FoldOrdered(ElementDigests(es))
  {}

  lemma {:induction false} ElementDigestsMapped(es: seq<Value>)
    ensures ElementDigests(es) == Mapped(HashValue, es)
  {
    if |es| > 0 {
      ElementDigestsMapped(es[1..]);
      MappedCons(HashValue, es);
    }
  }

  lemma MappedCons<A, B>(f: A -> B, xs: seq<A>)
    requires |xs| > 0
    ensures Mapped(f, xs) == [f(xs[0])] + Mapped(f, xs[1..])
  {}

  /** A failure inside an array, slice, map or exported struct field
      makes the whole digest 0. */
  lemma FailureIsZero(v: Value)
    requires v.List? || v.Map? || v.Struct?
    requires !HashValue(v).ok
    ensures Hash(v) == 0
  {}

  /** `f` applied to every element, in order. */
  function Mapped<A, B>(f: A -> B, xs: seq<A>): (r: seq<B>)
    ensures |r| == |xs| && forall i | 0 <= i < |xs| :: r[i] == f(xs[i])
  {
    seq(|xs|, i requires 0 <= i < |xs| => f(xs[i]))
  }

  /** XOR-ing in the element at `j` last gives the same result as in
      its place. */
  lemma {:induction false} XorAllRemove(start: bv64, ds: seq<Digest>, j: nat)
    requires j < |ds|
    ensures XorAll(start, ds) == XorStep(ds[j], XorAll(start, ds[..j] + ds[j + 1..]))
    decreases j
  {
    if j > 0 {
      var rest := ds[1..];
      XorAllRemove(start, rest, j - 1);
      assert ds[..j] + ds[j + 1..] == [ds[0]] + (rest[..j - 1] + rest[j..]);
      assert (ds[..j] + ds[j + 1..])[1..] == rest[..j - 1] + rest[j..];
      XorStepSwap(ds[0], ds[j], XorAll(start, rest[..j - 1] + rest[j..]));
    } else {
      assert ds[..j] + ds[j + 1..] == ds[1..];
    }
  }

  /** Two digests may be XOR-ed in either order. */
  lemma XorStepSwap(a: Digest, b: Digest, acc: Digest)
    ensures XorStep(a, XorStep(b, acc)) == XorStep(b, XorStep(a, acc))
  {
    if a.ok && b.ok && acc.ok {
      XorSwap(a.sum, b.sum, acc.sum);
    }
  }

  lemma XorSwap(a: bv64, b: bv64, c: bv64)
    ensures Xor(a, Xor(b, c)) == Xor(b, Xor(a, c))
  {}

  function Xor(a: bv64, b: bv64): bv64 {
    a ^ b
  }

  /** Removing the same element from both sides of a multiset equality. */
  lemma RemoveMatching<A>(xs: seq<A>, ys: seq<A>, j: nat)
    requires multiset(xs) == multiset(ys) && |xs| > 0 && j < |ys| && ys[j] == xs[0]
    ensures multiset(xs[1..]) == multiset(ys[..j] + ys[j + 1..])
  {
    var x, rest := xs[0], ys[..j] + ys[j + 1..];
    calc {
      multiset{x} + multiset(xs[1..]);
      { assert xs == [x] + xs[1..]; }
      multiset(xs);
      multiset(ys);
      { assert ys == ys[..j] + [x] + ys[j + 1..]; }
      multiset(ys[..j]) + multiset{x} + multiset(ys[j + 1..]);
      multiset{x} + multiset(rest);
    }
    var l, r := multiset(xs[1..]), multiset(rest);
    forall a
      ensures l[a] == r[a]
    {
      assert (multiset{x} + l)[a] == multiset{x}[a] + l[a];
      assert (multiset{x} + r)[a] == multiset{x}[a] + r[a];
    }
  }

  /** Mapping commutes with dropping one element. */
  lemma MappedRemove<A, B>(f: A -> B, ys: seq<A>, j: nat)
    requires j < |ys|
    ensures Mapped(f, ys)[..j] + Mapped(f, ys)[j + 1..] == Mapped(f, ys[..j] + ys[j + 1..])
  {}

  /** Mapping commutes with dropping the first element. */
  lemma MappedTail<A, B>(f: A -> B, xs: seq<A>)
    requires |xs| > 0
    ensures Mapped(f, xs)[1..] == Mapped(f, xs[1..])
  {}

  /** The XOR of the digests of a collection does not depend on the
      order it is visited in. */
  lemma {:induction false} XorAllPermutation<A>(f: A -> Digest, start: bv64, xs: seq<A>, ys: seq<A>)
    requires multiset(xs) == multiset(ys)
    ensures XorAll(start, Mapped(f, xs)) == XorAll(start, Mapped(f, ys))
    decreases |xs|
  {
    if |xs| == 0 {
      assert |ys| == |multiset(ys)| == 0;
    } else {
      assert xs[0] in multiset(xs);
      var j :| 0 <= j < |ys| && ys[j] == xs[0];
      var ys' := ys[..j] + ys[j + 1..];
      RemoveMatching(xs, ys, j);
      XorAllPermutation(f, start, xs[1..], ys');
      MappedRemove(f, ys, j);
      XorAllRemove(start, Mapped(f, ys), j);
      MappedTail(f, xs);
    }
  }

  /** A map's entry digests, as a mapped sequence. */
  lemma MapDigests(ps: seq<Pair>)
    ensures HashValue(Map(ps)) == XorAll(0, Mapped(PairDigest, ps))
  {
    MapUnfold(ps);
    PairDigestsMapped(ps);
  }

  lemma MapUnfold(ps: seq<Pair>)
    ensures HashValue(Map(ps)) == XorAll(0, PairDigests(ps))
  {}

  lemma {:induction false} PairDigestsMapped(ps: seq<Pair>)
    ensures PairDigests(ps) == Mapped(PairDigest, ps)
  {
    if |ps| > 0 {
      PairDigestsMapped(ps[1..]);
      MappedCons(PairDigest, ps);
    }
  }

  /** A map's digest does not depend on the iteration order. */
  lemma MapOrderFree(ps: seq<Pair>, qs: seq<Pair>)
    requires multiset(ps) == multiset(qs)
    ensures HashValue(Map(ps)) == HashValue(Map(qs))
  {
    XorAllPermutation(PairDigest, 0, ps, qs);
    MapDigests(ps);
    MapDigests(qs);
  }

  /** Each exported field occurs in `Exported(fs)` as often as in `fs`,
      and no unexported one does. */
  lemma {:induction false} ExportedCount(fs: seq<Field>, f: Field)
    ensures multiset(Exported(fs))[f] == if f.exported then multiset(fs)[f] else 0
  {
    if |fs| > 0 {
      var h, t := fs[0], fs[1..];
      ExportedCount(t, f);
      assert fs == [h] + t;
      assert multiset(fs) == multiset{h} + multiset(t);
      if h.exported {
        assert Exported(fs) == [h] + Exported(t);
        assert multiset(Exported(fs)) == multiset{h} + multiset(Exported(t));
      } else {
        assert Exported(fs) == Exported(t);
      }
    }
  }

  /** Filtering twice is filtering once. */
  lemma {:induction false} ExportedIdempotent(fs: seq<Field>)
    ensures Exported(Exported(fs)) == Exported(fs)
  {
    if |fs| > 0 {
      ExportedIdempotent(fs[1..]);
    }
  }

  lemma {:induction false} ExportedDigestsMapped(fs: seq<Field>)
    ensures ExportedDigests(fs) == Mapped(FieldDigest, Exported(fs))
  {
    if |fs| > 0 {
      ExportedDigestsMapped(fs[1..]);
      if fs[0].exported {
        MappedCons(FieldDigest, Exported(fs));
      }
    }
  }

  /** A struct's digest is the XOR of its exported fields' digests into the
      digest of its type name. */
  lemma StructDigests(name: seq<bv8>, fs: seq<Field>)
    ensures HashValue(Struct(name, fs)) == XorAll(Fnv(name), Mapped(FieldDigest, Exported(fs)))
  {
    StructUnfold(name, fs);
    ExportedDigestsMapped(fs);
  }

  lemma StructUnfold(name: seq<bv8>, fs: seq<Field>)
    ensures HashValue(Struct(name, fs)) == XorAll(Fnv(name), ExportedDigests(fs))
  {}

  /** Unexported fields do not contribute to a struct's digest. */
  lemma StructIgnoresUnexported(name: seq<bv8>, fs: seq<Field>)
    ensures HashValue(Struct(name, fs)) == HashValue(Struct(name, Exported(fs)))
  {
    ExportedIdempotent(fs);
    StructDigests(name, fs);
    StructDigests(name, Exported(fs));
  }

  /** A struct's digest does not depend on the order of its fields. */
  lemma StructFieldOrderFree(name: seq<bv8>, fs: seq<Field>, gs: seq<Field>)
    requires multiset(fs) == multiset(gs)
    ensures HashValue(Struct(name, fs)) == HashValue(Struct(name, gs))
  {
    forall f
      ensures multiset(Exported(fs))[f] == multiset(Exported(gs))[f]
    {
      ExportedCount(fs, f);
      ExportedCount(gs, f);
    }
    assert multiset(Exported(fs)) == multiset(Exported(gs));
    XorAllPermutation(FieldDigest, Fnv(name), Exported(fs), Exported(gs));
    StructDigests(name, fs);
    StructDigests(name, gs);
  }

  /** FNV-1a of the single byte "a", the published test vector. */
  lemma FnvExample()
    ensures Fnv([0x61]) == 0xaf63_dc4c_8601_ec8c
  {
    assert FnvFrom(OffsetBasis, [0x61]) == FnvStep(OffsetBasis, 0x61);
  }
}

=== FILE: map_factory.dfy ===
/** The map factory of factory/map_factory.go: `Prepare` draws between one
    and ten entries from a key factory and a value factory, and
    `Instantiate` writes them into a map in order, so a later entry wins
    over an earlier one with the same key. */
module MapFactory {
  import opened Wrappers
  import opened GoInt
  import Factories

  /** `MapEntry[K, V]`. */
  datatype Entry<K, V> = Entry(key: K, value: V)

  /** `MapProperties[K, V]`. */
  datatype Properties<K, V> = Properties(entries: seq<Entry<K, V>>)

  /** `MapFactory[K, KP, V, VP]`: the key and the value factory. */
  datatype Maps<!K, !KP, !V, !VP> = Maps(keyFactory: Factories.Factory<K, KP>, valueFactory: Factories.Factory<V, VP>)

  /** Entry `i` is the last one written with its key. */
  ghost predicate LastOf<K, V>(entries: seq<Entry<K, V>>, i: int)
    requires 0 <= i < |entries|
  {
    forall j | i < j < |entries| :: entries[j].key != entries[i].key
  }

  /** `Instantiate`: every entry written in turn into an empty map. */
  function Instantiate<K(==), V>(p: Properties<K, V>): map<K, V>
    decreases |p.entries|
  {
    var n := |p.entries|;
    if n == 0 then map[]
    else
      var before := Instantiate(Properties(p.entries[..n - 1]));
      before[p.entries[n - 1].key := p.entries[n - 1].value]
  }

  /** Every entry's key is in the instantiated map. */
  lemma InstantiateHasKeys<K, V>(entries: seq<Entry<K, V>>)
    ensures forall i | 0 <= i < |entries| :: entries[i].key in Instantiate(Properties(entries))
  {
    forall i | 0 <= i < |entries|
      ensures entries[i].key in Instantiate(Properties(entries))
    {
      KeyKept(entries, i);
    }
  }

  /** The instantiated map has at most one key per entry. */
  lemma {:induction false} InstantiateSize<K, V>(entries: seq<Entry<K, V>>)
    ensures |Instantiate(Properties(entries))| <= |entries|
    decreases |entries|
  {
    if |entries| > 0 {
      InstantiateStep(entries);
      InstantiateSize(entries[..|entries| - 1]);
    }
  }

  /** The key of entry `i` is in the instantiated map. */
  lemma {:induction false} KeyKept<K, V>(entries: seq<Entry<K, V>>, i: nat)
    requires i < |entries|
    ensures entries[i].key in Instantiate(Properties(entries))
    decreases |entries|
  {
    var n := |entries|;
    InstantiateStep(entries);
    if i < n - 1 {
      var init := entries[..n - 1];
      assert init[i] == entries[i];
      KeyKept(init, i);
    }
  }

  /** Every key of the instantiated map is some entry's key. */
  lemma {:induction false} InstantiateOnlyKeys<K, V>(entries: seq<Entry<K, V>>)
    ensures forall k | k in Instantiate(Properties(entries)) :: exists i | 0 <= i < |entries| :: entries[i].key == k
    decreases |entries|
  {
    var n := |entries|;
    if n > 0 {
      var init := entries[..n - 1];
      InstantiateOnlyKeys(init);
      var before := Instantiate(Properties(init));
      assert Instantiate(Properties(entries)) == before[entries[n - 1].key := entries[n - 1].value];
      forall k | k in Instantiate(Properties(entries))
        ensures exists i | 0 <= i < n :: entries[i].key == k
      {
        if k != entries[n - 1].key {
          assert k in before;
          var i :| 0 <= i < n - 1 && init[i].key == k;
          assert entries[i].key == k;
        }
      }
    }
  }

  /** Each key maps to the value of the last entry written with it. */
  lemma InstantiateLastWins<K, V>(entries: seq<Entry<K, V>>)
    ensures forall i | 0 <= i < |entries| && LastOf(entries, i) ::
      entries[i].key in Instantiate(Properties(entries)) &&
      Instantiate(Properties(entries))[entries[i].key] == entries[i].value
  {
    forall i | 0 <= i < |entries| && LastOf(entries, i)
      ensures entries[i].key in Instantiate(Properties(entries))
      ensures Instantiate(Properties(entries))[entries[i].key] == entries[i].value
    {
      LastWinsAt(entries, i);
    }
  }

  /** The same for one entry. */
  lemma {:induction false} LastWinsAt<K, V>(entries: seq<Entry<K, V>>, i: int)
    requires 0 <= i < |entries| && LastOf(entries, i)
    ensures entries[i].key in Instantiate(Properties(entries))
    ensures Instantiate(Properties(entries))[entries[i].key] == entries[i].value
    decreases |entries|
  {
    var n := |entries|;
    var init := entries[..n - 1];
    var last := entries[n - 1];
    var before := Instantiate(Properties(init));
    InstantiateStep(entries);
    if i < n - 1 {
      LastOfInit(entries, i);
      LastWinsAt(init, i);
      assert last.key != entries[i].key;
      assert before[last.key := last.value][entries[i].key] == before[entries[i].key];
    }
  }

  /** Writing the entries is writing all but the last, then the last. */
  lemma InstantiateStep<K, V>(entries: seq<Entry<K, V>>)
    requires |entries| > 0
    ensures
      var last := entries[|entries| - 1];
      Instantiate(Properties(entries)) == Instantiate(Properties(entries[..|entries| - 1]))[last.key := last.value]
  {
  }

  /** An entry last of its key, other than the final one, is last of its
      key among the entries before the final one, and has another key. */
  lemma LastOfInit<K, V>(entries: seq<Entry<K, V>>, i: int)
    requires 0 <= i < |entries| - 1 && LastOf(entries, i)
    ensures entries[|entries| - 1].key != entries[i].key
    ensures LastOf(entries[..|entries| - 1], i) && entries[..|entries| - 1][i] == entries[i]
  {
    var init := entries[..|entries| - 1];
    forall j | i < j < |init|
      ensures init[j].key != init[i].key
    {
      assert init[j] == entries[j];
    }
  }

  /** `Retrieve`: one entry per key, in the order `order` in which the
      map's range loop visits the keys; Go leaves that order unspecified,
      so it is a parameter here. */
  function Retrieve<K(==), V>(m: map<K, V>, order: seq<K>): (r: Properties<K, V>)
    requires forall k | k in order :: k in m
    ensures |r.entries| == |order|
    ensures forall i | 0 <= i < |order| :: r.entries[i] == Entry(order[i], m[order[i]])
  {
    if |order| == 0 then Properties([])
    else Properties([Entry(order[0], m[order[0]])] + Retrieve(m, order[1..]).entries)
  }

  /** Entries that all agree with `m` write a map that agrees with `m`. */
  lemma {:induction false} InstantiateAgrees<K, V>(entries: seq<Entry<K, V>>, m: map<K, V>)
    requires forall i | 0 <= i < |entries| :: entries[i].key in m && entries[i].value == m[entries[i].key]
    ensures forall k | k in Instantiate(Properties(entries)) :: k in m && Instantiate(Properties(entries))[k] == m[k]
    decreases |entries|
  {
    var n := |entries|;
    if n > 0 {
      var init := entries[..n - 1];
      assert forall i | 0 <= i < |init| :: init[i] == entries[i];
      InstantiateAgrees(init, m);
    }
  }

  /** Writing back the entries of any visiting order of the keys gives the
      map back. */
  lemma RetrieveRoundTrip<K, V>(m: map<K, V>, order: seq<K>)
    requires forall k | k in order :: k in m
    requires forall k | k in m :: k in order
    ensures Instantiate(Retrieve(m, order)) == m
  {
    var entries := Retrieve(m, order).entries;
    var r := Instantiate(Retrieve(m, order));
    InstantiateHasKeys(entries);
    InstantiateAgrees(entries, m);
    forall k | k in m
      ensures k in r
    {
      var i :| 0 <= i < |order| && order[i] == k;
      assert entries[i].key == k;
    }
    assert r.Keys == m.Keys;
  }

  /** The number of entries `Prepare` draws: Go's `seed % 10 + 1`.  It is
      between 1 and 10 for a non-negative seed, and at most 1 for a
      negative one. */
  function Count(seed: Int64): (r: int)
    ensures seed >= 0 ==> 1 <= r <= 10 && r == seed % 10 + 1
    ensures seed < 0 ==> -8 <= r <= 1
  {
    Rem(seed, 10) + 1
  }

  /** The loop of `Prepare` from position `i`: a key, then a value, each
      created with no override from the seed plus the position. */
  function Entries<K, KP, V, VP>(f: Maps<K, KP, V, VP>, seed: Int64, i: int, count: int): Outcome<seq<Entry<K, V>>>
    decreases count - i
  {
    if i >= count then Ok([])
    else
      var key :- Factories.Create(f.keyFactory, None, WrapInt64(seed + i));
      var value :- Factories.Create(f.valueFactory, None, WrapInt64(seed + i));
      var rest :- Entries(f, seed, i + 1, count);
      Ok([Entry(key, value)] + rest)
  }

  /** `Prepare`: the count, a slice of that length (a negative length
      panics), the entries, then the override. */
  function Prepare<K, KP, V, VP>(f: Maps<K, KP, V, VP>, overrides: Factories.Partial<Properties<K, V>>, seed: Int64): Outcome<Properties<K, V>> {
    var count := Count(seed);
    if count < 0 then Panic("makeslice: len out of range")
    else
      var entries :- Entries(f, seed, 0, count);
      Factories.Apply(overrides, Properties(entries))
  }

  /** A factory whose `prepare` never panics without an override. */
  ghost predicate NeverPanics<T, P>(factory: Factories.Factory<T, P>) {
    forall seed: Int64 :: factory.prepare(None, seed).Ok?
  }

  /** The entry created at position `i`. */
  function EntryAt<K, KP, V, VP>(f: Maps<K, KP, V, VP>, seed: Int64, i: int): Entry<K, V>
    requires NeverPanics(f.keyFactory) && NeverPanics(f.valueFactory)
  {
    Entry(
      Factories.Create(f.keyFactory, None, WrapInt64(seed + i)).value,
      Factories.Create(f.valueFactory, None, WrapInt64(seed + i)).value)
  }

  /** When neither factory panics, the loop creates one entry per position,
      entry `j` from the seed plus `i + j`. */
  lemma {:induction false} EntriesSpec<K, KP, V, VP>(f: Maps<K, KP, V, VP>, seed: Int64, i: int, count: int)
    requires NeverPanics(f.keyFactory) && NeverPanics(f.valueFactory)
    requires i <= count
    ensures Entries(f, seed, i, count).Ok?
    ensures |Entries(f, seed, i, count).value| == count - i
    ensures forall j | 0 <= j < count - i :: Entries(f, seed, i, count).value[j] == EntryAt(f, seed, i + j)
    decreases count - i
  {
    if i < count {
      assert f.keyFactory.prepare(None, WrapInt64(seed + i)).Ok?;
      assert f.valueFactory.prepare(None, WrapInt64(seed + i)).Ok?;
      EntriesSpec(f, seed, i + 1, count);
    }
  }

  /** For a non-negative seed and factories that do not panic, `Prepare`
      draws `seed % 10 + 1` entries, entry `i` a key and a value created
      from `seed + i`. */
  lemma PrepareGenerates<K, KP, V, VP>(f: Maps<K, KP, V, VP>, seed: Int64)
    requires NeverPanics(f.keyFactory) && NeverPanics(f.valueFactory)
    requires seed >= 0
    ensures Prepare(f, None, seed).Ok?
    ensures
      var entries := Prepare(f, None, seed).value.entries;
      |entries| == seed % 10 + 1 && 1 <= |entries| <= 10 &&
      forall i | 0 <= i < |entries| :: entries[i] == EntryAt(f, seed, i)
  {
    EntriesSpec(f, seed, 0, Count(seed));
  }

  /** The override runs once, on the drawn entries: it sees what `Prepare`
      would return without it, and the key and value factories never see
      it. */
  lemma PrepareOverridesLast<K, KP, V, VP>(f: Maps<K, KP, V, VP>, overrides: Factories.Partial<Properties<K, V>>, seed: Int64)
    ensures Prepare(f, None, seed).Panic? ==> Prepare(f, overrides, seed) == Prepare(f, None, seed)
    ensures Prepare(f, None, seed).Ok? ==>
      Prepare(f, overrides, seed) == Factories.Apply(overrides, Prepare(f, None, seed).value)
  {
  }

  /** A panic of the key factory on the seed itself is a panic of `Prepare`
      for a non-negative seed. */
  lemma KeyPanicPropagates<K, KP, V, VP>(f: Maps<K, KP, V, VP>, overrides: Factories.Partial<Properties<K, V>>, seed: Int64)
    requires seed >= 0
    requires f.keyFactory.prepare(None, seed).Panic?
    ensures Prepare(f, overrides, seed).Panic?
  {
    assert WrapInt64(seed + 0) == seed;
  }

  /** A negative seed is not rejected: `-1` gives no entries at all, and
      `-2` asks for a slice of length `-1`, which panics. */
  lemma NegativeSeeds<K, KP, V, VP>(f: Maps<K, KP, V, VP>)
    ensures Prepare(f, None, -1) == Ok(Properties([]))
    ensures Prepare(f, None, -2).Panic?
  {
    assert Count(-1) == 0;
    assert Count(-2) == -1;
  }

  /** A prepared map, instantiated, holds between one and ten keys, each
      the key of some drawn entry. */
  lemma CreatedMapSize<K, KP, V, VP>(f: Maps<K, KP, V, VP>, seed: Int64)
    requires NeverPanics(f.keyFactory) && NeverPanics(f.valueFactory)
    requires seed >= 0
    ensures Prepare(f, None, seed).Ok?
    ensures 1 <= |Instantiate(Prepare(f, None, seed).value)| <= 10
  {
    PrepareGenerates(f, seed);
    var m := Instantiate(Prepare(f, None, seed).value);
    InstantiateHasKeys(Prepare(f, None, seed).value.entries);
    InstantiateSize(Prepare(f, None, seed).value.entries);
    var k := Prepare(f, None, seed).value.entries[0].key;
    assert k in m;
    assert {k} <= m.Keys;
  }

  /** The keys of `order` that `m` has, in order. */
  function Only<K(==), V>(order: seq<K>, m: map<K, V>): (r: seq<K>)
    ensures forall k | k in r :: k in m && k in order
    ensures forall k | k in order && k in m :: k in r
  {
    if |order| == 0 then []
    else if order[0] in m then [order[0]] + Only(order[1..], m)
    else Only(order[1..], m)
  }

  /** The factory as its three hooks.  `visit` is the order in which the
      range loop of `Retrieve` happens to visit a map's keys. */
  function AsFactory<K(==), KP, V, VP>(f: Maps<K, KP, V, VP>, visit: map<K, V> -> seq<K>): Factories.Factory<map<K, V>, Properties<K, V>> {
    Factories.Factory(
      Instantiate,
      (o: Factories.Partial<Properties<K, V>>, s: Int64) => Prepare(f, o, s),
      (m: map<K, V>) => Retrieve(m, Only(visit(m), m)))
  }

  /** A visiting order that covers the map. */
  ghost predicate Covers<K(!new), V>(visit: map<K, V> -> seq<K>, m: map<K, V>) {
    forall k | k in m :: k in visit(m)
  }

  /** Without an override `Duplicate` gives the map back, in whatever
      order the keys are visited. */
  lemma DuplicateRoundTrip<K(!new), KP, V, VP>(f: Maps<K, KP, V, VP>, visit: map<K, V> -> seq<K>, m: map<K, V>)
    requires Covers(visit, m)
    ensures Factories.Duplicate(AsFactory(f, visit), m, None) == Ok(m)
  {
    RetrieveRoundTrip(m, Only(visit(m), m));
  }

  /** Writing one more entry. */
  lemma InstantiateSnoc<K, V>(entries: seq<Entry<K, V>>, k: K, v: V)
    ensures Instantiate(Properties(entries + [Entry(k, v)])) == Instantiate(Properties(entries))[k := v]
  {
    assert (entries + [Entry(k, v)])[..|entries|] == entries;
  }

  /** An override that appends an entry to the retrieved ones duplicates
      the map with that key set to that value: the appended entry is
      written last, so it wins. */
  lemma DuplicateAppend<K(!new), KP, V, VP>(f: Maps<K, KP, V, VP>, visit: map<K, V> -> seq<K>, m: map<K, V>, k: K, v: V)
    requires Covers(visit, m)
    ensures Factories.Duplicate(AsFactory(f, visit), m, Some((p: Properties<K, V>) => Ok(Properties(p.entries + [Entry(k, v)])))) == Ok(m[k := v])
  {
    var entries := Retrieve(m, Only(visit(m), m)).entries;
    RetrieveRoundTrip(m, Only(visit(m), m));
    InstantiateSnoc(entries, k, v);
  }
}

=== FILE: override_names.dfy ===
/** The name handling of factory/overrider.go: how a key of an override
    literal is matched against field names, and how it is turned into the
    name of a setter method.  A Go rune is a Dafny `char`; the letter cases
    are those of ASCII. */
module OverrideNames {

  /** An ASCII capital letter. */
  predicate IsUpper(c: char) {
    'A' <= c <= 'Z'
  }

  /** An ASCII small letter. */
  predicate IsLower(c: char) {
    'a' <= c <= 'z'
  }

  /** `unicode.ToLower` on ASCII: capitals become small letters, every
      other character stays. */
  function Lower(c: char): (r: char)
    ensures !IsUpper(r)
    ensures IsUpper(c) ==> IsLower(r) && r as int == c as int + 32
    ensures !IsUpper(c) ==> r == c
  {
    if IsUpper(c) then (c as int + 32) as char else c
  }

  /** `unicode.ToUpper` on ASCII. */
  function Upper(c: char): (r: char)
    ensures !IsLower(r)
    ensures IsLower(c) ==> IsUpper(r) && r as int == c as int - 32
    ensures !IsLower(c) ==> r == c
  {
    if IsLower(c) then (c as int - 32) as char else c
  }

  /** `strings.ToLower`: every character lowered. */
  function ToLower(s: string): (r: string)
    ensures |r| == |s|
    ensures forall i | 0 <= i < |s| :: r[i] == Lower(s[i])
  {
    if |s| == 0 then "" else [Lower(s[0])] + ToLower(s[1..])
  }

  /** No capital letter anywhere. */
  predicate NoUpper(s: string) {
    forall i | 0 <= i < |s| :: !IsUpper(s[i])
  }

  /** `canonicalName`: the name as it is when matching is case-sensitive,
      lowered otherwise. */
  function CanonicalName(name: string, caseInsensitive: bool): (r: string)
    ensures !caseInsensitive ==> r == name
    ensures caseInsensitive ==> NoUpper(r) && |r| == |name|
  {
    if !caseInsensitive then name else ToLower(name)
  }

  /** Canonicalising twice is canonicalising once, so `lookupField`
      lowering an already lowered key changes nothing. */
  lemma CanonicalIdempotent(name: string, caseInsensitive: bool)
    ensures CanonicalName(CanonicalName(name, caseInsensitive), caseInsensitive) == CanonicalName(name, caseInsensitive)
  {
  }

  /** Case-insensitive matching: two names have the same canonical form
      exactly when they have the same length and agree letter by letter up
      to case. */
  lemma CanonicalMatch(a: string, b: string)
    ensures CanonicalName(a, true) == CanonicalName(b, true) <==>
      |a| == |b| && forall i | 0 <= i < |a| :: a[i] == b[i] || Lower(a[i]) == Lower(b[i])
  {
    if |a| == |b| && forall i | 0 <= i < |a| :: a[i] == b[i] || Lower(a[i]) == Lower(b[i]) {
      assert forall i | 0 <= i < |a| :: ToLower(a)[i] == ToLower(b)[i];
    }
  }

  /** `unicode.IsSpace`: the Latin-1 spaces and the other characters of
      Unicode's White_Space property. */
  predicate IsSpace(c: char) {
    c == '\t' || c == '\n' || c == '\U{000B}' || c == '\U{000C}' || c == '\r' || c == ' ' ||
    c == '\U{0085}' || c == '\U{00A0}' || c == '\U{1680}' || '\U{2000}' <= c <= '\U{200A}' ||
    c == '\U{2028}' || c == '\U{2029}' || c == '\U{202F}' || c == '\U{205F}' || c == '\U{3000}'
  }

  /** Drops the leading white space. */
  function TrimLeft(s: string): (r: string)
    ensures |r| <= |s| && r == s[|s| - |r|..]
    ensures forall i | 0 <= i < |s| - |r| :: IsSpace(s[i])
    ensures |r| > 0 ==> !IsSpace(r[0])
  {
    if |s| > 0 && IsSpace(s[0]) then TrimLeft(s[1..]) else s
  }

  /** A blank string is trimmed away entirely from the left. */
  lemma {:induction false} TrimLeftBlank(s: string)
    requires forall k | 0 <= k < |s| :: IsSpace(s[k])
    ensures TrimLeft(s) == ""
  {
    if |s| > 0 {
      TrimLeftBlank(s[1..]);
    }
  }

  /** Drops the trailing white space. */
  function TrimRight(s: string): (r: string)
    ensures |r| <= |s| && r == s[..|r|]
    ensures forall i | |r| <= i < |s| :: IsSpace(s[i])
    ensures |r| > 0 ==> !IsSpace(r[|r| - 1])
  {
    if |s| > 0 && IsSpace(s[|s| - 1]) then TrimRight(s[..|s| - 1]) else s
  }

  /** `strings.TrimSpace`: `s` without its leading and trailing white
      space; nothing is left exactly when `s` is blank. */
  function TrimSpace(s: string): (r: string)
    ensures |r| > 0 ==> !IsSpace(r[0]) && !IsSpace(r[|r| - 1])
    ensures r == "" <==> forall k | 0 <= k < |s| :: IsSpace(s[k])
  {
    TrimBlank(s);
    TrimRight(TrimLeft(s))
  }

  /** Trimming both ends leaves nothing exactly when `s` is blank. */
  lemma TrimBlank(s: string)
    ensures TrimRight(TrimLeft(s)) == "" <==> forall k | 0 <= k < |s| :: IsSpace(s[k])
  {
    if forall k | 0 <= k < |s| :: IsSpace(s[k]) {
      TrimLeftBlank(s);
    } else {
      var k :| 0 <= k < |s| && !IsSpace(s[k]);
      TrimKeeps(s, k);
    }
  }

  /** A character that is not white space survives the trimming. */
  lemma TrimKeeps(s: string, k: nat)
    requires k < |s| && !IsSpace(s[k])
    ensures TrimRight(TrimLeft(s)) != ""
  {
    var left := TrimLeft(s);
    var a := |s| - |left|;
    assert a <= k;
    assert left[k - a] == s[k];
    var right := TrimRight(left);
    assert k - a < |right|;
  }

  /** What `TrimSpace` keeps is a slice of `s` with nothing but white
      space on either side of it. */
  lemma TrimSpaceSlice(s: string) returns (i: nat, j: nat)
    ensures i <= j <= |s| && TrimSpace(s) == s[i..j]
    ensures forall k | 0 <= k < i :: IsSpace(s[k])
    ensures forall k | j <= k < |s| :: IsSpace(s[k])
  {
    var left := TrimLeft(s);
    i := |s| - |left|;
    j := i + |TrimRight(left)|;
    forall k | j <= k < |s|
      ensures IsSpace(s[k])
    {
      assert s[k] == left[k - i];
    }
  }

  /** The characters `exportableName` drops, each starting a new word. */
  predicate IsSeparator(c: char) {
    c == '_' || c == '-' || c == ' '
  }

  /** The loop of `exportableName` from a position where the next kept
      character is capitalised exactly when `upperNext` holds. */
  function ExportFrom(s: string, upperNext: bool): (r: string)
    ensures |r| <= |s|
    ensures forall i | 0 <= i < |r| :: !IsSeparator(r[i])
  {
    if |s| == 0 then ""
    else if IsSeparator(s[0]) then ExportFrom(s[1..], true)
    else if upperNext then [Upper(s[0])] + ExportFrom(s[1..], false)
    else [s[0]] + ExportFrom(s[1..], false)
  }

  /** `exportableName`: the separators dropped, the first character and
      every character after a separator capitalised. */
  function Exportable(name: string): (r: string)
    ensures forall i | 0 <= i < |r| :: !IsSeparator(r[i])
    ensures |r| > 0 ==> !IsLower(r[0])
  {
    ExportFromCapitalises(name, true);
    ExportFrom(name, true)
  }

  /** With `upperNext` set, the first character kept is capitalised. */
  lemma {:induction false} ExportFromCapitalises(s: string, upperNext: bool)
    ensures upperNext && |ExportFrom(s, upperNext)| > 0 ==> !IsLower(ExportFrom(s, upperNext)[0])
  {
    if |s| > 0 && IsSeparator(s[0]) {
      ExportFromCapitalises(s[1..], true);
    }
  }

  /** Character `i` of `s` starts a word: it is the first one or follows
      a separator. */
  predicate StartsWord(s: string, i: int)
    requires 0 <= i < |s|
  {
    i == 0 || IsSeparator(s[i - 1])
  }

  /** How character `i` appears in the exportable name. */
  function Rendered(s: string, i: int): char
    requires 0 <= i < |s|
  {
    if StartsWord(s, i) then Upper(s[i]) else s[i]
  }

  /** The exportable name of `s` read position by position from `i`:
      every non-separator, rendered. */
  function RenderFrom(s: string, i: nat): string
    requires i <= |s|
    decreases |s| - i
  {
    if i == |s| then ""
    else if IsSeparator(s[i]) then RenderFrom(s, i + 1)
    else [Rendered(s, i)] + RenderFrom(s, i + 1)
  }

  /** The loop agrees with the position-by-position reading: the state
      `upperNext` is exactly "the previous character was a separator, or
      there was none". */
  lemma {:induction false} ExportFromRenders(s: string, i: nat)
    requires i <= |s|
    ensures ExportFrom(s[i..], i == 0 || IsSeparator(s[i - 1])) == RenderFrom(s, i)
    decreases |s| - i
  {
    if i < |s| {
      assert s[i..][1..] == s[i + 1..];
      ExportFromRenders(s, i + 1);
    }
  }

  /** `Exportable` as a reference reading: drop the separators, and
      capitalise each character that starts a word. */
  lemma ExportableRenders(name: string)
    ensures Exportable(name) == RenderFrom(name, 0)
  {
    ExportFromRenders(name, 0);
    assert name[0..] == name;
  }

  /** Without separators, the loop only capitalises the first character. */
  lemma {:induction false} ExportFromPlain(s: string, upperNext: bool)
    requires forall i | 0 <= i < |s| :: !IsSeparator(s[i])
    ensures ExportFrom(s, upperNext) == if |s| == 0 || !upperNext then s else [Upper(s[0])] + s[1..]
  {
    if |s| > 0 {
      ExportFromPlain(s[1..], false);
    }
  }

  /** An exportable name is its own exportable name. */
  lemma ExportableIdempotent(name: string)
    ensures Exportable(Exportable(name)) == Exportable(name)
  {
    var e := Exportable(name);
    ExportFromPlain(e, true);
    if |e| > 0 {
      assert e == [e[0]] + e[1..];
    }
  }

  /** `buildSetterName`: nothing for a blank name, otherwise `Set`
      followed by the exportable form of the trimmed name. */
  function BuildSetterName(name: string): (r: string)
    ensures r == "" <==> forall k | 0 <= k < |name| :: IsSpace(name[k])
    ensures r != "" ==> |r| >= 3 && r[..3] == "Set" && r[3..] == Exportable(TrimSpace(name))
  {
    var trimmed := TrimSpace(name);
    if trimmed == "" then "" else "Set" + Exportable(trimmed)
  }

  /** A separator ends a word: what comes after it is exported as a name
      of its own. */
  lemma {:induction false} ExportFromSplit(a: string, c: char, b: string, upperNext: bool)
    requires forall i | 0 <= i < |a| :: !IsSeparator(a[i])
    requires IsSeparator(c)
    ensures ExportFrom(a + [c] + b, upperNext) == ExportFrom(a, upperNext) + ExportFrom(b, true)
    decreases |a|
  {
    if |a| == 0 {
      assert (a + [c] + b)[1..] == b;
    } else {
      assert (a + [c] + b)[1..] == a[1..] + [c] + b;
      ExportFromSplit(a[1..], c, b, false);
    }
  }

  /** A snake-case key names a camel-case setter. */
  lemma SnakeCaseSetter()
    ensures BuildSetterName("id_of") == "SetIdOf"
  {
    SnakeCaseTrimmed();
    SnakeCaseExported();
  }

  lemma SnakeCaseTrimmed()
    ensures TrimSpace("id_of") == "id_of"
  {
    assert TrimLeft("id_of") == "id_of";
    assert TrimRight("id_of") == "id_of";
  }

  lemma SnakeCaseExported()
    ensures Exportable("id_of") == "IdOf"
  {
    assert "id_of" == "id" + ['_'] + "of";
    ExportFromSplit("id", '_', "of", true);
    ExportFromPlain("id", true);
    ExportFromPlain("of", true);
  }

  /** A key of separators only names the bare `Set`, and a blank key
      names no setter. */
  lemma DegenerateSetters()
    ensures BuildSetterName("_") == "Set"
    ensures BuildSetterName(" \t") == ""
  {
    SeparatorSetter();
    BlankSetter();
  }

  lemma SeparatorSetter()
    ensures BuildSetterName("_") == "Set"
  {
    SeparatorTrimmed();
    SeparatorExported();
  }

  lemma SeparatorTrimmed()
    ensures TrimSpace("_") == "_"
  {
    assert TrimLeft("_") == "_" by { assert !IsSpace('_'); }
    assert TrimRight("_") == "_" by { assert !IsSpace('_'); }
  }

  lemma SeparatorExported()
    ensures Exportable("_") == ""
  {
    assert "_"[1..] == "";
  }

  lemma BlankSetter()
    ensures BuildSetterName(" \t") == ""
  {
    assert IsSpace(" \t"[0]) && IsSpace(" \t"[1]);
  }

  /** `isExportedIdentifier`: the first character is a capital. */
  predicate IsExportedIdentifier(name: string) {
    name != "" && IsUpper(name[0])
  }

  /** The position of the first character of `s` that is not a
      separator, or `|s|` when there is none. */
  function FirstKept(s: string): (i: nat)
    ensures i <= |s|
    ensures forall j | 0 <= j < i :: IsSeparator(s[j])
    ensures i < |s| ==> !IsSeparator(s[i])
  {
    if |s| == 0 || !IsSeparator(s[0]) then 0 else 1 + FirstKept(s[1..])
  }

  /** The loop, started capitalising, produces nothing exactly when `s`
      holds only separators, and otherwise opens with the first kept
      character capitalised. */
  lemma {:induction false} ExportFromFirst(s: string)
    ensures ExportFrom(s, true) == "" <==> FirstKept(s) == |s|
    ensures FirstKept(s) < |s| ==> ExportFrom(s, true)[0] == Upper(s[FirstKept(s)])
  {
    if |s| > 0 && IsSeparator(s[0]) {
      ExportFromFirst(s[1..]);
    }
  }

  /** A name made exportable is an exported identifier exactly when the
      first character of the name that is not a separator exists and is
      an ASCII letter. */
  lemma ExportableExported(name: string)
    ensures IsExportedIdentifier(Exportable(name)) <==>
      FirstKept(name) < |name| && (IsUpper(name[FirstKept(name)]) || IsLower(name[FirstKept(name)]))
  {
    ExportFromFirst(name);
  }
}

=== FILE: overrider.dfy ===
/** The override literals of factory/overrider.go: a map or struct literal
    is parsed into entries, and the override applies the entries one by one
    to a properties struct, each through a setter method if the struct has
    one, else through the field the entry's key names.

    Go's reflection is modelled by descriptors: a `Type` with a name and a
    kind, a `Val` that is invalid, an interface value or a plain value, and
    a `Field` that may embed further fields.  Assignability, conversion and
    calling a setter are the parameters collected in `Reflect`. */
module Overrider {
  import opened Wrappers
  import opened OverrideNames
  import Factories

  /** A value or an error of type `E`. */
  datatype Result<+T, +E> = Success(value: T) | Failure(error: E) {

    predicate IsFailure() {
      Failure?
    }

    function PropagateFailure<U>(): Result<U, E>
      requires Failure?
    {
      Failure(error)
    }

    function Extract(): T
      requires Success?
    {
      value
    }
  }

  /** `Overrider[P]`: the prepared edit, `None` for a nil one. */
  datatype Overrider<!P> = Overrider(fn: Factories.Partial<P>)

  /** `Apply`: runs the stored edit; a nil edit changes nothing. */
  function Apply<P>(o: Overrider<P>, properties: P): (r: Outcome<P>)
    ensures o.fn.None? ==> r == Ok(properties)
  {
    Factories.Apply(o.fn, properties)
  }

  /** `Func`: the stored edit. */
  function Func<P>(o: Overrider<P>): Factories.Partial<P> {
    o.fn
  }

  // ---------------------------------------------------------------------
  // Options

  /** `overrideOptions`. */
  datatype Options = Options(caseInsensitive: bool, allowUnexported: bool)

  /** The two `OverrideOption`s the package offers. */
  datatype Setting = WithCaseInsensitive | DisallowUnexported

  /** The configuration before any option: case-insensitive matching, and
      unexported fields allowed. */
  const Defaults := Options(true, true)

  /** The options applied in order to the defaults. */
  function Configure(settings: seq<Setting>): (r: Options)
    ensures r.caseInsensitive
    ensures r.allowUnexported <==> DisallowUnexported !in settings
  {
    if |settings| == 0 then Defaults
    else
      var before := Configure(settings[..|settings| - 1]);
      assert settings == settings[..|settings| - 1] + [settings[|settings| - 1]];
      match settings[|settings| - 1]
      case WithCaseInsensitive => before.(caseInsensitive := true)
      case DisallowUnexported => before.(allowUnexported := false)
  }

  // ---------------------------------------------------------------------
  // Types and values

  /** The reflect kinds the overrides tell apart; every other kind is a
      `Scalar` with its name. */
  datatype Kind = Interface | Pointer | Map | Slice | Function | Chan | Struct | String | Scalar(kindName: string)

  /** `reflect.Kind.String`. */
  function KindName(k: Kind): string {
    match k
    case Interface => "interface"
    case Pointer => "ptr"
    case Map => "map"
    case Slice => "slice"
    case Function => "func"
    case Chan => "chan"
    case Struct => "struct"
    case String => "string"
    case Scalar(name) => name
  }

  /** A type: its printed name and its kind. */
  datatype Type = Type(name: string, kind: Kind)

  /** A reflected value: invalid (a nil literal), an interface value
      holding another value or nil, or a plain value of a type. */
  datatype Val = Invalid | Held(iface: Type, inner: Option<Val>) | Plain(typ: Type, data: int)

  /** `canBeNil`: the kinds whose zero value is nil. */
  predicate CanBeNil(t: Type) {
    t.kind in {Interface, Pointer, Map, Slice, Function, Chan}
  }

  /** `reflect.Zero`. */
  function Zero(t: Type): Val {
    if t.kind == Interface then Held(t, None) else Plain(t, 0)
  }

  /** Go's type rules and reflection calls that the overrides rely on:
      `AssignableTo`, `ConvertibleTo`, `Convert` and calling a setter
      method with one argument. */
  datatype Reflect = Reflect(
    assignable: (Type, Type) -> bool,
    convertible: (Type, Type) -> bool,
    convert: (Val, Type) -> Val,
    call: (Props, string, Val) -> Props)

  /** Why a value cannot go where it is asked to. */
  datatype ValueProblem = NilInto(target: Type) | Unconvertible(from: Type, to: Type)

  /** The value inside any number of interfaces; `Invalid` for a nil. */
  function Unwrap(v: Val): (r: Val)
    ensures r.Invalid? || r.Plain?
  {
    match v
    case Held(_, Some(inner)) => Unwrap(inner)
    case Held(_, None) => Invalid
    case _ => v
  }

  /** `prepareOverrideValue`. */
  function PrepareValue(v: Val, target: Type, rf: Reflect): Result<Val, ValueProblem> {
    match v
    case Invalid => NilOrZero(target)
    case Held(_, None) => NilOrZero(target)
    case Held(_, Some(inner)) => PrepareValue(inner, target, rf)
    case Plain(t, _) =>
      if rf.assignable(t, target) then Success(v)
      else if rf.convertible(t, target) then Success(rf.convert(v, target))
      else Failure(Unconvertible(t, target))
  }

  /** A nil becomes the zero value of a type that can be nil. */
  function NilOrZero(target: Type): (r: Result<Val, ValueProblem>)
    ensures r.Success? <==> CanBeNil(target)
    ensures r.Success? ==> r.value == Zero(target)
  {
    if CanBeNil(target) then Success(Zero(target)) else Failure(NilInto(target))
  }

  /** `prepareOverrideValue` as two steps: unwrap the interfaces, then
      place the value inside.  A nil at any depth is accepted exactly by
      the types that can be nil, as their zero value; anything else is
      kept when assignable, converted when convertible, refused
      otherwise. */
  lemma {:induction false} PrepareUnwraps(v: Val, target: Type, rf: Reflect)
    ensures Unwrap(v).Invalid? ==>
      (PrepareValue(v, target, rf).Success? <==> CanBeNil(target)) &&
      (PrepareValue(v, target, rf).Success? ==> PrepareValue(v, target, rf).value == Zero(target))
    ensures Unwrap(v).Plain? ==>
      var u := Unwrap(v);
      PrepareValue(v, target, rf) ==
        if rf.assignable(u.typ, target) then Success(u)
        else if rf.convertible(u.typ, target) then Success(rf.convert(u, target))
        else Failure(Unconvertible(u.typ, target))
  {
    match v
    case Held(_, Some(inner)) => PrepareUnwraps(inner, target, rf);
    case _ =>
  }

  // ---------------------------------------------------------------------
  // Struct fields

  /** A struct field: its name, its package path (empty when exported),
      whether it is embedded, its type, whether reflection may set it or
      take its address, its value, and the fields it makes reachable. */
  datatype Field = Field(
    name: string, pkgPath: string, anonymous: bool, typ: Type,
    canSet: bool, canAddr: bool, value: Val, embedded: Embedded)

  /** What lies inside a field for the embedded-field search: nothing, a
      struct's fields, a nil pointer, or a pointer to a struct's fields. */
  datatype Embedded = NoStruct | Inline(fields: seq<Field>) | NilPointer | PointerTo(fields: seq<Field>)

  /** `isExportedStructField`. */
  predicate IsExportedField(f: Field) {
    f.pkgPath == "" && IsExportedIdentifier(f.name)
  }

  /** A field found by the search, and the indices that lead to it. */
  datatype Found = Found(path: seq<nat>, field: Field)

  /** `lookupFieldRecursive` from field `i` on: the first field whose
      canonical name is `canonical`, searching each embedded struct, or
      struct behind a non-nil pointer, right after its own field. */
  function LookupFrom(fields: seq<Field>, i: nat, canonical: string, caseInsensitive: bool): Option<Found>
    requires i <= |fields|
    decreases fields, |fields| - i
  {
    if i == |fields| then None
    else
      var f := fields[i];
      if CanonicalName(f.name, caseInsensitive) == canonical then Some(Found([i], f))
      else
        match LookupInside(f, canonical, caseInsensitive)
        case Some(found) => Some(Found([i] + found.path, found.field))
        case None => LookupFrom(fields, i + 1, canonical, caseInsensitive)
  }

  /** The search inside an embedded field; nothing for other fields and
      for a nil embedded pointer. */
  function LookupInside(f: Field, canonical: string, caseInsensitive: bool): Option<Found>
    decreases f
  {
    if !f.anonymous then None
    else
      match f.embedded
      case Inline(sub) => LookupFrom(sub, 0, canonical, caseInsensitive)
      case PointerTo(sub) => LookupFrom(sub, 0, canonical, caseInsensitive)
      case _ => None
  }

  /** `lookupField`: the key canonicalised once more, then the search. */
  function LookupField(fields: seq<Field>, key: string, caseInsensitive: bool): Option<Found> {
    LookupFrom(fields, 0, CanonicalName(key, caseInsensitive), caseInsensitive)
  }

  /** The fields the search visits, in the order it visits them: each
      field, then, when it is embedded, the fields inside it. */
  function CandidatesFrom(fields: seq<Field>, i: nat): seq<Found>
    requires i <= |fields|
    decreases fields, |fields| - i
  {
    if i == |fields| then []
    else [Found([i], fields[i])] + Under(i, Inside(fields[i])) + CandidatesFrom(fields, i + 1)
  }

  /** The candidates inside an embedded field. */
  function Inside(f: Field): seq<Found>
    decreases f
  {
    if !f.anonymous then []
    else
      match f.embedded
      case Inline(sub) => CandidatesFrom(sub, 0)
      case PointerTo(sub) => CandidatesFrom(sub, 0)
      case _ => []
  }

  /** Candidates inside field `i`, their paths starting at `i`. */
  function Under(i: nat, cs: seq<Found>): (r: seq<Found>)
    ensures |r| == |cs|
    ensures forall k | 0 <= k < |cs| :: r[k] == Found([i] + cs[k].path, cs[k].field)
  {
    if |cs| == 0 then [] else [Found([i] + cs[0].path, cs[0].field)] + Under(i, cs[1..])
  }

  /** The first candidate whose canonical name is `canonical`. */
  function FirstMatch(cs: seq<Found>, canonical: string, caseInsensitive: bool): Option<Found> {
    if |cs| == 0 then None
    else if CanonicalName(cs[0].field.name, caseInsensitive) == canonical then Some(cs[0])
    else FirstMatch(cs[1..], canonical, caseInsensitive)
  }

  /** The first match is a candidate with the name, and there is none
      exactly when no candidate has it. */
  lemma {:induction false} FirstMatchFinds(cs: seq<Found>, canonical: string, caseInsensitive: bool)
    ensures
      var r := FirstMatch(cs, canonical, caseInsensitive);
      (r.Some? ==> r.value in cs && CanonicalName(r.value.field.name, caseInsensitive) == canonical) &&
      (r.None? <==> forall c | c in cs :: CanonicalName(c.field.name, caseInsensitive) != canonical)
  {
    if |cs| > 0 {
      FirstMatchFinds(cs[1..], canonical, caseInsensitive);
      assert forall c | c in cs[1..] :: c in cs;
      assert forall c | c in cs :: c == cs[0] || c in cs[1..];
    }
  }

  /** The first match in a concatenation is the first match in its first
      part, if any. */
  lemma {:induction false} FirstMatchAppend(a: seq<Found>, b: seq<Found>, canonical: string, caseInsensitive: bool)
    ensures FirstMatch(a + b, canonical, caseInsensitive) ==
      if FirstMatch(a, canonical, caseInsensitive).Some? then FirstMatch(a, canonical, caseInsensitive)
      else FirstMatch(b, canonical, caseInsensitive)
  {
    if |a| == 0 {
      assert a + b == b;
    } else {
      assert (a + b)[1..] == a[1..] + b;
      FirstMatchAppend(a[1..], b, canonical, caseInsensitive);
    }
  }

  /** Prefixing the paths does not change which field matches first. */
  lemma {:induction false} FirstMatchUnder(i: nat, cs: seq<Found>, canonical: string, caseInsensitive: bool)
    ensures FirstMatch(Under(i, cs), canonical, caseInsensitive) ==
      match FirstMatch(cs, canonical, caseInsensitive)
      case Some(found) => Some(Found([i] + found.path, found.field))
      case None => None
  {
    if |cs| > 0 {
      assert Under(i, cs)[1..] == Under(i, cs[1..]);
      FirstMatchUnder(i, cs[1..], canonical, caseInsensitive);
    }
  }

  /** The search finds the first field, in depth-first order, whose
      canonical name is the key: a field named by the key hides every
      later one and every field embedded after it, and fields behind a
      nil pointer or inside a field that is not embedded are never
      found. */
  lemma {:induction false} LookupFirstMatch(fields: seq<Field>, i: nat, canonical: string, caseInsensitive: bool)
    requires i <= |fields|
    ensures LookupFrom(fields, i, canonical, caseInsensitive) == FirstMatch(CandidatesFrom(fields, i), canonical, caseInsensitive)
    decreases fields, |fields| - i
  {
    if i < |fields| {
      var head := [Found([i], fields[i])];
      var under := Under(i, Inside(fields[i]));
      var rest := CandidatesFrom(fields, i + 1);
      CandidatesStep(fields, i);
      FirstMatchAppend(head, under + rest, canonical, caseInsensitive);
      if CanonicalName(fields[i].name, caseInsensitive) != canonical {
        assert FirstMatch(head, canonical, caseInsensitive) == None;
        FirstMatchAppend(under, rest, canonical, caseInsensitive);
        FirstMatchUnder(i, Inside(fields[i]), canonical, caseInsensitive);
        InsideFirstMatch(fields[i], canonical, caseInsensitive);
        LookupFirstMatch(fields, i + 1, canonical, caseInsensitive);
      }
    }
  }

  lemma CandidatesStep(fields: seq<Field>, i: nat)
    requires i < |fields|
    ensures CandidatesFrom(fields, i) ==
      [Found([i], fields[i])] + (Under(i, Inside(fields[i])) + CandidatesFrom(fields, i + 1))
  {
  }

  /** The search inside a field finds the first of its candidates. */
  lemma {:induction false} InsideFirstMatch(f: Field, canonical: string, caseInsensitive: bool)
    ensures LookupInside(f, canonical, caseInsensitive) == FirstMatch(Inside(f), canonical, caseInsensitive)
    decreases f
  {
    if f.anonymous {
      match f.embedded
      case Inline(sub) => LookupFirstMatch(sub, 0, canonical, caseInsensitive);
      case PointerTo(sub) => LookupFirstMatch(sub, 0, canonical, caseInsensitive);
      case _ =>
    }
  }

  /** The field at a path, if the path leads to one. */
  function FieldAt(fields: seq<Field>, path: seq<nat>): Option<Field>
    decreases path
  {
    if |path| == 0 || path[0] >= |fields| then None
    else if |path| == 1 then Some(fields[path[0]])
    else
      match fields[path[0]].embedded
      case Inline(sub) => FieldAt(sub, path[1..])
      case PointerTo(sub) => FieldAt(sub, path[1..])
      case _ => None
  }

  /** The fields with the value of the field at `path` replaced by `v`. */
  function SetAt(fields: seq<Field>, path: seq<nat>, v: Val): (r: seq<Field>)
    ensures |r| == |fields|
    ensures forall j | 0 <= j < |fields| && (|path| == 0 || j != path[0]) :: r[j] == fields[j]
    decreases path
  {
    if |path| == 0 || path[0] >= |fields| then fields
    else
      var f := fields[path[0]];
      if |path| == 1 then fields[path[0] := f.(value := v)]
      else
        match f.embedded
        case Inline(sub) => fields[path[0] := f.(embedded := Inline(SetAt(sub, path[1..], v)))]
        case PointerTo(sub) => fields[path[0] := f.(embedded := PointerTo(SetAt(sub, path[1..], v)))]
        case _ => fields
  }

  /** Every path in the candidates leads to its field. */
  lemma {:induction false} CandidatePaths(fields: seq<Field>, i: nat)
    requires i <= |fields|
    ensures forall c | c in CandidatesFrom(fields, i) :: FieldAt(fields, c.path) == Some(c.field)
    decreases fields, |fields| - i
  {
    if i < |fields| {
      CandidatePaths(fields, i + 1);
      CandidatesUnder(fields, i);
      assert FieldAt(fields, [i]) == Some(fields[i]);
    }
  }

  /** The paths of the candidates inside field `i` lead to them. */
  lemma {:induction false} CandidatesUnder(fields: seq<Field>, i: nat)
    requires i < |fields|
    ensures forall c | c in Under(i, Inside(fields[i])) :: FieldAt(fields, c.path) == Some(c.field)
    decreases fields, |fields| - i, 0
  {
    var f := fields[i];
    if f.anonymous {
      match f.embedded
      case Inline(sub) => CandidatesUnderIn(fields, i, sub);
      case PointerTo(sub) => CandidatesUnderIn(fields, i, sub);
      case _ =>
    }
  }

  lemma {:induction false} CandidatesUnderIn(fields: seq<Field>, i: nat, sub: seq<Field>)
    requires i < |fields|
    requires fields[i].anonymous
    requires fields[i].embedded == Inline(sub) || fields[i].embedded == PointerTo(sub)
    ensures forall c | c in Under(i, Inside(fields[i])) :: FieldAt(fields, c.path) == Some(c.field)
    decreases fields, |fields| - i, -1
  {
    var cs := CandidatesFrom(sub, 0);
    assert Inside(fields[i]) == cs;
    CandidatePaths(sub, 0);
    forall c | c in Under(i, cs)
      ensures FieldAt(fields, c.path) == Some(c.field)
    {
      var k :| 0 <= k < |cs| && Under(i, cs)[k] == c;
      assert c.path[1..] == cs[k].path;
      assert cs[k] in cs;
    }
  }

  /** Writing at a path that leads to a field changes that field's value
      and nothing else about it. */
  lemma {:induction false} SetAtWrites(fields: seq<Field>, path: seq<nat>, v: Val)
    requires FieldAt(fields, path).Some?
    ensures FieldAt(SetAt(fields, path, v), path) == Some(FieldAt(fields, path).value.(value := v))
    decreases path
  {
    if |path| > 1 {
      match fields[path[0]].embedded
      case Inline(sub) => SetAtWrites(sub, path[1..], v);
      case PointerTo(sub) => SetAtWrites(sub, path[1..], v);
    }
  }

  /** Writing at a path leaves the field at every other path as it was,
      unless one path leads through the other. */
  lemma {:induction false} SetAtFrame(fields: seq<Field>, path: seq<nat>, v: Val, q: seq<nat>)
    requires !(q <= path) && !(path <= q)
    ensures FieldAt(SetAt(fields, path, v), q) == FieldAt(fields, q)
    decreases path
  {
    if q[0] == path[0] && path[0] < |fields| {
      assert |q| > 1 && |path| > 1;
      assert !(q[1..] <= path[1..]) && !(path[1..] <= q[1..]);
      match fields[path[0]].embedded
      case Inline(sub) => SetAtFrame(sub, path[1..], v, q[1..]);
      case PointerTo(sub) => SetAtFrame(sub, path[1..], v, q[1..]);
      case _ =>
    }
  }

  // ---------------------------------------------------------------------
  // Applying entries

  /** A method of the properties' pointer type: its name and parameter
      types. */
  datatype Setter = Setter(name: string, params: seq<Type>)

  /** The properties an override edits: their type, their fields, the
      methods of the pointer type, whether that type implements
      `overrideTracker`, and the field names noted so far. */
  datatype Props = Props(typ: Type, fields: seq<Field>, setters: seq<Setter>, tracker: bool, noted: seq<string>)

  /** `MethodByName`. */
  function FindMethod(setters: seq<Setter>, name: string): (r: Option<Setter>)
    ensures r.Some? ==> r.value in setters && r.value.name == name
    ensures r.None? ==> forall m | m in setters :: m.name != name
  {
    if |setters| == 0 then None
    else if setters[0].name == name then Some(setters[0])
    else FindMethod(setters[1..], name)
  }

  /** `notifyOverride`. */
  function Notify(p: Props, name: string): (r: Props)
    ensures r.typ == p.typ && r.fields == p.fields && r.setters == p.setters && r.tracker == p.tracker
    ensures r.noted == if p.tracker then p.noted + [name] else p.noted
  {
    if p.tracker then p.(noted := p.noted + [name]) else p
  }

  /** `literalEntry`. */
  datatype Entry = Entry(originalName: string, key: string, value: Val)

  /** Every error the overrides report. */
  datatype Problem =
    | NilLiteral
    | NilLiteralPointer
    | MapKeyNotString(keyType: Type)
    | UnsupportedLiteral(kind: Kind)
    | TargetNotPointer(target: Type)
    | TargetNotStruct(kind: Kind)
    | SetterRejects(name: string, cause: ValueProblem)
    | UnknownField(name: string, owner: Type)
    | CannotAssign(name: string, cause: ValueProblem)
    | UnexportedDisallowed(name: string)
    | CannotSet(name: string)

  /** `%q` of a name without characters that need escaping. */
  function Quote(s: string): string {
    "\"" + s + "\""
  }

  function CauseMessage(c: ValueProblem): string {
    match c
    case NilInto(t) => "cannot assign nil to " + t.name
    case Unconvertible(from, to) => "cannot convert " + from.name + " to " + to.name
  }

  /** The text of each error, as `err.Error()` renders it. */
  function Message(p: Problem): (r: string)
    ensures |r| >= 10 && r[..10] == "override: "
  {
    "override: " +
    match p
    case NilLiteral => "literal cannot be nil"
    case NilLiteralPointer => "literal pointer cannot be nil"
    case MapKeyNotString(t) => "map key must be string, got " + t.name
    case UnsupportedLiteral(k) => "unsupported literal type " + KindName(k)
    case TargetNotPointer(t) => "target must be a non-nil pointer, got *" + t.name
    case TargetNotStruct(k) => "target must point to a struct, got " + KindName(k)
    case SetterRejects(name, c) => "cannot assign " + Quote(name) + " via setter: " + CauseMessage(c)
    case UnknownField(name, owner) => "unknown field " + Quote(name) + " on " + owner.name
    case CannotAssign(name, c) => "cannot assign " + Quote(name) + ": " + CauseMessage(c)
    case UnexportedDisallowed(name) => "field " + Quote(name) + " is unexported and DisallowUnexported was provided"
    case CannotSet(name) => "field " + Quote(name) + " cannot be set"
  }

  /** The setter an entry goes through, if the properties have one: a
      method named after the entry's original name that takes one
      argument. */
  function SetterFor(p: Props, e: Entry): (r: Option<Setter>)
    ensures r.Some? ==> |r.value.params| == 1 && r.value in p.setters && r.value.name == BuildSetterName(e.originalName) != ""
    ensures
      var name := BuildSetterName(e.originalName);
      name != "" && FindMethod(p.setters, name).Some? && |FindMethod(p.setters, name).value.params| == 1 ==>
        r == FindMethod(p.setters, name)
  {
    var name := BuildSetterName(e.originalName);
    if name == "" then None
    else
      match FindMethod(p.setters, name)
      case Some(m) => if |m.params| == 1 then Some(m) else None
      case None => None
  }

  /** `applyOverrideEntry`. */
  function ApplyEntry(p: Props, e: Entry, config: Options, rf: Reflect): Result<Props, Problem> {
    match SetterFor(p, e)
    case Some(m) =>
      (match PrepareValue(e.value, m.params[0], rf)
       case Failure(cause) => Failure(SetterRejects(e.originalName, cause))
       case Success(arg) => Success(Notify(rf.call(p, m.name, arg), e.originalName)))
    case None =>
      match LookupField(p.fields, e.key, config.caseInsensitive)
      case None => Failure(UnknownField(e.originalName, p.typ))
      case Some(found) =>
        var f := found.field;
        match PrepareValue(e.value, f.typ, rf)
        case Failure(cause) => Failure(CannotAssign(f.name, cause))
        case Success(prepared) =>
          var written := Notify(p.(fields := SetAt(p.fields, found.path, prepared)), f.name);
          if IsExportedField(f) && f.canSet then Success(written)
          else if !IsExportedField(f) && !config.allowUnexported then Failure(UnexportedDisallowed(f.name))
          else if !IsExportedField(f) && f.canAddr then Success(written)
          else Failure(CannotSet(f.name))
  }

  /** A setter comes first: when the properties have one for the entry,
      the fields are not searched, the only error is the setter's argument
      being refused, and on success the setter's effect is kept and the
      original name noted. */
  lemma SetterFirst(p: Props, e: Entry, config: Options, rf: Reflect)
    requires SetterFor(p, e).Some?
    ensures
      var m := SetterFor(p, e).value;
      var r := ApplyEntry(p, e, config, rf);
      (r.Failure? <==> PrepareValue(e.value, m.params[0], rf).Failure?) &&
      (r.Failure? ==> r.error.SetterRejects? && r.error.name == e.originalName) &&
      (r.Success? ==> r.value == Notify(rf.call(p, m.name, PrepareValue(e.value, m.params[0], rf).value), e.originalName))
  {
  }

  /** An entry is reported as an unknown field exactly when no setter
      takes it and no field, searched depth-first through the embedded
      ones, has its name. */
  lemma UnknownFieldIff(p: Props, e: Entry, config: Options, rf: Reflect)
    ensures ApplyEntry(p, e, config, rf) == Failure(UnknownField(e.originalName, p.typ)) <==>
      SetterFor(p, e).None? &&
      forall c | c in CandidatesFrom(p.fields, 0) ::
        CanonicalName(c.field.name, config.caseInsensitive) != CanonicalName(e.key, config.caseInsensitive)
  {
    var canonical := CanonicalName(e.key, config.caseInsensitive);
    UnknownFieldCase(p, e, config, rf);
    LookupFirstMatch(p.fields, 0, canonical, config.caseInsensitive);
    FirstMatchFinds(CandidatesFrom(p.fields, 0), canonical, config.caseInsensitive);
  }

  lemma UnknownFieldCase(p: Props, e: Entry, config: Options, rf: Reflect)
    ensures ApplyEntry(p, e, config, rf) == Failure(UnknownField(e.originalName, p.typ)) <==>
      SetterFor(p, e).None? && LookupField(p.fields, e.key, config.caseInsensitive).None?
  {
  }

  /** Through a field: the field found is the first match; an exported
      settable field, or an unexported addressable one when unexported
      fields are allowed, takes the prepared value and nothing else at the
      top level changes; an unexported field is refused when they are
      disallowed, before anything is written. */
  lemma FieldWritten(p: Props, e: Entry, config: Options, rf: Reflect)
    requires SetterFor(p, e).None?
    requires LookupField(p.fields, e.key, config.caseInsensitive).Some?
    requires PrepareValue(e.value, LookupField(p.fields, e.key, config.caseInsensitive).value.field.typ, rf).Success?
    ensures
      var found := LookupField(p.fields, e.key, config.caseInsensitive).value;
      var f := found.field;
      var v := PrepareValue(e.value, f.typ, rf).value;
      var r := ApplyEntry(p, e, config, rf);
      FieldAt(p.fields, found.path) == Some(f) &&
      (!IsExportedField(f) && !config.allowUnexported ==> r == Failure(UnexportedDisallowed(f.name))) &&
      ((IsExportedField(f) && f.canSet) || (!IsExportedField(f) && config.allowUnexported && f.canAddr) <==> r.Success?) &&
      (r.Success? ==>
        FieldAt(r.value.fields, found.path) == Some(f.(value := v)) &&
        (forall j | 0 <= j < |p.fields| && j != found.path[0] :: r.value.fields[j] == p.fields[j]) &&
        (forall q: seq<nat> | !(q <= found.path) && !(found.path <= q) :: FieldAt(r.value.fields, q) == FieldAt(p.fields, q)) &&
        r.value.typ == p.typ && r.value.setters == p.setters && r.value.tracker == p.tracker &&
        r.value.noted == (if p.tracker then p.noted + [f.name] else p.noted))
  {
    var canonical := CanonicalName(e.key, config.caseInsensitive);
    var found := LookupField(p.fields, e.key, config.caseInsensitive).value;
    LookupFirstMatch(p.fields, 0, canonical, config.caseInsensitive);
    FirstMatchFinds(CandidatesFrom(p.fields, 0), canonical, config.caseInsensitive);
    CandidatePaths(p.fields, 0);
    var v := PrepareValue(e.value, found.field.typ, rf).value;
    SetAtWrites(p.fields, found.path, v);
    forall q: seq<nat> | !(q <= found.path) && !(found.path <= q)
      ensures FieldAt(SetAt(p.fields, found.path, v), q) == FieldAt(p.fields, q)
    {
      SetAtFrame(p.fields, found.path, v, q);
    }
  }

  /** The target an override gets: a nil pointer, or a pointer to
      properties. */
  datatype Target = NilTarget(typ: Type) | Addressed(props: Props)

  /** The loop of `applyOverrideEntries`: the entries in order, the first
      error ending it. */
  function ApplyAll(p: Props, entries: seq<Entry>, config: Options, rf: Reflect): Result<Props, Problem>
    decreases |entries|
  {
    if |entries| == 0 then Success(p)
    else
      var next :- ApplyEntry(p, entries[0], config, rf);
      ApplyAll(next, entries[1..], config, rf)
  }

  /** `applyOverrideEntries`: a nil target or one that is not a struct is
      refused before any entry. */
  function ApplyEntries(target: Target, entries: seq<Entry>, config: Options, rf: Reflect): (r: Result<Props, Problem>)
    ensures target.NilTarget? ==> r == Failure(TargetNotPointer(target.typ))
    ensures target.Addressed? && target.props.typ.kind != Struct ==> r == Failure(TargetNotStruct(target.props.typ.kind))
  {
    match target
    case NilTarget(t) => Failure(TargetNotPointer(t))
    case Addressed(p) =>
      if p.typ.kind != Struct then Failure(TargetNotStruct(p.typ.kind))
      else ApplyAll(p, entries, config, rf)
  }

  /** One more entry is applied to what the others made, if they all
      succeeded. */
  lemma {:induction false} ApplyAllSnoc(p: Props, entries: seq<Entry>, e: Entry, config: Options, rf: Reflect)
    ensures ApplyAll(p, entries + [e], config, rf) ==
      match ApplyAll(p, entries, config, rf)
      case Failure(problem) => Failure(problem)
      case Success(q) => ApplyEntry(q, e, config, rf)
    decreases |entries|
  {
    if |entries| == 0 {
      assert ([] + [e])[1..] == [];
    } else {
      assert (entries + [e])[1..] == entries[1..] + [e];
      match ApplyEntry(p, entries[0], config, rf)
      case Failure(_) =>
      case Success(next) => ApplyAllSnoc(next, entries[1..], e, config, rf);
    }
  }

  /** The first failure aborts: once a prefix of the entries fails, no
      later entry changes the outcome. */
  lemma {:induction false} ApplyAllAborts(p: Props, entries: seq<Entry>, later: seq<Entry>, config: Options, rf: Reflect)
    requires ApplyAll(p, entries, config, rf).Failure?
    ensures ApplyAll(p, entries + later, config, rf) == ApplyAll(p, entries, config, rf)
    decreases |entries|
  {
    var all := entries + later;
    assert all[0] == entries[0];
    var first := ApplyEntry(p, entries[0], config, rf);
    if first.Success? {
      assert all[1..] == entries[1..] + later;
      ApplyAllAborts(first.value, entries[1..], later, config, rf);
    }
  }

  // ---------------------------------------------------------------------
  // Literals

  /** A key and value of a map literal, in the order the map's range loop
      visits them (Go leaves that order unspecified). */
  datatype Pair = Pair(key: string, value: Val)

  /** A field of a struct literal, exported or not. */
  datatype LitField = LitField(name: string, value: Val)

  /** An override literal, as `reflect.ValueOf` sees it. */
  datatype Literal =
    | NilLit
    | PointerLit(target: Option<Literal>)
    | MapLit(keyType: Type, pairs: seq<Pair>)
    | StructLit(fields: seq<LitField>)
    | OtherLit(kind: Kind)

  /** The entry of a map pair. */
  function PairEntry(pair: Pair, caseInsensitive: bool): Entry {
    Entry(pair.key, CanonicalName(pair.key, caseInsensitive), pair.value)
  }

  /** The entry of a struct literal field. */
  function FieldEntry(f: LitField, caseInsensitive: bool): Entry {
    Entry(f.name, CanonicalName(f.name, caseInsensitive), f.value)
  }

  function PairEntries(pairs: seq<Pair>, caseInsensitive: bool): (r: seq<Entry>)
    ensures |r| == |pairs|
    ensures forall i | 0 <= i < |pairs| :: r[i] == PairEntry(pairs[i], caseInsensitive)
  {
    if |pairs| == 0 then [] else [PairEntry(pairs[0], caseInsensitive)] + PairEntries(pairs[1..], caseInsensitive)
  }

  function FieldEntries(fields: seq<LitField>, caseInsensitive: bool): (r: seq<Entry>)
    ensures |r| == |fields|
    ensures forall i | 0 <= i < |fields| :: r[i] == FieldEntry(fields[i], caseInsensitive)
  {
    if |fields| == 0 then [] else [FieldEntry(fields[0], caseInsensitive)] + FieldEntries(fields[1..], caseInsensitive)
  }

  /** `parseOverrideLiteral`. */
  function Parse(literal: Literal, caseInsensitive: bool): Result<seq<Entry>, Problem> {
    match literal
    case NilLit => Failure(NilLiteral)
    case PointerLit(None) => Failure(NilLiteralPointer)
    case PointerLit(Some(target)) => Parse(target, caseInsensitive)
    case MapLit(keyType, pairs) =>
      if keyType.kind != String then Failure(MapKeyNotString(keyType))
      else Success(PairEntries(pairs, caseInsensitive))
    case StructLit(fields) => Success(FieldEntries(fields, caseInsensitive))
    case OtherLit(kind) => Failure(UnsupportedLiteral(kind))
  }

  /** What is parsed through the pointers: the literal they lead to, or
      nil. */
  function Deref(literal: Literal): (r: Option<Literal>)
    ensures r.Some? ==> !r.value.PointerLit?
  {
    match literal
    case PointerLit(None) => None
    case PointerLit(Some(target)) => Deref(target)
    case _ => Some(literal)
  }

  /** Parsing sees through any chain of pointers, and refuses a nil one
      anywhere in it; it succeeds exactly on a map with string keys or a
      struct, giving one entry per pair or per field, in order, keyed by
      the canonical name, which canonicalising again leaves alone. */
  lemma {:induction false} ParseSpec(literal: Literal, caseInsensitive: bool)
    ensures Deref(literal).None? ==> Parse(literal, caseInsensitive) == Failure(NilLiteralPointer)
    ensures Deref(literal).Some? ==> Parse(literal, caseInsensitive) == Parse(Deref(literal).value, caseInsensitive)
    ensures Parse(literal, caseInsensitive).Success? <==>
      Deref(literal).Some? &&
      ((Deref(literal).value.MapLit? && Deref(literal).value.keyType.kind == String) || Deref(literal).value.StructLit?)
    ensures Parse(literal, caseInsensitive).Success? ==>
      var entries := Parse(literal, caseInsensitive).value;
      var base := Deref(literal).value;
      (base.MapLit? ==> (|entries| == |base.pairs| &&
        forall i | 0 <= i < |entries| :: entries[i].originalName == base.pairs[i].key && entries[i].value == base.pairs[i].value)) &&
      (base.StructLit? ==> (|entries| == |base.fields| &&
        forall i | 0 <= i < |entries| :: entries[i].originalName == base.fields[i].name && entries[i].value == base.fields[i].value)) &&
      forall i | 0 <= i < |entries| ::
        entries[i].key == CanonicalName(entries[i].originalName, caseInsensitive) &&
        CanonicalName(entries[i].key, caseInsensitive) == entries[i].key
  {
    match literal
    case PointerLit(Some(target)) => ParseSpec(target, caseInsensitive);
    case MapLit(_, pairs) => KeysCanonical(PairEntries(pairs, caseInsensitive), caseInsensitive);
    case StructLit(fields) => KeysCanonical(FieldEntries(fields, caseInsensitive), caseInsensitive);
    case _ =>
  }

  /** Keys that are canonical names are left alone by canonicalising. */
  lemma KeysCanonical(entries: seq<Entry>, caseInsensitive: bool)
    requires forall i | 0 <= i < |entries| :: entries[i].key == CanonicalName(entries[i].originalName, caseInsensitive)
    ensures forall i | 0 <= i < |entries| :: CanonicalName(entries[i].key, caseInsensitive) == entries[i].key
  {
    forall i | 0 <= i < |entries|
      ensures CanonicalName(entries[i].key, caseInsensitive) == entries[i].key
    {
      CanonicalIdempotent(entries[i].originalName, caseInsensitive);
    }
  }

  /** A Go panic with an error's text. */
  function Finish(r: Result<Props, Problem>): (o: Outcome<Props>)
    ensures r.Success? ==> o == Ok(r.value)
    ensures r.Failure? ==> o == Panic(Message(r.error))
  {
    match r
    case Success(p) => Ok(p)
    case Failure(problem) => Panic(Message(problem))
  }

  /** `Override`: the options applied to the defaults, the literal parsed
      (a parse error panics at once), and an edit that applies the entries
      to the properties and panics with the first error. */
  function Override(literal: Literal, settings: seq<Setting>, rf: Reflect): Outcome<Overrider<Props>> {
    var config := Configure(settings);
    match Parse(literal, config.caseInsensitive)
    case Failure(problem) => Panic(Message(problem))
    case Success(entries) =>
      Ok(Overrider(Some((p: Props) => Finish(ApplyEntries(Addressed(p), entries, config, rf)))))
  }

  /** A bad literal panics when the override is made, with a message
      starting `override: `; a good one makes an override that matches
      names case-insensitively whatever the options, and whose edit
      succeeds on a struct exactly when every entry applies in turn. */
  lemma OverrideSpec(literal: Literal, settings: seq<Setting>, rf: Reflect, p: Props)
    ensures Parse(literal, true).Failure? ==>
      Override(literal, settings, rf) == Panic(Message(Parse(literal, true).error))
    ensures Parse(literal, true).Success? ==>
      var o := Override(literal, settings, rf);
      var r := ApplyAll(p, Parse(literal, true).value, Configure(settings), rf);
      o.Ok? && o.value.fn.Some? &&
      (p.typ.kind == Struct ==> Apply(o.value, p) == Finish(r)) &&
      (p.typ.kind != Struct ==> Apply(o.value, p).Panic?)
  {
  }
}

=== FILE: scramble.dfy ===
/** The 32-bit scrambler of internal/math/math.go: a multiply by an odd
    salt, a reversal of the bit order and a multiply by the salt's inverse
    modulo 2^32, together with the extended Euclidean algorithm and the
    modular inverse that justify the second constant. */
module Scramble {
  import opened Wrappers
  import opened GoInt

  /** `asUint32`: the low half of a 64-bit word. */
  function AsUint32(original: bv64): (r: bv32)
    ensures ((original >> 32) << 32) | (r as bv64) == original
  {
    (original & 0xFFFF_FFFF) as bv32
  }

  lemma AsUint32Examples()
    ensures AsUint32(0) == 0 && AsUint32(1) == 1
    ensures AsUint32(0xFFFF_FFFF) == 0xFFFF_FFFF
    ensures AsUint32(0x1_0000_0000) == 0 && AsUint32(0x1_0000_0001) == 1
    ensures AsUint32(0x1234_5678_9ABC_DEF0) == 0x9ABC_DEF0
  {}

  /** The low half of a 64-bit product of two 32-bit words is their
      product modulo 2^32. */
  lemma LowProduct(a: bv32, b: bv32)
    ensures AsUint32((a as bv64) * (b as bv64)) == a * b
  {}

  /** Bit `i` of a 32-bit word. */
  predicate Bit(x: bv32, i: bv5) {
    (x >> i) & 1 == 1
  }

  /** The masks `invert` walks through; pass `index` swaps adjacent runs of
      `2^index` bits. */
  const Masks: seq<bv32> := [0x5555_5555, 0x3333_3333, 0x0F0F_0F0F, 0x00FF_00FF, 0xFFFF_FFFF]

  /** `uint32(1 << index)` for the five passes. */
  const Paddings: seq<bv5> := [1, 2, 4, 8, 16]

  /** One pass of the loop in `invert`. */
  function Swap(carry: bv32, mask: bv32, padding: bv5): bv32 {
    AsUint32((((carry >> padding) & mask) | ((carry & mask) << padding)) as bv64)
  }

  /** The loop of `invert` from pass `index` on, with `carry` the value
      so far. */
  function InvertFrom(carry: bv32, index: nat): bv32
    requires index <= |Masks|
    decreases |Masks| - index
  {
    if index == |Masks| then carry
    else InvertFrom(Swap(carry, Masks[index], Paddings[index]), index + 1)
  }

  /** `invert`: bit `i` of the result is bit `31 - i` of the input. */
  function Invert(original: bv32): (r: bv32)
    ensures forall i: bv5 :: Bit(r, i) == Bit(original, 31 - i)
  {
    InvertFrom(original, 0)
  }

  /** Reversing the bit order twice gives the word back. */
  lemma InvertInvolution(x: bv32)
    ensures Invert(Invert(x)) == x
  {}

  lemma InvertExamples()
    ensures Invert(0) == 0 && Invert(0xFFFF_FFFF) == 0xFFFF_FFFF
    ensures Invert(0x1234_5678) == 0x1E6A_2C48
    ensures Invert(1) == 0x8000_0000 && Invert(0x8000_0000) == 1
  {}

  /** `d` divides `n`; only 0 is a multiple of 0. */
  predicate Divides(d: nat, n: int) {
    if d == 0 then n == 0 else n % d == 0
  }

  function Max(a: int, b: int): int {
    if a < b then b else a
  }

  /** `extendedGCD`: the greatest common divisor of `a` and `b` with
      Bézout coefficients.  The coefficients stay below 2^32 in absolute
      value, so the `int64` arithmetic of the source never wraps. */
  function ExtendedGcd(a: Uint32, b: Uint32): (r: (Uint32, Int64, Int64))
    ensures a * r.1 + b * r.2 == r.0
    ensures Divides(r.0, a) && Divides(r.0, b)
    ensures Abs(r.1) <= Max(b, 1) && Abs(r.2) <= Max(a, 1)
    ensures a == 0 ==> r.1 == 0
    decreases a
  {
    if a == 0 then (b, 0, 1)
    else
      var inner := ExtendedGcd(Uint32Of(b % a), a);
      var g, yTemp, xTemp := inner.0, inner.1, inner.2;
      GcdStep(a, b, g, yTemp, xTemp);
      (g, xTemp - (b / a) * yTemp, yTemp)
  }

  /** One level of the recursion, given what the call one level down
      returned. */
  lemma GcdStep(a: nat, b: nat, g: nat, yTemp: int, xTemp: int)
    requires a > 0
    requires (b % a) * yTemp + a * xTemp == g
    requires Divides(g, b % a) && Divides(g, a)
    requires Abs(yTemp) <= a && Abs(xTemp) <= Max(b % a, 1)
    requires b % a == 0 ==> yTemp == 0
    ensures a * (xTemp - (b / a) * yTemp) + b * yTemp == g
    ensures Divides(g, b)
    ensures Abs(xTemp - (b / a) * yTemp) <= Max(b, 1)
  {
    StepBezout(a, b, yTemp, xTemp);
    DividesCombination(g, a, b % a, b / a, 1);
    StepBound(a, b, yTemp, xTemp);
  }

  lemma StepBezout(a: nat, b: nat, yTemp: int, xTemp: int)
    requires a > 0
    ensures a * (xTemp - (b / a) * yTemp) + b * yTemp == (b % a) * yTemp + a * xTemp
    ensures a * (b / a) + (b % a) * 1 == b
  {
    var q, m := b / a, b % a;
    assert b == a * q + m;
    assert a * (xTemp - q * yTemp) == a * xTemp - (a * q) * yTemp;
    assert b * yTemp == (a * q) * yTemp + m * yTemp;
  }

  lemma StepBound(a: nat, b: nat, yTemp: int, xTemp: int)
    requires a > 0
    requires Abs(yTemp) <= a && Abs(xTemp) <= Max(b % a, 1)
    requires b % a == 0 ==> yTemp == 0
    ensures Abs(xTemp - (b / a) * yTemp) <= Max(b, 1)
  {
    var q, m := b / a, b % a;
    if m > 0 {
      assert b == a * q + m;
      assert Abs(q * yTemp) == q * Abs(yTemp);
      BoundedProduct(q, Abs(yTemp), a);
    }
  }

  lemma BoundedProduct(q: nat, y: nat, a: nat)
    requires y <= a
    ensures q * y <= q * a
  {
    assert q * a == q * y + q * (a - y);
  }

  /** A common divisor of `a` and `b` divides every integer combination
      of them. */
  lemma DividesCombination(d: nat, a: int, b: int, x: int, y: int)
    requires Divides(d, a) && Divides(d, b)
    ensures Divides(d, a * x + b * y)
  {
    if d > 0 {
      var ka, kb := a / d, b / d;
      assert a == d * ka && b == d * kb;
      assert a * x + b * y == (ka * x + kb * y) * d;
      ModOfMultiple(ka * x + kb * y, d);
    }
  }

  /** Every common divisor of `a` and `b` divides the `gcd` that
      `extendedGCD` returns, so it is the greatest one. */
  lemma GcdIsGreatest(a: Uint32, b: Uint32, d: nat)
    requires Divides(d, a) && Divides(d, b)
    ensures Divides(d, ExtendedGcd(a, b).0)
  {
    var r := ExtendedGcd(a, b);
    DividesCombination(d, a, b, r.1, r.2);
  }

  /** Divisibility between positive numbers bounds them. */
  lemma DividesBelow(d: nat, n: nat)
    requires n > 0 && Divides(d, n)
    ensures d <= n
  {
    var k := n / d;
    assert n == d * k;
    AtLeastOnce(d, k);
  }

  /** The `gcd` does not depend on the order of the arguments. */
  lemma GcdSymmetric(a: Uint32, b: Uint32)
    ensures ExtendedGcd(a, b).0 == ExtendedGcd(b, a).0
  {
    var g1, g2 := ExtendedGcd(a, b).0, ExtendedGcd(b, a).0;
    GcdIsGreatest(a, b, g2);
    GcdIsGreatest(b, a, g1);
    if g1 > 0 && g2 > 0 {
      DividesBelow(g1, g2);
      DividesBelow(g2, g1);
    }
  }

  lemma GcdExamples()
    ensures ExtendedGcd(0, 5).0 == 5 && ExtendedGcd(5, 0).0 == 5
    ensures ExtendedGcd(10, 15).0 == 5 && ExtendedGcd(17, 13).0 == 1
    ensures ExtendedGcd(252, 105).0 == 21 && ExtendedGcd(1, 1).0 == 1
    ensures ExtendedGcd(35, 15).0 == ExtendedGcd(15, 35).0 == 5
  {}

  /** `a` and `b` have no common divisor above 1. */
  ghost predicate Coprime(a: nat, b: nat) {
    forall d: nat :: d > 1 && Divides(d, a) ==> !Divides(d, b)
  }

  /** `extendedGCD` returns 1 exactly for coprime arguments. */
  lemma CoprimeIffGcdOne(a: Uint32, b: Uint32)
    ensures Coprime(a, b) <==> ExtendedGcd(a, b).0 == 1
  {
    var g := ExtendedGcd(a, b).0;
    if g == 1 {
      forall d: nat | d > 1 && Divides(d, a) && Divides(d, b)
        ensures false
      {
        GcdIsGreatest(a, b, d);
        DividesBelow(d, 1);
      }
    } else if g == 0 {
      assert Divides(2, a) && Divides(2, b);
    } else {
      assert Divides(g, a) && Divides(g, b);
    }
  }

  /** `modularInverse`: the inverse of `a` modulo `b`, normalised into
      `[0, b)`.  It panics when the two are not coprime, and with a
      division by zero when `b` is 0. */
  function ModularInverse(a: Uint32, b: Uint32): (r: Outcome<Uint32>)
    ensures r.Ok? <==> Coprime(a, b) && b > 0
    ensures r.Ok? ==> r.value < b && (a * r.value) % b == 1 % b
  {
    CoprimeIffGcdOne(a, b);
    var e := ExtendedGcd(a, b);
    if e.0 != 1 then Panic("no inverse found")
    else if b == 0 then Panic("integer divide by zero")
    else
      var result := Rem(e.1, b);
      var normalized := if result < 0 then result + b else result;
      NormalizedRem(e.1, b);
      InverseOfBezout(a, b, e.1, e.2);
      Ok(normalized)
  }

  /** Moving a negative Go remainder up by the divisor gives the
      Euclidean remainder. */
  lemma NormalizedRem(x: int, b: int)
    requires b > 0
    ensures (if Rem(x, b) < 0 then Rem(x, b) + b else Rem(x, b)) == x % b
  {
    var r := Rem(x, b);
    var k := (x - r) / b;
    assert x - r == k * b;
    if r < 0 {
      ModUnique(x, b, k - 1, r + b);
    } else {
      ModUnique(x, b, k, r);
    }
  }

  /** A Bézout coefficient of `a` is an inverse of `a` modulo `b`. */
  lemma InverseOfBezout(a: int, b: int, x: int, y: int)
    requires b > 0 && a * x + b * y == 1
    ensures (a * (x % b)) % b == 1 % b
  {
    var k := x / b;
    assert x == b * k + x % b;
    assert a * (x % b) == 1 + b * (-(y + a * k));
    ModAddMultiple(1, -(y + a * k), b);
  }

  lemma ModularInverseExamples()
    ensures ModularInverse(3, 11) == Ok(4) && ModularInverse(7, 26) == Ok(15)
    ensures ModularInverse(17, 43) == Ok(38) && ModularInverse(4, 8).Panic?
  {
    assert ExtendedGcd(1, 2) == (1, 1, 0);
    assert ExtendedGcd(2, 3) == (1, -1, 1);
    assert ExtendedGcd(3, 11) == (1, 4, -1);
    assert ExtendedGcd(2, 5) == (1, -2, 1);
    assert ExtendedGcd(5, 7) == (1, 3, -2);
    assert ExtendedGcd(7, 26) == (1, -11, 3);
    assert ExtendedGcd(1, 8) == (1, 1, 0);
    assert ExtendedGcd(8, 9) == (1, -1, 1);
    assert ExtendedGcd(9, 17) == (1, 2, -1);
    assert ExtendedGcd(17, 43) == (1, -5, 2);
    assert ExtendedGcd(4, 8).0 == 4;
  }

  /** The odd multiplier of `Scramble`. */
  const Salt: bv32 := 0x1765_4321

  /** The inverse of `Salt` modulo 2^32. */
  const InvertedSalt: bv32 := 0x7000_00E1

  /** Multiplying by `Salt` modulo 2^32. */
  function Mix(x: bv32): bv32 {
    x * 0x1765_4321
  }

  /** Multiplying by `InvertedSalt` modulo 2^32. */
  function Unmix(x: bv32): bv32 {
    x * 0x7000_00E1
  }

  /** `salt * invertedSalt` is 1 modulo 2^32, as integers and as 32-bit
      words, and no other word is an inverse of `Salt`. */
  lemma SaltInverse(y: bv32)
    ensures (0x1765_4321 * 0x7000_00E1) % 0x1_0000_0000 == 1
    ensures AsUint32((Salt as bv64) * (InvertedSalt as bv64)) == 1
    ensures Salt * y == 1 <==> y == InvertedSalt
  {
    if Salt * y == 1 {
      assert Unmix(Mix(y)) == y by { UnmixMix(y); }
      assert Mix(y) == 1;
    }
  }

  /** `Unmix` undoes `Mix`. */
  lemma UnmixMix(a: bv32)
    ensures Unmix(Mix(a)) == a
  {
    assert Mix(a) == a * 0x1765_4321;
    assert Unmix(a * 0x1765_4321) == a;
  }

  /** `Mix` undoes `Unmix`. */
  lemma MixUnmix(a: bv32)
    ensures Mix(Unmix(a)) == a
  {
    assert Unmix(a) == a * 0x7000_00E1;
    assert Mix(a * 0x7000_00E1) == a;
  }

  /** Go's `asUint32(uint64(a) * uint64(b))`. */
  function Mul32(a: bv32, b: bv32): (r: bv32)
    ensures r == a * b
  {
    LowProduct(a, b);
    AsUint32((a as bv64) * (b as bv64))
  }

  /** `Scramble`: multiply by the salt, reverse the bits, multiply by the
      salt's inverse, each product taken modulo 2^32. */
  function Scramble(original: bv32): (r: bv32)
    ensures r == Unmix(Invert(Mix(original)))
  {
    var normalized := AsUint32(original as bv64);
    var base := Mul32(normalized, Salt);
    var inverted := Invert(base);
    assert normalized == original;
    assert base == Mix(original);
    Mul32(inverted, InvertedSalt)
  }

  /** Scrambling twice gives the word back, so `Scramble` is a bijection
      of 32-bit words. */
  lemma ScrambleInvolution(x: bv32)
    ensures Scramble(Scramble(x)) == x
  {
    var y := Mix(x);
    MixUnmix(Invert(y));
    InvertInvolution(y);
    UnmixMix(x);
  }

  /** Distinct words scramble to distinct words. */
  lemma ScrambleInjective(x: bv32, y: bv32)
    requires Scramble(x) == Scramble(y)
    ensures x == y
  {
    ScrambleInvolution(x);
    ScrambleInvolution(y);
  }

  /** Every word is the scramble of some word. */
  lemma ScrambleSurjective(y: bv32)
    ensures exists x: bv32 :: Scramble(x) == y
  {
    ScrambleInvolution(y);
  }

  lemma ScrambleExamples()
    ensures Scramble(0) == 0 && Scramble(1) == 0x2F14_B1E8
    ensures Scramble(2) == 0x178A_58F4
  {}

  lemma MoreScrambleExamples()
    ensures Scramble(100) == 0x1FFF_FD44 && Scramble(1000) == 0xEFFF_FF06
    ensures Scramble(12345) != 12345
  {}
}

=== FILE: seed_collision.dfy ===
/** A collision the builder can meet with its own hash: three small
    seeds whose FNV-1a hashes have the shape the source's set adding
    mishandles, worked out byte by byte. */
module SeedCollision {
  import opened Wrappers
  import Bits
  import Bitmap
  import Hashing
  import Sets
  import Builder

  /** The three seeds are hashed as `int64` values. */
  lemma SeedsSized()
    ensures Builder.SeedHash(0) == Sets.HashOf(Hashing.Sized(8, 0))
    ensures Builder.SeedHash(1) == Sets.HashOf(Hashing.Sized(8, 1))
    ensures Builder.SeedHash(64) == Sets.HashOf(Hashing.Sized(8, 64))
  {
  }

  /** An `int64` is hashed as its eight little-endian bytes. */
  lemma SizedHash(bits: bv64)
    ensures Sets.HashOf(Hashing.Sized(8, bits)) == Hashing.Fnv(Hashing.LittleEndian(bits, 8)) as nat
  {
  }

  /** The seeds 0, 1 and 64 hash, as eight little-endian bytes, to
      0xa8c7f832281a39c5, 0x89cd31291d2aefa4 and 0x6779ba74e3ecc205: level-0
      slots 5, 36 and 5, and level-1 slots 39 and 8 for the first and
      the third, the shape the source's adding mishandles. */
  lemma SeedHashesLosing()
    ensures Sets.Losing(Builder.SeedHash(0), Builder.SeedHash(1), Builder.SeedHash(64))
  {
    SeedHashZero();
    SeedHashOne();
    SeedHashSixtyFour();
    SeedBands();
    SeedBandsBelow();
  }

  /** The level-0 bands of the three hashes. */
  lemma SeedBands()
    ensures Bitmap.Band(0xa8c7_f832_281a_39c5, 0) == 5
    ensures Bitmap.Band(0x89cd_3129_1d2a_efa4, 0) == 36
    ensures Bitmap.Band(0x6779_ba74_e3ec_c205, 0) == 5
  {
    BandIs(0xa8c7_f832_281a_39c5, 0, 5);
    BandIs(0x89cd_3129_1d2a_efa4, 0, 36);
    BandIs(0x6779_ba74_e3ec_c205, 0, 5);
  }

  /** The level-1 bands of the first and the third hash. */
  lemma SeedBandsBelow()
    ensures Bitmap.Band(0xa8c7_f832_281a_39c5, 1) == 39
    ensures Bitmap.Band(0x6779_ba74_e3ec_c205, 1) == 8
  {
    BandIs(0xa8c7_f832_281a_39c5, 1, 39);
    BandIs(0x6779_ba74_e3ec_c205, 1, 8);
  }

  /** A band of a concrete hash, read arithmetically. */
  lemma BandIs(h: Bits.Word, offset: nat, k: nat)
    requires offset <= 1
    requires h / (if offset == 0 then 1 else 64) % 64 == k
    ensures Bitmap.Band(h, offset) == k
  {
    Bitmap.BandArithmetic(h, offset);
    assert Bits.Pow2(0) == 1 && Bits.Pow2(6) == 64;
  }

  /** The hash of the seed 0, one byte of FNV-1a at a time. */
  lemma SeedHashZero()
    ensures Builder.SeedHash(0) == 0xa8c7_f832_281a_39c5
  {
    SeedsSized();
    SizedHash(0);
    FnvZero();
  }

  lemma FnvZero()
    ensures Hashing.Fnv(Hashing.LittleEndian(0, 8)) == 0xa8c7_f832_281a_39c5
  {
    assert Hashing.LittleEndian(0, 8) == [0, 0, 0, 0, 0, 0, 0, 0];
    FnvZeroTail();
    assert Hashing.FnvFrom(0xd94d_1218_6c0f_2fb7, [0, 0, 0, 0, 0]) == 0xa8c7_f832_281a_39c5;
    assert Hashing.FnvFrom(0x0832_8807_b4eb_6fed, [0, 0, 0, 0, 0, 0]) == 0xa8c7_f832_281a_39c5;
    assert Hashing.FnvFrom(0xaf63_bd4c_8601_b7df, [0, 0, 0, 0, 0, 0, 0]) == 0xa8c7_f832_281a_39c5;
    assert Hashing.FnvFrom(Hashing.OffsetBasis, [0, 0, 0, 0, 0, 0, 0, 0]) == 0xa8c7_f832_281a_39c5;
  }

  lemma FnvZeroTail()
    ensures Hashing.FnvFrom(0x4d25_767f_9dce_13f5, [0, 0, 0, 0]) == 0xa8c7_f832_281a_39c5
  {
    assert Hashing.FnvFrom(0x778b_1a14_b687_6aa7, [0]) == 0xa8c7_f832_281a_39c5;
    assert Hashing.FnvFrom(0xd7e4_fcfa_299d_713d, [0, 0]) == 0xa8c7_f832_281a_39c5;
    assert Hashing.FnvFrom(0xe4bc_4fd9_252b_e94f, [0, 0, 0]) == 0xa8c7_f832_281a_39c5;
  }

  /** The hash of the seed 1, one byte of FNV-1a at a time. */
  lemma SeedHashOne()
    ensures Builder.SeedHash(1) == 0x89cd_3129_1d2a_efa4
  {
    SeedsSized();
    SizedHash(1);
    FnvOne();
  }

  lemma FnvOne()
    ensures Hashing.Fnv(Hashing.LittleEndian(1, 8)) == 0x89cd_3129_1d2a_efa4
  {
    assert Hashing.LittleEndian(1, 8) == [1, 0, 0, 0, 0, 0, 0, 0];
    FnvOneTail();
    assert Hashing.FnvFrom(0xd0a3_9718_6727_310c, [0, 0, 0, 0, 0]) == 0x89cd_3129_1d2a_efa4;
    assert Hashing.FnvFrom(0x082f_2207_b4e8_8cc4, [0, 0, 0, 0, 0, 0]) == 0x89cd_3129_1d2a_efa4;
    assert Hashing.FnvFrom(0xaf63_bc4c_8601_b62c, [0, 0, 0, 0, 0, 0, 0]) == 0x89cd_3129_1d2a_efa4;
    assert Hashing.FnvFrom(Hashing.OffsetBasis, [1, 0, 0, 0, 0, 0, 0, 0]) == 0x89cd_3129_1d2a_efa4;
  }

  lemma FnvOneTail()
    ensures Hashing.FnvFrom(0xad2a_ca77_4798_5764, [0, 0, 0, 0]) == 0x89cd_3129_1d2a_efa4
  {
    assert Hashing.FnvFrom(0xb238_9e8a_64b3_97cc, [0]) == 0x89cd_3129_1d2a_efa4;
    assert Hashing.FnvFrom(0xfb4e_98c7_3bab_ab04, [0, 0]) == 0x89cd_3129_1d2a_efa4;
    assert Hashing.FnvFrom(0xd80d_6cae_a7dc_7eec, [0, 0, 0]) == 0x89cd_3129_1d2a_efa4;
  }

  /** The hash of the seed 64, one byte of FNV-1a at a time. */
  lemma SeedHashSixtyFour()
    ensures Builder.SeedHash(64) == 0x6779_ba74_e3ec_c205
  {
    SeedsSized();
    SizedHash(64);
    FnvSixtyFour();
  }

  lemma FnvSixtyFour()
    ensures Hashing.Fnv(Hashing.LittleEndian(64, 8)) == 0x6779_ba74_e3ec_c205
  {
    assert Hashing.LittleEndian(64, 8) == [64, 0, 0, 0, 0, 0, 0, 0];
    FnvSixtyFourTail();
    assert Hashing.FnvFrom(0x03ab_d219_a60e_da77, [0, 0, 0, 0, 0]) == 0x6779_ba74_e3ec_c205;
    assert Hashing.FnvFrom(0x090c_0807_b5a4_3a2d, [0, 0, 0, 0, 0, 0]) == 0x6779_ba74_e3ec_c205;
    assert Hashing.FnvFrom(0xaf63_fd4c_8602_249f, [0, 0, 0, 0, 0, 0, 0]) == 0x6779_ba74_e3ec_c205;
    assert Hashing.FnvFrom(Hashing.OffsetBasis, [64, 0, 0, 0, 0, 0, 0, 0]) == 0x6779_ba74_e3ec_c205;
  }

  lemma FnvSixtyFourTail()
    ensures Hashing.FnvFrom(0x4bd0_7895_2b3d_3835, [0, 0, 0, 0]) == 0x6779_ba74_e3ec_c205
  {
    assert Hashing.FnvFrom(0xcc29_fca9_2b7c_2167, [0]) == 0x6779_ba74_e3ec_c205;
    assert Hashing.FnvFrom(0xfd7e_09b5_a60e_ff7d, [0, 0]) == 0x6779_ba74_e3ec_c205;
    assert Hashing.FnvFrom(0x1075_1a78_7906_820f, [0, 0, 0]) == 0x6779_ba74_e3ec_c205;
  }

  /** With the builder's own hash: once the seeds 0, 1 and 64 have been
      issued, a draw of 0 is issued again by the source's `nextSeeds`,
      and refused by the intended one. */
  lemma SeedZeroReissued()
    ensures Builder.Issued([0, 1, 64], Builder.SeedHash, false).Ok? && Builder.Issued([0, 1, 64], Builder.SeedHash, true).Ok?
    ensures
      var written := Builder.NextSeeds(Builder.Issued([0, 1, 64], Builder.SeedHash, false).value, 1, [0], false);
      written.Ok? && written.value.Drawn? && written.value.seeds == [0]
    ensures Builder.NextSeeds(Builder.Issued([0, 1, 64], Builder.SeedHash, true).value, 1, [0], true) == Ok(Builder.Starved)
  {
    SeedHashesLosing();
    Builder.WrittenReissues(0, 1, 64, Builder.SeedHash);
  }
}

=== FILE: sets.dfy ===
/** The hash set of internal/collections/set.go: a trie whose root is
    absent for the empty set, with the items as keys and Go's empty struct
    as values.  Items are routed and told apart by their hash alone.
    `Set` and `FromSlice` go through the source's `Set` of the trie, which
    loses items once two hashes share a slot below a branch
    (`SetLosesItems`); `IntendedSet` and `IntendedFromSlice` go through the
    corrected one of `HamtCorrected`, and the two agree whenever the items
    of different hashes sit in different slots at level 0
    (`FromSliceAgrees`). */
module Sets {
  import opened Wrappers
  import opened Bits
  import opened Hashing
  import opened Bitmap
  import Hamt
  import HamtLeaf
  import HamtBranch
  import HamtCorrected
  import HamtRouted

  /** A set; `None` is the nil root of the empty set. */
  datatype HashSet<T> = HashSet(root: Option<Hamt.Node<T, ()>>)

  /** `NewSet(nil)`: the empty set. */
  function Empty<T>(): HashSet<T> {
    HashSet(None)
  }

  /** The hash the source routes items by: hash.go's `Hash`, read as a
      word.  The operations below take the hasher as the parameter
      `hashOf`, so every property proved of them holds for this one. */
  function HashOf(item: Value): Word {
    Hash(item) as nat
  }

  /** The set keeps `item`, under its hash. */
  ghost predicate Contains<T>(s: HashSet<T>, item: T, hashOf: T -> Word) {
    s.root.Some? && HamtRouted.Stores(s.root.value, hashOf(item), Hamt.Entry(item, ()))
  }

  /** Every entry of the trie is kept under its key's hash. */
  ghost predicate Consistent<T(!new)>(n: Hamt.Node<T, ()>, hashOf: T -> Word) {
    forall h, e :: HamtRouted.Stores(n, h, e) ==> h == hashOf(e.key)
  }

  /** What every set the operations build satisfies: the root, if any, is
      a well-formed, routed trie keeping each item under its hash. */
  ghost predicate Valid<T(!new)>(s: HashSet<T>, hashOf: T -> Word) {
    s.root.Some? ==>
      Hamt.WellFormed(s.root.value) && HamtRouted.Routed(s.root.value, 0) && Consistent(s.root.value, hashOf)
  }

  /** `Set`: a leaf becomes the root of an empty set; otherwise the item is
      set into the root from level 0 by the trie's `Set` as the source
      writes it. */
  function Set<T(==)>(s: HashSet<T>, item: T, hashOf: T -> Word): (r: Outcome<HashSet<T>>)
    ensures r.Ok? ==> r.value.root.Some?
  {
    var hash := hashOf(item);
    if s.root.None? then Ok(HashSet(Some(Hamt.Leaf(hash, item, ()))))
    else
      match Hamt.Set(s.root.value, item, (), hash, 0)
      case Panic(reason) => Panic(reason)
      case Ok(root) => Ok(HashSet(Some(root)))
  }

  /** `Set` as evidently intended: the same, through the corrected `Set`
      of the trie. */
  function IntendedSet<T(==)>(s: HashSet<T>, item: T, hashOf: T -> Word): (r: Outcome<HashSet<T>>)
    ensures r.Ok? ==> r.value.root.Some?
  {
    var hash := hashOf(item);
    if s.root.None? then Ok(HashSet(Some(Hamt.Leaf(hash, item, ()))))
    else
      match HamtCorrected.CorrectedSet(s.root.value, item, (), hash, 0)
      case Panic(reason) => Panic(reason)
      case Ok(root) => Ok(HashSet(Some(root)))
  }

  /** `Remove`: nothing happens to an empty set; otherwise the root becomes
      whatever the trie's `Remove` leaves, nil included. */
  function Remove<T(==)>(s: HashSet<T>, item: T, hashOf: T -> Word): (r: Outcome<HashSet<T>>)
    ensures s.root.None? ==> r == Ok(s)
  {
    if s.root.None? then Ok(s)
    else
      match Hamt.Remove(s.root.value, hashOf(item), 0)
      case Panic(reason) => Panic(reason)
      case Ok(out) => Ok(HashSet(out.0))
  }

  /** `Has`: whether the trie finds something under the item's hash. */
  function Has<T(==)>(s: HashSet<T>, item: T, hashOf: T -> Word): (r: Outcome<bool>)
    ensures s.root.None? ==> r == Ok(false)
  {
    if s.root.None? then Ok(false)
    else
      match Hamt.Get(s.root.value, hashOf(item), 0)
      case Panic(reason) => Panic(reason)
      case Ok(found) => Ok(found.Some?)
  }

  /** `IsEmpty`: the root is nil. */
  predicate IsEmpty<T>(s: HashSet<T>) {
    s.root.None?
  }

  /** `Size`: the number of entries the root lists. */
  function Size<T>(s: HashSet<T>): nat {
    if s.root.None? then 0 else |Hamt.ToSlice(s.root.value)|
  }

  /** `ToSlice`: the keys of the entries the root lists, in trie order. */
  function ToSlice<T>(s: HashSet<T>): (r: seq<T>)
    ensures |r| == Size(s)
  {
    if s.root.None? then [] else Keys(Hamt.ToSlice(s.root.value))
  }

  function Keys<T>(es: seq<Hamt.Entry<T, ()>>): (r: seq<T>)
    ensures |r| == |es| && forall i | 0 <= i < |es| :: r[i] == es[i].key
  {
    seq(|es|, i requires 0 <= i < |es| => es[i].key)
  }

  /** An entry of a set's trie is determined by its key. */
  lemma UnitEntry<T>(e: Hamt.Entry<T, ()>)
    ensures e == Hamt.Entry(e.key, ())
  {
    var u: () := e.value;
    match u
    case () =>
  }

  /** The empty set is valid and keeps nothing. */
  lemma EmptyValid<T(!new)>(hashOf: T -> Word)
    ensures Valid(Empty(), hashOf) && forall item :: !Contains(Empty(), item, hashOf)
  {
  }

  /** A one-leaf root is valid and keeps exactly its item. */
  lemma LeafValid<T(!new)>(item: T, hashOf: T -> Word)
    ensures
      var s := HashSet(Some(Hamt.Leaf(hashOf(item), item, ())));
      Valid(s, hashOf) && forall y :: Contains(s, y, hashOf) <==> y == item
  {
  }

  /** The intended adding never panics on a valid set and keeps it valid;
      afterwards the set keeps `item` and every item it kept whose hash
      differs from `item`'s, and nothing else. */
  lemma IntendedSetContains<T(!new)>(s: HashSet<T>, item: T, hashOf: T -> Word)
    requires Valid(s, hashOf)
    ensures IntendedSet(s, item, hashOf).Ok? && Valid(IntendedSet(s, item, hashOf).value, hashOf)
    ensures forall y :: Contains(IntendedSet(s, item, hashOf).value, y, hashOf) <==>
      (Contains(s, y, hashOf) && hashOf(y) != hashOf(item)) || y == item
  {
    if s.root.None? {
      LeafValid(item, hashOf);
    } else {
      IntendedSetKeeps(s, item, hashOf);
    }
  }

  /** The trie the corrected `Set` builds from a nonempty valid root is a
      valid root keeping `item` and every entry of another hash. */
  lemma IntendedSetKeeps<T(!new)>(s: HashSet<T>, item: T, hashOf: T -> Word)
    requires Valid(s, hashOf) && s.root.Some?
    ensures HamtCorrected.CorrectedSet(s.root.value, item, (), hashOf(item), 0).Ok?
    ensures
      var r := HashSet(Some(HamtCorrected.CorrectedSet(s.root.value, item, (), hashOf(item), 0).value));
      Valid(r, hashOf) &&
      forall y :: Contains(r, y, hashOf) <==> (Contains(s, y, hashOf) && hashOf(y) != hashOf(item)) || y == item
  {
    var n, hash := s.root.value, hashOf(item);
    HamtRouted.SetRouted(n, item, (), hash, 0);
    HamtCorrected.CorrectedSetWellFormed(n, item, (), hash, 0);
    var m := HamtCorrected.CorrectedSet(n, item, (), hash, 0).value;
    forall h, e | HamtRouted.Stores(m, h, e)
      ensures h == hashOf(e.key)
    {
      if h != hash {
        assert HamtRouted.Stores(n, h, e);
      }
    }
    forall y
      ensures HamtRouted.Stores(m, hashOf(y), Hamt.Entry(y, ())) <==>
        (HamtRouted.Stores(n, hashOf(y), Hamt.Entry(y, ())) && hashOf(y) != hash) || y == item
    {
      var e := Hamt.Entry(y, ());
      assert HamtRouted.Stores(m, hashOf(y), e) <==>
        (HamtRouted.Stores(n, hashOf(y), e) && hashOf(y) != hash) || (hashOf(y) == hash && e == Hamt.Entry(item, ()));
    }
  }

  /** Removing from a valid set never panics and keeps it valid;
      afterwards the set keeps exactly the items it kept whose hash differs
      from `item`'s. */
  lemma RemoveContains<T(!new)>(s: HashSet<T>, item: T, hashOf: T -> Word)
    requires Valid(s, hashOf)
    ensures Remove(s, item, hashOf).Ok? && Valid(Remove(s, item, hashOf).value, hashOf)
    ensures forall y :: Contains(Remove(s, item, hashOf).value, y, hashOf) <==>
      Contains(s, y, hashOf) && hashOf(y) != hashOf(item)
  {
    if s.root.Some? {
      var n := s.root.value;
      var hash := hashOf(item);
      HamtRouted.RemoveRouted(n, hash, 0);
      if Hamt.Remove(n, hash, 0).value.0.Some? {
        RemoveKeeps(s, hash, hashOf);
      } else {
        RemoveEmpties(s, hash, hashOf);
      }
    }
  }

  /** The trie `Remove` leaves behind, when it leaves one, is a valid root
      keeping every entry but the one of `hash`. */
  lemma RemoveKeeps<T(!new)>(s: HashSet<T>, hash: Word, hashOf: T -> Word)
    requires Valid(s, hashOf) && s.root.Some?
    requires Hamt.Remove(s.root.value, hash, 0).Ok? && Hamt.Remove(s.root.value, hash, 0).value.0.Some?
    requires
      var m := Hamt.Remove(s.root.value, hash, 0).value.0.value;
      HamtRouted.Routed(m, 0) &&
      forall h, e :: HamtRouted.Stores(m, h, e) <==> HamtRouted.Stores(s.root.value, h, e) && h != hash
    ensures
      var r := HashSet(Hamt.Remove(s.root.value, hash, 0).value.0);
      Valid(r, hashOf) && forall y :: Contains(r, y, hashOf) <==> Contains(s, y, hashOf) && hashOf(y) != hash
  {
    HamtBranch.RemovePreservesWellFormed(s.root.value, hash, 0);
  }

  /** When `Remove` empties the trie, every item it kept had the removed
      hash. */
  lemma RemoveEmpties<T(!new)>(s: HashSet<T>, hash: Word, hashOf: T -> Word)
    requires Valid(s, hashOf) && s.root.Some?
    requires forall g | HamtRouted.Holds(s.root.value, g) :: g == hash
    ensures forall y | Contains(s, y, hashOf) :: hashOf(y) == hash
  {
    forall y | Contains(s, y, hashOf)
      ensures hashOf(y) == hash
    {
      HamtRouted.StoresHolds(s.root.value, hashOf(y), Hamt.Entry(y, ()));
    }
  }

  /** In a valid set `Has` never panics and answers whether the set keeps
      some item of the same hash. */
  lemma HasContains<T(!new)>(s: HashSet<T>, item: T, hashOf: T -> Word)
    requires Valid(s, hashOf)
    ensures Has(s, item, hashOf) == Ok(exists y :: Contains(s, y, hashOf) && hashOf(y) == hashOf(item))
  {
    if s.root.Some? {
      HasHolds(s, item, hashOf);
      HoldsContains(s, hashOf(item), hashOf);
    }
  }

  /** For a nonempty valid set, `Has` asks whether the trie holds the
      item's hash. */
  lemma HasHolds<T(!new)>(s: HashSet<T>, item: T, hashOf: T -> Word)
    requires Valid(s, hashOf) && s.root.Some?
    ensures Has(s, item, hashOf) == Ok(HamtRouted.Holds(s.root.value, hashOf(item)))
  {
    HamtRouted.GetRouted(s.root.value, hashOf(item), 0);
  }

  /** The trie of a nonempty valid set holds a hash exactly when the set
      keeps an item of that hash. */
  lemma HoldsContains<T(!new)>(s: HashSet<T>, h: Word, hashOf: T -> Word)
    requires Valid(s, hashOf) && s.root.Some?
    ensures HamtRouted.Holds(s.root.value, h) <==> exists y :: Contains(s, y, hashOf) && hashOf(y) == h
  {
    var n := s.root.value;
    HamtRouted.HoldsIffStores(n, h);
    if HamtRouted.Holds(n, h) {
      var e: Hamt.Entry<T, ()> :| HamtRouted.Stores(n, h, e);
      UnitEntry(e);
      assert Contains(s, e.key, hashOf);
    }
    if exists y :: Contains(s, y, hashOf) && hashOf(y) == h {
      var y :| Contains(s, y, hashOf) && hashOf(y) == h;
      HamtRouted.StoresHolds(n, h, Hamt.Entry(y, ()));
    }
  }

  /** After the intended adding of `item`, `Has` finds it. */
  lemma HasAfterIntendedSet<T(!new)>(s: HashSet<T>, item: T, hashOf: T -> Word)
    requires Valid(s, hashOf)
    ensures IntendedSet(s, item, hashOf).Ok? && Has(IntendedSet(s, item, hashOf).value, item, hashOf) == Ok(true)
  {
    IntendedSetContains(s, item, hashOf);
    HasContains(IntendedSet(s, item, hashOf).value, item, hashOf);
  }

  /** After removing `item`, `Has` no longer finds it. */
  lemma HasAfterRemove<T(!new)>(s: HashSet<T>, item: T, hashOf: T -> Word)
    requires Valid(s, hashOf)
    ensures Remove(s, item, hashOf).Ok? && Has(Remove(s, item, hashOf).value, item, hashOf) == Ok(false)
  {
    RemoveContains(s, item, hashOf);
    HasContains(Remove(s, item, hashOf).value, item, hashOf);
  }

  /** `ToSlice` of a valid set lists exactly the items the set keeps. */
  lemma ToSliceContains<T(!new)>(s: HashSet<T>, hashOf: T -> Word)
    requires Valid(s, hashOf)
    ensures forall y :: y in ToSlice(s) <==> Contains(s, y, hashOf)
  {
    if s.root.Some? {
      var n := s.root.value;
      HamtRouted.RoutedNoCollision(n, 0);
      HamtRouted.EntriesStored(n);
      var es := Hamt.ToSlice(n);
      forall y
        ensures y in ToSlice(s) <==> Contains(s, y, hashOf)
      {
        if y in ToSlice(s) {
          var i :| 0 <= i < |es| && es[i].key == y;
          UnitEntry(es[i]);
          assert es[i] in es;
          var h :| HamtRouted.Stores(n, h, es[i]);
        }
        if Contains(s, y, hashOf) {
          var e := Hamt.Entry(y, ());
          assert HamtRouted.Stores(n, hashOf(y), e);
          assert e in es;
          var i :| 0 <= i < |es| && es[i] == e;
          assert ToSlice(s)[i] == y;
        }
      }
    }
  }

  /** A valid set is empty exactly when its size is zero, and exactly when
      it keeps no item. */
  lemma EmptyIffNoItems<T(!new)>(s: HashSet<T>, hashOf: T -> Word)
    requires Valid(s, hashOf)
    ensures IsEmpty(s) <==> Size(s) == 0
    ensures IsEmpty(s) <==> forall y :: !Contains(s, y, hashOf)
  {
    if s.root.Some? {
      var n := s.root.value;
      HamtRouted.RoutedHolds(n, 0);
      var h :| HamtRouted.Holds(n, h);
      HamtRouted.HoldsIffStores(n, h);
      var e: Hamt.Entry<T, ()> :| HamtRouted.Stores(n, h, e);
      UnitEntry(e);
      assert Contains(s, e.key, hashOf);
      ToSliceContains(s, hashOf);
      assert e.key in ToSlice(s);
    }
  }

  /** `items[i]` is `item`, and no later item has its hash. */
  ghost predicate LastAt<T>(items: seq<T>, i: int, item: T, hashOf: T -> Word) {
    0 <= i < |items| && items[i] == item && forall j | i < j < |items| :: hashOf(items[j]) != hashOf(item)
  }

  /** `item` is the last item of `items` with its hash. */
  ghost predicate LastOfHash<T>(items: seq<T>, item: T, hashOf: T -> Word) {
    exists i :: LastAt(items, i, item, hashOf)
  }

  /** Appending `x` makes it the last of its hash and takes that place
      from any earlier item of the same hash. */
  lemma LastOfHashSnoc<T>(items: seq<T>, x: T, y: T, hashOf: T -> Word)
    ensures LastOfHash(items + [x], y, hashOf) <==>
      (LastOfHash(items, y, hashOf) && hashOf(y) != hashOf(x)) || y == x
  {
    var grown := items + [x];
    if LastOfHash(grown, y, hashOf) && y != x {
      var i :| LastAt(grown, i, y, hashOf);
      assert grown[|items|] == x;
      assert forall j | i < j < |items| :: grown[j] == items[j];
      assert LastAt(items, i, y, hashOf);
    }
    if LastOfHash(items, y, hashOf) && hashOf(y) != hashOf(x) {
      var i :| LastAt(items, i, y, hashOf);
      assert forall j | i < j < |items| :: grown[j] == items[j];
      assert LastAt(grown, i, y, hashOf);
    }
    if y == x {
      assert LastAt(grown, |items|, y, hashOf);
    }
  }

  /** `item` is kept by the last-of-hash rule only if it is one of the
      items. */
  lemma LastOfHashIn<T>(items: seq<T>, item: T, hashOf: T -> Word)
    requires LastOfHash(items, item, hashOf)
    ensures item in items
  {
    var i :| LastAt(items, i, item, hashOf);
  }

  /** Every item's hash is the hash of the last item of that hash. */
  lemma {:induction false} LastOfHashCovers<T>(items: seq<T>, x: T, hashOf: T -> Word)
    requires x in items
    ensures exists y :: LastOfHash(items, y, hashOf) && hashOf(y) == hashOf(x)
    decreases |items|
  {
    var n := |items| - 1;
    var init, last := items[..n], items[n];
    assert items == init + [last];
    if hashOf(last) == hashOf(x) {
      assert LastAt(items, n, last, hashOf);
    } else {
      assert x in init;
      LastOfHashCovers(init, x, hashOf);
      var y :| LastOfHash(init, y, hashOf) && hashOf(y) == hashOf(x);
      LastOfHashSnoc(init, last, y, hashOf);
    }
  }

  /** The items added one by one, in order, to the empty set: the loop of
      `NewFromSlice`. */
  function FromSlice<T(==)>(items: seq<T>, hashOf: T -> Word): Outcome<HashSet<T>>
    decreases |items|
  {
    if |items| == 0 then Ok(Empty())
    else
      var init :- FromSlice(items[..|items| - 1], hashOf);
      Set(init, items[|items| - 1], hashOf)
  }

  /** The same loop through the intended adding. */
  function IntendedFromSlice<T(==)>(items: seq<T>, hashOf: T -> Word): Outcome<HashSet<T>>
    decreases |items|
  {
    if |items| == 0 then Ok(Empty())
    else
      var init :- IntendedFromSlice(items[..|items| - 1], hashOf);
      IntendedSet(init, items[|items| - 1], hashOf)
  }

  /** The intended loop never panics; the set it builds keeps, of each
      hash, the last item of that hash. */
  lemma {:induction false} IntendedFromSliceContains<T(!new)>(items: seq<T>, hashOf: T -> Word)
    ensures IntendedFromSlice(items, hashOf).Ok? && Valid(IntendedFromSlice(items, hashOf).value, hashOf)
    ensures forall y :: Contains(IntendedFromSlice(items, hashOf).value, y, hashOf) <==> LastOfHash(items, y, hashOf)
    decreases |items|
  {
    if |items| == 0 {
      EmptyValid(hashOf);
    } else {
      var n := |items| - 1;
      var init, last := items[..n], items[n];
      IntendedFromSliceContains(init, hashOf);
      var s := IntendedFromSlice(init, hashOf).value;
      IntendedSetContains(s, last, hashOf);
      assert items == init + [last];
      forall y
        ensures LastOfHash(items, y, hashOf) <==> (LastOfHash(init, y, hashOf) && hashOf(y) != hashOf(last)) || y == last
      {
        LastOfHashSnoc(init, last, y, hashOf);
      }
    }
  }

  /** Adding to a set whose root is well-formed never panics and keeps the
      root well-formed, whatever the item. */
  lemma SetOk<T(!new)>(s: HashSet<T>, item: T, hashOf: T -> Word)
    requires s.root.Some? ==> Hamt.WellFormed(s.root.value)
    ensures Set(s, item, hashOf).Ok? && Hamt.WellFormed(Set(s, item, hashOf).value.root.value)
  {
    if s.root.Some? {
      HamtBranch.SetFromRootOk(s.root.value, item, (), hashOf(item));
      HamtBranch.SetPreservesWellFormed(s.root.value, item, (), hashOf(item), 0);
    }
  }

  /** Adding to the empty set gives the set of just that item. */
  lemma SetOnEmpty<T(!new)>(item: T, hashOf: T -> Word)
    ensures Set(Empty(), item, hashOf).Ok?
    ensures
      var r := Set(Empty(), item, hashOf).value;
      Valid(r, hashOf) && Size(r) == 1 && ToSlice(r) == [item] && forall y :: Contains(r, y, hashOf) <==> y == item
  {
    LeafValid(item, hashOf);
  }

  /** The item's hash has a leaf at the root, or a leaf directly under a
      branch root in the item's level-0 slot. */
  ghost predicate TopLeaf<T>(s: HashSet<T>, item: T, hashOf: T -> Word) {
    s.root.Some? &&
    var h := hashOf(item);
    match s.root.value
    case Leaf(g, _, _) => g == h
    case Collision(_, _) => false
    case Branch(bitmap, children) =>
      var k := Band(h, 0);
      Bit(bitmap, k) && PopcountBelow(bitmap, k) < |children| &&
      children[PopcountBelow(bitmap, k)].Leaf? && children[PopcountBelow(bitmap, k)].hash == h
  }

  /** The cases the source's adding gets right: the root is not a branch,
      the item's level-0 slot is free, or it holds a leaf of the item's
      hash.  Only below an occupied slot does the source set at the wrong
      level. */
  ghost predicate Direct<T>(s: HashSet<T>, item: T, hashOf: T -> Word) {
    s.root.None? || !s.root.value.Branch? || !Bit(s.root.value.bitmap, Band(hashOf(item), 0)) || TopLeaf(s, item, hashOf)
  }

  /** In the direct cases the source's adding is the intended one. */
  lemma SetAgrees<T(!new)>(s: HashSet<T>, item: T, hashOf: T -> Word)
    requires s.root.Some? ==> Hamt.WellFormed(s.root.value)
    requires Direct(s, item, hashOf)
    ensures Set(s, item, hashOf) == IntendedSet(s, item, hashOf)
  {
    if s.root.Some? && s.root.value.Branch? {
      var bitmap, children := s.root.value.bitmap, s.root.value.children;
      var h := hashOf(item);
      if Bit(bitmap, Band(h, 0)) {
        HamtBranch.BranchSetOccupied(bitmap, children, item, (), h, 0);
        HamtCorrected.CorrectedBranchOccupied(bitmap, children, item, (), h, 0);
      } else {
        HamtCorrected.CorrectedBranchFree(bitmap, children, item, (), h, 0);
      }
    }
  }

  /** In the direct cases adding never panics on a valid set and keeps it
      valid; afterwards the set keeps `item` and every item it kept whose
      hash differs from `item`'s, and nothing else. */
  lemma SetContains<T(!new)>(s: HashSet<T>, item: T, hashOf: T -> Word)
    requires Valid(s, hashOf) && Direct(s, item, hashOf)
    ensures Set(s, item, hashOf).Ok? && Valid(Set(s, item, hashOf).value, hashOf)
    ensures forall y :: Contains(Set(s, item, hashOf).value, y, hashOf) <==>
      (Contains(s, y, hashOf) && hashOf(y) != hashOf(item)) || y == item
  {
    SetAgrees(s, item, hashOf);
    IntendedSetContains(s, item, hashOf);
  }

  /** In the direct cases, after adding `item`, `Has` finds it. */
  lemma HasAfterSet<T(!new)>(s: HashSet<T>, item: T, hashOf: T -> Word)
    requires Valid(s, hashOf) && Direct(s, item, hashOf)
    ensures Set(s, item, hashOf).Ok? && Has(Set(s, item, hashOf).value, item, hashOf) == Ok(true)
  {
    SetContains(s, item, hashOf);
    HasContains(Set(s, item, hashOf).value, item, hashOf);
  }

  /** Replacing a child by one listing as many entries keeps the number of
      entries the children list. */
  lemma {:induction false} ReplaceKeepsLength<K, V>(children: seq<Hamt.Node<K, V>>, i: nat, c: Hamt.Node<K, V>)
    requires i < |children| && |Hamt.ToSlice(c)| == |Hamt.ToSlice(children[i])|
    ensures |Hamt.ToSliceAll(children[i := c])| == |Hamt.ToSliceAll(children)|
    decreases i
  {
    if i == 0 {
      assert children[i := c][1..] == children[1..];
    } else {
      ReplaceKeepsLength(children[1..], i - 1, c);
      assert children[i := c][1..] == children[1..][i - 1 := c];
    }
  }

  /** Adding again an item whose hash has a leaf at the root or directly
      under it overwrites that leaf: the size stays. */
  lemma SetOverwrites<T(!new)>(s: HashSet<T>, item: T, hashOf: T -> Word)
    requires Valid(s, hashOf) && TopLeaf(s, item, hashOf)
    ensures Set(s, item, hashOf).Ok? && Size(Set(s, item, hashOf).value) == Size(s)
  {
    var n, h := s.root.value, hashOf(item);
    if n.Branch? {
      var i := PopcountBelow(n.bitmap, Band(h, 0));
      HamtBranch.BranchSetOccupied(n.bitmap, n.children, item, (), h, 0);
      ReplaceKeepsLength(n.children, i, Hamt.Leaf(h, item, ()));
    }
  }

  /** `Has` compares hashes only: two items of the same hash are both found
      or both missing. */
  lemma HasSameHash<T(!new)>(s: HashSet<T>, x: T, y: T, hashOf: T -> Word)
    requires Valid(s, hashOf) && hashOf(x) == hashOf(y)
    ensures Has(s, x, hashOf) == Has(s, y, hashOf)
  {
    HasContains(s, x, hashOf);
    HasContains(s, y, hashOf);
  }

  /** Removing the hash of every item a valid set keeps empties it. */
  lemma RemoveLast<T(!new)>(s: HashSet<T>, item: T, hashOf: T -> Word)
    requires Valid(s, hashOf)
    requires forall y | Contains(s, y, hashOf) :: hashOf(y) == hashOf(item)
    ensures Remove(s, item, hashOf).Ok? && IsEmpty(Remove(s, item, hashOf).value)
  {
    RemoveContains(s, item, hashOf);
    EmptyIffNoItems(Remove(s, item, hashOf).value, hashOf);
  }

  /** Three hashes that the source's adding mishandles: the first and
      the third share their level-0 slot `k` and part at level 1 into
      slots other than `k`; the second has a later level-0 slot. */
  predicate Losing(ha: Word, hb: Word, hc: Word) {
    var k := Band(ha, 0);
    Band(hc, 0) == k && k < Band(hb, 0) &&
    Band(ha, 1) != Band(hc, 1) && Band(ha, 1) != k && Band(hc, 1) != k
  }

  /** The hashes 1, 2 and 129 are such hashes (1 and 129 share slot 1 at
      level 0 and part into slots 0 and 2 at level 1). */
  lemma LosingExample()
    ensures Losing(1, 2, 129)
  {
    HamtCorrected.ExampleBands();
    BandArithmetic(2, 0);
    assert Pow2(0) == 1;
  }

  /** Items of hashes 1, 2 and 129, added in this order.  The source's
      loop splits the leaf of hash 1 from level 0 again below slot 1, one
      level too high, so the set it builds finds neither the first item
      nor the third, while the intended loop keeps all three. */
  lemma SetLosesItems<T(!new)>(a: T, b: T, c: T, hashOf: T -> Word)
    requires hashOf(a) == 1 && hashOf(b) == 2 && hashOf(c) == 129
    ensures FromSlice([a, b, c], hashOf).Ok?
    ensures
      var r := FromSlice([a, b, c], hashOf).value;
      Has(r, a, hashOf) == Ok(false) && Has(r, b, hashOf) == Ok(true) && Has(r, c, hashOf) == Ok(false)
    ensures IntendedFromSlice([a, b, c], hashOf).Ok?
    ensures
      var r := IntendedFromSlice([a, b, c], hashOf).value;
      Has(r, a, hashOf) == Ok(true) && Has(r, b, hashOf) == Ok(true) && Has(r, c, hashOf) == Ok(true)
  {
    LosingExample();
    WrittenLosesItems(a, b, c, hashOf);
    IntendedKeepsItems(a, b, c, hashOf);
  }

  /** The source's half of `SetLosesItems`, for any such hashes. */
  lemma WrittenLosesItems<T(!new)>(a: T, b: T, c: T, hashOf: T -> Word)
    requires Losing(hashOf(a), hashOf(b), hashOf(c))
    ensures FromSlice([a, b, c], hashOf).Ok?
    ensures
      var r := FromSlice([a, b, c], hashOf).value;
      Has(r, a, hashOf) == Ok(false) && Has(r, b, hashOf) == Ok(true) && Has(r, c, hashOf) == Ok(false)
  {
    var ha, hb, hc := hashOf(a), hashOf(b), hashOf(c);
    var bm := WrittenBuilt(a, b, c, hashOf);
    var m := Hamt.SetLeaf(ha, a, (), c, (), hc, 0).value;
    NestedLookups(ha, a, c, hc);
    TwoSlotLookups(bm, m, Hamt.Leaf(hb, b, ()), ha, hb, hc);
  }

  /** The trie the source's loop builds from three such items: the second
      item's leaf in its own slot, and below the first slot what the
      first item's leaf became when the source split it from level 0. */
  lemma WrittenBuilt<T(!new)>(a: T, b: T, c: T, hashOf: T -> Word) returns (bm: Word)
    requires Losing(hashOf(a), hashOf(b), hashOf(c))
    ensures Pow2(Band(hashOf(a), 0)) < WordLimit && Pow2(Band(hashOf(b), 0)) < WordLimit
    ensures bm == Next(Pow2(Band(hashOf(a), 0)), Pow2(Band(hashOf(b), 0)))
    ensures Hamt.SetLeaf(hashOf(a), a, (), c, (), hashOf(c), 0).Ok?
    ensures
      var m := Hamt.SetLeaf(hashOf(a), a, (), c, (), hashOf(c), 0).value;
      FromSlice([a, b, c], hashOf) == Ok(HashSet(Some(Hamt.Branch(bm, [m, Hamt.Leaf(hashOf(b), b, ())]))))
  {
    var ha, hb, hc := hashOf(a), hashOf(b), hashOf(c);
    var la, lb := Hamt.Leaf(ha, a, ()), Hamt.Leaf(hb, b, ());
    SlotIsWord(Band(ha, 0));
    SlotIsWord(Band(hb, 0));
    bm := Next(Pow2(Band(ha, 0)), Pow2(Band(hb, 0)));
    var two := HashSet(Some(Hamt.Branch(bm, [la, lb])));
    WrittenTwo(a, b, hashOf);
    FromSliceSnoc([a, b], c, hashOf);
    assert [a, b] + [c] == [a, b, c];
    assert FromSlice([a, b, c], hashOf) == Set(two, c, hashOf);
    WrittenThird(bm, la, lb, c, hc);
    var m := Hamt.SetLeaf(ha, a, (), c, (), hc, 0).value;
    assert Set(two, c, hashOf) == Ok(HashSet(Some(Hamt.Branch(bm, [m, lb]))));
  }

  /** One step of the source's loop. */
  lemma FromSliceSnoc<T(!new)>(items: seq<T>, x: T, hashOf: T -> Word)
    ensures FromSlice(items + [x], hashOf) ==
      if FromSlice(items, hashOf).Ok? then Set(FromSlice(items, hashOf).value, x, hashOf) else FromSlice(items, hashOf)
  {
    assert (items + [x])[..|items|] == items;
  }

  /** The first two items make a two-leaf branch. */
  lemma WrittenTwo<T(!new)>(a: T, b: T, hashOf: T -> Word)
    requires Band(hashOf(a), 0) < Band(hashOf(b), 0)
    ensures Pow2(Band(hashOf(a), 0)) < WordLimit && Pow2(Band(hashOf(b), 0)) < WordLimit
    ensures
      var bm := Next(Pow2(Band(hashOf(a), 0)), Pow2(Band(hashOf(b), 0)));
      FromSlice([a, b], hashOf) == Ok(HashSet(Some(Hamt.Branch(bm, [Hamt.Leaf(hashOf(a), a, ()), Hamt.Leaf(hashOf(b), b, ())]))))
  {
    FromSliceSnoc([], a, hashOf);
    assert [] + [a] == [a];
    FromSliceSnoc([a], b, hashOf);
    assert [a] + [b] == [a, b];
    HamtLeaf.LeafSplit(hashOf(a), a, (), b, (), hashOf(b), 0);
  }

  /** The third item goes through the first item's slot into its leaf,
      which the source splits from level 0 again. */
  lemma WrittenThird<T>(bm: Word, la: Hamt.Node<T, ()>, lb: Hamt.Node<T, ()>, c: T, hc: Word)
    requires la.Leaf? && lb.Leaf? && la.hash != hc && Band(la.hash, 0) == Band(hc, 0) && Band(la.hash, 0) < Band(lb.hash, 0)
    requires Pow2(Band(la.hash, 0)) < WordLimit && Pow2(Band(lb.hash, 0)) < WordLimit
    requires bm == Next(Pow2(Band(la.hash, 0)), Pow2(Band(lb.hash, 0)))
    ensures Hamt.SetLeaf(la.hash, la.key, la.value, c, (), hc, 0).Ok?
    ensures Hamt.Set(Hamt.Branch(bm, [la, lb]), c, (), hc, 0)
      == Ok(Hamt.Branch(bm, [Hamt.SetLeaf(la.hash, la.key, la.value, c, (), hc, 0).value, lb]))
  {
    var ka := Band(la.hash, 0);
    TwoSlots(ka, Band(lb.hash, 0));
    IndexOfSlot(bm, ka);
    HasSlot(bm, ka);
    HamtBranch.BranchSetOccupied(bm, [la, lb], c, (), hc, 0);
    HamtLeaf.LeafSetFromRoot(la.hash, la.key, la.value, c, (), hc);
    var m := Hamt.SetLeaf(la.hash, la.key, la.value, c, (), hc, 0).value;
    assert [la, lb][0 := m] == [m, lb];
  }

  /** The branch the source builds for the two hashes of one level-0 slot
      `k` reads level 1 at slot `k` only, so it finds neither hash. */
  lemma NestedLookups<T>(ha: Word, a: T, c: T, hc: Word)
    requires Band(ha, 0) == Band(hc, 0) && Band(ha, 1) != Band(hc, 1)
    requires Band(ha, 1) != Band(ha, 0) && Band(hc, 1) != Band(ha, 0)
    ensures Hamt.SetLeaf(ha, a, (), c, (), hc, 0).Ok?
    ensures
      var m := Hamt.SetLeaf(ha, a, (), c, (), hc, 0).value;
      Hamt.Get(m, ha, 1) == Ok(None) && Hamt.Get(m, hc, 1) == Ok(None)
  {
    var k := Band(ha, 0);
    HamtLeaf.LeafNest(ha, a, (), c, (), hc, 0);
    HamtLeaf.LeafSplit(ha, a, (), c, (), hc, 1);
    var inner := Hamt.SetLeaf(ha, a, (), c, (), hc, 1).value;
    OneSlot(k);
    BitOfPow2(k, Band(ha, 1));
    BitOfPow2(k, Band(hc, 1));
    HamtBranch.BranchGet(Pow2(k), [inner], ha, 1);
    HamtBranch.BranchGet(Pow2(k), [inner], hc, 1);
  }

  /** In the two-slot root, the first slot's child answers for the first
      and third hash, and the second hash finds its leaf. */
  lemma TwoSlotLookups<T>(bm: Word, m: Hamt.Node<T, ()>, lb: Hamt.Node<T, ()>, ha: Word, hb: Word, hc: Word)
    requires lb.Leaf? && lb.hash == hb && Band(hc, 0) == Band(ha, 0) && Band(ha, 0) < Band(hb, 0)
    requires Pow2(Band(ha, 0)) < WordLimit && Pow2(Band(hb, 0)) < WordLimit
    requires bm == Next(Pow2(Band(ha, 0)), Pow2(Band(hb, 0)))
    ensures Hamt.Get(Hamt.Branch(bm, [m, lb]), ha, 0) == Hamt.Get(m, ha, 1)
    ensures Hamt.Get(Hamt.Branch(bm, [m, lb]), hc, 0) == Hamt.Get(m, hc, 1)
    ensures Hamt.Get(Hamt.Branch(bm, [m, lb]), hb, 0) == Ok(Some(lb.value))
  {
    var ka, kb := Band(ha, 0), Band(hb, 0);
    TwoSlots(ka, kb);
    IndexOfSlot(bm, ka);
    IndexOfSlot(bm, kb);
    HasSlot(bm, ka);
    HasSlot(bm, kb);
    HamtBranch.BranchGet(bm, [m, lb], ha, 0);
    HamtBranch.BranchGet(bm, [m, lb], hb, 0);
    HamtBranch.BranchGet(bm, [m, lb], hc, 0);
  }

  /** The intended half of `SetLosesItems`. */
  lemma IntendedKeepsItems<T(!new)>(a: T, b: T, c: T, hashOf: T -> Word)
    requires hashOf(a) == 1 && hashOf(b) == 2 && hashOf(c) == 129
    ensures IntendedFromSlice([a, b, c], hashOf).Ok?
    ensures
      var r := IntendedFromSlice([a, b, c], hashOf).value;
      Has(r, a, hashOf) == Ok(true) && Has(r, b, hashOf) == Ok(true) && Has(r, c, hashOf) == Ok(true)
  {
    var items := [a, b, c];
    IntendedFromSliceContains(items, hashOf);
    var r := IntendedFromSlice(items, hashOf).value;
    assert LastAt(items, 0, a, hashOf) && LastAt(items, 1, b, hashOf) && LastAt(items, 2, c, hashOf);
    HasContains(r, a, hashOf);
    HasContains(r, b, hashOf);
    HasContains(r, c, hashOf);
  }

  /** Items of different hashes sit in different slots at level 0. */
  ghost predicate DistinctSlots<T>(items: seq<T>, hashOf: T -> Word) {
    forall x, y | x in items && y in items && hashOf(x) != hashOf(y) :: Band(hashOf(x), 0) != Band(hashOf(y), 0)
  }

  /** The root is a leaf or a branch of leaves. */
  ghost predicate Flat<T>(s: HashSet<T>) {
    s.root.Some? && s.root.value.Branch? ==>
      forall i | 0 <= i < |s.root.value.children| :: s.root.value.children[i].Leaf?
  }

  /** No item the set keeps shares `x`'s level-0 slot under another hash. */
  ghost predicate Apart<T(!new)>(s: HashSet<T>, x: T, hashOf: T -> Word) {
    forall y | Contains(s, y, hashOf) && hashOf(y) != hashOf(x) :: Band(hashOf(y), 0) != Band(hashOf(x), 0)
  }

  /** In a valid flat set, an item apart from the others is a direct
      case: an occupied level-0 slot of its hash holds a leaf of its hash. */
  lemma FlatDirect<T(!new)>(s: HashSet<T>, x: T, hashOf: T -> Word)
    requires Valid(s, hashOf) && Flat(s) && Apart(s, x, hashOf)
    ensures Direct(s, x, hashOf)
  {
    if s.root.Some? && s.root.value.Branch? {
      var bitmap, children := s.root.value.bitmap, s.root.value.children;
      var h := hashOf(x);
      var k := Band(h, 0);
      if Bit(bitmap, k) {
        var i := PopcountBelow(bitmap, k);
        IndexInRange(bitmap, k);
        var child := children[i];
        var g := child.hash;
        assert HamtRouted.Holds(child, g);
        assert HamtRouted.InSlot(bitmap, i, g, 0);
        HamtRouted.SlotIndexInjective(bitmap, k, Band(g, 0));
        UnitEntry(Hamt.Entry(child.key, child.value));
        assert HamtRouted.Stores(child, g, Hamt.Entry(child.key, ()));
        assert HamtRouted.Stores(s.root.value, g, Hamt.Entry(child.key, ()));
        assert Contains(s, child.key, hashOf);
      }
    }
  }

  /** Adding an item apart from the others to a valid flat set: the
      source's adding is the intended one, and the set stays flat. */
  lemma FlatSet<T(!new)>(s: HashSet<T>, x: T, hashOf: T -> Word)
    requires Valid(s, hashOf) && Flat(s) && Apart(s, x, hashOf)
    ensures Set(s, x, hashOf) == IntendedSet(s, x, hashOf)
    ensures Set(s, x, hashOf).Ok? && Flat(Set(s, x, hashOf).value)
  {
    FlatDirect(s, x, hashOf);
    SetAgrees(s, x, hashOf);
    IntendedSetContains(s, x, hashOf);
    if s.root.Some? && s.root.value.Leaf? {
      FlatSetLeaf(s, x, hashOf);
    } else if s.root.Some? {
      FlatSetBranch(s, x, hashOf);
    }
  }

  /** A leaf root of another hash splits at level 0 into two leaves. */
  lemma FlatSetLeaf<T(!new)>(s: HashSet<T>, x: T, hashOf: T -> Word)
    requires Valid(s, hashOf) && Apart(s, x, hashOf) && s.root.Some? && s.root.value.Leaf?
    ensures Set(s, x, hashOf).Ok? && Flat(Set(s, x, hashOf).value)
  {
    var n, h := s.root.value, hashOf(x);
    if n.hash != h {
      UnitEntry(Hamt.Entry(n.key, n.value));
      assert HamtRouted.Stores(n, n.hash, Hamt.Entry(n.key, n.value));
      assert Contains(s, n.key, hashOf);
      HamtLeaf.LeafSplit(n.hash, n.key, n.value, x, (), h, 0);
    }
  }

  /** A branch of leaves stays one when a leaf is added or overwritten. */
  lemma FlatSetBranch<T(!new)>(s: HashSet<T>, x: T, hashOf: T -> Word)
    requires Valid(s, hashOf) && Flat(s) && s.root.Some? && s.root.value.Branch? && Direct(s, x, hashOf)
    ensures Set(s, x, hashOf).Ok? && Flat(Set(s, x, hashOf).value)
  {
    var bitmap, children := s.root.value.bitmap, s.root.value.children;
    var h := hashOf(x);
    var k := Band(h, 0);
    var i := PopcountBelow(bitmap, k);
    if Bit(bitmap, k) {
      HamtBranch.BranchSetOccupied(bitmap, children, x, (), h, 0);
    } else {
      HamtBranch.BranchSetFree(bitmap, children, x, (), h, 0);
      var grown := children[..i] + [Hamt.Leaf(h, x, ())] + children[i..];
      forall j | 0 <= j < |grown|
        ensures grown[j].Leaf?
      {
        HamtBranch.InsertAt(children, i, Hamt.Leaf(h, x, ()), j);
      }
    }
  }

  /** When the items of different hashes sit in different slots at level
      0, the source's loop builds exactly the intended set. */
  lemma {:induction false} FromSliceAgrees<T(!new)>(items: seq<T>, hashOf: T -> Word)
    requires DistinctSlots(items, hashOf)
    ensures FromSlice(items, hashOf) == IntendedFromSlice(items, hashOf)
    ensures FromSlice(items, hashOf).Ok? && Flat(FromSlice(items, hashOf).value)
    decreases |items|
  {
    if |items| > 0 {
      var n := |items| - 1;
      var init, last := items[..n], items[n];
      assert items == init + [last];
      FromSliceAgrees(init, hashOf);
      IntendedFromSliceContains(init, hashOf);
      var s := FromSlice(init, hashOf).value;
      forall y | Contains(s, y, hashOf) && hashOf(y) != hashOf(last)
        ensures Band(hashOf(y), 0) != Band(hashOf(last), 0)
      {
        LastOfHashIn(init, y, hashOf);
      }
      FlatSet(s, last, hashOf);
    }
  }

  /** Adding items one by one never panics and leaves a well-formed root. */
  lemma {:induction false} FromSliceOk<T(!new)>(items: seq<T>, hashOf: T -> Word)
    ensures FromSlice(items, hashOf).Ok?
    ensures FromSlice(items, hashOf).value.root.Some? ==> Hamt.WellFormed(FromSlice(items, hashOf).value.root.value)
    decreases |items|
  {
    if |items| > 0 {
      var n := |items| - 1;
      FromSliceOk(items[..n], hashOf);
      SetOk(FromSlice(items[..n], hashOf).value, items[n], hashOf);
    }
  }

  /** When the items of different hashes sit in different slots at level
      0, the set built keeps, of each hash, the last item of that hash. */
  lemma FromSliceContains<T(!new)>(items: seq<T>, hashOf: T -> Word)
    requires DistinctSlots(items, hashOf)
    ensures FromSlice(items, hashOf).Ok? && Valid(FromSlice(items, hashOf).value, hashOf)
    ensures forall y :: Contains(FromSlice(items, hashOf).value, y, hashOf) <==> LastOfHash(items, y, hashOf)
  {
    FromSliceAgrees(items, hashOf);
    IntendedFromSliceContains(items, hashOf);
  }

  /** `NewFromSlice`: the items added one by one, in order, to the empty
      set, which is what `FromSlice` describes.  It never panics; when the
      items of different hashes sit in different slots at level 0, the
      result is valid and keeps, of each hash, the last item of that
      hash. */
  method NewFromSlice<T(!new, ==)>(items: seq<T>, hashOf: T -> Word) returns (s: HashSet<T>)
    ensures FromSlice(items, hashOf) == Ok(s)
    ensures s.root.Some? ==> Hamt.WellFormed(s.root.value)
    ensures DistinctSlots(items, hashOf) ==>
      Valid(s, hashOf) && forall y :: Contains(s, y, hashOf) <==> LastOfHash(items, y, hashOf)
  {
    s := Empty();
    for i := 0 to |items|
      invariant FromSlice(items[..i], hashOf) == Ok(s)
      invariant s.root.Some? ==> Hamt.WellFormed(s.root.value)
    {
      SetOk(s, items[i], hashOf);
      assert items[..i + 1][..i] == items[..i];
      s := Set(s, items[i], hashOf).value;
    }
    assert items[..|items|] == items;
    if DistinctSlots(items, hashOf) {
      FromSliceContains(items, hashOf);
    }
  }
}

=== FILE: string_factory.dfy ===
/** The string factory of factory/string_factory.go: bounds and a pool of
    characters normalised before and after the override, then, unless the
    override supplied a value, a string whose length and characters are
    drawn from the seed through the scrambler. */
module StringFactory {
  import opened Wrappers
  import opened GoInt
  import Scramble
  import Factories

  /** `Characters.Alphanumeric`. */
  const Alphanumeric: string := "abcdefghijklmnopqrstuvwxyzABCDEFGHIJKLMNOPQRSTUVWXYZ0123456789"

  /** `Characters.Alpha`. */
  const Alpha: string := "abcdefghijklmnopqrstuvwxyzABCDEFGHIJKLMNOPQRSTUVWXYZ"

  /** `Characters.Numeric`. */
  const Numeric: string := "0123456789"

  /** `Characters.Symbol`: the printable ASCII punctuation. */
  const Symbol: string := "!\"#$%&'()*+,-./:;<=>?@[\\]^_`{|}~"

  /** The default upper bound on the length when the factory sets none. */
  const DefaultMax: Int64 := 255

  /** `StringFactory`: the configured bounds and pool; zero values mean
      "use the default". */
  datatype Config = Config(min: Int64, max: Int64, characters: string)

  /** `StringProperties`. */
  datatype Properties = Properties(value: string, min: Int64, max: Int64, characters: string)

  /** The properties `Prepare` starts from, before the override runs:
      a positive minimum, a maximum of at least the minimum (255 when
      unset) and a non-empty pool. */
  function Defaults(f: Config): (r: Properties)
    ensures r.value == "" && 1 <= r.min <= r.max && |r.characters| > 0
  {
    var min := if f.min <= 0 then 1 else f.min;
    var max := if f.max <= 0 then DefaultMax else f.max;
    var max := if max < min then min else max;
    var characters := if |f.characters| == 0 then Alphanumeric else f.characters;
    Properties("", min, max, characters)
  }

  /** The second normalisation, after the override: the same repairs
      except that the maximum is not defaulted to 255. */
  function Normalize(p: Properties): (r: Properties)
    ensures 1 <= r.min <= r.max && |r.characters| > 0
    ensures r.value == p.value
    ensures p.min >= 1 ==> r.min == p.min
    ensures p.max >= r.min ==> r.max == p.max
    ensures |p.characters| > 0 ==> r.characters == p.characters
  {
    var p := if p.min <= 0 then p.(min := 1) else p;
    var p := if p.max < p.min then p.(max := p.min) else p;
    if |p.characters| == 0 then p.(characters := Alphanumeric) else p
  }

  /** The scrambled index drawn for position `index`: `Scramble` of the low
      32 bits of `seed + index`, the sum wrapping as `int64` does. */
  function Draw(seed: Int64, index: int): nat {
    Scramble.Scramble(Uint32Of(WrapInt64(seed + index)) as bv32) as nat
  }

  /** The character at position `index`. */
  function CharAt(characters: string, seed: Int64, index: int): char
    requires |characters| > 0
  {
    characters[Draw(seed, index) % |characters|]
  }

  /** The generated string of `length` characters. */
  function Generate(characters: string, seed: Int64, length: nat): (r: string)
    requires |characters| > 0
    ensures |r| == length
    ensures forall i | 0 <= i < length :: r[i] == CharAt(characters, seed, i)
  {
    seq(length, i requires 0 <= i < length => CharAt(characters, seed, i))
  }

  /** The length drawn for `seed`: the minimum plus Go's remainder of the
      seed by the width of the range, which is negative for a negative
      seed. */
  function LengthFor(p: Properties, seed: Int64): int
    requires 1 <= p.min <= p.max
  {
    p.min + Rem(seed, p.max - p.min + 1)
  }

  /** `Prepare`. */
  function Prepare(f: Config, overrides: Factories.Partial<Properties>, seed: Int64): (r: Outcome<Properties>)
    ensures r.Ok? ==> 1 <= r.value.min <= r.value.max && |r.value.characters| > 0
  {
    var edited :- Factories.Apply(overrides, Defaults(f));
    var p := Normalize(edited);
    if p.value != "" then Ok(p)
    else
      var length := LengthFor(p, seed);
      if length < 0 then Panic("makeslice: len out of range")
      else Ok(p.(value := Generate(p.characters, seed, length)))
  }

  /** `Instantiate`. */
  function Instantiate(p: Properties): string {
    p.value
  }

  /** `Retrieve`: only the value is kept. */
  function Retrieve(instance: string): Properties {
    Properties(instance, 0, 0, "")
  }

  /** The factory as its three hooks. */
  function AsFactory(f: Config): Factories.Factory<string, Properties> {
    Factories.Factory(Instantiate, (o: Factories.Partial<Properties>, s: Int64) => Prepare(f, o, s), Retrieve)
  }

  /** Whatever the configuration and the override do, the prepared
      minimum is at least 1, the maximum at least the minimum and the pool
      non-empty, and an override's bounds and pool survive when they are
      already valid; an override that panics makes `Prepare` panic. */
  lemma PrepareNormalizes(f: Config, overrides: Factories.Partial<Properties>, seed: Int64)
    ensures
      var edited := Factories.Apply(overrides, Defaults(f));
      var r := Prepare(f, overrides, seed);
      (edited.Panic? ==> r == Panic(edited.reason)) &&
      (r.Ok? ==>
        edited.Ok? &&
        1 <= r.value.min <= r.value.max && |r.value.characters| > 0 &&
        (edited.value.min >= 1 ==> r.value.min == edited.value.min) &&
        (edited.value.max >= edited.value.min >= 1 ==> r.value.max == edited.value.max) &&
        (|edited.value.characters| > 0 ==> r.value.characters == edited.value.characters))
  {
  }

  /** Without an override the bounds are the configured ones, a zero or
      negative minimum becoming 1 and an unset maximum 255, the maximum
      raised to the minimum if below it; an empty pool becomes
      `Alphanumeric`. */
  lemma PrepareDefaults(f: Config, seed: Int64)
    requires Prepare(f, None, seed).Ok?
    ensures
      var p := Prepare(f, None, seed).value;
      var min := if f.min <= 0 then 1 else f.min;
      var max := if f.max <= 0 then DefaultMax else f.max;
      p.min == min && p.max == (if max < min then min else max) &&
      p.characters == (if |f.characters| == 0 then Alphanumeric else f.characters)
  {
  }

  /** A non-empty value from the override is kept as it is, and nothing
      panics. */
  lemma PrepareKeepsValue(f: Config, overrides: Factories.Partial<Properties>, seed: Int64)
    requires Factories.Apply(overrides, Defaults(f)).Ok?
    requires Factories.Apply(overrides, Defaults(f)).value.value != ""
    ensures Prepare(f, overrides, seed).Ok?
    ensures Prepare(f, overrides, seed).value.value == Factories.Apply(overrides, Defaults(f)).value.value
  {
  }

  /** For a non-negative seed and no value from the override, the string
      has `min + seed mod (max - min + 1)` characters, so between the
      bounds, and character `i` is the pool's character at the scrambled
      draw for `seed + i`; in particular every character is from the
      pool. */
  lemma PrepareGenerates(f: Config, overrides: Factories.Partial<Properties>, seed: Int64)
    requires seed >= 0
    requires Factories.Apply(overrides, Defaults(f)).Ok?
    requires Factories.Apply(overrides, Defaults(f)).value.value == ""
    ensures Prepare(f, overrides, seed).Ok?
    ensures
      var p := Prepare(f, overrides, seed).value;
      |p.value| == p.min + seed % (p.max - p.min + 1) &&
      p.min <= |p.value| <= p.max &&
      (forall i | 0 <= i < |p.value| :: p.value[i] == p.characters[Draw(seed, i) % |p.characters|]) &&
      (forall i | 0 <= i < |p.value| :: p.value[i] in p.characters)
  {
    var p := Normalize(Factories.Apply(overrides, Defaults(f)).value);
    var width := p.max - p.min + 1;
    assert Rem(seed, width) == seed % width;
    var s := Prepare(f, overrides, seed).value.value;
    forall i | 0 <= i < |s|
      ensures s[i] in p.characters
    {
      var k := Draw(seed, i) % |p.characters|;
      assert s[i] == p.characters[k];
    }
  }

  /** Equal bounds fix the length. */
  lemma FixedLength(f: Config, overrides: Factories.Partial<Properties>, seed: Int64)
    requires seed >= 0
    requires Factories.Apply(overrides, Defaults(f)).Ok?
    requires Factories.Apply(overrides, Defaults(f)).value.value == ""
    requires Prepare(f, overrides, seed).Ok?
    requires Prepare(f, overrides, seed).value.min == Prepare(f, overrides, seed).value.max
    ensures |Prepare(f, overrides, seed).value.value| == Prepare(f, overrides, seed).value.min
  {
    PrepareGenerates(f, overrides, seed);
  }

  /** A negative seed is not rejected: Go's remainder is then negative,
      so the string can come out shorter than the minimum, and a length
      below zero makes the allocation panic. */
  lemma NegativeSeeds()
    ensures
      var r := Prepare(Config(5, 10, "ab"), None, -3);
      r.Ok? && |r.value.value| == 2
    ensures Prepare(Config(1, 3, "ab"), None, -5).Panic?
  {
    assert Rem(-3, 6) == -3;
    assert Rem(-5, 3) == -2;
  }

  /** `Instantiate` undoes `Retrieve`. */
  lemma RetrieveRoundTrip(s: string)
    ensures Instantiate(Retrieve(s)) == s
  {
  }

  /** The sizes of the built-in pools; `Alpha` and `Numeric` are the two
      parts of `Alphanumeric`. */
  lemma CharacterSets()
    ensures |Alphanumeric| == 62 && |Alpha| == 52 && |Numeric| == 10 && |Symbol| == 32
    ensures Alphanumeric == Alpha + Numeric
  {
  }

  /** Building through `create` with no override and a non-negative seed
      yields a string of the prepared length range, drawn from the
      prepared pool. */
  lemma CreateInBounds(f: Config, seed: Int64)
    requires seed >= 0
    ensures Factories.Create(AsFactory(f), None, seed).Ok?
    ensures
      var p := Prepare(f, None, seed).value;
      var s := Factories.Create(AsFactory(f), None, seed).value;
      p.min <= |s| <= p.max && forall i | 0 <= i < |s| :: s[i] in p.characters
  {
    PrepareGenerates(f, None, seed);
  }

  /** `Duplicate` through the string factory hands the override only the
      instance's value, with no bounds and no pool, and `Instantiate` takes
      the edited value as it is: nothing is normalised or generated, so an
      override that clears the value yields the empty string where
      `Create` would have drawn one. */
  lemma DuplicateEdits(f: Config, s: string, edit: Properties -> Outcome<Properties>)
    ensures edit(Properties(s, 0, 0, "")).Panic? ==> Factories.Duplicate(AsFactory(f), s, Some(edit)).Panic?
    ensures edit(Properties(s, 0, 0, "")).Ok? ==>
      Factories.Duplicate(AsFactory(f), s, Some(edit)) == Ok(edit(Properties(s, 0, 0, "")).value.value)
  {
  }

  /** An override that clears the value and asks for five characters:
      `Duplicate` returns the empty string, `Create` five characters. */
  lemma DuplicateDoesNotGenerate(f: Config, s: string)
    ensures
      var clear := (p: Properties) => Ok(p.(value := "", min := 5, max := 5));
      Factories.Duplicate(AsFactory(f), s, Some(clear)) == Ok("") &&
      Factories.Create(AsFactory(f), Some(clear), 0).Ok? &&
      |Factories.Create(AsFactory(f), Some(clear), 0).value| == 5
  {
    var clear := (p: Properties) => Ok(p.(value := "", min := 5, max := 5));
    assert Factories.Apply(Some(clear), Defaults(f)).value.value == "";
    PrepareGenerates(f, Some(clear), 0);
  }

  /** Without an override `Duplicate` gives back every string, and in
      particular every string `Create` built. */
  lemma DuplicateRoundTrip(f: Config, s: string, seed: Int64)
    ensures Factories.Duplicate(AsFactory(f), s, None) == Ok(s)
    ensures Factories.Create(AsFactory(f), None, seed).Ok? ==>
      Factories.Duplicate(AsFactory(f), Factories.Create(AsFactory(f), None, seed).value, None) == Factories.Create(AsFactory(f), None, seed)
  {
  }
}

=== FILE: wrappers.dfy ===
/** Failure-compatible result types shared by every module of the model.

    `Outcome` stands for a Go call that either returns normally or panics: the
    source panics on out-of-range trie depths, on index-out-of-range slice
    accesses, on `make` with a negative length, on failed modular inverses and
    on misused builder arguments, and each of those paths is an explicit
    `Panic` here rather than a precondition. */
module Wrappers {

  /** An optional value; `None` plays the role of Go's `nil` node or a
      "not found" lookup. */
  datatype Option<+T> = None | Some(value: T) {

    /** Returns the value, or `default` when there is none. */
    function GetOr(default: T): T {
      match this
      case Some(v) => v
      case None => default
    }
  }

  /** The result of a computation that may panic. */
  datatype Outcome<+T> = Ok(value: T) | Panic(reason: string) {

    predicate IsFailure() {
      Panic?
    }

    function PropagateFailure<U>(): Outcome<U>
      requires Panic?
    {
      Panic(reason)
    }

    function Extract(): T
      requires Ok?
    {
      value
    }
  }
}
